=== FILE: README.md ===
# A verified model of the calibration bookkeeping of QuartiCal

QuartiCal (with its predecessor CubiCal v2) calibrates radio-interferometric
measurement sets: it solves for antenna gains chunk by chunk on a dask
cluster. Around its floating-point solver kernels sits a set of small,
deterministic rules, and this project models those rules in Dafny and proves
what the code promises about them:

- **Chunk and solution-interval planning**:
  - how the rows of a measurement set are cut into time chunks, by a count
    of unique times or by a duration (`Common`, `MsHandler`);
  - the per-term solution-interval counts, gain shapes and data-to-interval
    maps (`Calibrate`);
  - the frequency maps and parameter names of the rotation-measure and
    delay terms (`ParameterizedGain`, `RotationMeasure`, `Delay`);
  - the per-chunk term specs (`Constructor`).
- **Measurement-set checks**: the correlation count, the feed type, the
  weight column and the correlation mode (`MsHandler`).
- **Flags**: the aggregate (row, channel) flag, the flags written back, the
  MAD merge and the initial gain flags (`Flagging`).
- **The delay solver's control and bookkeeping**: the iteration loop with
  early exit, the frequency scaling of the delays and its undo, the halved
  update, the gain evaluation with identity gains for flagged cells, and
  the zeroed accumulation of the normal-equation blocks jhj and jhr, which
  stays symmetric (`DelayKernel`).
- **Equation counting**: per antenna, per (time, channel) slot and per
  solution interval, with division that gives zero for a zero divisor
  (`Statistics`).
- **Gap filling** of gain parameters: `linterp` and `_interpolate_missing`
  (`Interpolants`).
- **The scheduler plugins' graph logic**: transitive dependencies, the
  `graph_metrics` worklist, node depths, how
  `ScatterSolvers` and `AutoRestrictor` group tasks, and the greedy
  least-loaded assignment of the groups to workers (`Scheduling`, `Placement`, `Restrictor`).
- **The model-recipe parser** `preprocess_opts` (`Preprocess`).

## How the code is modelled

Each source file is one module. Code built from numpy expressions and
comprehensions becomes functions over sequences, with lemmas for its
properties. Code that works step by step becomes methods with loops and
invariants:
- the delay kernel over `array4` buffers;
- the interpolation over an `array2` copy;
- the `graph_metrics` worklist and the scheduler loops over maps and sets;
- the recipe parser over the fields of an options class.

Each such method is proved against a reference function whose properties
are proved separately.

Other conventions:
- Python's exceptions become an `Err` result.
- A non-finite value is a missing one (`None`).
- Dictionary and set iteration orders are left open: the scheduler results
  hold for every order the loops may take.
- Acyclicity of a task graph is witnessed by a ghost rank map that every
  edge decreases.

Updates and errors follow the code:
- The delay kernel halves every update (`DelayKernel.Halve`,
  quartical/gains/delay/kernel.py:450); it does not clamp the step size.
- No divergence states, fallback gains or residual-norm tie-breaks occur
  in these files, so none is modelled.
- The errors the model raises are the ones the code raises: a bad
  correlation count, feed type or correlation mode, an unsupported
  correlation mode in the kernel.
- The model also raises the errors Python and numpy raise on degenerate
  inputs: `min`/`max` of an empty sequence in the scheduler, a solver
  loop that never runs, integer chunking with a time chunk of 0 and no
  unique times (a division by 0), interval chunking of an empty TIME
  column (an index out of bounds), and a statistics interval of 0
  (`np.arange` with a step of 0).

## Model

| member | source | states |
|---|---|---|
| Common.RunLengths | quartical/data_handling/ms_handler.py:396 | `np.unique(..., return_counts=True)` on a sorted column: one positive count per run of equal values, the counts adding up to the column length |
| Common.RunsIncrease | quartical/data_handling/ms_handler.py:376 | on a non-decreasing sequence each run's value is strictly below the next run's, so the runs are exactly the distinct values in order |
| Common.InsertSorted | quartical/data_handling/ms_handler.py:376 | inserting into a non-decreasing sequence keeps it non-decreasing and adds exactly the one element |
| Common.SortInts | quartical/data_handling/ms_handler.py:376 | the sort inside `np.unique`: a non-decreasing permutation of the input |
| Common.SortIntsSorted | quartical/data_handling/ms_handler.py:376 | sorting leaves a non-decreasing sequence unchanged |
| Common.RunLengthsConstant | quartical/data_handling/ms_handler.py:376 | a sequence of one repeated value is a single run |
| Common.UniqueCounts | quartical/data_handling/ms_handler.py:376 | `np.unique(..., return_counts=True)` on any sequence: positive counts adding up to its length; on a non-decreasing sequence its run lengths; on a sequence of one repeated value the single count of its length |
| Common.InsertSortedR | quartical/data_handling/ms_handler.py:369-370 | inserting a real into a non-decreasing sequence keeps it non-decreasing and adds exactly the one element |
| Common.SortReals | quartical/data_handling/ms_handler.py:369-370 | the sort inside `np.unique` on the TIME column: a non-decreasing permutation of the input |
| Common.SortRealsSorted | quartical/data_handling/ms_handler.py:369-370 | sorting leaves a non-decreasing sequence of reals unchanged |
| Common.FirstIndex | quartical/data_handling/ms_handler.py:369-370 | the first position holding the value, as `return_index` reports it |
| Common.RunStartFirst | quartical/data_handling/ms_handler.py:369-370 | in a non-decreasing sequence everything before a run is strictly smaller, so each run starts at the first occurrence of its value |
| Common.Arange | quartical/data_handling/ms_handler.py:406 | `np.arange(0, n, k)`: ceil(n / k) entries, entry i is i * k and below n |
| Common.ReduceAtChunks | quartical/data_handling/ms_handler.py:378-381 | `np.add.reduceat` at the prefix sums of positive chunk sizes gives, for each chunk, the sum of its elements, and the chunk sums add up to the total |
| Common.SlicesTile | quartical/data_handling/ms_handler.py:408 | the pieces `np.add.reduceat` adds tile the sequence from the first start on: nothing skipped, nothing counted twice |
| Common.ReduceAtTotal | quartical/data_handling/ms_handler.py:408 | starting at offset 0, `np.add.reduceat` preserves the total |
| Common.NpFloorDiv | cubicalv2/calibration/calibrate.py:194-197 | numpy integer `floor_divide`: the floor quotient for a positive divisor and 0 for a zero divisor |
| Common.CeilDiv | cubicalv2/calibration/calibrate.py:155 | `int(np.ceil(n / k))`: the least r with n <= r * k |
| Common.FlatIndex | quartical/gains/delay/kernel.py:246-249 | cell (i, j) of a row-major grid of n columns sits at flat index i * n + j, and that index divides back into (i, j) |
| MsHandler.UniqueTimeCounts | quartical/data_handling/ms_handler.py:396 | `ucounts`: positive row counts, one per distinct time in increasing order of the times, adding up to the row count; on a sorted column the run lengths of the column |
| MsHandler.UniqueTimes | quartical/data_handling/ms_handler.py:369-370 | `utimes`: one time of the column per count; on a sorted column the value at the start of each run |
| MsHandler.UniqueIndices | quartical/data_handling/ms_handler.py:369-370 | `uinds`: for each distinct time the first row holding it; on a sorted column the starts of its runs |
| MsHandler.IntegerUtimeChunks | quartical/data_handling/ms_handler.py:400-404 | `n // tc` chunks of exactly tc, then the remainder only when it is non-zero: ceil(n / tc) chunks, each of size 1..tc |
| MsHandler.IntegerUtimeChunksSum | quartical/data_handling/ms_handler.py:400-404 | the unique-time chunks add up to all unique times |
| MsHandler.IntegerUtimeChunksStarts | quartical/data_handling/ms_handler.py:400-406 | chunk k starts at unique time k * tc, which is what `np.arange(0, n_utime, time_chunk)` lists |
| MsHandler.IntegerChunkRows | quartical/data_handling/ms_handler.py:406-408 | `np.add.reduceat` at `np.arange(0, n_utime, tc)` gives row chunk k as the row count of integer chunk k, and the row chunks add up to all rows |
| MsHandler.IntegerChunking | quartical/data_handling/ms_handler.py:394-410 | an error iff the TIME column is empty and the time chunk is 0, which leaves 0 as the divisor; an empty column with any other time chunk gives no chunks; a time chunk of 0 gives the single chunk of all unique times; there is one row chunk per time chunk, row chunk k is the row count of the unique times of chunk k, and the row chunks add up to the row count |
| MsHandler.UnsortedSorted | quartical/data_handling/ms_handler.py:396 | the sort inside `np.unique` turns the column [1, 2, 1] into [1, 1, 2] |
| MsHandler.UnsortedCounts | quartical/data_handling/ms_handler.py:396 | the column [1, 2, 1] has two distinct times, counted 2 and 1 |
| MsHandler.OneChunkRows | quartical/data_handling/ms_handler.py:406-408 | one chunk over the counts [2, 1] starts at 0 and holds 3 rows |
| MsHandler.IntegerChunkingUnsorted | quartical/data_handling/ms_handler.py:394-410 | unique times are counted by value, not by run: the column [1, 2, 1] with time chunk 0 gives one chunk of 2 unique times and 3 rows |
| MsHandler.ChunkMapSorted | quartical/data_handling/ms_handler.py:371-374 | with non-negative intervals, a positive duration and a total interval below 2^31 durations the chunk map never decreases |
| MsHandler.IntervalChunking | quartical/data_handling/ms_handler.py:367-383 | succeeds iff the TIME column is non-empty; the chunk sizes are the counts `np.unique` gives on the chunk map, one per distinct chunk index in increasing order of the index; a duration of 0 gives one chunk of all unique times; row chunk k sums the row counts of the next chunk-size-k unique times; the sizes add up to the unique times and the row chunks to the rows |
| MsHandler.IntervalChunksOrdered | quartical/data_handling/ms_handler.py:373-379 | under the conditions of `ChunkMapSorted`, consecutive interval chunks are contiguous ranges of unique times whose chunk indices strictly increase |
| MsHandler.IntervalChunkConstant | quartical/data_handling/ms_handler.py:373-376 | under the conditions of `ChunkMapSorted`, every unique time of interval chunk k carries that chunk's index |
| MsHandler.ComputeChunking | quartical/data_handling/ms_handler.py:365-419 | a float option selects interval chunking and an integer option integer chunking; an error iff the TIME column is empty and the option is a duration or the integer 0; otherwise one row chunk per time chunk, the rows all counted and the unique times all counted |
| MsHandler.CheckCorrelationCount | quartical/data_handling/ms_handler.py:54-58 | accepted iff the count is 1, 2 or 4 |
| MsHandler.DetermineFeedType | quartical/data_handling/ms_handler.py:67-75 | linear iff every feed is in "XxYy"; circular iff not linear and every feed is in "LlRr"; an error iff some feed fails each test |
| MsHandler.SingleLetterFeeds | quartical/data_handling/ms_handler.py:70-73 | a one-letter feed is linear exactly for X, x, Y, y and circular exactly for L, l, R, r |
| MsHandler.UseUnityWeights | quartical/data_handling/ms_handler.py:94-103 | unity weights iff the weight column is named "unity" in any case or is not a column of the data set |
| MsHandler.SelectCorrelations | quartical/data_handling/ms_handler.py:191-196 | "diag" on four correlations keeps 0 and 3; an error iff the mode is "full" with fewer or more than four; otherwise all correlations are kept |
| MsHandler.ZeroFlaggedWeights | quartical/data_handling/ms_handler.py:313-314 | every weight of a flagged (row, chan) cell becomes 0 and every other weight is kept, shape unchanged |
| MsHandler.UniqueIntervals | quartical/data_handling/ms_handler.py:369-371 | `interval_col[uinds]`: one interval per distinct time, taken from a row of the column; on a sorted TIME column the interval at the start of each run |
| MsHandler.CumulativeInterval | quartical/data_handling/ms_handler.py:371-372 | the elapsed interval since the first unique time, one entry per unique time |
| MsHandler.CastInt32 | quartical/data_handling/ms_handler.py:374 | `astype(np.int32)` as the x86 conversion does it: a value in the int32 range is kept (and only then), anything else becomes -2^31 |
| MsHandler.IntervalChunkMap | quartical/data_handling/ms_handler.py:373-374 | one chunk index per unique time, all of them equal for a duration of 0; `ChunkMapSorted` states when the indices never decrease |
| Calibrate.IntervalsPerChunk | cubicalv2/calibration/calibrate.py:152-168 | one count per chunk: ceil(n / interval) for a non-zero interval, exactly 1 for interval 0 |
| Calibrate.IntervalsPerChunkPositive | cubicalv2/calibration/calibrate.py:154-158 | a non-empty chunk has at least one interval and, for a non-zero interval, no more intervals than elements |
| Calibrate.TermGain | cubicalv2/calibration/calibrate.py:160-189 | the gain's time and frequency sizes are the sums of the per-chunk counts (the chunk count when the interval is 0); the direction size is n_dir for a direction-dependent term and 1 otherwise; antenna, direction and correlation each form one chunk |
| Calibrate.TimeMap | cubicalv2/calibration/calibrate.py:194-197 | one entry per unique-time index: the index floor-divided by `t_int or n_row` |
| Calibrate.TimeMapInChunk | cubicalv2/calibration/calibrate.py:194-197 | an index inside its chunk maps below that chunk's interval count, and to 0 when the interval is 0 |
| Calibrate.FreqMap | cubicalv2/calibration/calibrate.py:203-207 | one entry per channel of the chunk: i // (f_int or n_chan) |
| Calibrate.FreqMapBound | cubicalv2/calibration/calibrate.py:203-207 | every channel maps below the chunk's frequency-interval count |
| Calibrate.FreqMapOnto | cubicalv2/calibration/calibrate.py:203-207 | every frequency interval of a non-empty chunk receives a channel |
| Calibrate.FreqMapMonotone | cubicalv2/calibration/calibrate.py:203-207 | the channel-to-interval map never decreases |
| Calibrate.DirMap | cubicalv2/calibration/calibrate.py:210-211 | the identity over directions for a direction-dependent term, all zeros otherwise, and inside the gain's direction axis either way |
| ParameterizedGain.MakeFreqMap | quartical/gains/rotation_measure/__init__.py:30-33 | channel i maps to gain channel i, one entry per channel (the same rule as quartical/gains/delay/__init__.py:116-119) |
| ParameterizedGain.MakeFreqMapIgnoresWidths | quartical/gains/delay/__init__.py:116-119 | the map depends on the number of channels only, never on the widths or the interval |
| RotationMeasure.MakeParamNames | quartical/gains/rotation_measure/__init__.py:35-38 | a single parameter, "rotation_measure", whatever the correlations |
| RotationMeasure.MakeFMaps | quartical/gains/rotation_measure/__init__.py:40-64 | two rows of one entry per channel: row 0 is the identity and row 1 the parameter map (i // f_int for an integer interval, the bandwidth bins filled by the accumulator loop for a float one) |
| RotationMeasure.BandwidthBinsSteps | quartical/gains/rotation_measure/__init__.py:50-58 | along the channels the parameter bin never decreases and rises by at most one per channel |
| RotationMeasure.BandwidthBinsMonotone | quartical/gains/rotation_measure/__init__.py:50-58 | no earlier channel has a later bin than a later channel |
| RotationMeasure.LastBinCountsIntervals | quartical/gains/rotation_measure/__init__.py:50-58 | with positive widths the last bin plus one is the interval count of the calibration tests' accumulation rule (tests/calibration/test_calibrate.py:116-127) |
| RotationMeasure.BandwidthIntervalCount | quartical/gains/rotation_measure/__init__.py:50-58 | the bandwidth map starts at 0, its last entry is its maximum, and that maximum plus one is the tests' expected interval count |
| RotationMeasure.BandwidthBins | quartical/gains/rotation_measure/__init__.py:50-58 | one bin per channel, the first channel taking the current bin |
| RotationMeasure.ParamFreqMap | quartical/gains/rotation_measure/__init__.py:50-60 | one parameter bin per channel, by bandwidth accumulation for a float interval and by floor division for an integer one |
| Delay.ParamCorrelations | quartical/gains/delay/__init__.py:125-127 | exactly the correlations among XX, YY, RR and LL; `ParamCorrelationsAppend` and `ParamCorrelationsSingle` fix their order as the input order |
| Delay.ParamCorrelationsAppend | quartical/gains/delay/__init__.py:127 | filtering a concatenation concatenates the filtered parts, so the kept correlations keep their input order |
| Delay.ParamCorrelationsSingle | quartical/gains/delay/__init__.py:127 | one correlation is kept exactly when it is XX, YY, RR or LL |
| Delay.NamesFor | quartical/gains/delay/__init__.py:129-131 | each correlation c gives "phase_offset_c" at an even position immediately followed by "delay_c" |
| Delay.MakeParamNames | quartical/gains/delay/__init__.py:121-131 | twice as many names as parameterisable correlations; position 2k is "phase_offset_" and 2k + 1 "delay_" of the k-th such correlation, so odd positions are the delays the kernel scales |
| Delay.ToInterpable | quartical/gains/delay/__init__.py:50-52 | on the converted parameters: a parameter is missing iff its cell's parameter flag is set, and an unflagged cell keeps its converted values |
| Constructor.Product | quartical/calibration/constructor.py:117-118 | `itertools.product`: one pair per combination, components drawn from the two lists |
| Constructor.ProductAt | quartical/calibration/constructor.py:117-118 | pair (xs[i], ys[j]) is at position i * len(ys) + j: time-major order |
| Constructor.TermSpecs | quartical/calibration/constructor.py:107-123 | one spec per (time chunk, freq chunk) pair, each with the term's NAME and TYPE and the first antenna, direction and correlation chunk |
| Constructor.TermSpecAt | quartical/calibration/constructor.py:113-121 | the spec of time chunk i and freq chunk j is (name, type, (tc_i, fc_j, ac, dc, cc)) |
| Constructor.MinLength | quartical/calibration/constructor.py:125 | the shortest of the lists' lengths, attained by one of them, 0 for no lists |
| Constructor.Zip | quartical/calibration/constructor.py:125 | `zip(*lists)`: as many tuples as the shortest list, tuple k holding the k-th entry of every list in order |
| Constructor.ExpandSpecs | quartical/calibration/constructor.py:102-125 | a transpose: element k is the tuple of the k-th spec of every term, in term order, and there are as many elements as the shortest term's spec list |
| Constructor.ExpandSpecsCommonChunking | quartical/calibration/constructor.py:117-125 | when every term has nt time chunks and nf freq chunks there are nt * nf tuples |
| DelayKernel.ParseCorrMode | quartical/gains/delay/kernel.py:477-493 | the kernels exist for 1, 2 and 4 correlations and any other count is rejected |
| DelayKernel.ParamCount | quartical/gains/delay/kernel.py:589-627 | two parameters (offset, delay) in one-correlation mode, four otherwise |
| DelayKernel.SplitInterval | quartical/gains/delay/kernel.py:409-412 | `ti = i // n_fint; fi = i - ti * n_fint`: ti * n_fint + fi == i with fi < n_fint |
| DelayKernel.SplitIntervalBijective | quartical/gains/delay/kernel.py:223-249 | over n_tint * n_fint flat indices the split visits every (time interval, freq interval) pair, each from exactly one index |
| DelayKernel.SplitNext | quartical/gains/delay/kernel.py:246-249 | the next flat index advances the frequency interval and wraps into the next time interval after the last one |
| DelayKernel.IterationsRun | quartical/gains/delay/kernel.py:105-144 | the loop runs until the first iteration whose converged percentage exceeds stop_frac, and at most max_iter iterations |
| DelayKernel.IterationsRunStops | quartical/gains/delay/kernel.py:143-144 | an iteration k that converges (or is the last) with none converging before it ends the loop after k + 1 iterations |
| DelayKernel.SolverIterations | quartical/gains/delay/kernel.py:105-166 | fails iff max_iter is 0 (the loop index is never bound); otherwise conv_iters = loop_idx + 1 lies in 1..max_iter and is the stopping count, with the last iteration's converged percentage |
| DelayKernel.MinFreq | quartical/gains/delay/kernel.py:101 | `np.min`: a channel frequency no larger than any other |
| DelayKernel.ScaledFreqs | quartical/gains/delay/kernel.py:100-102 | a new sequence of the same length; each scaled frequency is at least 1 and times the minimum gives back the input frequency |
| DelayKernel.ScaledFreqsReachOne | quartical/gains/delay/kernel.py:101-102 | the lowest channel is scaled to exactly 1 |
| DelayKernel.ScaleDelays | quartical/gains/delay/kernel.py:103 | `params[..., 1::2] *= min_freq`: odd positions (delays) multiplied, even positions (phase offsets) kept |
| DelayKernel.UnscaleDelays | quartical/gains/delay/kernel.py:164 | `params[..., 1::2] /= min_freq`: odd positions divided, even positions kept |
| DelayKernel.ScaleRoundTrip | quartical/gains/delay/kernel.py:103-164 | with no update in between, unscaling undoes the scaling exactly |
| DelayKernel.Halve | quartical/gains/delay/kernel.py:450 | `update /= 2`: every entry halved |
| DelayKernel.AddVec | quartical/gains/delay/kernel.py:451 | `params += update`: entrywise sum |
| DelayKernel.AddCells | quartical/gains/delay/kernel.py:451 | every parameter cell becomes its old value plus the update of that cell |
| DelayKernel.Identity | quartical/gains/delay/kernel.py:467-468 | the identity gain of each mode, one entry per gain correlation |
| DelayKernel.ParamToGain | quartical/gains/delay/kernel.py:477-491 | mode Four writes positions 0 and 3, mode Two 0 and 1, mode One 0, each as exp(i (nu * delay + offset)) of its correlation's parameters; every other position keeps its value |
| DelayKernel.ScaledPhase | quartical/gains/delay/kernel.py:477-482 | dividing the frequency by m and multiplying the delay by m leaves the phase unchanged |
| DelayKernel.ScalingPreservesGain | quartical/gains/delay/kernel.py:477-491 | scaled parameters at scaled frequencies give the same gain as the originals, which is why the solver may work in scaled units |
| DelayKernel.GainCell | quartical/gains/delay/kernel.py:462-470 | a cell with gain flag 1 becomes the identity, any other the gain of its parameters |
| DelayKernel.EvaluateDirs | quartical/gains/delay/kernel.py:460-470 | every direction of one (t, f, a) gets its new gain from params[t, f_map[f], a, d_map[d]]; all other cells unchanged |
| DelayKernel.EvaluateGains | quartical/gains/delay/kernel.py:453-470 | every gain cell (t, f, a, d) becomes the identity where flagged and otherwise the gain of params[t, f_map[f], a, d_map[d]] at the scaled frequency of f |
| DelayKernel.FinalizeUpdate | quartical/gains/delay/kernel.py:429-474 | the update is halved, the halved update added to the parameters, and every gain cell re-evaluated from the new parameters |
| DelayKernel.ZeroJhr | quartical/gains/delay/kernel.py:221 | `jhr[:] = 0`: one zero per parameter |
| DelayKernel.ZeroJhj | quartical/gains/delay/kernel.py:220 | `jhj[:] = 0`: a square zero matrix, one row and column per parameter |
| DelayKernel.ElemJhr | quartical/gains/delay/kernel.py:503-640 | each phase-offset entry receives its increment and the delay entry after it nu times that same increment |
| DelayKernel.ElemJhj | quartical/gains/delay/kernel.py:503-640 | the jhj entries after one element, in the source's assignment order per mode |
| DelayKernel.ElemJhjSymmetric | quartical/gains/delay/kernel.py:551-640 | one element keeps a symmetric jhj symmetric in every mode; in mode Four the copies make it symmetric whatever it held |
| DelayKernel.AccAppend | quartical/gains/delay/kernel.py:275-378 | accumulating two runs of elements is accumulating their concatenation |
| DelayKernel.AccShort | quartical/gains/delay/kernel.py:357-378 | accumulating one or two elements is applying them in turn |
| DelayKernel.ClosedJhr | quartical/gains/delay/kernel.py:503-640 | the closed form of jhr from zero: each offset entry the sum of its increments, each delay entry the nu-weighted sum of the same increments |
| DelayKernel.ClosedJhj | quartical/gains/delay/kernel.py:503-640 | the closed form of jhj from zero: sums of tmp, nu * tmp and nu^2 * tmp per block; it is symmetric |
| DelayKernel.AccClosedForm | quartical/gains/delay/kernel.py:220-640 | starting from zero, the accumulated jhr and jhj are the closed forms; so jhj stays symmetric and every delay jhr entry is nu times its phase-offset partner's increments |
| DelayKernel.ClosedJhrStep | quartical/gains/delay/kernel.py:503-640 | one more element moves the closed form of jhr as one element call does |
| DelayKernel.ClosedJhjStep | quartical/gains/delay/kernel.py:503-640 | one more element moves the closed form of jhj as one element call does |
| DelayKernel.DoneStep | quartical/gains/delay/kernel.py:246-249 | moving to flat index i + 1 completes exactly the interval of index i |
| DelayKernel.DoneAll | quartical/gains/delay/kernel.py:246 | after all n_tint * n_fint indices every interval is complete |
| DelayKernel.PointContribs | quartical/gains/delay/kernel.py:282-378 | a flagged point contributes nothing; otherwise its pq element goes to the cell of its first antenna and its qp element to that of its second |
| DelayKernel.AddElem | quartical/gains/delay/kernel.py:357-378 | one element call changes exactly one (t, f, a, d) cell, by one element's jhj and jhr update |
| DelayKernel.AddPoint | quartical/gains/delay/kernel.py:348-378 | for one gain direction, the point's pq element is added to its first antenna's cell and then its qp element to its second's; every other cell unchanged |
| DelayKernel.AccumulateDir | quartical/gains/delay/kernel.py:348-378 | after direction dd of point k every cell holds the accumulation of the elements received so far |
| DelayKernel.AccumulatePoint | quartical/gains/delay/kernel.py:280-378 | a flagged point is skipped, an unflagged one is added for every gain direction; afterwards point k counts as received |
| DelayKernel.AccumulateInterval | quartical/gains/delay/kernel.py:251-378 | all points of the interval of flat index i are added in order; afterwards the interval counts as complete |
| DelayKernel.ComputeJhjJhr | quartical/gains/delay/kernel.py:220-378 | jhj and jhr are zeroed, then every cell (t, f, a, d) ends up holding the accumulation from zero of exactly the unflagged elements of interval (t, f) for antenna a and direction d, in data order |
| DelayKernel.DivByMin | quartical/gains/delay/kernel.py:101-102 | a frequency divided by the minimum frequency: the quotient times the minimum gives the frequency back, and it is at least 1 |
| DelayKernel.MinFreqPositive | quartical/gains/delay/kernel.py:101 | the minimum of positive frequencies is positive, so the scaling divides by a non-zero value |
| DelayKernel.AccJhr | quartical/gains/delay/kernel.py:275-378 | accumulating a sequence of elements, in order, keeps the jhr vector's shape for the correlation mode |
| DelayKernel.AccJhj | quartical/gains/delay/kernel.py:275-378 | accumulating a sequence of elements, in order, keeps the jhj matrix's shape for the correlation mode |
| DelayKernel.SplitUnique | quartical/gains/delay/kernel.py:409-412 | quotient and remainder are unique, so distinct flat indices give distinct (time interval, freq interval) pairs |
| Flagging.SetMasked | quartical/flagging/flagging.py:102-106 | `flags[mask] = True`: every correlation of a masked cell becomes flagged and every other cell keeps its flags |
| Flagging.Combined | quartical/flagging/flagging.py:89 | a correlation of the combined flags is set iff it was set in the flag column or its row is flagged |
| Flagging.CombineFlags | quartical/flagging/flagging.py:89 | a new (row, chan) array whose cells are the combined flags |
| Flagging.AnyCorrelation | quartical/flagging/flagging.py:109 | a new 0/1 array: 1 iff some correlation of the cell is flagged |
| Flagging.CellOutcome | quartical/flagging/flagging.py:89-109 | through the two masked assignments and the reduction a cell ends up flagged iff one of its correlations or its row was flagged, or it was masked |
| Flagging.InitialiseFlags | quartical/flagging/flagging.py:85-111 | the result drops the correlation axis and is 1 exactly where a correlation or the row is flagged, the first or last correlation's data is exactly zero, or the first or last weight is zero; so no input flag is cleared |
| Flagging.FinaliseFlags | quartical/flagging/flagging.py:31-43 | FLAG is each cell's flag with -1 turned into 0, as a boolean copied to every correlation; FLAG_ROW is true iff every FLAG entry of the row is true |
| Flagging.FlagRowOfCells | quartical/flagging/flagging.py:32-43 | with at least one correlation, a row is flagged iff every cell of it is flagged, temporary flags counting as unflagged |
| Flagging.MadMerge | quartical/flagging/flagging.py:209 | a point with a non-zero MAD flag becomes 1 and every other point keeps its flag |
| Flagging.MadMergeOnlyAdds | quartical/flagging/flagging.py:209 | MAD flagging only adds flags: a flag of 1 stays 1, a changed point is one the MAD flags selected and it becomes 1, and merging again changes nothing |
| Flagging.InitialiseGainFlags | quartical/flagging/flagging.py:132-137 | flags of the gain's shape, all zero |
| Statistics.AddAt | cubicalv2/statistics/statistics.py:329-341 | `np.add.at(acc, keys, vals)`: each entry grows by the sum of the values whose key names it, repeated keys accumulating |
| Statistics.SumEqsPerAnt | cubicalv2/statistics/statistics.py:325-332 | entry a is 2 × (the unflagged counts of the rows with ant1 = a plus those of the rows with ant2 = a) |
| Statistics.SumWhereTotal | cubicalv2/statistics/statistics.py:329-330 | with every key below n, the per-key sums over all n keys add up to the sum of all values |
| Statistics.EqsPerAntTotal | cubicalv2/statistics/statistics.py:329-332 | summed over antennas, the equation counts are 4 × the total unflagged count |
| Statistics.SumEqsPerTf | cubicalv2/statistics/statistics.py:335-343 | shape (n_time_ind, n_chan); entry (t, c) is 4 × the sum, over rows with time_ind = t, of the row's unflagged correlations at channel c |
| Statistics.EqsPerTfChannelTotal | cubicalv2/statistics/statistics.py:341-343 | summed over times, the count of channel c is 4 × the unflagged correlations of all rows at c |
| Statistics.SilentDivide | cubicalv2/statistics/statistics.py:346-352 | 0 wherever the divisor is 0 and the quotient elsewhere |
| Statistics.ArangeSlice | cubicalv2/statistics/statistics.py:364-368 | at the offsets `np.arange(0, n, k)` the reduction blocks are runs of k consecutive elements, the last possibly shorter |
| Statistics.TimePerInt | cubicalv2/statistics/statistics.py:367-368 | an error iff t_int is 0 (`np.arange` with a step of 0); otherwise one entry per block of t_int times |
| Statistics.TimePerIntEntry | cubicalv2/statistics/statistics.py:367-368 | time interval i counts the times from i * t_int up to the next multiple of t_int or n_time |
| Statistics.TimePerIntCounts | cubicalv2/statistics/statistics.py:367-368 | every entry is t_int except possibly the last, which holds the rest (1..t_int), and the entries add up to n_time |
| Statistics.ChanPerInt | cubicalv2/statistics/statistics.py:364-366 | an error iff f_int is 0 (`np.arange` with a step of 0); otherwise one entry per block of f_int channels |
| Statistics.ChanPerIntBlock | cubicalv2/statistics/statistics.py:364-366 | interval i sums channels i * f_int up to the next multiple of f_int or the last channel |
| Statistics.Broadcast | cubicalv2/statistics/statistics.py:370-371 | the value repeated over the antenna, direction and correlation axes |
| Statistics.PerChanToPerInt | cubicalv2/statistics/statistics.py:355-373 | an error iff t_int or f_int is 0; otherwise shape (ceil(n_time / t_int), ceil(n_chan / f_int), ...), and cell (ti, fi) is time_per_int[ti] × chan_per_int[fi] repeated over the trailing axes |
| Statistics.EqsPerAnt | cubicalv2/statistics/statistics.py:325-332 | one count per antenna; the reference definition the accumulation of `SumEqsPerAnt` is proved against |
| Statistics.EqsPerTf | cubicalv2/statistics/statistics.py:335-343 | shape (n_time_ind, n_chan); the reference definition the accumulation of `SumEqsPerTf` is proved against |
| Interpolants.InterpSuffix | quartical/interpolation/interpolants.py:163-180 | once a sample at or below the query is reached, the samples before it do not change the answer (why the forward-only cursor of `linterp` is sound) |
| Interpolants.InterpAtSample | quartical/interpolation/interpolants.py:166-168 | a query equal to a sample gets that sample's value |
| Interpolants.InterpAbove | quartical/interpolation/interpolants.py:172-174 | a query above the last sample is extended with the last value |
| Interpolants.InterpBetween | quartical/interpolation/interpolants.py:175-178 | a query strictly between two neighbouring samples gets the straight line through them |
| Interpolants.LineBySlope | quartical/interpolation/interpolants.py:176-177 | the precomputed-slope form `slope * (q - x0) + y0` is the straight line through both samples |
| Interpolants.LineBetween | quartical/interpolation/interpolants.py:175-178 | an interpolated value lies between the two neighbouring sample values |
| Interpolants.Linterp | quartical/interpolation/interpolants.py:153-182 | on strictly increasing samples and ascending queries, every query is answered, each with the reference `Interp` (first value below, last value above, sample value at a sample, the line in between) |
| Interpolants.GoodIndices | quartical/interpolation/interpolants.py:125 | `np.where(np.isfinite(.))`: exactly the positions holding a finite value, strictly increasing |
| Interpolants.Finite | quartical/interpolation/interpolants.py:124-131 | the selected coordinates and values have equal length, are non-empty exactly when the series has a finite value, and stay strictly increasing |
| Interpolants.FiniteHas | quartical/interpolation/interpolants.py:129-131 | every finite value of a series is among the selected points, at its own coordinate |
| Interpolants.FillSeriesKeeps | quartical/interpolation/interpolants.py:124-131 | a series with any finite value comes out with no missing value and with every finite value unchanged |
| Interpolants.TimePass | quartical/interpolation/interpolants.py:120-131 | the time pass keeps the grid's shape and fills every frequency's time series independently |
| Interpolants.FreqPass | quartical/interpolation/interpolants.py:133-148 | the frequency pass keeps the grid's shape and fills, or zeroes when nothing is finite, every time's frequency series |
| Interpolants.InterpolateMissingFills | quartical/interpolation/interpolants.py:112-150 | after both passes no value is missing, and every value finite in the input is unchanged |
| Interpolants.FillSeriesBy | quartical/interpolation/interpolants.py:129-131 | `linterp` at every coordinate over the finite points computes the filled series |
| Interpolants.TimePassInto | quartical/interpolation/interpolants.py:118-131 | the loop over frequencies, reading the input and writing the copy, leaves the copy equal to the time pass |
| Interpolants.FreqPassInto | quartical/interpolation/interpolants.py:133-148 | the in-place loop over times, reading and overwriting the array, leaves it equal to the frequency pass |
| Interpolants.InterpolateMissing | quartical/interpolation/interpolants.py:112-150 | the result is the frequency pass applied to the time pass of the input |
| Interpolants.FillSeries | quartical/interpolation/interpolants.py:124-131 | one value per coordinate; `FillSeriesKeeps` states that nothing is missing and finite values are kept |
| Interpolants.FillOrZero | quartical/interpolation/interpolants.py:137-148 | one value per coordinate; `InterpolateMissingFills` states what the values are |
| Scheduling.ReachBelow | quartical/scheduling/__init__.py:13-23 | on an acyclic graph every key reachable from k is a key of lower rank, so no key reaches itself and the recursion of `unravel_deps` ends |
| Scheduling.ReachClosed | quartical/scheduling/__init__.py:19-21 | the reachable set is closed under the edges: whatever a reachable key points at is reachable too |
| Scheduling.ReachLeast | quartical/scheduling/__init__.py:19-21 | the reachable set lies inside every edge-closed set holding k's successors, so it is exactly the transitive dependencies |
| Scheduling.ReachFromAdd | quartical/scheduling/__init__.py:19-21 | what is reachable from a set grown by one key is the old reach plus that key and its own reach |
| Scheduling.UnravelDeps | quartical/scheduling/__init__.py:13-23 | `unravel_deps` returns the accumulated set together with every key transitively reachable from the name, and nothing else |
| Scheduling.SumTotalRemove | quartical/scheduling/__init__.py:211-213 | the sum of the dependents' totals does not depend on the order the dependents are taken in |
| Scheduling.CombineOne | quartical/scheduling/__init__.py:188-203 | a key with one dependent gets that dependent's metric with one more dependent and one more height |
| Scheduling.CombineMany | quartical/scheduling/__init__.py:204-218 | a key with several dependents gets one plus the sum of their totals, the least and greatest of their dependency bounds, and one plus the least and greatest of their heights |
| Scheduling.Combine | quartical/scheduling/__init__.py:187-218 | whichever branch is taken, the metric is the combination of the dependents' metrics |
| Scheduling.ReleaseChild | quartical/scheduling/__init__.py:219-222 | decrementing one child's count keeps the counting invariant, pushing the child exactly when it has no dependent left to wait for |
| Scheduling.Release | quartical/scheduling/__init__.py:180-183 | after the loop over the children of a processed key, every count is the number of unprocessed dependents, the stack holds exactly the ready keys and every other key still waits |
| Scheduling.AllProcessed | quartical/scheduling/__init__.py:185-223 | on an acyclic graph, once the stack is empty every key has been processed |
| Scheduling.AllFitAdd | quartical/scheduling/__init__.py:176-218 | recording one key's metric keeps every earlier metric as `graph_metrics` defines it |
| Scheduling.ProcessTerminal | quartical/scheduling/__init__.py:176-183 | a key without dependents gets (1, total dependencies twice, 0, 0) and the loop invariant is kept |
| Scheduling.Record | quartical/scheduling/__init__.py:186-218 | the metric of a key whose dependents all have theirs is recorded as their combination |
| Scheduling.ProcessNext | quartical/scheduling/__init__.py:185-222 | popping the stack records one more key and keeps the loop invariant, so the loop ends |
| Scheduling.GraphMetrics | quartical/scheduling/__init__.py:168-223 | every key of an acyclic graph gets a metric, and each metric is the terminal tuple or the combination of its dependents' metrics |
| Scheduling.IsDepthUnique | quartical/scheduling/__init__.py:35-37 | a key has at most one depth |
| Scheduling.MaxOffset | quartical/scheduling/__init__.py:37 | the maximum over the roots is one root's greatest height less the offset, and no root's is larger |
| Scheduling.NodeDepth | quartical/scheduling/__init__.py:31-37 | one key's depth: the largest difference between the greatest height of a root it depends on and its own, or 0 when it depends on no root |
| Scheduling.GetNodeDepths | quartical/scheduling/__init__.py:26-39 | every key gets a depth, and each is the depth measured against the roots among its transitive dependencies |
| Placement.LoadsAfter | quartical/scheduling/__init__.py:254-259 | one load per worker; `LoadsStep` and `LoadsTotal` state how the loads grow and what they add up to |
| Placement.TaskState.constructor | quartical/scheduling/__init__.py:266-269 | a task state holds the given restrictions and looseness |
| Placement.TaskState.Restrict | quartical/scheduling/__init__.py:266-269 | no restriction becomes the empty set, the worker is added, and the restrictions become strict |
| Placement.RestrictGroup | quartical/scheduling/__init__.py:261-269 | every known task of the group is restricted to the worker, keys with no task are skipped, and every other task is unchanged |
| Placement.FirstMin | quartical/scheduling/__init__.py:258 | `min(worker_loads, key=worker_loads.get)`: the first worker, in order, whose load is the least |
| Placement.LoadsStep | quartical/scheduling/__init__.py:259 | handing out one more group grows only its worker's load, by the group's size |
| Placement.GreedyStep | quartical/scheduling/__init__.py:258-259 | giving the next group to the first least-loaded worker extends the greedy assignment |
| Placement.LoadsTotal | quartical/scheduling/__init__.py:254-259 | the loads always add up to the total size of the groups handed out |
| Placement.MaxSize | quartical/scheduling/__init__.py:256-259 | the largest group size bounds every size and is one of them |
| Placement.GreedyBalanced | quartical/scheduling/__init__.py:254-259 | under the greedy assignment no worker's load exceeds another's by more than the largest group |
| Placement.RestrictionsClosed | quartical/scheduling/__init__.py:261-269 | a task in no group keeps its restrictions; one in some group is restricted to its old workers plus the workers of every group that holds it |
| Placement.RestrictionsStep | quartical/scheduling/__init__.py:256-269 | one more group changes exactly the restrictions of the tasks it holds |
| Placement.PlaceNext | quartical/scheduling/__init__.py:256-269 | one turn of the assignment loop extends the greedy assignment, updates the loads and places the group's tasks |
| Placement.Choose | quartical/scheduling/__init__.py:258-259 | the chosen worker is the first least-loaded one and the loads grow accordingly |
| Placement.HandOut | quartical/scheduling/__init__.py:261-269 | the tasks of one group are restricted to its worker and every other task is as before |
| Placement.AssignGroups | quartical/scheduling/__init__.py:145-160 | with no worker and some group it fails with nothing changed; otherwise the groups go out greedily and every task ends restricted to exactly the workers of the groups holding it, strict when some group holds it |
| Placement.SolverTasks | quartical/scheduling/__init__.py:239-241 | exactly the keys whose name starts with "solver_wrapper", in order and without repeats |
| Placement.SolverGroups | quartical/scheduling/__init__.py:243-252 | each solver task's group is itself, everything it depends on and everything that depends on it |
| Placement.ScatterSolvers | quartical/scheduling/__init__.py:226-269 | one group per solver task, each the family of that solver task, handed out greedily; with no worker and some solver task nothing changes |
| Restrictor.RootNodes | quartical/scheduling/__init__.py:62 | exactly the keys with no dependencies |
| Restrictor.TerminalNodes | quartical/scheduling/__init__.py:61 | exactly the keys with no dependents, the first partition keys |
| Restrictor.HeightGrows | quartical/scheduling/__init__.py:57 | everything a key depends on sits strictly higher above the terminal keys in the metrics |
| Restrictor.EdgeHeight | quartical/scheduling/__init__.py:57 | a direct dependency sits at least one level higher |
| Restrictor.RootReached | quartical/scheduling/__init__.py:62-66 | a key with dependencies depends on some root |
| Restrictor.DepthZero | quartical/scheduling/__init__.py:66 | every depth is non-negative, and 0 exactly at the roots |
| Restrictor.DepthDrops | quartical/scheduling/__init__.py:66 | depth drops along every dependency edge |
| Restrictor.DepthsDescend | quartical/scheduling/__init__.py:66 | the depths descend along every edge and are 0 exactly at the roots |
| Restrictor.PassStep | quartical/scheduling/__init__.py:76-79 | visiting a partition key at the current depth toggles it out and adds its direct dependencies, whatever the order of the visit |
| Restrictor.DescendPass | quartical/scheduling/__init__.py:75-79 | the pass over a copy replaces every partition key at the current depth by its direct dependencies and keeps the others |
| Restrictor.Partition | quartical/scheduling/__init__.py:74-82 | the walk back from the terminal keys gives the reference walk's partition keys, and falls back exactly when the reference walk runs out of depth |
| Restrictor.UpToTerminal | quartical/scheduling/__init__.py:61 | every key is terminal or a dependency of a terminal key |
| Restrictor.TerminalsCover | quartical/scheduling/__init__.py:61 | every key is in the family of some terminal key |
| Restrictor.FamilyDown | quartical/scheduling/__init__.py:78-79 | a key in the family of a partition key at positive depth is in the family of one of its direct dependencies |
| Restrictor.DescendCovers | quartical/scheduling/__init__.py:75-79 | a pass keeps every key in the family of some partition key |
| Restrictor.WalkCovers | quartical/scheduling/__init__.py:74-80 | a walk that does not fall back ends with partition keys that cover the graph |
| Restrictor.WalkEnds | quartical/scheduling/__init__.py:74-82 | falling back needs fewer partition keys than workers to start with; otherwise the partition keys cover the graph |
| Restrictor.PartOf | quartical/scheduling/__init__.py:88-94 | one partition key's record: everything it depends on, everything that depends on it, and the roots among the first |
| Restrictor.PartInfo | quartical/scheduling/__init__.py:84-94 | a record for exactly the partition keys, each its own |
| Restrictor.RootTokens | quartical/scheduling/__init__.py:99-103 | the distinct root sets of the partition keys, each once |
| Restrictor.FirstGroups | quartical/scheduling/__init__.py:104-114 | exactly the maximal root sets get a group number, each its own and below the offset |
| Restrictor.ShareStep | quartical/scheduling/__init__.py:121-125 | the groups read from the larger root sets are those of the maximal sets above, whatever the order of the loop |
| Restrictor.ShareGroups | quartical/scheduling/__init__.py:118-125 | every non-empty root set strictly inside another gets the union of the groups of the maximal sets above it, and every other keeps its own |
| Restrictor.SharedSubset | quartical/scheduling/__init__.py:118-125 | a root set inside another shares all of the other's groups |
| Restrictor.MaxAbove | quartical/scheduling/__init__.py:109-114 | a root set that is not maximal lies strictly inside a maximal one |
| Restrictor.SharedNonEmpty | quartical/scheduling/__init__.py:109-125 | a non-empty root set ends up with at least one group |
| Restrictor.Put | quartical/scheduling/__init__.py:143 | writing a group keeps the dictionary's listing: an existing group keeps its place and a new group goes last |
| Restrictor.JoinedStep | quartical/scheduling/__init__.py:142-143 | adding the family to one more group is the join over one more group |
| Restrictor.AddFamily | quartical/scheduling/__init__.py:142-143 | every group of the partition key gains the family (the in-place union into `task_groups`) and nothing else changes; the old listing stays a prefix and only the newly created groups follow it |
| Restrictor.GroupStep | quartical/scheduling/__init__.py:129-143 | adding one partition key's family to its groups keeps every group the union of the families of its partition keys |
| Restrictor.GroupsOf | quartical/scheduling/__init__.py:134-140 | a partition key with dependencies takes the groups of its root set; one without takes the next fresh number |
| Restrictor.GroupTasks | quartical/scheduling/__init__.py:127-143 | every group holds exactly the families of the partition keys that have it |
| Restrictor.Values | quartical/scheduling/__init__.py:147 | the groups in the order of the listing, each once |
| Restrictor.PartGrouped | quartical/scheduling/__init__.py:134-140 | every partition key has at least one group |
| Restrictor.Grouped | quartical/scheduling/__init__.py:127-147 | a key covered by the partition keys is in some group |
| Restrictor.TerminalExists | quartical/scheduling/__init__.py:61 | a non-empty acyclic graph has a terminal key |
| Restrictor.MaxDepth | quartical/scheduling/__init__.py:67 | the largest depth is one key's depth and no depth exceeds it |
| Restrictor.WalkBack | quartical/scheduling/__init__.py:61-82 | with no depths `max` raises; a fallback means fewer terminal keys than workers; otherwise the partition keys cover the graph |
| Restrictor.FindParts | quartical/scheduling/__init__.py:52-82 | the metrics, the depths and the walk, with the outcomes of `WalkBack` |
| Restrictor.GroupParts | quartical/scheduling/__init__.py:84-147 | every key of the graph is in some task group |
| Restrictor.AutoRestrictor | quartical/scheduling/__init__.py:44-160 | it raises exactly when the graph or the worker list is empty and falls back only with fewer terminal keys than workers, changing nothing in either case; otherwise every key is in some group, the groups go out greedily and each task ends restricted to exactly the workers of its groups |
| Preprocess.SplitOps | cubicalv2/parser/preprocess.py:42 | `re.split` with a capturing group always gives at least one fragment |
| Preprocess.Split | cubicalv2/parser/preprocess.py:26 | `str.split` always gives at least one piece |
| Preprocess.SplitJoin | cubicalv2/parser/preprocess.py:26 | joining the pieces with the separator gives back the recipe string, so no text is lost |
| Preprocess.SplitPiece | cubicalv2/parser/preprocess.py:26 | no piece holds the separator |
| Preprocess.SplitOpsConcat | cubicalv2/parser/preprocess.py:42 | the fragments of `re.split` with a capturing group, laid end to end, give back the piece |
| Preprocess.SplitOpsFragment | cubicalv2/parser/preprocess.py:42-45 | there is an odd number of fragments; even positions hold text free of '+' and '~', odd positions a single operator |
| Preprocess.SplitOpsShape | cubicalv2/parser/preprocess.py:44-45 | the fragments alternate between operator-free text and single operators |
| Preprocess.SubstringChars | cubicalv2/parser/preprocess.py:51 | every character of a substring occurs in the string |
| Preprocess.PartitionParts | cubicalv2/parser/preprocess.py:56 | `partition("@")` splits at the first '@' and keeps everything else; with no '@' the file is the whole fragment and the tags text is empty |
| Preprocess.CookFragment | cubicalv2/parser/preprocess.py:49-65 | on a fragment of `re.split`, the substring test against "~+" holds exactly for "+" and "~"; the fragment becomes add, subtract, the sky model's file name or the column name |
| Preprocess.RecipeAppend | cubicalv2/parser/preprocess.py:47-65 | the internal recipe keeps the order of the fragments |
| Preprocess.ColumnsAppend | cubicalv2/parser/preprocess.py:63-64 | model columns keep their order and their repeats |
| Preprocess.ColumnsHas | cubicalv2/parser/preprocess.py:63-64 | every column fragment is among the model columns |
| Preprocess.ColumnsFrom | cubicalv2/parser/preprocess.py:63-64 | every model column comes from a column fragment |
| Preprocess.HasSkyExists | cubicalv2/parser/preprocess.py:55-59 | prediction is switched on exactly when some fragment names a ".lsm.html" file |
| Preprocess.SkyUntouched | cubicalv2/parser/preprocess.py:55-58 | a file no fragment names keeps whatever it had |
| Preprocess.SkyLast | cubicalv2/parser/preprocess.py:58 | a repeated sky-model file keeps the tags of its last fragment |
| Preprocess.FoldStep | cubicalv2/parser/preprocess.py:47-65 | one more fragment extends the recipe, the columns, the sky models and the prediction flag by exactly what that fragment adds |
| Preprocess.PieceStep | cubicalv2/parser/preprocess.py:35-47 | one more recipe piece extends the folds over the pieces by the folds over its fragments |
| Preprocess.Options.constructor | cubicalv2/parser/preprocess.py:26 | the options hold the recipe string |
| Preprocess.Options.AddIngredient | cubicalv2/parser/preprocess.py:49-65 | one ingredient: an empty one is skipped, an operator appends add or subtract, a sky model records its tags, appends its file and turns prediction on, anything else appends a model column; nothing else changes |
| Preprocess.Options.Mix | cubicalv2/parser/preprocess.py:47-65 | the loop over the ingredients of one piece fills that piece's recipe and extends the columns, sky models and prediction flag by the folds over the ingredients |
| Preprocess.Options.Preprocess | cubicalv2/parser/preprocess.py:21-65 | the fields are reset, then every ':'-separated piece gets its own internal recipe at its index, and the columns, sky models and prediction flag are the folds over all the pieces; the recipe string is unchanged |

## Left out

- Measurement-set and zarr I/O, dask and xarray graph construction, the command line, logging and cluster set-up are not modelled. They are calls into libraries whose behaviour is not part of these files; their results enter the model as parameters (the TIME, INTERVAL, FLAG and WEIGHT columns, the sub-table fields, the scheduler's dependency dictionaries).
- The complex arithmetic of the delay kernel is kept abstract: `exp(1j * phase)`, the Kronecker products, the matrix inversion, the residual and the convergence percentage (a function of the iteration number). A gain entry is symbolic (`DelayKernel.GainEntry`), and the jhj/jhr increments of one element are opaque reals (`DelayKernel.Increment`).
- The FFT-based initial delay estimate (`init_term`), the xarray and scipy interpolation wrappers and the Gaussian-process interpolation are numerical library code and are not modelled.
- `prange` loops are taken as sequential loops; the parallelism does not change their results.
- The row-to-interval maps and row extents that the kernel reads (`get_row`, `get_row_extents`) are not part of these files. The data points of the kernel come already grouped by (time interval, frequency interval) and by direction.
- The int32 cast of the interval chunk map follows the x86 conversion: a floor in the int32 range is kept, and nan, the infinities and out-of-range values become -2^31. C leaves those conversions undefined, so another platform may give other chunk indices.
- The antenna, direction and correlation axes of `_interpolate_missing` repeat the same computation on independent series. One (time, frequency) grid is modelled.
- `linterp` is proved for strictly increasing samples and ascending queries, the only inputs `_interpolate_missing` passes it (coordinates of good data). The other inputs, where the Python loop may index past the end, are not modelled.
- `tokenize` is not modelled: a root-set token is the root set itself, stored as a position in the list of distinct root sets.
- `reverse_dict` and `ndependencies` are not part of these files: the dependents and the dependency counts are inputs, with the dependents required to be the reverse of the dependencies.
- A scheduler key is modelled as a (name, index) tuple. Dask keys that are plain strings are not modelled.
- The scheduler task objects are modelled only by their `worker_restrictions` and `loose_restrictions` fields.
- A `defaultdict` read is modelled as a read that does not insert a key. The dictionaries this affects are never iterated afterwards, so nothing observable changes.
- `da.add` and `da.subtract` in the internal recipe are the tags `Add` and `Subtract`.
- `str.split`, `re.split` and `str.partition` are modelled as functions on strings, with the properties the parser relies on proved about them.
- Scheduling.GraphMetrics: proved only for acyclic graphs. On a cyclic graph the Python loop ends with some keys unrecorded, and the model does not describe which.
- Restrictor.GroupParts: states that every key of the graph lands in some task group, not the exact contents of each group. The exact contents are stated by `Restrictor.GroupTasks`.
- Restrictor.AutoRestrictor: on a fallback it states that there were fewer terminal keys than workers, not the exact depth at which the walk gave up. The exact walk is stated by `Restrictor.Partition`.
- MsHandler.ZeroFlaggedWeights: follows the per-(row, chan) reading of `da.where(flag_col, 0, weight_col)` (quartical/data_handling/ms_handler.py:314), so a flag on (row, chan) zeroes every correlation weight of that cell. The flags are 2-D (row, chan) (quartical/flagging/flagging.py:73) and the weights 3-D. Numpy broadcasting aligns trailing axes, so as written it would pair the flag axes with (chan, corr) and fail unless the sizes happen to fit. That as-written behaviour is not modelled.
- Delay.ToInterpable: the `Converter` step (cos and sin of the phase offset, the delay passed through; quartical/gains/delay/__init__.py:27-31 and 44-49) is not modelled, because `Converter` is not part of this model. The parameters the member takes are the converted ones, and the member states only what happens to flagged cells.
- DelayKernel.ScaledFreqs: like `DelayKernel.MinFreq`, takes the channel frequencies as a non-empty array of positive values, as the CHAN_FREQ column of a spectral window is (quartical/data_handling/ms_handler.py:165-170); the error `np.min` raises on an empty array and the scaling of zero or negative frequencies are not modelled.
- Floating-point arithmetic is modelled as exact real arithmetic, and rounding is not modelled. It matters where a float result is compared or floored. `cumulative_interval // time_chunk` (quartical/data_handling/ms_handler.py:373-374) can put a unique time one chunk off at a chunk boundary under rounding. The bandwidth accumulation of the rotation-measure frequency map and the frequency scaling of the delay kernel can differ in the last bits as well.

=== FILE: calibrate.dfy ===
/** Solution-interval planning for one gain term of one data set: how many
    time and frequency solution intervals each data chunk holds, the gain
    shape and chunking that follow, and the maps from data resolution to
    solution intervals. */
module Calibrate {
  import opened Common

  /** The solution-interval options of one gain term. An interval of 0
      means "the whole axis of the chunk". */
  datatype TermOptions = TermOptions(timeInterval: nat, freqInterval: nat, directionDependent: bool)

  /** Gain shape (time, freq, antenna, direction, correlation). */
  datatype GainShape = GainShape(nTime: nat, nFreq: nat, nAnt: nat, nDir: nat, nCorr: nat)

  /** Chunks of the gain along each of its five axes. */
  datatype GainChunk = GainChunk(time: seq<nat>, freq: seq<nat>, ant: seq<nat>, dir: seq<nat>, corr: seq<nat>)

  /** Number of solution intervals in each chunk: `ceil(n / interval)` for a
      non-zero interval, exactly one per chunk otherwise. */
  function IntervalsPerChunk(chunks: seq<nat>, interval: nat): (r: seq<nat>)
    ensures |r| == |chunks|
    ensures interval == 0 ==> forall k :: 0 <= k < |r| ==> r[k] == 1
    ensures interval > 0 ==> forall k :: 0 <= k < |r| ==>
      (r[k] - 1) * interval < chunks[k] <= r[k] * interval
  {
    seq(|chunks|, k requires 0 <= k < |chunks| =>
      if interval > 0 then CeilDiv(chunks[k], interval) else 1)
  }

  /** A non-empty chunk always has at least one interval, and an interval
      covers at most `interval` elements of its chunk. */
  lemma IntervalsPerChunkPositive(chunks: seq<nat>, interval: nat, k: nat)
    requires k < |chunks| && chunks[k] > 0
    ensures IntervalsPerChunk(chunks, interval)[k] >= 1
    ensures interval > 0 ==> IntervalsPerChunk(chunks, interval)[k] <= chunks[k]
  {
    var r := IntervalsPerChunk(chunks, interval);
    if interval > 0 {
      assert (r[k] - 1) * interval < chunks[k] <= r[k] * interval;
      if r[k] > chunks[k] {
        MulMono(chunks[k], r[k] - 1, interval);
        MulMono(1, interval, chunks[k]);
      }
    }
  }

  /** The gain shape and chunking of a term. The direction axis has n_dir
      entries for a direction-dependent term and 1 otherwise; the antenna,
      direction and correlation axes each form a single chunk. */
  function TermGain(opts: TermOptions, utimeChunks: seq<nat>, chanChunks: seq<nat>,
                    nAnt: nat, nDir: nat, nCorr: nat): (r: (GainShape, GainChunk))
    ensures r.1.time == IntervalsPerChunk(utimeChunks, opts.timeInterval)
    ensures r.1.freq == IntervalsPerChunk(chanChunks, opts.freqInterval)
    ensures r.0.nTime == Sum(r.1.time) && r.0.nFreq == Sum(r.1.freq)
    ensures opts.timeInterval == 0 ==> r.0.nTime == |utimeChunks|
    ensures opts.freqInterval == 0 ==> r.0.nFreq == |chanChunks|
    ensures r.0.nDir == (if opts.directionDependent then nDir else 1)
    ensures r.0.nAnt == nAnt && r.0.nCorr == nCorr
    ensures r.1.ant == [r.0.nAnt] && r.1.dir == [r.0.nDir] && r.1.corr == [r.0.nCorr]
  {
    var tPer := IntervalsPerChunk(utimeChunks, opts.timeInterval);
    var fPer := IntervalsPerChunk(chanChunks, opts.freqInterval);
    var d := if opts.directionDependent then nDir else 1;
    assert opts.timeInterval == 0 ==> Sum(tPer) == |utimeChunks| by {
      if opts.timeInterval == 0 { SumRepeat(1, |utimeChunks|); assert tPer == Repeat(1, |utimeChunks|); }
    }
    assert opts.freqInterval == 0 ==> Sum(fPer) == |chanChunks| by {
      if opts.freqInterval == 0 { SumRepeat(1, |chanChunks|); assert fPer == Repeat(1, |chanChunks|); }
    }
    (GainShape(Sum(tPer), Sum(fPer), nAnt, d, nCorr),
     GainChunk(tPer, fPer, [nAnt], [d], [nCorr]))
  }

  /** `t_map`: unique-time index to time-interval index, dividing by the
      interval or, for 0, by the number of rows (numpy's integer floor
      division yields 0 for a zero divisor). */
  function TimeMap(utimeInd: seq<nat>, timeInterval: nat, nRow: nat): (r: seq<nat>)
    ensures |r| == |utimeInd|
    ensures forall i :: 0 <= i < |r| ==>
      r[i] == NpFloorDiv(utimeInd[i], if timeInterval > 0 then timeInterval else nRow)
  {
    var div := if timeInterval > 0 then timeInterval else nRow;
    seq(|utimeInd|, i requires 0 <= i < |utimeInd| => NpFloorDiv(utimeInd[i], div))
  }

  /** A unique-time index inside its chunk maps to one of that chunk's time
      intervals; with interval 0 (and the index below the row count, as a
      unique-time index always is) it maps to interval 0. */
  lemma TimeMapInChunk(utimeInd: seq<nat>, opts: TermOptions, nRow: nat, utimeChunk: nat, i: nat)
    requires i < |utimeInd| && utimeInd[i] < utimeChunk && utimeInd[i] < nRow
    ensures TimeMap(utimeInd, opts.timeInterval, nRow)[i] < IntervalsPerChunk([utimeChunk], opts.timeInterval)[0]
    ensures opts.timeInterval == 0 ==> TimeMap(utimeInd, opts.timeInterval, nRow)[i] == 0
  {
    var u := utimeInd[i];
    var t := opts.timeInterval;
    var m := TimeMap(utimeInd, t, nRow)[i];
    if t > 0 {
      var c := CeilDiv(utimeChunk, t);
      assert m * t <= u < utimeChunk <= c * t;
      if m >= c { MulMono(c, m, t); }
    }
  }

  /** `f_map` of one channel chunk: channel i goes to interval
      `i // (f_int or n_chan)`. */
  function FreqMap(nChanChunk: nat, freqInterval: nat, nChan: nat): (r: seq<nat>)
    ensures |r| == nChanChunk
    ensures forall i :: 0 <= i < |r| ==>
      r[i] == NpFloorDiv(i, if freqInterval > 0 then freqInterval else nChan)
  {
    var div := if freqInterval > 0 then freqInterval else nChan;
    seq(nChanChunk, i requires 0 <= i < nChanChunk => NpFloorDiv(i, div))
  }

  /** j is a value of m. */
  predicate InImage(m: seq<nat>, j: nat)
  {
    exists i :: 0 <= i < |m| && m[i] == j
  }

  /** Every channel of a chunk maps to one of the chunk's frequency
      intervals. */
  lemma FreqMapBound(nChanChunk: nat, opts: TermOptions, nChan: nat, i: nat)
    requires nChanChunk <= nChan && i < nChanChunk
    ensures FreqMap(nChanChunk, opts.freqInterval, nChan)[i] < IntervalsPerChunk([nChanChunk], opts.freqInterval)[0]
  {
    var m := FreqMap(nChanChunk, opts.freqInterval, nChan);
    var n := IntervalsPerChunk([nChanChunk], opts.freqInterval)[0];
    var f := opts.freqInterval;
    if f > 0 {
      assert m[i] * f <= i < nChanChunk <= n * f;
      if m[i] >= n { MulMono(n, m[i], f); }
    } else {
      assert m[i] * nChan <= i < nChan;
      if m[i] >= 1 { MulMono(1, m[i], nChan); }
    }
  }

  /** Every frequency interval of a non-empty chunk holds at least one
      channel: the first channel of interval j is `j * f_int`. */
  lemma FreqMapOnto(nChanChunk: nat, opts: TermOptions, nChan: nat, j: nat)
    requires 0 < nChanChunk <= nChan
    requires j < IntervalsPerChunk([nChanChunk], opts.freqInterval)[0]
    ensures InImage(FreqMap(nChanChunk, opts.freqInterval, nChan), j)
  {
    var m := FreqMap(nChanChunk, opts.freqInterval, nChan);
    var n := IntervalsPerChunk([nChanChunk], opts.freqInterval)[0];
    var f := opts.freqInterval;
    if f > 0 {
      MulMono(j, n - 1, f);
      assert (n - 1) * f < nChanChunk;
      var i := j * f;
      FloorDivMultiple(j, f);
      assert m[i] == j;
    } else {
      assert m[0] == 0;
    }
  }

  /** Channel-to-interval map never decreases. */
  lemma FreqMapMonotone(nChanChunk: nat, freqInterval: nat, nChan: nat, i: nat, j: nat)
    requires i <= j < nChanChunk
    ensures FreqMap(nChanChunk, freqInterval, nChan)[i] <= FreqMap(nChanChunk, freqInterval, nChan)[j]
  {
    var m := FreqMap(nChanChunk, freqInterval, nChan);
    var div := if freqInterval > 0 then freqInterval else nChan;
    if div > 0 {
      assert m[i] * div <= i <= j < (m[j] + 1) * div;
      if m[i] > m[j] { MulMono(m[j] + 1, m[i], div); }
    }
  }

  /** `d_map`: the identity over directions for a direction-dependent term,
      all zeros otherwise; either way it points inside the gain's direction
      axis. */
  function DirMap(nDir: nat, directionDependent: bool): (r: seq<nat>)
    ensures |r| == nDir
    ensures directionDependent ==> forall d :: 0 <= d < nDir ==> r[d] == d
    ensures !directionDependent ==> forall d :: 0 <= d < nDir ==> r[d] == 0
    ensures forall d :: 0 <= d < nDir ==> r[d] < (if directionDependent then nDir else 1)
  {
    if directionDependent then seq(nDir, d => d) else Repeat(0, nDir)
  }
}

=== FILE: common.dfy ===
/** Small shared vocabulary: optional values, error results and the integer
    and sequence arithmetic that the chunking and statistics code relies on. */
module Common {

  datatype Option<+T> = None | Some(value: T)

  /** The exceptions the source raises become an explicit error value. */
  datatype Result<+T> = Ok(value: T) | Err(msg: string)

  /** Sum of a sequence of integers. */
  function Sum(s: seq<int>): (r: int)
    ensures (forall i :: 0 <= i < |s| ==> s[i] >= 0) ==> r >= 0
  {
    if s == [] then 0 else s[0] + Sum(s[1..])
  }

  /** Sum of a sequence of reals. */
  function SumR(s: seq<real>): real
  {
    if s == [] then 0.0 else s[0] + SumR(s[1..])
  }

  lemma {:induction false} SumAppend(a: seq<int>, b: seq<int>)
    ensures Sum(a + b) == Sum(a) + Sum(b)
  {
    if a == [] {
      assert a + b == b;
    } else {
      assert (a + b)[1..] == a[1..] + b;
      SumAppend(a[1..], b);
    }
  }

  lemma {:induction false} SumRAppend(a: seq<real>, b: seq<real>)
    ensures SumR(a + b) == SumR(a) + SumR(b)
  {
    if a == [] {
      assert a + b == b;
    } else {
      assert (a + b)[1..] == a[1..] + b;
      SumRAppend(a[1..], b);
    }
  }

  lemma SumPrefixStep(s: seq<int>, k: nat)
    requires k < |s|
    ensures Sum(s[..k + 1]) == Sum(s[..k]) + s[k]
  {
    assert s[..k + 1] == s[..k] + [s[k]];
    SumAppend(s[..k], [s[k]]);
    assert Sum([s[k]]) == s[k] by { assert [s[k]][1..] == []; }
  }

  lemma SumSplit(s: seq<int>, k: nat)
    requires k <= |s|
    ensures Sum(s) == Sum(s[..k]) + Sum(s[k..])
  {
    assert s == s[..k] + s[k..];
    SumAppend(s[..k], s[k..]);
  }

  /** A sequence of n copies of x. */
  function Repeat<T>(x: T, n: nat): (r: seq<T>)
    ensures |r| == n && forall i :: 0 <= i < n ==> r[i] == x
  {
    seq(n, _ => x)
  }

  lemma {:induction false} SumRepeat(x: int, n: nat)
    ensures Sum(Repeat(x, n)) == x * n
  {
    if n > 0 {
      assert Repeat(x, n)[1..] == Repeat(x, n - 1);
      SumRepeat(x, n - 1);
    }
  }

  /** numpy's integer `floor_divide`: a division by zero yields 0 (with a
      runtime warning) instead of raising. Operands here are non-negative. */
  function NpFloorDiv(x: nat, k: nat): (r: nat)
    ensures k == 0 ==> r == 0
    ensures k > 0 ==> r * k <= x < (r + 1) * k
  {
    if k == 0 then 0 else x / k
  }

  /** Euclidean division splits n into whole multiples of k and the rest. */
  lemma DivMod(n: nat, k: nat)
    requires k > 0
    ensures n == k * (n / k) + n % k && 0 <= n % k < k
  {
  }

  /** Ceiling of n / k for a positive k, as `int(np.ceil(n / k))`. */
  function CeilDiv(n: nat, k: nat): (r: nat)
    requires k > 0
    ensures (r - 1) * k < n <= r * k
  {
    var q := n / k;
    assert n == q * k + n % k;
    q + (if n % k == 0 then 0 else 1)
  }

  /** A subset is no larger. */
  lemma {:induction false} SubsetCard<T>(a: set<T>, b: set<T>)
    requires a <= b
    ensures |a| <= |b|
    decreases |a|
  {
    if a != {} {
      var x :| x in a;
      SubsetCard(a - {x}, b - {x});
    }
  }

  /** A proper subset is smaller. */
  lemma ProperSubsetCard<T>(a: set<T>, b: set<T>)
    requires a < b
    ensures |a| < |b|
  {
    assert exists x :: x in b && x !in a;
    var x :| x in b && x !in a;
    SubsetCard(a, b - {x});
  }

  /** Every element of s is distinct. */
  predicate Distinct<T(==)>(s: seq<T>)
  {
    forall i, j :: 0 <= i < j < |s| ==> s[i] != s[j]
  }

  /** `np.arange(0, n, k)` for a positive step. */
  function Arange(n: nat, k: nat): (r: seq<nat>)
    requires k > 0
    ensures |r| == CeilDiv(n, k)
    ensures forall i :: 0 <= i < |r| ==> r[i] == i * k && r[i] < n
  {
    var c := CeilDiv(n, k);
    forall i | 0 <= i < c ensures i * k < n {
      MulMono(i, c - 1, k);
    }
    seq(c, i => i * k)
  }

  lemma MulMono(a: nat, b: nat, k: nat)
    requires a <= b
    ensures a * k <= b * k
  {
    assert b * k == a * k + (b - a) * k;
  }

  /** Flooring a whole multiple of k by k gives the multiplier back. */
  lemma FloorDivMultiple(j: nat, k: nat)
    requires k > 0
    ensures NpFloorDiv(j * k, k) == j
  {
    var r := NpFloorDiv(j * k, k);
    MulMono(if r + 1 <= j then r + 1 else j, j, k);
    MulMono(if j + 1 <= r then j + 1 else r, r, k);
    assert (j + 1) * k == j * k + k;
  }

  /** The row of flat index k in a row-major grid of m rows of n columns. */
  function RowOf(k: nat, n: nat, m: nat): (r: nat)
    requires k < m * n
    ensures r < m && r == k / n
  {
    RowBelow(k, n, m);
    k / n
  }

  lemma RowBelow(k: nat, n: nat, m: nat)
    requires k < m * n
    ensures n > 0 && k / n < m
  {
    assert k == (k / n) * n + k % n;
    if k / n >= m {
      MulMono(m, k / n, n);
    }
  }

  /** Row i, column j of a row-major grid of m rows of n columns sits at
      flat index `i * n + j`, and that index decomposes back into (i, j). */
  lemma FlatIndex(i: nat, j: nat, n: nat, m: nat)
    requires i < m && j < n
    ensures i * n + j < m * n
    ensures (i * n + j) / n == i && (i * n + j) % n == j
  {
    MulMono(i + 1, m, n);
    assert (i + 1) * n == i * n + n;
    var k := i * n + j;
    var q := k / n;
    assert k == q * n + k % n;
    if q < i {
      MulMono(q + 1, i, n);
    } else if q > i {
      MulMono(i + 1, q, n);
    }
  }

  /** Strictly increasing start offsets, each inside a sequence of length n. */
  predicate ValidStarts(starts: seq<nat>, n: nat)
  {
    && (forall i :: 0 <= i < |starts| ==> starts[i] < n)
    && (forall i, j :: 0 <= i < j < |starts| ==> starts[i] < starts[j])
  }

  /** End of the i-th slice: the next start, or the end of the sequence. */
  function SliceEnd(starts: seq<nat>, n: nat, i: nat): nat
    requires i < |starts|
  {
    if i + 1 < |starts| then starts[i + 1] else n
  }

  /** The pieces that `np.add.reduceat(s, starts)` adds up, for strictly
      increasing starts: piece i runs from starts[i] up to the next start
      (or to the end of s). */
  function Slices<T>(s: seq<T>, starts: seq<nat>): (r: seq<seq<T>>)
    requires ValidStarts(starts, |s|)
    ensures |r| == |starts|
  {
    seq(|starts|, i requires 0 <= i < |starts| => s[starts[i] .. SliceEnd(starts, |s|, i)])
  }

  /** `np.add.reduceat(s, starts)` on integers. */
  function ReduceAt(s: seq<int>, starts: seq<nat>): (r: seq<int>)
    requires ValidStarts(starts, |s|)
    ensures |r| == |starts|
  {
    var pieces := Slices(s, starts);
    seq(|starts|, i requires 0 <= i < |starts| => Sum(pieces[i]))
  }

  /** Concatenation of a sequence of sequences. */
  function Flatten<T>(ss: seq<seq<T>>): seq<T>
  {
    if ss == [] then [] else ss[0] + Flatten(ss[1..])
  }

  lemma {:induction false} FlattenAppendOne<T>(ss: seq<seq<T>>, x: seq<T>)
    ensures Flatten(ss + [x]) == Flatten(ss) + x
  {
    if ss == [] {
      assert ss + [x] == [x];
    } else {
      assert (ss + [x])[1..] == ss[1..] + [x];
      FlattenAppendOne(ss[1..], x);
    }
  }

  /** The slices of `np.add.reduceat` tile the sequence from the first start
      onwards: nothing is skipped and nothing is counted twice. */
  lemma {:induction false} SlicesTile<T>(s: seq<T>, starts: seq<nat>)
    requires ValidStarts(starts, |s|) && |starts| > 0
    ensures Flatten(Slices(s, starts)) == s[starts[0]..]
    decreases |starts|
  {
    var pieces := Slices(s, starts);
    if |starts| == 1 {
      assert pieces[0] == s[starts[0]..|s|] == s[starts[0]..];
      assert pieces == [s[starts[0]..]];
      assert pieces[1..] == [];
    } else {
      var rest := starts[1..];
      assert ValidStarts(rest, |s|);
      SlicesTile(s, rest);
      assert pieces[1..] == Slices(s, rest);
      assert pieces[0] == s[starts[0]..starts[1]];
      assert s[starts[0]..] == s[starts[0]..starts[1]] + s[starts[1]..];
    }
  }

  lemma {:induction false} SumFlatten(ss: seq<seq<int>>)
    ensures Sum(Flatten(ss)) == Sum(seq(|ss|, i requires 0 <= i < |ss| => Sum(ss[i])))
  {
    var sums := seq(|ss|, i requires 0 <= i < |ss| => Sum(ss[i]));
    if ss != [] {
      SumAppend(ss[0], Flatten(ss[1..]));
      SumFlatten(ss[1..]);
      assert sums[1..] == seq(|ss[1..]|, i requires 0 <= i < |ss[1..]| => Sum(ss[1..][i]));
    }
  }

  /** Starting at offset 0, `np.add.reduceat` preserves the total. */
  lemma ReduceAtTotal(s: seq<int>, starts: seq<nat>)
    requires ValidStarts(starts, |s|) && |starts| > 0 && starts[0] == 0
    ensures Sum(ReduceAt(s, starts)) == Sum(s)
  {
    SlicesTile(s, starts);
    SumFlatten(Slices(s, starts));
    assert s[0..] == s;
  }

  /** End (exclusive) of the run of elements equal to s[i] that begins at i. */
  function RunEnd<T(==)>(s: seq<T>, i: nat): (e: nat)
    requires i < |s|
    ensures i < e <= |s|
    ensures forall j :: i <= j < e ==> s[j] == s[i]
    ensures e < |s| ==> s[e] != s[i]
    decreases |s| - i
  {
    if i + 1 < |s| && s[i + 1] == s[i] then RunEnd(s, i + 1) else i + 1
  }

  /** Lengths of the runs of equal neighbours from offset i on. */
  function RunsFrom<T(==)>(s: seq<T>, i: nat): (r: seq<nat>)
    requires i <= |s|
    ensures |r| <= |s| - i && (i < |s| <==> r != [])
    ensures forall k :: 0 <= k < |r| ==> r[k] >= 1
    decreases |s| - i
  {
    if i == |s| then []
    else
      var e := RunEnd(s, i);
      [e - i] + RunsFrom(s, e)
  }

  /** The runs from offset i cover the rest of the sequence. */
  lemma {:induction false} RunsFromSum<T>(s: seq<T>, i: nat)
    requires i <= |s|
    ensures Sum(RunsFrom(s, i)) == |s| - i
    decreases |s| - i
  {
    if i < |s| {
      var e := RunEnd(s, i);
      RunsFromSum(s, e);
      assert ([e - i] + RunsFrom(s, e))[1..] == RunsFrom(s, e);
    }
  }

  /** Lengths of the runs of equal neighbours: what `np.unique(...,
      return_counts=True)` yields on an input that is already sorted. */
  function RunLengths<T(==)>(s: seq<T>): (r: seq<nat>)
    ensures |r| <= |s| && (s != [] <==> r != [])
    ensures forall i :: 0 <= i < |r| ==> r[i] >= 1
    ensures Sum(r) == |s|
  {
    RunsFromSum(s, 0);
    RunsFrom(s, 0)
  }

  /** Prefix sums without the total: where each run (or chunk) begins. */
  function Starts(sizes: seq<nat>): (r: seq<nat>)
    ensures |r| == |sizes|
  {
    seq(|sizes|, i requires 0 <= i < |sizes| => Sum(sizes[..i]))
  }

  lemma StartsCons(k: nat, rest: seq<nat>, i: nat)
    requires 0 < i <= |rest|
    ensures Starts([k] + rest)[i] == k + Starts(rest)[i - 1]
  {
    assert ([k] + rest)[..i] == [k] + rest[..i - 1];
    assert ([k] + rest[..i - 1])[1..] == rest[..i - 1];
  }

  /** The first run from offset i starts there and ends at `RunEnd`. */
  lemma RunsFromFirst<T>(s: seq<T>, i: nat)
    requires i < |s|
    ensures |RunsFrom(s, i)| > 0 && Starts(RunsFrom(s, i))[0] == 0
    ensures RunsFrom(s, i)[0] == RunEnd(s, i) - i
  {
    assert RunsFrom(s, i)[..0] == [];
  }

  /** Run k > 0 from offset i is run k - 1 from the end of the first run. */
  lemma RunsFromShift<T>(s: seq<T>, i: nat, k: nat)
    requires i <= |s| && 0 < k < |RunsFrom(s, i)|
    ensures i < |s|
    ensures var e := RunEnd(s, i);
      && k - 1 < |RunsFrom(s, e)|
      && RunsFrom(s, i)[k] == RunsFrom(s, e)[k - 1]
      && i + Starts(RunsFrom(s, i))[k] == e + Starts(RunsFrom(s, e))[k - 1]
  {
    var e := RunEnd(s, i);
    var rest := RunsFrom(s, e);
    assert RunsFrom(s, i) == [e - i] + rest;
    StartsCons(e - i, rest, k);
  }

  /** Run k from offset i begins at i plus its start and ends where
      `RunEnd` says. */
  lemma {:induction false} RunsFromAt<T>(s: seq<T>, i: nat, k: nat)
    requires i <= |s| && k < |RunsFrom(s, i)|
    ensures i + Starts(RunsFrom(s, i))[k] < |s|
    ensures var b := i + Starts(RunsFrom(s, i))[k];
      RunsFrom(s, i)[k] == RunEnd(s, b) - b
    decreases k
  {
    if k == 0 {
      RunsFromFirst(s, i);
    } else {
      RunsFromShift(s, i, k);
      RunsFromAt(s, RunEnd(s, i), k - 1);
    }
  }

  /** Every element of the k-th run equals the run's first element. */
  lemma RunConstant<T>(s: seq<T>, k: nat, j: nat)
    requires k < |RunLengths(s)|
    requires Starts(RunLengths(s))[k] <= j < Starts(RunLengths(s))[k] + RunLengths(s)[k]
    ensures j < |s| && Starts(RunLengths(s))[k] < |s|
    ensures s[j] == s[Starts(RunLengths(s))[k]]
  {
    RunsFromAt(s, 0, k);
  }

  /** Consecutive starts differ by the size between them, and every chunk
      ends inside the total. */
  lemma StartsStep(sizes: seq<nat>, k: nat)
    requires k < |sizes|
    ensures Starts(sizes)[k] + sizes[k] <= Sum(sizes)
    ensures k + 1 < |sizes| ==> Starts(sizes)[k + 1] == Starts(sizes)[k] + sizes[k]
  {
    var ints: seq<int> := sizes;
    SumPrefixStep(ints, k);
    SumSplit(ints, k + 1);
    assert Sum(ints[k + 1..]) >= 0;
  }

  lemma {:induction false} StartsMono(sizes: seq<nat>, i: nat, j: nat)
    requires i < j < |sizes|
    requires forall k :: 0 <= k < |sizes| ==> sizes[k] >= 1
    ensures Starts(sizes)[i] < Starts(sizes)[j]
    decreases j - i
  {
    StartsStep(sizes, j - 1);
    if i < j - 1 {
      StartsMono(sizes, i, j - 1);
    }
  }

  /** Starts of positive sizes are valid offsets into a sequence of the
      total length. */
  lemma StartsValid(sizes: seq<nat>)
    requires forall k :: 0 <= k < |sizes| ==> sizes[k] >= 1
    ensures ValidStarts(Starts(sizes), Sum(sizes))
    ensures |sizes| > 0 ==> Starts(sizes)[0] == 0
  {
    forall k | 0 <= k < |sizes| ensures Starts(sizes)[k] < Sum(sizes) {
      StartsStep(sizes, k);
    }
    forall i, j | 0 <= i < j < |sizes| ensures Starts(sizes)[i] < Starts(sizes)[j] {
      StartsMono(sizes, i, j);
    }
    if |sizes| > 0 {
      assert sizes[..0] == [];
    }
  }

  /** The slice between consecutive starts is exactly the chunk's extent. */
  lemma SliceAt<T>(s: seq<T>, starts: seq<nat>, k: nat, e: nat)
    requires ValidStarts(starts, |s|) && k < |starts| && SliceEnd(starts, |s|, k) == e
    ensures starts[k] <= e <= |s| && Slices(s, starts)[k] == s[starts[k] .. e]
  {
  }

  lemma SlicesOfStarts<T>(s: seq<T>, sizes: seq<nat>, k: nat)
    requires forall i :: 0 <= i < |sizes| ==> sizes[i] >= 1
    requires Sum(sizes) == |s| && k < |sizes|
    ensures ValidStarts(Starts(sizes), |s|)
    ensures Starts(sizes)[k] + sizes[k] <= |s|
    ensures Slices(s, Starts(sizes))[k] == s[Starts(sizes)[k] .. Starts(sizes)[k] + sizes[k]]
  {
    StartsValid(sizes);
    StartsStep(sizes, k);
    var st := Starts(sizes);
    if k + 1 == |sizes| {
      var ints: seq<int> := sizes;
      SumPrefixStep(ints, k);
      assert ints[..k + 1] == ints;
    }
    SliceAt(s, st, k, st[k] + sizes[k]);
  }

  /** `rows` holds, for each chunk of the given sizes, the sum of the chunk's
      elements of s. */
  predicate ChunkSums(s: seq<int>, sizes: seq<nat>, rows: seq<int>)
  {
    && |rows| == |sizes|
    && forall k :: 0 <= k < |sizes| ==>
         Starts(sizes)[k] + sizes[k] <= |s| &&
         rows[k] == Sum(s[Starts(sizes)[k] .. Starts(sizes)[k] + sizes[k]])
  }

  /** `np.add.reduceat` at the prefix sums of positive chunk sizes that tile
      s sums each chunk, and the chunk sums add up to the total. */
  lemma ReduceAtChunks(s: seq<int>, sizes: seq<nat>)
    requires forall i :: 0 <= i < |sizes| ==> sizes[i] >= 1
    requires Sum(sizes) == |s| && |sizes| > 0
    ensures ValidStarts(Starts(sizes), |s|)
    ensures ChunkSums(s, sizes, ReduceAt(s, Starts(sizes)))
    ensures Sum(ReduceAt(s, Starts(sizes))) == Sum(s)
  {
    StartsValid(sizes);
    ReduceAtChunkSums(s, sizes);
    ReduceAtTotal(s, Starts(sizes));
  }

  lemma ReduceAtChunkSums(s: seq<int>, sizes: seq<nat>)
    requires forall i :: 0 <= i < |sizes| ==> sizes[i] >= 1
    requires Sum(sizes) == |s|
    requires ValidStarts(Starts(sizes), |s|)
    ensures ChunkSums(s, sizes, ReduceAt(s, Starts(sizes)))
  {
    forall k | 0 <= k < |sizes|
      ensures Starts(sizes)[k] + sizes[k] <= |s| &&
        ReduceAt(s, Starts(sizes))[k] == Sum(s[Starts(sizes)[k] .. Starts(sizes)[k] + sizes[k]])
    {
      ReduceAtChunk(s, sizes, k);
    }
  }

  lemma ReduceAtChunk(s: seq<int>, sizes: seq<nat>, k: nat)
    requires forall i :: 0 <= i < |sizes| ==> sizes[i] >= 1
    requires Sum(sizes) == |s| && k < |sizes|
    requires ValidStarts(Starts(sizes), |s|)
    ensures Starts(sizes)[k] + sizes[k] <= |s|
    ensures ReduceAt(s, Starts(sizes))[k] == Sum(s[Starts(sizes)[k] .. Starts(sizes)[k] + sizes[k]])
  {
    SlicesOfStarts(s, sizes, k);
    var st := Starts(sizes);
    assert ReduceAt(s, st)[k] == Sum(Slices(s, st)[k]);
  }

  /** Each run lies inside the sequence. */
  lemma RunInside<T>(s: seq<T>, k: nat)
    requires k < |RunLengths(s)|
    ensures Starts(RunLengths(s))[k] + RunLengths(s)[k] <= |s|
  {
    StartsStep(RunLengths(s), k);
  }

  /** Non-decreasing order. */
  predicate Sorted(s: seq<int>)
  {
    forall i, j :: 0 <= i < j < |s| ==> s[i] <= s[j]
  }

  /** A lower bound of x and of every element of u bounds every element of
      a sequence holding exactly them. */
  lemma LowerBoundMultiset(b: int, t: seq<int>, u: seq<int>, x: int)
    requires multiset(t) == multiset(u) + multiset{x}
    requires b <= x && forall j :: 0 <= j < |u| ==> b <= u[j]
    ensures forall i :: 0 <= i < |t| ==> b <= t[i]
  {
    forall i | 0 <= i < |t| ensures b <= t[i] {
      assert t[i] in multiset(t);
      if t[i] != x {
        assert t[i] in multiset(u);
        var j :| 0 <= j < |u| && u[j] == t[i];
      }
    }
  }

  /** A lower bound of a non-decreasing sequence can be put in front of it. */
  lemma SortedCons(b: int, t: seq<int>)
    requires Sorted(t) && forall i :: 0 <= i < |t| ==> b <= t[i]
    ensures Sorted([b] + t)
  {
    forall i, j | 0 <= i < j < |[b] + t| ensures ([b] + t)[i] <= ([b] + t)[j] {
      assert ([b] + t)[j] == t[j - 1];
      if i > 0 {
        assert ([b] + t)[i] == t[i - 1];
      }
    }
  }

  /** Insertion of x into a non-decreasing sequence. */
  function InsertSorted(x: int, s: seq<int>): (r: seq<int>)
    requires Sorted(s)
    ensures |r| == |s| + 1 && Sorted(r)
    ensures multiset(r) == multiset(s) + multiset{x}
  {
    if s == [] || x <= s[0] then [x] + s
    else
      var t := InsertSorted(x, s[1..]);
      assert s == [s[0]] + s[1..];
      LowerBoundMultiset(s[0], t, s[1..], x);
      SortedCons(s[0], t);
      [s[0]] + t
  }

  /** `np.sort` on integers: a non-decreasing permutation of the input. */
  function SortInts(s: seq<int>): (r: seq<int>)
    ensures |r| == |s| && Sorted(r) && multiset(r) == multiset(s)
  {
    if s == [] then []
    else
      assert s == [s[0]] + s[1..];
      InsertSorted(s[0], SortInts(s[1..]))
  }

  /** Sorting leaves a non-decreasing sequence as it is. */
  lemma {:induction false} SortIntsSorted(s: seq<int>)
    ensures Sorted(s) ==> SortInts(s) == s
  {
    if s != [] && Sorted(s) {
      assert Sorted(s[1..]);
      SortIntsSorted(s[1..]);
      assert s == [s[0]] + s[1..];
    }
  }

  // The sort above orders the int32 chunk map; the one below orders the
  // TIME column, whose values are reals.

  /** Non-decreasing order on reals. */
  predicate SortedR(s: seq<real>)
  {
    forall i, j :: 0 <= i < j < |s| ==> s[i] <= s[j]
  }

  /** A lower bound of x and of every element of u bounds every element of
      a sequence holding exactly them. */
  lemma LowerBoundMultisetR(b: real, t: seq<real>, u: seq<real>, x: real)
    requires multiset(t) == multiset(u) + multiset{x}
    requires b <= x && forall j :: 0 <= j < |u| ==> b <= u[j]
    ensures forall i :: 0 <= i < |t| ==> b <= t[i]
  {
    forall i | 0 <= i < |t| ensures b <= t[i] {
      assert t[i] in multiset(t);
      if t[i] != x {
        assert t[i] in multiset(u);
        var j :| 0 <= j < |u| && u[j] == t[i];
      }
    }
  }

  /** A lower bound of a non-decreasing sequence of reals can be put in
      front of it. */
  lemma SortedConsR(b: real, t: seq<real>)
    requires SortedR(t) && forall i :: 0 <= i < |t| ==> b <= t[i]
    ensures SortedR([b] + t)
  {
    forall i, j | 0 <= i < j < |[b] + t| ensures ([b] + t)[i] <= ([b] + t)[j] {
      assert ([b] + t)[j] == t[j - 1];
      if i > 0 {
        assert ([b] + t)[i] == t[i - 1];
      }
    }
  }

  /** Insertion of x into a non-decreasing sequence of reals. */
  function InsertSortedR(x: real, s: seq<real>): (r: seq<real>)
    requires SortedR(s)
    ensures |r| == |s| + 1 && SortedR(r)
    ensures multiset(r) == multiset(s) + multiset{x}
  {
    if s == [] || x <= s[0] then [x] + s
    else
      var t := InsertSortedR(x, s[1..]);
      assert s == [s[0]] + s[1..];
      LowerBoundMultisetR(s[0], t, s[1..], x);
      SortedConsR(s[0], t);
      [s[0]] + t
  }

  /** `np.sort` on reals: a non-decreasing permutation of the input. */
  function SortReals(s: seq<real>): (r: seq<real>)
    ensures |r| == |s| && SortedR(r) && multiset(r) == multiset(s)
  {
    if s == [] then []
    else
      assert s == [s[0]] + s[1..];
      InsertSortedR(s[0], SortReals(s[1..]))
  }

  /** Sorting leaves a non-decreasing sequence of reals as it is. */
  lemma {:induction false} SortRealsSorted(s: seq<real>)
    ensures SortedR(s) ==> SortReals(s) == s
  {
    if s != [] && SortedR(s) {
      assert SortedR(s[1..]);
      SortRealsSorted(s[1..]);
      assert s == [s[0]] + s[1..];
    }
  }

  /** The first position holding v. */
  function FirstIndex<T(==)>(s: seq<T>, v: T): (i: nat)
    requires v in s
    ensures i < |s| && s[i] == v
    ensures forall j :: 0 <= j < i ==> s[j] != v
  {
    if s[0] == v then 0 else 1 + FirstIndex(s[1..], v)
  }

  /** In a non-decreasing sequence every element before the start of a run
      is strictly below the run's value, so the run begins at the first
      occurrence of that value. */
  lemma RunStartFirst(s: seq<real>, k: nat)
    requires SortedR(s) && k < |RunLengths(s)|
    ensures Starts(RunLengths(s))[k] < |s|
    ensures forall j :: 0 <= j < Starts(RunLengths(s))[k] ==> s[j] < s[Starts(RunLengths(s))[k]]
  {
    var c := RunLengths(s);
    var st := Starts(c);
    RunInside(s, k);
    if k > 0 {
      StartsStep(c, k - 1);
      RunInside(s, k - 1);
      RunBoundary(s, k - 1);
      RunConstant(s, k - 1, st[k] - 1);
      forall j | 0 <= j < st[k] ensures s[j] < s[st[k]] {
        assert s[j] <= s[st[k] - 1];
      }
    }
  }

  /** A sequence of one repeated value is a single run. */
  lemma RunLengthsConstant<T>(s: seq<T>)
    ensures s != [] && (forall i :: 0 <= i < |s| ==> s[i] == s[0]) ==> RunLengths(s) == [|s|]
  {
    if s != [] && forall i :: 0 <= i < |s| ==> s[i] == s[0] {
      assert RunEnd(s, 0) == |s|;
    }
  }

  /** `np.unique(m, return_counts=True)[1]` on any sequence: the run lengths
      of its sorted copy, that is one count per distinct value, in increasing
      order of the values. On a sequence that is already sorted these are its
      own run lengths. */
  function UniqueCounts(m: seq<int>): (r: seq<nat>)
    ensures (m != [] <==> r != []) && Sum(r) == |m|
    ensures forall i :: 0 <= i < |r| ==> r[i] >= 1
    ensures Sorted(m) ==> r == RunLengths(m)
    ensures m != [] && (forall i :: 0 <= i < |m| ==> m[i] == m[0]) ==> r == [|m|]
  {
    SortIntsSorted(m);
    RunLengthsConstant(m);
    RunLengths(SortInts(m))
  }

  /** On a non-decreasing sequence the value of each run is strictly below the
      value of the next run. */
  lemma {:induction false} RunsIncrease(s: seq<int>, k: nat)
    requires Sorted(s)
    requires k + 1 < |RunLengths(s)|
    ensures Starts(RunLengths(s))[k] < Starts(RunLengths(s))[k + 1] < |s|
    ensures s[Starts(RunLengths(s))[k]] < s[Starts(RunLengths(s))[k + 1]]
  {
    var rl := RunLengths(s);
    var a := Starts(rl)[k];
    StartsStep(rl, k);
    RunInside(s, k + 1);
    var b := Starts(rl)[k + 1];
    assert b == a + rl[k];
    RunConstant(s, k, b - 1);
    RunBoundary(s, k);
    assert s[a] <= s[b];
  }

  /** The element right after a run differs from the run's value. */
  lemma RunBoundary<T>(s: seq<T>, k: nat)
    requires k < |RunLengths(s)|
    requires Starts(RunLengths(s))[k] + RunLengths(s)[k] < |s|
    ensures s[Starts(RunLengths(s))[k] + RunLengths(s)[k]] != s[Starts(RunLengths(s))[k]]
  {
    RunsFromAt(s, 0, k);
  }

  /** Python's `a in b` on strings: a is a contiguous substring of b. */
  predicate IsSubstring(a: string, b: string)
  {
    exists i :: 0 <= i <= |b| && a <= b[i..]
  }
}

=== FILE: constructor.dfy ===
/** `expand_specs`: turns the compact chunk specification of every gain term
    into one term spec per (time chunk, frequency chunk) and regroups the
    specs per chunk. */
module Constructor {
  import opened Common

  /** Chunks of a gain along its five axes. */
  datatype ChunkSpec = ChunkSpec(tchunk: seq<nat>, fchunk: seq<nat>, achunk: seq<nat>, dchunk: seq<nat>, cchunk: seq<nat>)

  /** The attributes of a gain dataset that `expand_specs` reads. */
  datatype GainDataset = GainDataset(name: string, termType: string, chunkSpec: ChunkSpec)

  /** A chunk shape (time, freq, antenna, direction, correlation). */
  datatype Shape = Shape(t: nat, f: nat, a: nat, d: nat, c: nat)

  /** `term_spec_tup(name, type, shape)`. */
  datatype TermSpec = TermSpec(name: string, termType: string, shape: Shape)

  /** `itertools.product(xs, ys)`: every pair, the first component varying
      slowest (see `ProductAt`). */
  function Product<A, B>(xs: seq<A>, ys: seq<B>): (r: seq<(A, B)>)
    ensures |r| == |xs| * |ys|
    ensures forall k :: 0 <= k < |r| ==> r[k].0 in xs && r[k].1 in ys
  {
    var n := |ys|;
    seq(|xs| * n, k requires 0 <= k < |xs| * n => (xs[RowOf(k, n, |xs|)], ys[k % n]))
  }

  /** Pair (xs[i], ys[j]) sits at position `i * |ys| + j` of the product. */
  lemma ProductAt<A, B>(xs: seq<A>, ys: seq<B>, i: nat, j: nat)
    requires i < |xs| && j < |ys|
    ensures i * |ys| + j < |Product(xs, ys)|
    ensures Product(xs, ys)[i * |ys| + j] == (xs[i], ys[j])
  {
    FlatIndex(i, j, |ys|, |xs|);
  }

  /** The term specs of one gain dataset, one per (time chunk, freq chunk)
      in time-major order (see `TermSpecAt`); every spec carries the term's
      name and type, and the single antenna, direction and correlation
      chunk sizes. */
  function TermSpecs(g: GainDataset): (r: seq<TermSpec>)
    requires |g.chunkSpec.achunk| > 0 && |g.chunkSpec.dchunk| > 0 && |g.chunkSpec.cchunk| > 0
    ensures |r| == |g.chunkSpec.tchunk| * |g.chunkSpec.fchunk|
    ensures forall k :: 0 <= k < |r| ==>
      && r[k].name == g.name && r[k].termType == g.termType
      && r[k].shape.t in g.chunkSpec.tchunk && r[k].shape.f in g.chunkSpec.fchunk
      && r[k].shape.a == g.chunkSpec.achunk[0] && r[k].shape.d == g.chunkSpec.dchunk[0]
      && r[k].shape.c == g.chunkSpec.cchunk[0]
  {
    var cs := g.chunkSpec;
    var pairs := Product(cs.tchunk, cs.fchunk);
    seq(|pairs|, k requires 0 <= k < |pairs| =>
      TermSpec(g.name, g.termType, Shape(pairs[k].0, pairs[k].1, cs.achunk[0], cs.dchunk[0], cs.cchunk[0])))
  }

  /** The spec of time chunk i and frequency chunk j. */
  lemma TermSpecAt(g: GainDataset, i: nat, j: nat)
    requires |g.chunkSpec.achunk| > 0 && |g.chunkSpec.dchunk| > 0 && |g.chunkSpec.cchunk| > 0
    requires i < |g.chunkSpec.tchunk| && j < |g.chunkSpec.fchunk|
    ensures var cs := g.chunkSpec;
      i * |cs.fchunk| + j < |TermSpecs(g)| &&
      TermSpecs(g)[i * |cs.fchunk| + j] ==
        TermSpec(g.name, g.termType, Shape(cs.tchunk[i], cs.fchunk[j], cs.achunk[0], cs.dchunk[0], cs.cchunk[0]))
  {
    ProductAt(g.chunkSpec.tchunk, g.chunkSpec.fchunk, i, j);
  }

  /** The shortest length among the lists (0 for no lists), as `zip` stops. */
  function MinLength<T>(lists: seq<seq<T>>): (r: nat)
    ensures forall t :: 0 <= t < |lists| ==> r <= |lists[t]|
    ensures |lists| > 0 ==> exists t :: 0 <= t < |lists| && r == |lists[t]|
    ensures |lists| == 0 ==> r == 0
  {
    if |lists| == 0 then 0
    else if |lists| == 1 then |lists[0]|
    else
      var m := MinLength(lists[1..]);
      assert forall t :: 1 <= t < |lists| ==> lists[t] == lists[1..][t - 1];
      if |lists[0]| <= m then |lists[0]| else m
  }

  /** `list(zip(*lists))`: element k gathers the k-th entry of every list. */
  function Zip<T>(lists: seq<seq<T>>): (r: seq<seq<T>>)
    ensures |r| == MinLength(lists)
    ensures forall k :: 0 <= k < |r| ==> |r[k]| == |lists|
    ensures forall k, t :: 0 <= k < |r| && 0 <= t < |lists| ==> r[k][t] == lists[t][k]
  {
    var n := MinLength(lists);
    seq(n, k requires 0 <= k < n => seq(|lists|, t requires 0 <= t < |lists| => lists[t][k]))
  }

  predicate WellFormed(gs: seq<GainDataset>)
  {
    forall t :: 0 <= t < |gs| ==>
      |gs[t].chunkSpec.achunk| > 0 && |gs[t].chunkSpec.dchunk| > 0 && |gs[t].chunkSpec.cchunk| > 0
  }

  /** `expand_specs`: the per-term spec lists, transposed into per-chunk
      tuples in term order. */
  function ExpandSpecs(gs: seq<GainDataset>): (r: seq<seq<TermSpec>>)
    requires WellFormed(gs)
    ensures forall t :: 0 <= t < |gs| ==>
      |r| <= |gs[t].chunkSpec.tchunk| * |gs[t].chunkSpec.fchunk|
    ensures |gs| > 0 ==>
      exists t :: 0 <= t < |gs| && |r| == |gs[t].chunkSpec.tchunk| * |gs[t].chunkSpec.fchunk|
    ensures forall k :: 0 <= k < |r| ==> |r[k]| == |gs|
    ensures forall k, t :: 0 <= k < |r| && 0 <= t < |gs| ==>
      r[k][t] == TermSpecs(gs[t])[k]
  {
    var lists := seq(|gs|, t requires 0 <= t < |gs| => TermSpecs(gs[t]));
    assert forall t :: 0 <= t < |gs| ==> |lists[t]| == |gs[t].chunkSpec.tchunk| * |gs[t].chunkSpec.fchunk|;
    Zip(lists)
  }

  /** When every term has the same numbers of time and frequency chunks,
      there is one tuple per (time chunk, freq chunk) pair. */
  lemma ExpandSpecsCommonChunking(gs: seq<GainDataset>, nt: nat, nf: nat)
    requires WellFormed(gs) && |gs| > 0
    requires forall t :: 0 <= t < |gs| ==> |gs[t].chunkSpec.tchunk| == nt && |gs[t].chunkSpec.fchunk| == nf
    ensures |ExpandSpecs(gs)| == nt * nf
  {
  }
}

=== FILE: delay.dfy ===
/** The delay gain term: its parameter names and how flagged parameters are
    presented to the interpolator. */
module Delay {
  import opened Common

  /** The correlations that carry a phase offset and a delay. */
  predicate Parameterisable(c: string)
  {
    c == "XX" || c == "YY" || c == "RR" || c == "LL"
  }

  /** The parameterisable correlations, in input order. */
  function ParamCorrelations(correlations: seq<string>): (r: seq<string>)
    ensures |r| <= |correlations|
    ensures forall i :: 0 <= i < |r| ==> Parameterisable(r[i])
    ensures forall c :: c in r <==> c in correlations && Parameterisable(c)
  {
    if correlations == [] then []
    else
      var rest := ParamCorrelations(correlations[1..]);
      assert forall c :: c in correlations <==> c == correlations[0] || c in correlations[1..];
      if Parameterisable(correlations[0]) then [correlations[0]] + rest else rest
  }

  /** The filter works correlation by correlation: filtering a
      concatenation concatenates the filtered parts, so the kept
      correlations keep their input order. */
  lemma {:induction false} ParamCorrelationsAppend(a: seq<string>, b: seq<string>)
    ensures ParamCorrelations(a + b) == ParamCorrelations(a) + ParamCorrelations(b)
  {
    if a == [] {
      assert a + b == b;
    } else {
      assert (a + b)[0] == a[0];
      assert (a + b)[1..] == a[1..] + b;
      ParamCorrelationsAppend(a[1..], b);
    }
  }

  /** One correlation is kept exactly when it is parameterisable. */
  lemma ParamCorrelationsSingle(c: string)
    ensures ParamCorrelations([c]) == if Parameterisable(c) then [c] else []
  {
    assert [c][1..] == [];
  }

  /** "phase_offset_c" then "delay_c" for each correlation c, in order. */
  function NamesFor(pc: seq<string>): (r: seq<string>)
    ensures |r| == 2 * |pc|
    ensures forall k :: 0 <= k < |pc| ==> r[2 * k] == "phase_offset_" + pc[k] && r[2 * k + 1] == "delay_" + pc[k]
  {
    if pc == [] then []
    else
      var rest := NamesFor(pc[1..]);
      var r := ["phase_offset_" + pc[0], "delay_" + pc[0]] + rest;
      forall k | 1 <= k < |pc| ensures r[2 * k] == "phase_offset_" + pc[k] && r[2 * k + 1] == "delay_" + pc[k] {
        assert pc[k] == pc[1..][k - 1];
        assert r[2 * k] == rest[2 * (k - 1)];
        assert r[2 * k + 1] == rest[2 * (k - 1) + 1];
      }
      r
  }

  /** `make_param_names`: for each parameterisable correlation c, in order,
      "phase_offset_c" immediately followed by "delay_c". Even positions are
      therefore phase offsets and odd positions delays, which is the layout
      the solver relies on when it scales every second parameter. */
  function MakeParamNames(correlations: seq<string>): (r: seq<string>)
    ensures var pc := ParamCorrelations(correlations);
      |r| == 2 * |pc| &&
      forall k :: 0 <= k < |pc| ==> r[2 * k] == "phase_offset_" + pc[k] && r[2 * k + 1] == "delay_" + pc[k]
  {
    NamesFor(ParamCorrelations(correlations))
  }

  /** `to_interpable`: a parameter whose cell is flagged becomes missing
      (NaN in the source); every other parameter passes through. `params[i]`
      holds the parameter vector of cell i after the conversion to
      interpolable quantities, which is not modelled. */
  function ToInterpable(params: seq<seq<real>>, paramFlags: seq<bool>): (r: seq<seq<Option<real>>>)
    requires |params| == |paramFlags|
    ensures |r| == |params| && forall i :: 0 <= i < |r| ==> |r[i]| == |params[i]|
    ensures forall i, p :: 0 <= i < |r| && 0 <= p < |r[i]| ==>
      (r[i][p].None? <==> paramFlags[i]) && (r[i][p].Some? ==> r[i][p].value == params[i][p])
  {
    seq(|params|, i requires 0 <= i < |params| =>
      seq(|params[i]|, p requires 0 <= p < |params[i]| =>
        if paramFlags[i] then None else Some(params[i][p])))
  }
}

=== FILE: delay_kernel.dfy ===
/** The delay solver kernel: iteration control, frequency scaling of the
    delay parameters, the damped update, gain evaluation, and the
    accumulation of the normal-equation blocks jhj and jhr. The complex
    arithmetic of the kernel is kept abstract: what enters the accumulation
    are the real increments it produces. */
module DelayKernel {
  import opened Common

  // ---------------------------------------------------------------------
  // Correlation modes

  /** The supported correlation modes: one, two (diagonal) or four
      correlations. */
  datatype CorrMode = One | Two | Four

  /** The kernels are specialised on the number of correlations; any other
      number is rejected. */
  function ParseCorrMode(nCorr: int): (r: Result<CorrMode>)
    ensures r.Ok? <==> nCorr in {1, 2, 4}
    ensures r == Ok(One) <==> nCorr == 1
    ensures r == Ok(Two) <==> nCorr == 2
    ensures r == Ok(Four) <==> nCorr == 4
  {
    if nCorr == 1 then Ok(One)
    else if nCorr == 2 then Ok(Two)
    else if nCorr == 4 then Ok(Four)
    else Err("Unsupported number of correlations.")
  }

  /** Number of delay parameters: a phase offset and a delay per solved
      correlation (one correlation in mode One, two otherwise). */
  function ParamCount(mode: CorrMode): (r: nat)
    ensures r == 2 || r == 4
    ensures mode.One? <==> r == 2
  {
    if mode.One? then 2 else 4
  }

  // ---------------------------------------------------------------------
  // Solution-interval index

  /** `ti = i // n_fint; fi = i - ti * n_fint`. */
  function SplitInterval(i: nat, nFint: nat): (r: (nat, nat))
    requires nFint > 0
    ensures r.0 * nFint + r.1 == i && r.1 < nFint
  {
    var ti := i / nFint;
    (ti, i - ti * nFint)
  }

  /** Over `n_tint * n_fint` intervals the split visits every (time
      interval, freq interval) pair exactly once. */
  lemma SplitIntervalBijective(nTint: nat, nFint: nat, i: nat, t: nat, f: nat)
    requires nFint > 0
    ensures i < nTint * nFint ==> SplitInterval(i, nFint).0 < nTint
    ensures t < nTint && f < nFint ==>
      t * nFint + f < nTint * nFint && SplitInterval(t * nFint + f, nFint) == (t, f)
  {
    if i < nTint * nFint {
      RowBelow(i, nFint, nTint);
    }
    if t < nTint && f < nFint {
      FlatIndex(t, f, nFint, nTint);
    }
  }

  // ---------------------------------------------------------------------
  // Iteration control

  /** The iteration count the solver reports: iterations run until the first
      one whose converged percentage exceeds `stopFrac`, or `maxIter` of
      them. */
  function IterationsRun(convPerc: nat -> real, stopFrac: real, maxIter: nat, from: nat): (r: nat)
    requires from < maxIter
    ensures from < r <= maxIter
    ensures forall k :: from <= k < r - 1 ==> convPerc(k) <= stopFrac
    ensures r < maxIter ==> convPerc(r - 1) > stopFrac
    decreases maxIter - from
  {
    if convPerc(from) > stopFrac || from + 1 == maxIter then from + 1
    else IterationsRun(convPerc, stopFrac, maxIter, from + 1)
  }

  /** What `delay_solver` reports: the number of iterations and the last
      converged percentage. */
  datatype ConvInfo = ConvInfo(convIters: nat, convPerc: real)

  /** The loop of `delay_solver`. `convPerc(k)` is the converged percentage
      that gain flagging reports after iteration k. With `maxIter == 0` the
      loop never binds its index and the final report fails. */
  method SolverIterations(convPerc: nat -> real, stopFrac: real, maxIter: nat) returns (r: Result<ConvInfo>)
    ensures r.Ok? <==> maxIter >= 1
    ensures r.Ok? ==> r.value.convIters == IterationsRun(convPerc, stopFrac, maxIter, 0)
    ensures r.Ok? ==> 1 <= r.value.convIters <= maxIter && r.value.convPerc == convPerc(r.value.convIters - 1)
  {
    var loopIdx: Option<nat> := None;
    var last: real := 0.0;
    var k: nat := 0;
    while k < maxIter
      invariant k <= maxIter
      invariant k == 0 <==> loopIdx.None?
      invariant loopIdx.Some? ==> loopIdx.value == k - 1 && last == convPerc(k - 1)
      invariant forall j :: 0 <= j < k ==> convPerc(j) <= stopFrac
      decreases maxIter - k
    {
      loopIdx := Some(k);
      last := convPerc(k);
      if last > stopFrac {
        assert IterationsRun(convPerc, stopFrac, maxIter, 0) == k + 1 by {
          IterationsRunStops(convPerc, stopFrac, maxIter, 0, k);
        }
        return Ok(ConvInfo(k + 1, last));
      }
      k := k + 1;
    }
    if loopIdx.None? {
      return Err("local variable 'loop_idx' referenced before assignment");
    }
    assert IterationsRun(convPerc, stopFrac, maxIter, 0) == maxIter by {
      IterationsRunStops(convPerc, stopFrac, maxIter, 0, maxIter - 1);
    }
    r := Ok(ConvInfo(loopIdx.value + 1, last));
  }

  /** If no iteration from `from` up to `k` converged before k, and k
      either converged or is the last, the solver stops after k. */
  lemma {:induction false} IterationsRunStops(convPerc: nat -> real, stopFrac: real, maxIter: nat, from: nat, k: nat)
    requires from <= k < maxIter
    requires forall j :: from <= j < k ==> convPerc(j) <= stopFrac
    requires convPerc(k) > stopFrac || k == maxIter - 1
    ensures IterationsRun(convPerc, stopFrac, maxIter, from) == k + 1
    decreases k - from
  {
    if from < k {
      IterationsRunStops(convPerc, stopFrac, maxIter, from + 1, k);
    }
  }

  // ---------------------------------------------------------------------
  // Frequency scaling

  /** The smallest channel frequency. */
  function MinFreq(freqs: seq<real>): (r: real)
    requires |freqs| > 0
    ensures forall i :: 0 <= i < |freqs| ==> r <= freqs[i]
    ensures exists i :: 0 <= i < |freqs| && r == freqs[i]
  {
    if |freqs| == 1 then freqs[0]
    else
      var m := MinFreq(freqs[1..]);
      assert forall i :: 1 <= i < |freqs| ==> freqs[i] == freqs[1..][i - 1];
      if freqs[0] <= m then freqs[0] else m
  }

  /** s is x scaled by its positive minimum m: at least 1, and s * m == x. */
  predicate ScaledBy(s: real, m: real, x: real)
  {
    s >= 1.0 && s * m == x
  }

  /** `scaled_cf = chan_freqs.copy() / min(chan_freqs)`: a new sequence, the
      input frequencies stay as they are. With positive frequencies the
      scaled ones are at least 1, and multiplying back by the minimum gives
      the original frequency. */
  function ScaledFreqs(freqs: seq<real>): (r: seq<real>)
    requires |freqs| > 0 && forall i :: 0 <= i < |freqs| ==> freqs[i] > 0.0
    ensures |r| == |freqs|
    ensures forall i :: 0 <= i < |r| ==> ScaledBy(r[i], MinFreq(freqs), freqs[i])
  {
    var m := MinFreq(freqs);
    MinFreqPositive(freqs);
    seq(|freqs|, i requires 0 <= i < |freqs| => DivByMin(freqs[i], m))
  }

  /** x / m for 0 < m <= x. */
  function DivByMin(x: real, m: real): (r: real)
    requires 0.0 < m <= x
    ensures ScaledBy(r, m, x)
  {
    x / m
  }

  /** The lowest channel is scaled to exactly 1. */
  lemma ScaledFreqsReachOne(freqs: seq<real>)
    requires |freqs| > 0 && forall i :: 0 <= i < |freqs| ==> freqs[i] > 0.0
    ensures exists i :: 0 <= i < |freqs| && ScaledFreqs(freqs)[i] == 1.0
  {
    var m := MinFreq(freqs);
    var k :| 0 <= k < |freqs| && m == freqs[k];
    MinFreqPositive(freqs);
    var x := ScaledFreqs(freqs)[k];
    assert ScaledBy(x, m, m);
    assert x * m == m;
    assert (x - 1.0) * m == 0.0;
  }

  lemma MinFreqPositive(freqs: seq<real>)
    requires |freqs| > 0 && forall i :: 0 <= i < |freqs| ==> freqs[i] > 0.0
    ensures MinFreq(freqs) > 0.0
  {
    var k :| 0 <= k < |freqs| && MinFreq(freqs) == freqs[k];
  }

  /** `params[1::2] *= s`: every delay (odd position) is multiplied by s,
      the phase offsets (even positions) are kept. */
  function ScaleDelays(p: seq<real>, s: real): (r: seq<real>)
    ensures |r| == |p|
    ensures forall k :: 0 <= k < |p| ==> r[k] == (if k % 2 == 1 then p[k] * s else p[k])
  {
    seq(|p|, k requires 0 <= k < |p| => if k % 2 == 1 then p[k] * s else p[k])
  }

  /** `params[1::2] /= s`. */
  function UnscaleDelays(p: seq<real>, s: real): (r: seq<real>)
    requires s != 0.0
    ensures |r| == |p|
    ensures forall k :: 0 <= k < |p| ==> r[k] == (if k % 2 == 1 then p[k] / s else p[k])
  {
    seq(|p|, k requires 0 <= k < |p| => if k % 2 == 1 then p[k] / s else p[k])
  }

  /** Undoing the scaling restores the parameters exactly. */
  lemma ScaleRoundTrip(p: seq<real>, s: real)
    requires s != 0.0
    ensures UnscaleDelays(ScaleDelays(p, s), s) == p
  {
    var q := UnscaleDelays(ScaleDelays(p, s), s);
    forall k | 0 <= k < |p| ensures q[k] == p[k] {
      if k % 2 == 1 {
        assert (p[k] * s) / s == p[k];
      }
    }
  }

  // ---------------------------------------------------------------------
  // Cell-wise updates of four-dimensional buffers

  /** (t, f, a, d) comes before (t0, f0, a0, d0) in row-major loop order. */
  predicate Before(t: int, f: int, a: int, d: int, t0: int, f0: int, a0: int, d0: int)
  {
    t < t0 || (t == t0 && (f < f0 || (f == f0 && (a < a0 || (a == a0 && d < d0)))))
  }

  /** Applies g to every cell of x in place, as a numpy elementwise
      in-place operation does. */
  method MapCells<T>(x: array4<T>, g: T -> T)
    modifies x
    ensures forall t, f, a, d :: 0 <= t < x.Length0 && 0 <= f < x.Length1 && 0 <= a < x.Length2 && 0 <= d < x.Length3 ==>
      x[t, f, a, d] == g(old(x[t, f, a, d]))
  {
    var t := 0;
    while t < x.Length0
      invariant 0 <= t <= x.Length0
      invariant forall t', f', a', d' :: 0 <= t' < x.Length0 && 0 <= f' < x.Length1 && 0 <= a' < x.Length2 && 0 <= d' < x.Length3 ==>
        x[t', f', a', d'] == (if Before(t', f', a', d', t, 0, 0, 0) then g(old(x[t', f', a', d'])) else old(x[t', f', a', d']))
    {
      var f := 0;
      while f < x.Length1
        invariant 0 <= f <= x.Length1
        invariant forall t', f', a', d' :: 0 <= t' < x.Length0 && 0 <= f' < x.Length1 && 0 <= a' < x.Length2 && 0 <= d' < x.Length3 ==>
          x[t', f', a', d'] == (if Before(t', f', a', d', t, f, 0, 0) then g(old(x[t', f', a', d'])) else old(x[t', f', a', d']))
      {
        var a := 0;
        while a < x.Length2
          invariant 0 <= a <= x.Length2
          invariant forall t', f', a', d' :: 0 <= t' < x.Length0 && 0 <= f' < x.Length1 && 0 <= a' < x.Length2 && 0 <= d' < x.Length3 ==>
            x[t', f', a', d'] == (if Before(t', f', a', d', t, f, a, 0) then g(old(x[t', f', a', d'])) else old(x[t', f', a', d']))
        {
          var d := 0;
          while d < x.Length3
            invariant 0 <= d <= x.Length3
            invariant forall t', f', a', d' :: 0 <= t' < x.Length0 && 0 <= f' < x.Length1 && 0 <= a' < x.Length2 && 0 <= d' < x.Length3 ==>
              x[t', f', a', d'] == (if Before(t', f', a', d', t, f, a, d) then g(old(x[t', f', a', d'])) else old(x[t', f', a', d']))
          {
            x[t, f, a, d] := g(x[t, f, a, d]);
            d := d + 1;
          }
          a := a + 1;
        }
        f := f + 1;
      }
      t := t + 1;
    }
  }

  /** Elementwise sum of two parameter vectors. */
  function AddVec(p: seq<real>, u: seq<real>): (r: seq<real>)
    requires |p| == |u|
    ensures |r| == |p| && forall k :: 0 <= k < |r| ==> r[k] == p[k] + u[k]
  {
    seq(|p|, k requires 0 <= k < |p| => p[k] + u[k])
  }

  /** Every entry halved. */
  function Halve(u: seq<real>): (r: seq<real>)
    ensures |r| == |u| && forall k :: 0 <= k < |r| ==> r[k] + r[k] == u[k]
  {
    seq(|u|, k requires 0 <= k < |u| => u[k] / 2.0)
  }

  predicate SameShape<S, T>(x: array4<S>, y: array4<T>)
    reads x, y
  {
    x.Length0 == y.Length0 && x.Length1 == y.Length1 && x.Length2 == y.Length2 && x.Length3 == y.Length3
  }

  /** Every cell of x holds a vector of n entries. */
  predicate CellsOfLength<T>(x: array4<seq<T>>, n: nat)
    reads x
  {
    forall t, f, a, d :: 0 <= t < x.Length0 && 0 <= f < x.Length1 && 0 <= a < x.Length2 && 0 <= d < x.Length3 ==>
      |x[t, f, a, d]| == n
  }

  /** `params += update`, cell by cell. */
  method AddCells(params: array4<seq<real>>, update: array4<seq<real>>, n: nat)
    requires params != update && SameShape(params, update)
    requires CellsOfLength(params, n) && CellsOfLength(update, n)
    modifies params
    ensures CellsOfLength(params, n)
    ensures forall t, f, a, d :: 0 <= t < params.Length0 && 0 <= f < params.Length1 && 0 <= a < params.Length2 && 0 <= d < params.Length3 ==>
      params[t, f, a, d] == AddVec(old(params[t, f, a, d]), update[t, f, a, d])
  {
    var t := 0;
    while t < params.Length0
      invariant 0 <= t <= params.Length0
      invariant forall t', f', a', d' :: 0 <= t' < params.Length0 && 0 <= f' < params.Length1 && 0 <= a' < params.Length2 && 0 <= d' < params.Length3 ==>
        params[t', f', a', d'] == (if Before(t', f', a', d', t, 0, 0, 0) then AddVec(old(params[t', f', a', d']), update[t', f', a', d']) else old(params[t', f', a', d']))
    {
      var f := 0;
      while f < params.Length1
        invariant 0 <= f <= params.Length1
        invariant forall t', f', a', d' :: 0 <= t' < params.Length0 && 0 <= f' < params.Length1 && 0 <= a' < params.Length2 && 0 <= d' < params.Length3 ==>
          params[t', f', a', d'] == (if Before(t', f', a', d', t, f, 0, 0) then AddVec(old(params[t', f', a', d']), update[t', f', a', d']) else old(params[t', f', a', d']))
      {
        var a := 0;
        while a < params.Length2
          invariant 0 <= a <= params.Length2
          invariant forall t', f', a', d' :: 0 <= t' < params.Length0 && 0 <= f' < params.Length1 && 0 <= a' < params.Length2 && 0 <= d' < params.Length3 ==>
            params[t', f', a', d'] == (if Before(t', f', a', d', t, f, a, 0) then AddVec(old(params[t', f', a', d']), update[t', f', a', d']) else old(params[t', f', a', d']))
        {
          var d := 0;
          while d < params.Length3
            invariant 0 <= d <= params.Length3
            invariant forall t', f', a', d' :: 0 <= t' < params.Length0 && 0 <= f' < params.Length1 && 0 <= a' < params.Length2 && 0 <= d' < params.Length3 ==>
              params[t', f', a', d'] == (if Before(t', f', a', d', t, f, a, d) then AddVec(old(params[t', f', a', d']), update[t', f', a', d']) else old(params[t', f', a', d']))
          {
            params[t, f, a, d] := AddVec(params[t, f, a, d], update[t, f, a, d]);
            d := d + 1;
          }
          a := a + 1;
        }
        f := f + 1;
      }
      t := t + 1;
    }
  }

  // ---------------------------------------------------------------------
  // Gains from parameters

  /** A complex gain entry, kept symbolic: a constant, or `exp(1j * phase)`. */
  datatype GainEntry = Const(re: real, im: real) | ExpI(phase: real)

  /** Number of gain entries per cell. */
  function CorrCount(mode: CorrMode): nat
  {
    match mode
    case One => 1
    case Two => 2
    case Four => 4
  }

  /** The identity gain of each mode (a 2x2 identity in mode Four, ones on
      the diagonal otherwise). */
  function Identity(mode: CorrMode): (r: seq<GainEntry>)
    ensures |r| == CorrCount(mode)
  {
    match mode
    case One => [Const(1.0, 0.0)]
    case Two => [Const(1.0, 0.0), Const(1.0, 0.0)]
    case Four => [Const(1.0, 0.0), Const(0.0, 0.0), Const(0.0, 0.0), Const(1.0, 0.0)]
  }

  /** The gain positions `param_to_gain` writes in each mode. */
  function Written(mode: CorrMode): set<nat>
  {
    match mode
    case One => {0}
    case Two => {0, 1}
    case Four => {0, 3}
  }

  /** The phase `nu * delay + offset` of a delay gain at frequency nu. */
  function Phase(nu: real, offset: real, delay: real): real
  {
    nu * delay + offset
  }

  /** `param_to_gain`: the diagonal gain of each solved correlation is
      `exp(1j * Phase(nu, offset, delay))` with that correlation's offset and
      delay; the positions not written keep their previous value. */
  function ParamToGain(mode: CorrMode, p: seq<real>, nu: real, g: seq<GainEntry>): (r: seq<GainEntry>)
    requires |p| == ParamCount(mode) && |g| == CorrCount(mode)
    ensures |r| == |g|
    ensures forall k :: 0 <= k < |g| && k !in Written(mode) ==> r[k] == g[k]
    ensures r[0] == ExpI(Phase(nu, p[0], p[1]))
    ensures mode.Two? ==> r[1] == ExpI(Phase(nu, p[2], p[3]))
    ensures mode.Four? ==> r[3] == ExpI(Phase(nu, p[2], p[3]))
  {
    match mode
    case One => g[0 := ExpI(Phase(nu, p[0], p[1]))]
    case Two => g[0 := ExpI(Phase(nu, p[0], p[1]))][1 := ExpI(Phase(nu, p[2], p[3]))]
    case Four => g[0 := ExpI(Phase(nu, p[0], p[1]))][3 := ExpI(Phase(nu, p[2], p[3]))]
  }

  /** Scaling the delays by the minimum frequency while dividing the
      frequencies by it leaves every gain unchanged: this is why the solver
      may work in scaled units. */
  lemma ScalingPreservesGain(mode: CorrMode, p: seq<real>, freq: real, minFreq: real, g: seq<GainEntry>)
    requires |p| == ParamCount(mode) && |g| == CorrCount(mode) && minFreq > 0.0
    ensures ParamToGain(mode, ScaleDelays(p, minFreq), freq / minFreq, g) == ParamToGain(mode, p, freq, g)
  {
    var q := ScaleDelays(p, minFreq);
    var nu := freq / minFreq;
    ScaledPhase(freq, p[0], p[1], minFreq);
    assert q[0] == p[0] && q[1] == p[1] * minFreq;
    var e0 := ExpI(Phase(freq, p[0], p[1]));
    assert ExpI(Phase(nu, q[0], q[1])) == e0;
    match mode
    case One =>
      assert ParamToGain(mode, q, nu, g) == g[0 := e0] == ParamToGain(mode, p, freq, g);
    case Two =>
      ScaledPhase(freq, p[2], p[3], minFreq);
      assert q[2] == p[2] && q[3] == p[3] * minFreq;
      var e1 := ExpI(Phase(freq, p[2], p[3]));
      assert ExpI(Phase(nu, q[2], q[3])) == e1;
      assert ParamToGain(mode, q, nu, g) == g[0 := e0][1 := e1] == ParamToGain(mode, p, freq, g);
    case Four =>
      ScaledPhase(freq, p[2], p[3], minFreq);
      assert q[2] == p[2] && q[3] == p[3] * minFreq;
      var e1 := ExpI(Phase(freq, p[2], p[3]));
      assert ExpI(Phase(nu, q[2], q[3])) == e1;
      assert ParamToGain(mode, q, nu, g) == g[0 := e0][3 := e1] == ParamToGain(mode, p, freq, g);
  }

  /** The phase is unchanged when the frequency is divided by m and the
      delay multiplied by it. */
  lemma ScaledPhase(nu: real, offset: real, delay: real, m: real)
    requires m != 0.0
    ensures Phase(nu / m, offset, delay * m) == Phase(nu, offset, delay)
  {
    calc {
      (nu / m) * (delay * m);
      ((nu / m) * m) * delay;
      nu * delay;
    }
  }

  /** The new value of one gain cell in `finalize_update`: identity where
      the gain is flagged (flag 1), the gain of its parameters otherwise. */
  function GainCell(mode: CorrMode, flag: int, p: seq<real>, nu: real, g: seq<GainEntry>): (r: seq<GainEntry>)
    requires |p| == ParamCount(mode) && |g| == CorrCount(mode)
    ensures |r| == CorrCount(mode)
    ensures flag == 1 ==> r == Identity(mode)
    ensures flag != 1 ==> r == ParamToGain(mode, p, nu, g)
  {
    if flag == 1 then Identity(mode) else ParamToGain(mode, p, nu, g)
  }

  /** The maps `finalize_update` reads fit the arrays it indexes: the
      parameter frequency map sends each gain channel to a parameter
      channel, the direction map each gain direction to a parameter one. */
  predicate MapsFit(mode: CorrMode, gain: array4<seq<GainEntry>>, flags: array4<int>, params: array4<seq<real>>,
                    fMapP: seq<nat>, dMap: seq<nat>, scaledCf: seq<real>)
    reads gain, flags, params
  {
    && SameShape(gain, flags)
    && params.Length0 == gain.Length0 && params.Length2 == gain.Length2
    && |fMapP| == gain.Length1 && |scaledCf| == gain.Length1 && |dMap| == gain.Length3
    && (forall f :: 0 <= f < |fMapP| ==> fMapP[f] < params.Length1)
    && (forall d :: 0 <= d < |dMap| ==> dMap[d] < params.Length3)
    && CellsOfLength(params, ParamCount(mode)) && CellsOfLength(gain, CorrCount(mode))
  }

  /** The innermost loop of the gain loop: every direction of antenna a at
      (t, f). */
  method EvaluateDirs(mode: CorrMode, gain: array4<seq<GainEntry>>, flags: array4<int>, params: array4<seq<real>>,
                      fMapP: seq<nat>, dMap: seq<nat>, scaledCf: seq<real>, t: nat, f: nat, a: nat)
    requires MapsFit(mode, gain, flags, params, fMapP, dMap, scaledCf)
    requires t < gain.Length0 && f < gain.Length1 && a < gain.Length2
    modifies gain
    ensures MapsFit(mode, gain, flags, params, fMapP, dMap, scaledCf)
    ensures forall t', f', a', d' :: 0 <= t' < gain.Length0 && 0 <= f' < gain.Length1 && 0 <= a' < gain.Length2 && 0 <= d' < gain.Length3 ==>
      gain[t', f', a', d'] == (if t' == t && f' == f && a' == a then GainCell(mode, flags[t', f', a', d'], params[t', fMapP[f'], a', dMap[d']], scaledCf[f'], old(gain[t', f', a', d'])) else old(gain[t', f', a', d']))
  {
    var cf := scaledCf[f];
    var fm := fMapP[f];
    var d := 0;
    while d < gain.Length3
      invariant 0 <= d <= gain.Length3
      invariant MapsFit(mode, gain, flags, params, fMapP, dMap, scaledCf)
      invariant forall t', f', a', d' :: 0 <= t' < gain.Length0 && 0 <= f' < gain.Length1 && 0 <= a' < gain.Length2 && 0 <= d' < gain.Length3 ==>
        gain[t', f', a', d'] == (if t' == t && f' == f && a' == a && d' < d then GainCell(mode, flags[t', f', a', d'], params[t', fMapP[f'], a', dMap[d']], scaledCf[f'], old(gain[t', f', a', d'])) else old(gain[t', f', a', d']))
    {
      var dm := dMap[d];
      var p := params[t, fm, a, dm];
      var fl := flags[t, f, a, d];
      if fl == 1 {
        gain[t, f, a, d] := Identity(mode);
      } else {
        gain[t, f, a, d] := ParamToGain(mode, p, cf, gain[t, f, a, d]);
      }
      d := d + 1;
    }
  }

  /** The gain loop of `finalize_update`: each gain cell becomes the
      identity where it is flagged, otherwise the gain of the parameters of
      its parameter cell at the (scaled) channel frequency. */
  method EvaluateGains(mode: CorrMode, gain: array4<seq<GainEntry>>, flags: array4<int>, params: array4<seq<real>>,
                       fMapP: seq<nat>, dMap: seq<nat>, scaledCf: seq<real>)
    requires MapsFit(mode, gain, flags, params, fMapP, dMap, scaledCf)
    modifies gain
    ensures CellsOfLength(gain, CorrCount(mode))
    ensures forall t, f, a, d :: 0 <= t < gain.Length0 && 0 <= f < gain.Length1 && 0 <= a < gain.Length2 && 0 <= d < gain.Length3 ==>
      gain[t, f, a, d] == GainCell(mode, flags[t, f, a, d], params[t, fMapP[f], a, dMap[d]], scaledCf[f], old(gain[t, f, a, d]))
  {
    var t := 0;
    while t < gain.Length0
      invariant 0 <= t <= gain.Length0
      invariant MapsFit(mode, gain, flags, params, fMapP, dMap, scaledCf)
      invariant forall t', f', a', d' :: 0 <= t' < gain.Length0 && 0 <= f' < gain.Length1 && 0 <= a' < gain.Length2 && 0 <= d' < gain.Length3 ==>
        gain[t', f', a', d'] == (if Before(t', f', a', d', t, 0, 0, 0) then GainCell(mode, flags[t', f', a', d'], params[t', fMapP[f'], a', dMap[d']], scaledCf[f'], old(gain[t', f', a', d'])) else old(gain[t', f', a', d']))
    {
      var f := 0;
      while f < gain.Length1
        invariant 0 <= f <= gain.Length1
        invariant MapsFit(mode, gain, flags, params, fMapP, dMap, scaledCf)
        invariant forall t', f', a', d' :: 0 <= t' < gain.Length0 && 0 <= f' < gain.Length1 && 0 <= a' < gain.Length2 && 0 <= d' < gain.Length3 ==>
          gain[t', f', a', d'] == (if Before(t', f', a', d', t, f, 0, 0) then GainCell(mode, flags[t', f', a', d'], params[t', fMapP[f'], a', dMap[d']], scaledCf[f'], old(gain[t', f', a', d'])) else old(gain[t', f', a', d']))
      {
        var a := 0;
        while a < gain.Length2
          invariant 0 <= a <= gain.Length2
          invariant MapsFit(mode, gain, flags, params, fMapP, dMap, scaledCf)
          invariant forall t', f', a', d' :: 0 <= t' < gain.Length0 && 0 <= f' < gain.Length1 && 0 <= a' < gain.Length2 && 0 <= d' < gain.Length3 ==>
            gain[t', f', a', d'] == (if Before(t', f', a', d', t, f, a, 0) then GainCell(mode, flags[t', f', a', d'], params[t', fMapP[f'], a', dMap[d']], scaledCf[f'], old(gain[t', f', a', d'])) else old(gain[t', f', a', d']))
        {
          EvaluateDirs(mode, gain, flags, params, fMapP, dMap, scaledCf, t, f, a);
          a := a + 1;
        }
        f := f + 1;
      }
      t := t + 1;
    }
  }

  /** `finalize_update`: halve the update, add it to the parameters, then
      re-evaluate every gain cell from the new parameters. */
  method FinalizeUpdate(mode: CorrMode, gain: array4<seq<GainEntry>>, flags: array4<int>, params: array4<seq<real>>,
                        update: array4<seq<real>>, fMapP: seq<nat>, dMap: seq<nat>, scaledCf: seq<real>)
    requires MapsFit(mode, gain, flags, params, fMapP, dMap, scaledCf)
    requires params != update && SameShape(params, update) && CellsOfLength(update, ParamCount(mode))
    modifies gain, params, update
    ensures forall t, f, a, d :: 0 <= t < update.Length0 && 0 <= f < update.Length1 && 0 <= a < update.Length2 && 0 <= d < update.Length3 ==>
      update[t, f, a, d] == Halve(old(update[t, f, a, d]))
    ensures forall t, f, a, d :: 0 <= t < params.Length0 && 0 <= f < params.Length1 && 0 <= a < params.Length2 && 0 <= d < params.Length3 ==>
      params[t, f, a, d] == AddVec(old(params[t, f, a, d]), Halve(old(update[t, f, a, d])))
    ensures CellsOfLength(params, ParamCount(mode))
    ensures forall t, f, a, d :: 0 <= t < gain.Length0 && 0 <= f < gain.Length1 && 0 <= a < gain.Length2 && 0 <= d < gain.Length3 ==>
      gain[t, f, a, d] == GainCell(mode, flags[t, f, a, d], params[t, fMapP[f], a, dMap[d]], scaledCf[f], old(gain[t, f, a, d]))
  {
    MapCells(update, Halve);
    AddCells(params, update, ParamCount(mode));
    EvaluateGains(mode, gain, flags, params, fMapP, dMap, scaledCf);
  }

  // ---------------------------------------------------------------------
  // jhj / jhr accumulation

  /** The real increments one element of `compute_jhwj_jhwr_elem` adds,
      as computed from the complex model, residual, weight and gain terms
      (kept abstract): `upd0`/`upd1` for the two solved correlations' jhr
      phase-offset entries, `tmp0`/`tmp2` for the two diagonal jhj blocks
      and `tmp1` for the cross block of mode Four. */
  datatype Increment = Increment(upd0: real, upd1: real, tmp0: real, tmp1: real, tmp2: real)

  /** One element: the scaled channel frequency nu and its increments. */
  datatype Contribution = Contribution(nu: real, inc: Increment)

  /** The jhr vector has one entry per parameter. */
  predicate IsJhr(mode: CorrMode, v: seq<real>)
  {
    |v| == ParamCount(mode)
  }

  /** The jhj matrix is square with one row and column per parameter. */
  predicate IsJhj(mode: CorrMode, m: seq<seq<real>>)
  {
    |m| == ParamCount(mode) && forall i :: 0 <= i < |m| ==> |m[i]| == ParamCount(mode)
  }

  predicate Symmetric(m: seq<seq<real>>)
  {
    forall i, j :: 0 <= i < |m| && 0 <= j < |m| && j < |m[i]| && i < |m[j]| ==> m[i][j] == m[j][i]
  }

  function ZeroJhr(mode: CorrMode): (r: seq<real>)
    ensures IsJhr(mode, r) && forall i :: 0 <= i < |r| ==> r[i] == 0.0
  {
    seq(ParamCount(mode), i => 0.0)
  }

  function ZeroJhj(mode: CorrMode): (r: seq<seq<real>>)
    ensures IsJhj(mode, r) && forall i, j :: 0 <= i < |r| && 0 <= j < |r[i]| ==> r[i][j] == 0.0
  {
    seq(ParamCount(mode), i => ZeroJhr(mode))
  }

  /** The jhr part of one element: each phase offset entry receives its
      increment and the delay entry after it nu times that increment. */
  function ElemJhr(mode: CorrMode, v: seq<real>, c: Contribution): (r: seq<real>)
    requires IsJhr(mode, v)
    ensures IsJhr(mode, r)
    ensures r[0] == v[0] + c.inc.upd0 && r[1] - v[1] == c.nu * (r[0] - v[0])
    ensures !mode.One? ==> r[2] == v[2] + c.inc.upd1 && r[3] - v[3] == c.nu * (r[2] - v[2])
  {
    var u0 := c.inc.upd0;
    var u1 := c.inc.upd1;
    if mode.One? then [v[0] + u0, v[1] + c.nu * u0]
    else [v[0] + u0, v[1] + c.nu * u0, v[2] + u1, v[3] + c.nu * u1]
  }

  /** Entry (i, j) of jhj after one element, in the source's assignment
      order. Mode Four adds to the nine entries (0,0), (0,1), (0,2), (0,3),
      (1,1), (1,3), (2,2), (2,3), (3,3) and copies every other entry from
      one of them once it is updated ((1,2) and (2,1) from (0,3)); modes Two
      and One add to both triangles of their diagonal blocks and leave the
      rest alone. */
  function JhjEntry(mode: CorrMode, m: seq<seq<real>>, c: Contribution, i: nat, j: nat): real
    requires IsJhj(mode, m) && i < ParamCount(mode) && j < ParamCount(mode)
  {
    var nu := c.nu;
    var nusq := nu * nu;
    var t0 := c.inc.tmp0;
    var t1 := c.inc.tmp1;
    var t2 := c.inc.tmp2;
    match mode
    case Four =>
      if i == 0 && j == 0 then m[0][0] + t0
      else if (i == 0 && j == 1) || (i == 1 && j == 0) then m[0][1] + t0 * nu
      else if (i == 0 && j == 2) || (i == 2 && j == 0) then m[0][2] + t1
      else if (i == 0 && j == 3) || (i == 3 && j == 0) || (i == 1 && j == 2) || (i == 2 && j == 1) then m[0][3] + t1 * nu
      else if i == 1 && j == 1 then m[1][1] + t0 * nusq
      else if (i == 1 && j == 3) || (i == 3 && j == 1) then m[1][3] + t1 * nusq
      else if i == 2 && j == 2 then m[2][2] + t2
      else if (i == 2 && j == 3) || (i == 3 && j == 2) then m[2][3] + t2 * nu
      else m[3][3] + t2 * nusq
    case Two =>
      if i == 0 && j == 0 then m[0][0] + t0
      else if (i == 0 && j == 1) || (i == 1 && j == 0) then m[i][j] + t0 * nu
      else if i == 1 && j == 1 then m[1][1] + t0 * nusq
      else if i == 2 && j == 2 then m[2][2] + t2
      else if (i == 2 && j == 3) || (i == 3 && j == 2) then m[i][j] + t2 * nu
      else if i == 3 && j == 3 then m[3][3] + t2 * nusq
      else m[i][j]
    case One =>
      if i == 0 && j == 0 then m[0][0] + t0
      else if i == 1 && j == 1 then m[1][1] + t0 * nusq
      else m[i][j] + t0 * nu
  }

  /** The jhj part of one element. */
  function ElemJhj(mode: CorrMode, m: seq<seq<real>>, c: Contribution): (r: seq<seq<real>>)
    requires IsJhj(mode, m)
    ensures IsJhj(mode, r)
    ensures forall i, j :: 0 <= i < ParamCount(mode) && 0 <= j < ParamCount(mode) ==> r[i][j] == JhjEntry(mode, m, c, i, j)
  {
    var n := ParamCount(mode);
    seq(n, i requires 0 <= i < n => seq(n, j requires 0 <= j < n => JhjEntry(mode, m, c, i, j)))
  }

  /** One element keeps jhj symmetric; in mode Four the result is symmetric
      whatever it started from. */
  lemma ElemJhjSymmetric(mode: CorrMode, m: seq<seq<real>>, c: Contribution)
    requires IsJhj(mode, m) && (mode.Four? || Symmetric(m))
    ensures Symmetric(ElemJhj(mode, m, c))
  {
  }

  /** The accumulation of a sequence of elements, in order. */
  function AccJhr(mode: CorrMode, v: seq<real>, cs: seq<Contribution>): (r: seq<real>)
    requires IsJhr(mode, v)
    ensures IsJhr(mode, r)
    decreases |cs|
  {
    if cs == [] then v else ElemJhr(mode, AccJhr(mode, v, cs[..|cs| - 1]), cs[|cs| - 1])
  }

  function AccJhj(mode: CorrMode, m: seq<seq<real>>, cs: seq<Contribution>): (r: seq<seq<real>>)
    requires IsJhj(mode, m)
    ensures IsJhj(mode, r)
    decreases |cs|
  {
    if cs == [] then m else ElemJhj(mode, AccJhj(mode, m, cs[..|cs| - 1]), cs[|cs| - 1])
  }

  /** Accumulating two runs of elements is accumulating their concatenation. */
  lemma {:induction false} AccAppend(mode: CorrMode, v: seq<real>, m: seq<seq<real>>, xs: seq<Contribution>, ys: seq<Contribution>)
    requires IsJhr(mode, v) && IsJhj(mode, m)
    ensures AccJhr(mode, v, xs + ys) == AccJhr(mode, AccJhr(mode, v, xs), ys)
    ensures AccJhj(mode, m, xs + ys) == AccJhj(mode, AccJhj(mode, m, xs), ys)
    decreases |ys|
  {
    if ys != [] {
      var ys' := ys[..|ys| - 1];
      assert (xs + ys)[..|xs + ys| - 1] == xs + ys';
      assert (xs + ys)[|xs + ys| - 1] == ys[|ys| - 1];
      AccAppend(mode, v, m, xs, ys');
    } else {
      assert xs + ys == xs;
    }
  }

  /** Which increment a weighted sum adds up. */
  datatype Part = Upd0 | Upd1 | Tmp0 | Tmp1 | Tmp2

  function Select(inc: Increment, part: Part): real
  {
    match part
    case Upd0 => inc.upd0
    case Upd1 => inc.upd1
    case Tmp0 => inc.tmp0
    case Tmp1 => inc.tmp1
    case Tmp2 => inc.tmp2
  }

  /** `nu ** k` for k in 0..2. */
  function NuPow(nu: real, k: nat): real
  {
    if k == 0 then 1.0 else if k == 1 then nu else nu * nu
  }

  /** The sum over the elements of the selected increment times `nu ** k`. */
  function Weighted(cs: seq<Contribution>, part: Part, k: nat): real
    decreases |cs|
  {
    if cs == [] then 0.0
    else Weighted(cs[..|cs| - 1], part, k) + Select(cs[|cs| - 1].inc, part) * NuPow(cs[|cs| - 1].nu, k)
  }

  /** The closed form of jhr accumulated from zero: each phase-offset entry
      is the sum of its increments and each delay entry the nu-weighted sum
      of the same increments. */
  function ClosedJhr(mode: CorrMode, cs: seq<Contribution>): (r: seq<real>)
    ensures IsJhr(mode, r)
  {
    if mode.One? then [Weighted(cs, Upd0, 0), Weighted(cs, Upd0, 1)]
    else [Weighted(cs, Upd0, 0), Weighted(cs, Upd0, 1), Weighted(cs, Upd1, 0), Weighted(cs, Upd1, 1)]
  }

  /** Entry (i, j) of the closed form of jhj accumulated from zero: an
      (offset, offset) entry sums tmp, an (offset, delay) entry nu * tmp and
      a (delay, delay) entry nu^2 * tmp, with tmp0 in the block of the first
      solved correlation, tmp2 in that of the second and tmp1 in the cross
      block of mode Four; mode Two has no cross block. */
  function ClosedEntry(mode: CorrMode, cs: seq<Contribution>, i: nat, j: nat): real
  {
    var k := i % 2 + j % 2;
    if i < 2 && j < 2 then Weighted(cs, Tmp0, k)
    else if 2 <= i && 2 <= j then Weighted(cs, Tmp2, k)
    else if mode.Four? then Weighted(cs, Tmp1, k)
    else 0.0
  }

  function ClosedJhj(mode: CorrMode, cs: seq<Contribution>): (r: seq<seq<real>>)
    ensures IsJhj(mode, r) && Symmetric(r)
    ensures forall i, j :: 0 <= i < ParamCount(mode) && 0 <= j < ParamCount(mode) ==> r[i][j] == ClosedEntry(mode, cs, i, j)
  {
    var n := ParamCount(mode);
    seq(n, i requires 0 <= i < n => seq(n, j requires 0 <= j < n => ClosedEntry(mode, cs, i, j)))
  }

  /** Accumulating from zero yields the closed forms; in particular jhj is
      symmetric and every delay jhr entry is the nu-weighted sum of its
      phase-offset partner's increments. */
  lemma {:induction false} AccClosedForm(mode: CorrMode, cs: seq<Contribution>)
    ensures AccJhr(mode, ZeroJhr(mode), cs) == ClosedJhr(mode, cs)
    ensures AccJhj(mode, ZeroJhj(mode), cs) == ClosedJhj(mode, cs)
    ensures Symmetric(AccJhj(mode, ZeroJhj(mode), cs))
    decreases |cs|
  {
    if cs == [] {
      var z := ZeroJhj(mode);
      var q := ClosedJhj(mode, cs);
      forall i | 0 <= i < ParamCount(mode) ensures z[i] == q[i] {
        assert forall j :: 0 <= j < ParamCount(mode) ==> z[i][j] == q[i][j];
      }
      var v := ClosedJhr(mode, cs);
      assert forall i :: 0 <= i < ParamCount(mode) ==> ZeroJhr(mode)[i] == v[i];
    } else {
      AccClosedForm(mode, cs[..|cs| - 1]);
      ClosedJhrStep(mode, cs);
      ClosedJhjStep(mode, cs);
    }
  }

  /** One more element adds its selected increment times `nu ** k`. */
  lemma WeightedStep(cs: seq<Contribution>, part: Part, k: nat)
    requires cs != []
    ensures var c := cs[|cs| - 1];
      Weighted(cs, part, k) == Weighted(cs[..|cs| - 1], part, k) + Select(c.inc, part) * NuPow(c.nu, k)
  {
  }

  /** One more element moves the closed form of jhr as `ElemJhr` does. */
  lemma ClosedJhrStep(mode: CorrMode, cs: seq<Contribution>)
    requires cs != []
    ensures ClosedJhr(mode, cs) == ElemJhr(mode, ClosedJhr(mode, cs[..|cs| - 1]), cs[|cs| - 1])
  {
    var c := cs[|cs| - 1];
    WeightedStep(cs, Upd0, 0);
    WeightedStep(cs, Upd0, 1);
    WeightedStep(cs, Upd1, 0);
    WeightedStep(cs, Upd1, 1);
    var r := ElemJhr(mode, ClosedJhr(mode, cs[..|cs| - 1]), c);
    var q := ClosedJhr(mode, cs);
    assert forall i :: 0 <= i < |q| ==> q[i] == r[i];
  }

  /** The same for jhj. */
  lemma ClosedJhjStep(mode: CorrMode, cs: seq<Contribution>)
    requires cs != []
    ensures ClosedJhj(mode, cs) == ElemJhj(mode, ClosedJhj(mode, cs[..|cs| - 1]), cs[|cs| - 1])
  {
    var c := cs[|cs| - 1];
    var n := ParamCount(mode);
    var q := ClosedJhj(mode, cs);
    var r := ElemJhj(mode, ClosedJhj(mode, cs[..|cs| - 1]), c);
    forall i | 0 <= i < n ensures q[i] == r[i] {
      forall j | 0 <= j < n ensures q[i][j] == r[i][j] {
        ClosedEntryStep(mode, cs, i, j);
      }
    }
  }

  /** Entry (i, j) of the closed form moves as `JhjEntry` says. */
  lemma ClosedEntryStep(mode: CorrMode, cs: seq<Contribution>, i: nat, j: nat)
    requires cs != [] && i < ParamCount(mode) && j < ParamCount(mode)
    ensures ClosedEntry(mode, cs, i, j) == JhjEntry(mode, ClosedJhj(mode, cs[..|cs| - 1]), cs[|cs| - 1], i, j)
  {
    match mode
    case One => ClosedEntryStepOne(cs, i, j);
    case Two => ClosedEntryStepTwo(cs, i, j);
    case Four => ClosedEntryStepFour(cs, i, j);
  }

  lemma ClosedEntryStepOne(cs: seq<Contribution>, i: nat, j: nat)
    requires cs != [] && i < ParamCount(One) && j < ParamCount(One)
    ensures ClosedEntry(One, cs, i, j) == JhjEntry(One, ClosedJhj(One, cs[..|cs| - 1]), cs[|cs| - 1], i, j)
  {
    var c := cs[|cs| - 1];
    var k := i % 2 + j % 2;
    assert NuPow(c.nu, 0) == 1.0 && NuPow(c.nu, 1) == c.nu && NuPow(c.nu, 2) == c.nu * c.nu;
    WeightedStep(cs, Tmp0, k);
    WeightedStep(cs, Tmp1, k);
    WeightedStep(cs, Tmp2, k);
  }

  lemma ClosedEntryStepTwo(cs: seq<Contribution>, i: nat, j: nat)
    requires cs != [] && i < ParamCount(Two) && j < ParamCount(Two)
    ensures ClosedEntry(Two, cs, i, j) == JhjEntry(Two, ClosedJhj(Two, cs[..|cs| - 1]), cs[|cs| - 1], i, j)
  {
    var c := cs[|cs| - 1];
    var m := ClosedJhj(Two, cs[..|cs| - 1]);
    var k := i % 2 + j % 2;
    assert m[i][j] == ClosedEntry(Two, cs[..|cs| - 1], i, j);
    if i < 2 && j < 2 {
      WeightedStep(cs, Tmp0, k);
      ClosedBlockStep(c, i, j, k);
    } else if 2 <= i && 2 <= j {
      WeightedStep(cs, Tmp2, k);
      ClosedBlockStep(c, i, j, k);
    }
  }

  /** Inside a diagonal block, `nu ** k` is the weight the source applies
      at (i, j). */
  lemma ClosedBlockStep(c: Contribution, i: nat, j: nat, k: nat)
    requires k == i % 2 + j % 2
    ensures NuPow(c.nu, k) == if i % 2 == 0 && j % 2 == 0 then 1.0
      else if i % 2 == 1 && j % 2 == 1 then c.nu * c.nu else c.nu
  {
  }

  lemma ClosedEntryStepFour(cs: seq<Contribution>, i: nat, j: nat)
    requires cs != [] && i < ParamCount(Four) && j < ParamCount(Four)
    ensures ClosedEntry(Four, cs, i, j) == JhjEntry(Four, ClosedJhj(Four, cs[..|cs| - 1]), cs[|cs| - 1], i, j)
  {
    // each entry holds, or copies, one updated upper entry
    if i < 2 {
      ClosedEntryStepFourTop(cs, i, j);
    } else {
      ClosedEntryStepFourBottom(cs, i, j);
    }
  }

  lemma ClosedEntryStepFourTop(cs: seq<Contribution>, i: nat, j: nat)
    requires cs != [] && i < 2 && i < ParamCount(Four) && j < ParamCount(Four)
    ensures ClosedEntry(Four, cs, i, j) == JhjEntry(Four, ClosedJhj(Four, cs[..|cs| - 1]), cs[|cs| - 1], i, j)
  {
    var c := cs[|cs| - 1];
    var m := ClosedJhj(Four, cs[..|cs| - 1]);
    assert NuPow(c.nu, 0) == 1.0 && NuPow(c.nu, 1) == c.nu && NuPow(c.nu, 2) == c.nu * c.nu;
    if i == 0 {
      if j == 0 {
        WeightedStep(cs, Tmp0, 0);
        assert m[0][0] == ClosedEntry(Four, cs[..|cs| - 1], 0, 0);
      } else if j == 1 {
        WeightedStep(cs, Tmp0, 1);
        assert m[0][1] == ClosedEntry(Four, cs[..|cs| - 1], 0, 1);
      } else if j == 2 {
        WeightedStep(cs, Tmp1, 0);
        assert m[0][2] == ClosedEntry(Four, cs[..|cs| - 1], 0, 2);
      } else {
        WeightedStep(cs, Tmp1, 1);
        assert m[0][3] == ClosedEntry(Four, cs[..|cs| - 1], 0, 3);
      }
    } else {
      if j == 0 {
        WeightedStep(cs, Tmp0, 1);
        assert m[0][1] == ClosedEntry(Four, cs[..|cs| - 1], 0, 1);
      } else if j == 1 {
        WeightedStep(cs, Tmp0, 2);
        assert m[1][1] == ClosedEntry(Four, cs[..|cs| - 1], 1, 1);
      } else if j == 2 {
        WeightedStep(cs, Tmp1, 1);
        assert m[0][3] == ClosedEntry(Four, cs[..|cs| - 1], 0, 3);
      } else {
        WeightedStep(cs, Tmp1, 2);
        assert m[1][3] == ClosedEntry(Four, cs[..|cs| - 1], 1, 3);
      }
    }
  }

  lemma ClosedEntryStepFourBottom(cs: seq<Contribution>, i: nat, j: nat)
    requires cs != [] && 2 <= i && i < ParamCount(Four) && j < ParamCount(Four)
    ensures ClosedEntry(Four, cs, i, j) == JhjEntry(Four, ClosedJhj(Four, cs[..|cs| - 1]), cs[|cs| - 1], i, j)
  {
    var c := cs[|cs| - 1];
    var m := ClosedJhj(Four, cs[..|cs| - 1]);
    assert NuPow(c.nu, 0) == 1.0 && NuPow(c.nu, 1) == c.nu && NuPow(c.nu, 2) == c.nu * c.nu;
    if i == 2 {
      if j == 0 {
        WeightedStep(cs, Tmp1, 0);
        assert m[0][2] == ClosedEntry(Four, cs[..|cs| - 1], 0, 2);
      } else if j == 1 {
        WeightedStep(cs, Tmp1, 1);
        assert m[0][3] == ClosedEntry(Four, cs[..|cs| - 1], 0, 3);
      } else if j == 2 {
        WeightedStep(cs, Tmp2, 0);
        assert m[2][2] == ClosedEntry(Four, cs[..|cs| - 1], 2, 2);
      } else {
        WeightedStep(cs, Tmp2, 1);
        assert m[2][3] == ClosedEntry(Four, cs[..|cs| - 1], 2, 3);
      }
    } else {
      if j == 0 {
        WeightedStep(cs, Tmp1, 1);
        assert m[0][3] == ClosedEntry(Four, cs[..|cs| - 1], 0, 3);
      } else if j == 1 {
        WeightedStep(cs, Tmp1, 2);
        assert m[1][3] == ClosedEntry(Four, cs[..|cs| - 1], 1, 3);
      } else if j == 2 {
        WeightedStep(cs, Tmp2, 1);
        assert m[2][3] == ClosedEntry(Four, cs[..|cs| - 1], 2, 3);
      } else {
        WeightedStep(cs, Tmp2, 2);
        assert m[3][3] == ClosedEntry(Four, cs[..|cs| - 1], 3, 3);
      }
    }
  }

  // ---------------------------------------------------------------------
  // The accumulation loop of compute_jhj_jhr

  /** The next flat interval index: the frequency interval advances, and
      wraps into the next time interval after the last one. */
  lemma SplitNext(i: nat, nFint: nat)
    requires nFint > 0
    ensures var s := SplitInterval(i, nFint);
      SplitInterval(i + 1, nFint) == if s.1 + 1 < nFint then (s.0, s.1 + 1) else (s.0 + 1, 0)
  {
    var s := SplitInterval(i, nFint);
    var s' := SplitInterval(i + 1, nFint);
    var want := if s.1 + 1 < nFint then (s.0, s.1 + 1) else (s.0 + 1, 0);
    assert want.0 * nFint + want.1 == i + 1 && want.1 < nFint;
    SplitUnique(s'.0, s'.1, want.0, want.1, nFint);
  }

  /** The quotient and remainder of a division are unique. */
  lemma SplitUnique(q: nat, r: nat, q': nat, r': nat, n: nat)
    requires r < n && r' < n && q * n + r == q' * n + r'
    ensures q == q' && r == r'
  {
    if q < q' {
      MulMono(q + 1, q', n);
    } else if q' < q {
      MulMono(q' + 1, q, n);
    }
  }

  /** Interval (t, f) comes before the interval of flat index i. */
  predicate Done(t: nat, f: nat, i: nat, nFint: nat)
  {
    nFint > 0 && var s := SplitInterval(i, nFint); t < s.0 || (t == s.0 && f < s.1)
  }

  /** Moving to index i + 1 completes exactly the interval of index i. */
  lemma DoneStep(t: nat, f: nat, i: nat, nFint: nat)
    requires f < nFint
    ensures Done(t, f, i + 1, nFint) <==> Done(t, f, i, nFint) || (t, f) == SplitInterval(i, nFint)
  {
    SplitNext(i, nFint);
  }

  /** After all `nTint * nFint` indices every interval is complete. */
  lemma DoneAll(t: nat, f: nat, nTint: nat, nFint: nat)
    requires t < nTint && f < nFint
    ensures Done(t, f, nTint * nFint, nFint)
  {
    var s := SplitInterval(nTint * nFint, nFint);
    SplitUnique(s.0, s.1, nTint, 0, nFint);
  }

  /** One visibility, as `compute_jhj_jhr` sees it: whether it is flagged,
      its two antennas, its scaled frequency and, per gain direction, the
      increments of its pq and qp elements. */
  datatype DataPoint = DataPoint(flagged: bool, a1: nat, a2: nat, nu: real, pq: seq<Increment>, qp: seq<Increment>)

  /** The data points fit a solution interval with nAnt antennas and nGdir
      gain directions. */
  predicate PointsFit(ps: seq<DataPoint>, nAnt: nat, nGdir: nat)
  {
    forall k :: 0 <= k < |ps| ==> ps[k].a1 < nAnt && ps[k].a2 < nAnt && |ps[k].pq| == nGdir && |ps[k].qp| == nGdir
  }

  /** The elements one data point adds to cell (a, d): none when it is
      flagged, otherwise its pq element when a is its first antenna and
      then its qp element when a is its second. */
  function PointContribs(p: DataPoint, a: nat, d: nat): (r: seq<Contribution>)
    requires d < |p.pq| && d < |p.qp|
    ensures p.flagged ==> r == []
    ensures !p.flagged && p.a1 != a && p.a2 != a ==> r == []
  {
    if p.flagged then []
    else (if p.a1 == a then [Contribution(p.nu, p.pq[d])] else []) + (if p.a2 == a then [Contribution(p.nu, p.qp[d])] else [])
  }

  /** The elements a run of data points adds to cell (a, d), in order. */
  function Contribs(ps: seq<DataPoint>, a: nat, d: nat): seq<Contribution>
    requires forall k :: 0 <= k < |ps| ==> d < |ps[k].pq| && d < |ps[k].qp|
    decreases |ps|
  {
    if ps == [] then [] else Contribs(ps[..|ps| - 1], a, d) + PointContribs(ps[|ps| - 1], a, d)
  }

  /** The whole input of `compute_jhj_jhr` fits jhj and jhr: one run of
      data points per (time interval, freq interval). */
  predicate InputFits(mode: CorrMode, jhj: array4<seq<seq<real>>>, jhr: array4<seq<real>>, points: seq<seq<seq<DataPoint>>>)
    reads jhj, jhr
  {
    && SameShape(jhj, jhr)
    && |points| == jhj.Length0
    && (forall t :: 0 <= t < |points| ==> |points[t]| == jhj.Length1)
    && (forall t, f :: 0 <= t < |points| && 0 <= f < |points[t]| ==> PointsFit(points[t][f], jhj.Length2, jhj.Length3))
  }

  /** The elements cell (t, f, a, d) has received at loop state (i, k, dd):
      all of them for completed intervals, those of the first k points plus
      the directions below dd of point k for the current one, none for
      later ones. */
  ghost function Progress(points: seq<seq<seq<DataPoint>>>, nAnt: nat, nGdir: nat, i: nat, k: nat, dd: nat,
                          t: nat, f: nat, a: nat, d: nat): seq<Contribution>
    requires t < |points| && f < |points[t]| && d < nGdir
    requires forall t, f :: 0 <= t < |points| && 0 <= f < |points[t]| ==> PointsFit(points[t][f], nAnt, nGdir)
  {
    var ps := points[t][f];
    assert PointsFit(ps, nAnt, nGdir);
    var nF := |points[t]|;
    if Done(t, f, i, nF) then Contribs(ps, a, d)
    else if nF > 0 && (t, f) == SplitInterval(i, nF) && k <= |ps| then
      Contribs(ps[..k], a, d) + (if d < dd && k < |ps| then PointContribs(ps[k], a, d) else [])
    else []
  }

  /** Every cell holds the accumulation from zero of the elements it has
      received. */
  ghost predicate Holds(mode: CorrMode, jhj: array4<seq<seq<real>>>, jhr: array4<seq<real>>, points: seq<seq<seq<DataPoint>>>,
                        i: nat, k: nat, dd: nat)
    reads jhj, jhr
    requires InputFits(mode, jhj, jhr, points)
  {
    forall t, f, a, d :: 0 <= t < jhj.Length0 && 0 <= f < jhj.Length1 && 0 <= a < jhj.Length2 && 0 <= d < jhj.Length3 ==>
      CellHolds(mode, jhj[t, f, a, d], jhr[t, f, a, d], Progress(points, jhj.Length2, jhj.Length3, i, k, dd, t, f, a, d))
  }

  /** A cell's jhj and jhr are the accumulation from zero of the elements
      it has received. */
  ghost predicate CellHolds(mode: CorrMode, m: seq<seq<real>>, v: seq<real>, received: seq<Contribution>)
  {
    m == AccJhj(mode, ZeroJhj(mode), received) && v == AccJhr(mode, ZeroJhr(mode), received)
  }

  /** One element call into cell (ti, fi, a, d). */
  method AddElem(mode: CorrMode, jhj: array4<seq<seq<real>>>, jhr: array4<seq<real>>, ti: nat, fi: nat, a: nat, d: nat, c: Contribution)
    requires SameShape(jhj, jhr) && ti < jhj.Length0 && fi < jhj.Length1 && a < jhj.Length2 && d < jhj.Length3
    requires IsJhj(mode, jhj[ti, fi, a, d]) && IsJhr(mode, jhr[ti, fi, a, d])
    modifies jhj, jhr
    ensures jhj[ti, fi, a, d] == ElemJhj(mode, old(jhj[ti, fi, a, d]), c)
    ensures jhr[ti, fi, a, d] == ElemJhr(mode, old(jhr[ti, fi, a, d]), c)
    ensures forall t, f, a', d' ::
      (0 <= t < jhj.Length0 && 0 <= f < jhj.Length1 && 0 <= a' < jhj.Length2 && 0 <= d' < jhj.Length3 &&
       (t != ti || f != fi || a' != a || d' != d)) ==>
      jhj[t, f, a', d'] == old(jhj[t, f, a', d']) && jhr[t, f, a', d'] == old(jhr[t, f, a', d'])
  {
    jhr[ti, fi, a, d] := ElemJhr(mode, jhr[ti, fi, a, d], c);
    jhj[ti, fi, a, d] := ElemJhj(mode, jhj[ti, fi, a, d], c);
  }

  /** Accumulating one or two elements is applying them in turn. */
  lemma AccShort(mode: CorrMode, v: seq<real>, m: seq<seq<real>>, c1: Contribution, c2: Contribution)
    requires IsJhr(mode, v) && IsJhj(mode, m)
    ensures AccJhr(mode, v, [c1]) == ElemJhr(mode, v, c1) && AccJhj(mode, m, [c1]) == ElemJhj(mode, m, c1)
    ensures AccJhr(mode, v, [c1, c2]) == ElemJhr(mode, ElemJhr(mode, v, c1), c2)
    ensures AccJhj(mode, m, [c1, c2]) == ElemJhj(mode, ElemJhj(mode, m, c1), c2)
  {
    assert [c1][..0] == [] && [c1, c2][..1] == [c1];
  }

  /** The two element calls of one data point for gain direction d: the pq
      element into the cell of its first antenna, then the qp element into
      the cell of its second. */
  method AddPoint(mode: CorrMode, jhj: array4<seq<seq<real>>>, jhr: array4<seq<real>>, ti: nat, fi: nat, p: DataPoint, d: nat)
    requires SameShape(jhj, jhr) && ti < jhj.Length0 && fi < jhj.Length1 && d < jhj.Length3
    requires !p.flagged && p.a1 < jhj.Length2 && p.a2 < jhj.Length2 && d < |p.pq| && d < |p.qp|
    requires IsJhj(mode, jhj[ti, fi, p.a1, d]) && IsJhj(mode, jhj[ti, fi, p.a2, d])
    requires IsJhr(mode, jhr[ti, fi, p.a1, d]) && IsJhr(mode, jhr[ti, fi, p.a2, d])
    modifies jhj, jhr
    ensures forall t, f, a, d' :: 0 <= t < jhj.Length0 && 0 <= f < jhj.Length1 && 0 <= a < jhj.Length2 && 0 <= d' < jhj.Length3 ==>
      if t == ti && f == fi && d' == d && (a == p.a1 || a == p.a2) then
        jhj[t, f, a, d'] == AccJhj(mode, old(jhj[t, f, a, d']), PointContribs(p, a, d)) &&
        jhr[t, f, a, d'] == AccJhr(mode, old(jhr[t, f, a, d']), PointContribs(p, a, d))
      else jhj[t, f, a, d'] == old(jhj[t, f, a, d']) && jhr[t, f, a, d'] == old(jhr[t, f, a, d'])
  {
    var cpq := Contribution(p.nu, p.pq[d]);
    var cqp := Contribution(p.nu, p.qp[d]);
    ghost var m1, v1 := jhj[ti, fi, p.a1, d], jhr[ti, fi, p.a1, d];
    ghost var m2, v2 := jhj[ti, fi, p.a2, d], jhr[ti, fi, p.a2, d];
    AddElem(mode, jhj, jhr, ti, fi, p.a1, d, cpq);
    AddElem(mode, jhj, jhr, ti, fi, p.a2, d, cqp);
    AccShort(mode, v1, m1, cpq, cqp);
    AccShort(mode, v2, m2, cqp, cqp);
    if p.a1 == p.a2 {
      assert PointContribs(p, p.a1, d) == [cpq, cqp];
    } else {
      assert PointContribs(p, p.a1, d) == [cpq];
      assert PointContribs(p, p.a2, d) == [cqp];
    }
  }

  /** The data points of every interval fit nAnt antennas and nGdir
      directions, and every time interval has nFint frequency intervals. */
  predicate Grid(points: seq<seq<seq<DataPoint>>>, nFint: nat, nAnt: nat, nGdir: nat)
  {
    && (forall t :: 0 <= t < |points| ==> |points[t]| == nFint)
    && (forall t, f :: 0 <= t < |points| && 0 <= f < |points[t]| ==> PointsFit(points[t][f], nAnt, nGdir))
  }

  /** Nothing has been received before the loop starts. */
  lemma ProgressInit(points: seq<seq<seq<DataPoint>>>, nFint: nat, nAnt: nat, nGdir: nat, t: nat, f: nat, a: nat, d: nat)
    requires Grid(points, nFint, nAnt, nGdir) && t < |points| && f < nFint && d < nGdir
    ensures Progress(points, nAnt, nGdir, 0, 0, 0, t, f, a, d) == []
  {
    assert points[t][f][..0] == [];
  }

  /** Direction dd of point k of the current interval adds that point's
      elements to the cells of direction dd, and nothing elsewhere. */
  lemma ProgressDir(points: seq<seq<seq<DataPoint>>>, nFint: nat, nAnt: nat, nGdir: nat, i: nat, k: nat, dd: nat,
                    t: nat, f: nat, a: nat, d: nat)
    requires Grid(points, nFint, nAnt, nGdir) && t < |points| && f < nFint && d < nGdir && dd < nGdir
    requires nFint > 0 && SplitInterval(i, nFint).0 < |points| && k < |points[SplitInterval(i, nFint).0][SplitInterval(i, nFint).1]|
    ensures var s := SplitInterval(i, nFint);
      Progress(points, nAnt, nGdir, i, k, dd + 1, t, f, a, d) ==
        if (t, f) == s && d == dd then Progress(points, nAnt, nGdir, i, k, dd, t, f, a, d) + PointContribs(points[t][f][k], a, d)
        else Progress(points, nAnt, nGdir, i, k, dd, t, f, a, d)
  {
    var s := SplitInterval(i, nFint);
    if (t, f) == s {
      assert !Done(t, f, i, nFint);
      assert PointsFit(points[t][f], nAnt, nGdir);
    }
  }

  /** After the last direction, point k counts as received. */
  lemma ProgressPoint(points: seq<seq<seq<DataPoint>>>, nFint: nat, nAnt: nat, nGdir: nat, i: nat, k: nat, dd: nat,
                      t: nat, f: nat, a: nat, d: nat)
    requires Grid(points, nFint, nAnt, nGdir) && t < |points| && f < nFint && d < nGdir
    requires nFint > 0 && SplitInterval(i, nFint).0 < |points| && k < |points[SplitInterval(i, nFint).0][SplitInterval(i, nFint).1]|
    requires dd == nGdir || points[SplitInterval(i, nFint).0][SplitInterval(i, nFint).1][k].flagged
    ensures Progress(points, nAnt, nGdir, i, k, dd, t, f, a, d) == Progress(points, nAnt, nGdir, i, k + 1, 0, t, f, a, d)
  {
    var s := SplitInterval(i, nFint);
    if (t, f) == s && !Done(t, f, i, nFint) {
      var ps := points[t][f];
      assert PointsFit(ps, nAnt, nGdir);
      assert ps[..k + 1][..k] == ps[..k];
    }
  }

  /** After the last point, the current interval is complete. */
  lemma ProgressInterval(points: seq<seq<seq<DataPoint>>>, nFint: nat, nAnt: nat, nGdir: nat, i: nat,
                         t: nat, f: nat, a: nat, d: nat)
    requires Grid(points, nFint, nAnt, nGdir) && t < |points| && f < nFint && d < nGdir
    requires nFint > 0 && SplitInterval(i, nFint).0 < |points|
    ensures var s := SplitInterval(i, nFint);
      Progress(points, nAnt, nGdir, i, |points[s.0][s.1]|, 0, t, f, a, d) == Progress(points, nAnt, nGdir, i + 1, 0, 0, t, f, a, d)
  {
    var s := SplitInterval(i, nFint);
    DoneStep(t, f, i, nFint);
    SplitNext(i, nFint);
    var ps := points[t][f];
    assert PointsFit(ps, nAnt, nGdir);
    assert ps[..|ps|] == ps;
    var s' := SplitInterval(i + 1, nFint);
    if (t, f) == s' {
      assert ps[..0] == [];
    }
  }

  /** After every interval, each cell has received all its elements. */
  lemma ProgressExit(points: seq<seq<seq<DataPoint>>>, nFint: nat, nAnt: nat, nGdir: nat,
                     t: nat, f: nat, a: nat, d: nat)
    requires Grid(points, nFint, nAnt, nGdir) && t < |points| && f < nFint && d < nGdir
    ensures PointsFit(points[t][f], nAnt, nGdir)
    ensures Progress(points, nAnt, nGdir, |points| * nFint, 0, 0, t, f, a, d) == Contribs(points[t][f], a, d)
  {
    DoneAll(t, f, |points|, nFint);
  }

  /** One cell across one direction step: a cell that the step touches
      accumulates the point's elements on top of what it had received, and
      any other cell keeps its value, which for a cell of the current
      (interval, direction) means the point brought it no elements. */
  lemma DirCell(mode: CorrMode, before: seq<Contribution>, pc: seq<Contribution>, hit: bool, touched: bool,
                m0: seq<seq<real>>, v0: seq<real>, m1: seq<seq<real>>, v1: seq<real>)
    requires m0 == AccJhj(mode, ZeroJhj(mode), before) && v0 == AccJhr(mode, ZeroJhr(mode), before)
    requires touched ==> hit && m1 == AccJhj(mode, m0, pc) && v1 == AccJhr(mode, v0, pc)
    requires !touched ==> m1 == m0 && v1 == v0
    requires hit && !touched ==> pc == []
    ensures m1 == AccJhj(mode, ZeroJhj(mode), if hit then before + pc else before)
    ensures v1 == AccJhr(mode, ZeroJhr(mode), if hit then before + pc else before)
  {
    if touched {
      AccAppend(mode, ZeroJhr(mode), ZeroJhj(mode), before, pc);
    } else if hit {
      assert before + pc == before;
    }
  }

  /** Cell (t, f, a, d) across direction dd of point k: from the elements
      received up to that direction to those received after it. */
  lemma DirCellAt(mode: CorrMode, points: seq<seq<seq<DataPoint>>>, nF: nat, nA: nat, nD: nat, i: nat, k: nat, dd: nat,
                  t: nat, f: nat, a: nat, d: nat, m0: seq<seq<real>>, v0: seq<real>, m1: seq<seq<real>>, v1: seq<real>)
    requires Grid(points, nF, nA, nD) && t < |points| && f < nF && d < nD && dd < nD
    requires nF > 0 && SplitInterval(i, nF).0 < |points|
    requires var s := SplitInterval(i, nF); k < |points[s.0][s.1]| && !points[s.0][s.1][k].flagged
    requires CellHolds(mode, m0, v0, Progress(points, nA, nD, i, k, dd, t, f, a, d))
    requires var s := SplitInterval(i, nF); var p := points[s.0][s.1][k];
      if (t, f) == s && d == dd && (a == p.a1 || a == p.a2) then
        m1 == AccJhj(mode, m0, PointContribs(p, a, dd)) && v1 == AccJhr(mode, v0, PointContribs(p, a, dd))
      else m1 == m0 && v1 == v0
    ensures CellHolds(mode, m1, v1, Progress(points, nA, nD, i, k, dd + 1, t, f, a, d))
  {
    var s := SplitInterval(i, nF);
    assert PointsFit(points[s.0][s.1], nA, nD);
    var p := points[s.0][s.1][k];
    ProgressDir(points, nF, nA, nD, i, k, dd, t, f, a, d);
    var hit := (t, f) == s && d == dd;
    var touched := hit && (a == p.a1 || a == p.a2);
    DirCell(mode, Progress(points, nA, nD, i, k, dd, t, f, a, d), PointContribs(p, a, d), hit, touched, m0, v0, m1, v1);
  }

  /** Direction dd of point k of the interval of index i. */
  method AccumulateDir(mode: CorrMode, jhj: array4<seq<seq<real>>>, jhr: array4<seq<real>>, points: seq<seq<seq<DataPoint>>>,
                       i: nat, k: nat, dd: nat)
    requires InputFits(mode, jhj, jhr, points) && jhj.Length1 > 0 && i < jhj.Length0 * jhj.Length1 && dd < jhj.Length3
    requires var s := SplitInterval(i, jhj.Length1); s.0 < jhj.Length0 && k < |points[s.0][s.1]| && !points[s.0][s.1][k].flagged
    requires Holds(mode, jhj, jhr, points, i, k, dd)
    modifies jhj, jhr
    ensures InputFits(mode, jhj, jhr, points) && Holds(mode, jhj, jhr, points, i, k, dd + 1)
  {
    assert Grid(points, jhj.Length1, jhj.Length2, jhj.Length3);
    var ti, fi := SplitInterval(i, jhj.Length1).0, SplitInterval(i, jhj.Length1).1;
    assert PointsFit(points[ti][fi], jhj.Length2, jhj.Length3);
    var p := points[ti][fi][k];
    AddPoint(mode, jhj, jhr, ti, fi, p, dd);
    assert InputFits(mode, jhj, jhr, points);
    forall t, f, a, d | 0 <= t < jhj.Length0 && 0 <= f < jhj.Length1 && 0 <= a < jhj.Length2 && 0 <= d < jhj.Length3
      ensures CellHolds(mode, jhj[t, f, a, d], jhr[t, f, a, d], Progress(points, jhj.Length2, jhj.Length3, i, k, dd + 1, t, f, a, d))
    {
      DirCellAt(mode, points, jhj.Length1, jhj.Length2, jhj.Length3, i, k, dd, t, f, a, d,
                old(jhj[t, f, a, d]), old(jhr[t, f, a, d]), jhj[t, f, a, d], jhr[t, f, a, d]);
    }
  }

  /** Point k of the interval of index i: skipped when flagged, otherwise
      added for every gain direction. */
  method AccumulatePoint(mode: CorrMode, jhj: array4<seq<seq<real>>>, jhr: array4<seq<real>>, points: seq<seq<seq<DataPoint>>>,
                         i: nat, k: nat)
    requires InputFits(mode, jhj, jhr, points) && jhj.Length1 > 0 && i < jhj.Length0 * jhj.Length1
    requires var s := SplitInterval(i, jhj.Length1); s.0 < jhj.Length0 && k < |points[s.0][s.1]|
    requires Holds(mode, jhj, jhr, points, i, k, 0)
    modifies jhj, jhr
    ensures InputFits(mode, jhj, jhr, points) && Holds(mode, jhj, jhr, points, i, k + 1, 0)
  {
    var nT, nF, nA, nD := jhj.Length0, jhj.Length1, jhj.Length2, jhj.Length3;
    assert Grid(points, nF, nA, nD);
    var ti, fi := SplitInterval(i, nF).0, SplitInterval(i, nF).1;
    var dd := 0;
    if !points[ti][fi][k].flagged {
      while dd < nD
        invariant 0 <= dd <= nD
        invariant InputFits(mode, jhj, jhr, points) && Holds(mode, jhj, jhr, points, i, k, dd)
      {
        AccumulateDir(mode, jhj, jhr, points, i, k, dd);
        dd := dd + 1;
      }
    }
    HoldsPoint(mode, jhj, jhr, points, i, k, dd);
  }

  /** Once the last direction of point k is added (or the point is
      flagged), the state counts point k as received. */
  lemma HoldsPoint(mode: CorrMode, jhj: array4<seq<seq<real>>>, jhr: array4<seq<real>>, points: seq<seq<seq<DataPoint>>>,
                   i: nat, k: nat, dd: nat)
    requires InputFits(mode, jhj, jhr, points) && jhj.Length1 > 0
    requires var s := SplitInterval(i, jhj.Length1); s.0 < jhj.Length0 && k < |points[s.0][s.1]|
    requires var s := SplitInterval(i, jhj.Length1); dd == jhj.Length3 || points[s.0][s.1][k].flagged
    requires Holds(mode, jhj, jhr, points, i, k, dd)
    ensures Holds(mode, jhj, jhr, points, i, k + 1, 0)
  {
    var nT, nF, nA, nD := jhj.Length0, jhj.Length1, jhj.Length2, jhj.Length3;
    assert Grid(points, nF, nA, nD);
    forall t, f, a, d | 0 <= t < nT && 0 <= f < nF && 0 <= a < nA && 0 <= d < nD
      ensures CellHolds(mode, jhj[t, f, a, d], jhr[t, f, a, d], Progress(points, nA, nD, i, k + 1, 0, t, f, a, d))
    {
      ProgressPoint(points, nF, nA, nD, i, k, dd, t, f, a, d);
    }
  }

  /** All points of the interval of flat index i, in order. */
  method AccumulateInterval(mode: CorrMode, jhj: array4<seq<seq<real>>>, jhr: array4<seq<real>>, points: seq<seq<seq<DataPoint>>>,
                            i: nat)
    requires InputFits(mode, jhj, jhr, points) && jhj.Length1 > 0 && i < jhj.Length0 * jhj.Length1
    requires Holds(mode, jhj, jhr, points, i, 0, 0)
    modifies jhj, jhr
    ensures Holds(mode, jhj, jhr, points, i + 1, 0, 0)
  {
    var nT, nF, nA, nD := jhj.Length0, jhj.Length1, jhj.Length2, jhj.Length3;
    assert Grid(points, nF, nA, nD);
    SplitIntervalBijective(nT, nF, i, 0, 0);
    var ti, fi := SplitInterval(i, nF).0, SplitInterval(i, nF).1;
    var n := |points[ti][fi]|;
    var k := 0;
    while k < n
      invariant 0 <= k <= n
      invariant InputFits(mode, jhj, jhr, points) && Holds(mode, jhj, jhr, points, i, k, 0)
    {
      AccumulatePoint(mode, jhj, jhr, points, i, k);
      k := k + 1;
    }
    HoldsInterval(mode, jhj, jhr, points, i);
  }

  /** Once every point of the interval of index i is added, the state
      counts the interval as complete. */
  lemma HoldsInterval(mode: CorrMode, jhj: array4<seq<seq<real>>>, jhr: array4<seq<real>>, points: seq<seq<seq<DataPoint>>>,
                      i: nat)
    requires InputFits(mode, jhj, jhr, points) && jhj.Length1 > 0 && SplitInterval(i, jhj.Length1).0 < jhj.Length0
    requires var s := SplitInterval(i, jhj.Length1); Holds(mode, jhj, jhr, points, i, |points[s.0][s.1]|, 0)
    ensures Holds(mode, jhj, jhr, points, i + 1, 0, 0)
  {
    var nT, nF, nA, nD := jhj.Length0, jhj.Length1, jhj.Length2, jhj.Length3;
    assert Grid(points, nF, nA, nD);
    forall t, f, a, d | 0 <= t < nT && 0 <= f < nF && 0 <= a < nA && 0 <= d < nD
      ensures CellHolds(mode, jhj[t, f, a, d], jhr[t, f, a, d], Progress(points, nA, nD, i + 1, 0, 0, t, f, a, d))
    {
      ProgressInterval(points, nF, nA, nD, i, t, f, a, d);
    }
  }

  /** `compute_jhj_jhr`: jhj and jhr are zeroed, then the solution
      intervals are visited in flat order, each split into (time interval,
      freq interval); within an interval the unflagged data points are
      visited in order and, for every gain direction, add their pq element
      to the cell of their first antenna and their qp element to that of
      their second. Every cell ends up holding the accumulation from zero
      of the elements it received (see `AccClosedForm` for its value). */
  method ComputeJhjJhr(mode: CorrMode, jhj: array4<seq<seq<real>>>, jhr: array4<seq<real>>, points: seq<seq<seq<DataPoint>>>)
    requires InputFits(mode, jhj, jhr, points)
    modifies jhj, jhr
    ensures forall t, f :: 0 <= t < jhj.Length0 && 0 <= f < jhj.Length1 ==> PointsFit(points[t][f], jhj.Length2, jhj.Length3)
    ensures forall t, f, a, d :: 0 <= t < jhj.Length0 && 0 <= f < jhj.Length1 && 0 <= a < jhj.Length2 && 0 <= d < jhj.Length3 ==>
      && jhj[t, f, a, d] == AccJhj(mode, ZeroJhj(mode), Contribs(points[t][f], a, d))
      && jhr[t, f, a, d] == AccJhr(mode, ZeroJhr(mode), Contribs(points[t][f], a, d))
  {
    var nT, nF, nA, nD := jhj.Length0, jhj.Length1, jhj.Length2, jhj.Length3;
    assert Grid(points, nF, nA, nD);
    MapCells(jhj, m => ZeroJhj(mode));
    MapCells(jhr, v => ZeroJhr(mode));
    forall t, f, a, d | 0 <= t < nT && 0 <= f < nF && 0 <= a < nA && 0 <= d < nD
      ensures Progress(points, nA, nD, 0, 0, 0, t, f, a, d) == []
    {
      ProgressInit(points, nF, nA, nD, t, f, a, d);
    }
    assert Holds(mode, jhj, jhr, points, 0, 0, 0) by {
      forall t, f, a, d | 0 <= t < nT && 0 <= f < nF && 0 <= a < nA && 0 <= d < nD
        ensures jhj[t, f, a, d] == AccJhj(mode, ZeroJhj(mode), Progress(points, nA, nD, 0, 0, 0, t, f, a, d))
        ensures jhr[t, f, a, d] == AccJhr(mode, ZeroJhr(mode), Progress(points, nA, nD, 0, 0, 0, t, f, a, d))
      {
        assert jhj[t, f, a, d] == ZeroJhj(mode) && jhr[t, f, a, d] == ZeroJhr(mode);
      }
    }
    var nInt := nT * nF;
    var i := 0;
    while i < nInt
      invariant 0 <= i <= nInt
      invariant Holds(mode, jhj, jhr, points, i, 0, 0)
    {
      AccumulateInterval(mode, jhj, jhr, points, i);
      i := i + 1;
    }
    forall t, f, a, d | 0 <= t < nT && 0 <= f < nF && 0 <= a < nA && 0 <= d < nD
      ensures Progress(points, nA, nD, nInt, 0, 0, t, f, a, d) == Contribs(points[t][f], a, d)
    {
      ProgressExit(points, nF, nA, nD, t, f, a, d);
    }
  }
}

=== FILE: flagging.dfy ===
/** Flag handling: the aggregate per-(row, channel) flag built from the flag
    columns and from data and weights that look broken, the flags written
    back at the end, the merge of MAD flags and the initial gain flags.

    Visibilities are complex; only their being exactly zero matters here,
    so a visibility is its pair of real components. The trailing
    correlation axis of a (row, channel, correlation) array is the vector
    held in each (row, channel) cell. */
module Flagging {

  datatype Visibility = Visibility(re: real, im: real)

  predicate IsZero(v: Visibility)
  {
    v.re == 0.0 && v.im == 0.0
  }

  /** Every (row, channel) cell of x holds a vector of nCorr entries. */
  predicate Shaped<T>(x: seq<seq<seq<T>>>, nRow: nat, nChan: nat, nCorr: nat)
  {
    |x| == nRow && forall r :: 0 <= r < nRow ==> |x[r]| == nChan && forall c :: 0 <= c < nChan ==> |x[r][c]| == nCorr
  }

  /** The inputs of `_initialise_flags`: data, weights and flags share their
      shape, there is one row flag per row, and the correlation axis is not
      empty (its first and last entries are read). */
  predicate FlagInputs(data: seq<seq<seq<Visibility>>>, weight: seq<seq<seq<real>>>, flag: seq<seq<seq<bool>>>,
                       flagRow: seq<bool>, nChan: nat, nCorr: nat)
  {
    nCorr > 0 && Shaped(data, |flagRow|, nChan, nCorr) && Shaped(weight, |flagRow|, nChan, nCorr) &&
    Shaped(flag, |flagRow|, nChan, nCorr)
  }

  /** The data of the first or the last correlation is exactly zero. */
  predicate MissingPoint(d: seq<Visibility>)
    requires |d| > 0
  {
    IsZero(d[0]) || IsZero(d[|d| - 1])
  }

  /** The weight of the first or the last correlation is zero. */
  predicate NoWeightPoint(w: seq<real>)
    requires |w| > 0
  {
    w[0] == 0.0 || w[|w| - 1] == 0.0
  }

  /** The rule `_initialise_flags` applies to one cell: flagged when any of
      its correlations or its row is flagged, when its data is missing, or
      when its weight is null. */
  predicate CellFlagged(data: seq<seq<seq<Visibility>>>, weight: seq<seq<seq<real>>>, flag: seq<seq<seq<bool>>>,
                        flagRow: seq<bool>, nChan: nat, nCorr: nat, r: nat, c: nat)
    requires FlagInputs(data, weight, flag, flagRow, nChan, nCorr) && r < |flagRow| && c < nChan
  {
    (exists k :: 0 <= k < nCorr && flag[r][c][k]) || flagRow[r] ||
    MissingPoint(data[r][c]) || NoWeightPoint(weight[r][c])
  }

  /** `np.any` over a correlation vector. */
  predicate Any(s: seq<bool>)
  {
    exists k :: 0 <= k < |s| && s[k]
  }

  /** `flags[mask] = True` on a (row, channel, correlation) array: every
      correlation of a masked cell becomes flagged; other cells keep their
      flags. */
  method SetMasked(flags: array2<seq<bool>>, mask: seq<seq<bool>>, nCorr: nat)
    requires |mask| == flags.Length0 && forall r :: 0 <= r < |mask| ==> |mask[r]| == flags.Length1
    requires forall r, c :: 0 <= r < flags.Length0 && 0 <= c < flags.Length1 ==> |flags[r, c]| == nCorr
    modifies flags
    ensures forall r, c :: 0 <= r < flags.Length0 && 0 <= c < flags.Length1 ==>
      flags[r, c] == if mask[r][c] then seq(nCorr, _ => true) else old(flags[r, c])
  {
    for r := 0 to flags.Length0
      invariant forall r', c :: 0 <= r' < flags.Length0 && 0 <= c < flags.Length1 ==>
        flags[r', c] == if r' < r && mask[r'][c] then seq(nCorr, _ => true) else old(flags[r', c])
    {
      for c := 0 to flags.Length1
        invariant forall r', c' :: 0 <= r' < flags.Length0 && 0 <= c' < flags.Length1 ==>
          flags[r', c'] == if (r' < r || (r' == r && c' < c)) && mask[r'][c'] then seq(nCorr, _ => true) else old(flags[r', c'])
      {
        if mask[r][c] {
          flags[r, c] := seq(nCorr, _ => true);
        }
      }
    }
  }

  /** The combined flags of one cell before the masked assignments: its
      flag vector or'ed with its row flag. */
  function Combined(cellFlags: seq<bool>, rowFlag: bool): (r: seq<bool>)
    ensures |r| == |cellFlags| && forall k :: 0 <= k < |r| ==> (r[k] <==> cellFlags[k] || rowFlag)
  {
    seq(|cellFlags|, k requires 0 <= k < |cellFlags| => cellFlags[k] || rowFlag)
  }

  /** `flag_col | flag_row_col[:, None, None]`, into a new array. */
  method CombineFlags(flag: seq<seq<seq<bool>>>, flagRow: seq<bool>, nChan: nat, nCorr: nat) returns (flags: array2<seq<bool>>)
    requires Shaped(flag, |flagRow|, nChan, nCorr)
    ensures fresh(flags) && flags.Length0 == |flagRow| && flags.Length1 == nChan
    ensures forall r, c :: 0 <= r < |flagRow| && 0 <= c < nChan ==> flags[r, c] == Combined(flag[r][c], flagRow[r])
  {
    flags := new seq<bool>[|flagRow|, nChan];
    for r := 0 to |flagRow|
      invariant forall r', c :: 0 <= r' < r && 0 <= c < nChan ==> flags[r', c] == Combined(flag[r'][c], flagRow[r'])
    {
      for c := 0 to nChan
        invariant forall r', c' :: 0 <= r' < |flagRow| && 0 <= c' < nChan && (r' < r || (r' == r && c' < c)) ==>
          flags[r', c'] == Combined(flag[r'][c'], flagRow[r'])
      {
        flags[r, c] := Combined(flag[r][c], flagRow[r]);
      }
    }
  }

  /** `np.any(flags, axis=-1).astype(np.int8)`, into a new array. */
  method AnyCorrelation(flags: array2<seq<bool>>) returns (result: array2<int>)
    ensures result.Length0 == flags.Length0 && result.Length1 == flags.Length1
    ensures forall r, c :: 0 <= r < flags.Length0 && 0 <= c < flags.Length1 ==>
      result[r, c] == if Any(flags[r, c]) then 1 else 0
  {
    result := new int[flags.Length0, flags.Length1];
    for r := 0 to flags.Length0
      invariant forall r', c :: 0 <= r' < r && 0 <= c < flags.Length1 ==> result[r', c] == if Any(flags[r', c]) then 1 else 0
    {
      for c := 0 to flags.Length1
        invariant forall r', c' :: 0 <= r' < flags.Length0 && 0 <= c' < flags.Length1 && (r' < r || (r' == r && c' < c)) ==>
          result[r', c'] == if Any(flags[r', c']) then 1 else 0
      {
        result[r, c] := if Any(flags[r, c]) then 1 else 0;
      }
    }
  }

  /** One cell through the two masked assignments and the reduction: it
      ends up flagged exactly when one of its correlations or its row was
      flagged, or when it was masked. */
  lemma CellOutcome(cellFlags: seq<bool>, rowFlag: bool, missing: bool, noWeight: bool, final: seq<bool>)
    requires |cellFlags| > 0
    requires final == if noWeight || missing then seq(|cellFlags|, _ => true) else Combined(cellFlags, rowFlag)
    ensures Any(final) <==> (exists k :: 0 <= k < |cellFlags| && cellFlags[k]) || rowFlag || missing || noWeight
  {
    if noWeight || missing || rowFlag {
      assert final[0];
    } else if Any(final) {
      var k :| 0 <= k < |final| && final[k];
      assert cellFlags[k];
    } else if exists k :: 0 <= k < |cellFlags| && cellFlags[k] {
      var k :| 0 <= k < |cellFlags| && cellFlags[k];
      assert final[k];
    }
  }

  /** `_initialise_flags`: the combined flags start as the flag column or'ed
      with the row flag, missing and null-weight points are then flagged on
      every correlation, and finally the correlation axis is reduced with
      `any` into 0/1 values. The result is 1 exactly at the cells
      `CellFlagged` selects, so no input flag is ever cleared and every
      missing or null-weight point is flagged. */
  method InitialiseFlags(data: seq<seq<seq<Visibility>>>, weight: seq<seq<seq<real>>>, flag: seq<seq<seq<bool>>>,
                         flagRow: seq<bool>, nChan: nat, nCorr: nat) returns (result: array2<int>)
    requires FlagInputs(data, weight, flag, flagRow, nChan, nCorr)
    ensures result.Length0 == |flagRow| && result.Length1 == nChan
    ensures forall r, c :: 0 <= r < |flagRow| && 0 <= c < nChan ==>
      result[r, c] == if CellFlagged(data, weight, flag, flagRow, nChan, nCorr, r, c) then 1 else 0
  {
    var nRow := |flagRow|;
    var flags := CombineFlags(flag, flagRow, nChan, nCorr);
    var missing := seq(nRow, r requires 0 <= r < nRow => seq(nChan, c requires 0 <= c < nChan => MissingPoint(data[r][c])));
    SetMasked(flags, missing, nCorr);
    var noWeight := seq(nRow, r requires 0 <= r < nRow => seq(nChan, c requires 0 <= c < nChan => NoWeightPoint(weight[r][c])));
    SetMasked(flags, noWeight, nCorr);
    result := AnyCorrelation(flags);
    forall r, c | 0 <= r < nRow && 0 <= c < nChan
      ensures result[r, c] == if CellFlagged(data, weight, flag, flagRow, nChan, nCorr, r, c) then 1 else 0
    {
      CellOutcome(flag[r][c], flagRow[r], missing[r][c], noWeight[r][c], flags[r, c]);
    }
  }

  /** The written FLAG entry of a cell: the temporary flag -1 is dropped to
      0 and any non-zero value then reads as true. */
  predicate Written(f: int)
  {
    (if f == -1 then 0 else f) != 0
  }

  /** `finalise_flags`: FLAG is each cell's written flag broadcast over the
      nCorr correlations, and FLAG_ROW is whether every FLAG entry of the
      row is set. */
  function FinaliseFlags(flag: seq<seq<int>>, nCorr: nat): (r: (seq<seq<seq<bool>>>, seq<bool>))
    ensures |r.0| == |flag| && |r.1| == |flag|
    ensures forall i :: 0 <= i < |flag| ==> |r.0[i]| == |flag[i]|
    ensures forall i, j :: 0 <= i < |flag| && 0 <= j < |flag[i]| ==> |r.0[i][j]| == nCorr
    ensures forall i, j, k :: 0 <= i < |flag| && 0 <= j < |flag[i]| && 0 <= k < nCorr ==>
      (r.0[i][j][k] <==> flag[i][j] != 0 && flag[i][j] != -1)
    ensures forall i :: 0 <= i < |flag| ==>
      (r.1[i] <==> forall j, k :: 0 <= j < |flag[i]| && 0 <= k < nCorr ==> r.0[i][j][k])
  {
    var full := seq(|flag|, i requires 0 <= i < |flag| =>
      seq(|flag[i]|, j requires 0 <= j < |flag[i]| => seq(nCorr, _ => Written(flag[i][j]))));
    var row := seq(|flag|, i requires 0 <= i < |flag| =>
      forall j, k :: 0 <= j < |flag[i]| && 0 <= k < nCorr ==> full[i][j][k]);
    (full, row)
  }

  /** With at least one correlation, a row is written as flagged exactly
      when every one of its cells is flagged, temporary flags counting as
      unflagged; in particular a row holding a temporary flag is never
      flagged as a whole. */
  lemma FlagRowOfCells(flag: seq<seq<int>>, nCorr: nat, i: nat)
    requires nCorr > 0 && i < |flag|
    ensures FinaliseFlags(flag, nCorr).1[i] <==> forall j :: 0 <= j < |flag[i]| ==> flag[i][j] != 0 && flag[i][j] != -1
    ensures (exists j :: 0 <= j < |flag[i]| && flag[i][j] == -1) ==> !FinaliseFlags(flag, nCorr).1[i]
  {
    var r := FinaliseFlags(flag, nCorr);
    if !r.1[i] {
      var j, k :| 0 <= j < |flag[i]| && 0 <= k < nCorr && !r.0[i][j][k];
      assert !(flag[i][j] != 0 && flag[i][j] != -1);
    } else {
      forall j | 0 <= j < |flag[i]| ensures flag[i][j] != 0 && flag[i][j] != -1 {
        assert r.0[i][j][0];
      }
    }
  }

  /** The merge of `add_mad_graph`: a point with a (non-zero) MAD flag
      becomes 1, every other point keeps its flag. */
  function MadMerge(madFlags: seq<seq<int>>, flag: seq<seq<int>>): (r: seq<seq<int>>)
    requires |madFlags| == |flag| && forall i :: 0 <= i < |flag| ==> |madFlags[i]| == |flag[i]|
    ensures |r| == |flag| && forall i :: 0 <= i < |r| ==> |r[i]| == |flag[i]|
    ensures forall i, j :: 0 <= i < |r| && 0 <= j < |r[i]| ==> r[i][j] == if madFlags[i][j] != 0 then 1 else flag[i][j]
  {
    seq(|flag|, i requires 0 <= i < |flag| =>
      seq(|flag[i]|, j requires 0 <= j < |flag[i]| => if madFlags[i][j] != 0 then 1 else flag[i][j]))
  }

  /** MAD flagging only adds flags: a set flag stays set, a changed point
      is one the MAD flags selected and it ends up flagged, and merging the
      same MAD flags again changes nothing. */
  lemma MadMergeOnlyAdds(madFlags: seq<seq<int>>, flag: seq<seq<int>>)
    requires |madFlags| == |flag| && forall i :: 0 <= i < |flag| ==> |madFlags[i]| == |flag[i]|
    ensures var r := MadMerge(madFlags, flag);
      (forall i, j :: 0 <= i < |r| && 0 <= j < |r[i]| && flag[i][j] == 1 ==> r[i][j] == 1) &&
      (forall i, j :: 0 <= i < |r| && 0 <= j < |r[i]| && r[i][j] != flag[i][j] ==> madFlags[i][j] != 0 && r[i][j] == 1) &&
      MadMerge(madFlags, r) == r
  {
    var r := MadMerge(madFlags, flag);
    var r2 := MadMerge(madFlags, r);
    assert forall i :: 0 <= i < |r| ==> r2[i] == r[i];
  }

  /** `_initialise_gainflags`: flags of the gain's shape (time, freq,
      antenna, direction, correlation), all zero whatever the empty
      intervals are. */
  function InitialiseGainFlags(nT: nat, nF: nat, nA: nat, nD: nat, nC: nat): (r: seq<seq<seq<seq<seq<nat>>>>>)
    ensures |r| == nT
    ensures forall t :: 0 <= t < nT ==> |r[t]| == nF
    ensures forall t, f :: 0 <= t < nT && 0 <= f < nF ==> |r[t][f]| == nA
    ensures forall t, f, a :: 0 <= t < nT && 0 <= f < nF && 0 <= a < nA ==> |r[t][f][a]| == nD
    ensures forall t, f, a, d :: 0 <= t < nT && 0 <= f < nF && 0 <= a < nA && 0 <= d < nD ==> |r[t][f][a][d]| == nC
    ensures forall t, f, a, d, c :: 0 <= t < nT && 0 <= f < nF && 0 <= a < nA && 0 <= d < nD && 0 <= c < nC ==>
      r[t][f][a][d][c] == 0
  {
    seq(nT, _ => seq(nF, _ => seq(nA, _ => seq(nD, _ => seq(nC, _ => 0)))))
  }
}

=== FILE: interpolants.dfy ===
/** Gap filling of gain parameters: `linterp`, a one-pass linear
    interpolation that extends with the nearest good value, and
    `_interpolate_missing`, which fills the missing (non-finite) values of a
    (time, frequency) grid first along time and then along frequency.

    Values are exact reals; a non-finite value is a missing one (`None`).
    The antenna, direction and correlation axes of the source's arrays
    only repeat the same computation on independent grids, so one grid is
    modelled. */
module Interpolants {
  import opened Common

  /** Strictly increasing coordinates. */
  predicate Increasing(s: seq<real>)
  {
    forall i, j :: 0 <= i < j < |s| ==> s[i] < s[j]
  }

  /** Non-decreasing query points. */
  predicate Ascending(s: seq<real>)
  {
    forall i, j :: 0 <= i < j < |s| ==> s[i] <= s[j]
  }

  /** The straight line through (x0, y0) and (x1, y1) at q, written as
      `linterp` evaluates it. */
  function Line(x0: real, x1: real, y0: real, y1: real, q: real): real
    requires x0 < x1
  {
    (y1 - y0) / (x1 - x0) * (q - x0) + y0
  }

  /** The value `linterp` gives query q, defined independently of its
      cursor loop: below the first sample the first value, above the last
      the last value, at a sample its value, and strictly between two
      neighbouring samples the straight line through them. */
  function Interp(x: seq<real>, y: seq<real>, q: real): real
    requires |x| > 0 && |y| == |x| && Increasing(x)
    decreases |x|
  {
    if q <= x[0] || |x| == 1 then y[0]
    else if q < x[1] then Line(x[0], x[1], y[0], y[1], q)
    else Interp(x[1..], y[1..], q)
  }

  /** From a sample at or below q onwards, the samples before it do not
      matter. */
  lemma {:induction false} InterpSuffix(x: seq<real>, y: seq<real>, q: real, j: nat)
    requires |x| > 0 && |y| == |x| && Increasing(x) && j < |x| && x[j] <= q
    ensures Interp(x, y, q) == Interp(x[j..], y[j..], q)
    decreases j
  {
    if j > 0 {
      assert x[0] < x[1] <= x[j];
      assert x[1..][j - 1..] == x[j..] && y[1..][j - 1..] == y[j..];
      InterpSuffix(x[1..], y[1..], q, j - 1);
    }
  }

  /** A query at sample j gets that sample's value. */
  lemma {:induction false} InterpAtSample(x: seq<real>, y: seq<real>, j: nat)
    requires |x| > 0 && |y| == |x| && Increasing(x) && j < |x|
    ensures Interp(x, y, x[j]) == y[j]
  {
    InterpSuffix(x, y, x[j], j);
  }

  /** Above the last sample the last value is kept. */
  lemma {:induction false} InterpAbove(x: seq<real>, y: seq<real>, q: real)
    requires |x| > 0 && |y| == |x| && Increasing(x) && q > x[|x| - 1]
    ensures Interp(x, y, q) == y[|y| - 1]
    decreases |x|
  {
    if |x| > 1 {
      InterpSuffix(x, y, q, |x| - 1);
      assert x[|x| - 1..] == [x[|x| - 1]] && y[|y| - 1..] == [y[|y| - 1]];
    }
  }

  /** Strictly between samples j and j + 1 the query gets the straight
      line through them. */
  lemma InterpBetween(x: seq<real>, y: seq<real>, q: real, j: nat)
    requires |x| > 0 && |y| == |x| && Increasing(x) && j + 1 < |x| && x[j] < q < x[j + 1]
    ensures Interp(x, y, q) == Line(x[j], x[j + 1], y[j], y[j + 1], q)
  {
    InterpSuffix(x, y, q, j);
    assert x[j..][1] == x[j + 1] && y[j..][1] == y[j + 1];
  }

  /** The line evaluated from a precomputed slope, as `linterp` does. */
  lemma LineBySlope(x0: real, x1: real, y0: real, y1: real, q: real, slope: real)
    requires x0 < x1 && slope == (y1 - y0) / (x1 - x0)
    ensures slope * (q - x0) + y0 == Line(x0, x1, y0, y1, q)
  {
  }

  /** The straight line between two samples stays between their values. */
  lemma LineBetween(x0: real, x1: real, y0: real, y1: real, q: real)
    requires x0 < q < x1
    ensures y0 <= y1 ==> y0 <= Line(x0, x1, y0, y1, q) <= y1
    ensures y1 <= y0 ==> y1 <= Line(x0, x1, y0, y1, q) <= y0
  {
    var d := x1 - x0;
    var t := (q - x0) / d;
    assert t * d == q - x0 < d;
    if t >= 1.0 {
      assert false;
    }
    assert 0.0 < t < 1.0;
    assert (y1 - y0) / d * (q - x0) == (y1 - y0) * t;
    if y0 <= y1 {
      assert 0.0 <= (y1 - y0) * t <= y1 - y0;
    } else {
      assert y1 - y0 <= (y1 - y0) * t <= 0.0;
    }
  }

  /** `linterp`: the two cursors xi (over the samples) and xxi (over the
      queries) move forward only; every step either answers query xxi and
      moves to the next query, or moves to the next sample. On strictly
      increasing samples and ascending queries every query is answered
      with `Interp`. */
  method Linterp(xx: seq<real>, x: seq<real>, y: seq<real>) returns (r: seq<real>)
    requires |x| > 0 && |y| == |x| && Increasing(x) && Ascending(xx)
    ensures |r| == |xx|
    ensures forall i :: 0 <= i < |xx| ==> r[i] == Interp(x, y, xx[i])
  {
    var xi := 0;
    var xxi := 0;
    var yy := new real[|xx|];
    var xxn := |xx|;
    while xxi < xxn
      invariant 0 <= xxi <= xxn && 0 <= xi < |x|
      invariant forall k :: 0 <= k < xxi ==> yy[k] == Interp(x, y, xx[k])
      invariant xxi < xxn && xi > 0 ==> x[xi] <= xx[xxi]
      decreases xxn - xxi + |x| - xi
    {
      var xxel := xx[xxi];
      var xel := x[xi];
      var answered := true;
      var v := 0.0;
      if xxel == xel {
        InterpAtSample(x, y, xi);
        v := y[xi];
        assert v == Interp(x, y, xxel);
      } else if xxel < x[0] {
        v := y[0];
        assert v == Interp(x, y, xxel);
      } else if xxel > x[|x| - 1] {
        InterpAbove(x, y, xxel);
        v := y[|y| - 1];
        assert v == Interp(x, y, xxel);
      } else if xxel > xel && xxel < x[xi + 1] {
        var slope := (y[xi + 1] - y[xi]) / (x[xi + 1] - xel);
        InterpBetween(x, y, xxel, xi);
        v := slope * (xxel - xel) + y[xi];
        LineBySlope(xel, x[xi + 1], y[xi], y[xi + 1], xxel, slope);
        assert v == Interp(x, y, xxel);
      } else {
        answered := false;
      }
      if answered {
        yy[xxi] := v;
        xxi := xxi + 1;
      } else {
        xi := xi + 1;
      }
    }
    r := yy[..];
  }

  /** Whether a series holds any finite value. */
  predicate HasFinite(col: seq<Option<real>>)
  {
    exists i :: 0 <= i < |col| && col[i].Some?
  }

  /** The positions from k on that hold a finite value, in increasing
      order: `good_data`. */
  function GoodIndices(col: seq<Option<real>>, k: nat): (g: seq<nat>)
    requires k <= |col|
    ensures forall i :: 0 <= i < |g| ==> k <= g[i] < |col| && col[g[i]].Some?
    ensures forall i, i' :: 0 <= i < i' < |g| ==> g[i] < g[i']
    ensures forall j :: k <= j < |col| && col[j].Some? ==> j in g
    decreases |col| - k
  {
    if k == |col| then []
    else
      var rest := GoodIndices(col, k + 1);
      if col[k].Some? then [k] + rest else rest
  }

  /** The finite points of a series, in order: `x[good_data]` and
      `y_sel[good_data]`; they are strictly increasing when the coordinates
      are, and there is at least one exactly when the series has a finite
      value. */
  function Finite(xs: seq<real>, col: seq<Option<real>>): (r: (seq<real>, seq<real>))
    requires |xs| == |col|
    ensures |r.0| == |r.1| && (|r.0| > 0 <==> HasFinite(col))
    ensures Increasing(xs) ==> Increasing(r.0)
  {
    var g := GoodIndices(col, 0);
    assert HasFinite(col) ==> |g| > 0 by {
      if HasFinite(col) {
        var j :| 0 <= j < |col| && col[j].Some?;
        assert j in g;
      }
    }
    assert |g| > 0 ==> col[g[0]].Some?;
    (seq(|g|, i requires 0 <= i < |g| => xs[g[i]]), seq(|g|, i requires 0 <= i < |g| => col[g[i]].value))
  }

  /** Every finite value of the series is one of its finite points, at
      its own coordinate. */
  lemma FiniteHas(xs: seq<real>, col: seq<Option<real>>, j: nat) returns (i: nat)
    requires |xs| == |col| && j < |col| && col[j].Some?
    ensures i < |Finite(xs, col).0| && Finite(xs, col).0[i] == xs[j] && Finite(xs, col).1[i] == col[j].value
  {
    var g := GoodIndices(col, 0);
    assert j in g;
    i :| 0 <= i < |g| && g[i] == j;
  }

  /** One series of `_interpolate_missing`: left as it is when nothing in
      it is finite, otherwise replaced by the interpolation of its finite
      points at every coordinate. */
  function FillSeries(xs: seq<real>, col: seq<Option<real>>): (r: seq<Option<real>>)
    requires |xs| == |col| && Increasing(xs)
    ensures |r| == |col|
  {
    if !HasFinite(col) then col
    else
      var f := Finite(xs, col);
      seq(|xs|, i requires 0 <= i < |xs| => Some(Interp(f.0, f.1, xs[i])))
  }

  /** A series with a finite value comes out with no missing value, and
      keeps each of its finite values. */
  lemma FillSeriesKeeps(xs: seq<real>, col: seq<Option<real>>, j: nat)
    requires |xs| == |col| && Increasing(xs) && j < |col|
    ensures HasFinite(col) ==> FillSeries(xs, col)[j].Some?
    ensures col[j].Some? ==> FillSeries(xs, col)[j] == col[j]
  {
    if col[j].Some? {
      var f := Finite(xs, col);
      var i := FiniteHas(xs, col, j);
      InterpAtSample(f.0, f.1, i);
    }
  }

  /** Every row holds nF values. */
  predicate Grid(y: seq<seq<Option<real>>>, nF: nat)
  {
    forall t :: 0 <= t < |y| ==> |y[t]| == nF
  }

  function Column(y: seq<seq<Option<real>>>, nF: nat, f: nat): (r: seq<Option<real>>)
    requires Grid(y, nF) && f < nF
    ensures |r| == |y| && forall t :: 0 <= t < |y| ==> r[t] == y[t][f]
  {
    seq(|y|, t requires 0 <= t < |y| => y[t][f])
  }

  /** The time pass: every frequency's time series filled. */
  function TimePass(x1: seq<real>, y: seq<seq<Option<real>>>, nF: nat): (r: seq<seq<Option<real>>>)
    requires Grid(y, nF) && |x1| == |y| && Increasing(x1)
    ensures |r| == |y| && Grid(r, nF)
    ensures forall t, f :: 0 <= t < |y| && 0 <= f < nF ==> r[t][f] == FillSeries(x1, Column(y, nF, f))[t]
  {
    seq(|y|, t requires 0 <= t < |y| => seq(nF, f requires 0 <= f < nF => FillSeries(x1, Column(y, nF, f))[t]))
  }

  /** The series of one time after the time pass, filled along frequency;
      zeroed when nothing in it is finite. */
  function FillOrZero(x2: seq<real>, row: seq<Option<real>>): (r: seq<Option<real>>)
    requires |x2| == |row| && Increasing(x2)
    ensures |r| == |row|
  {
    if HasFinite(row) then FillSeries(x2, row) else Repeat(Some(0.0), |row|)
  }

  /** The frequency pass. */
  function FreqPass(x2: seq<real>, z: seq<seq<Option<real>>>, nF: nat): (r: seq<seq<Option<real>>>)
    requires Grid(z, nF) && |x2| == nF && Increasing(x2)
    ensures |r| == |z| && Grid(r, nF)
    ensures forall t :: 0 <= t < |z| ==> r[t] == FillOrZero(x2, z[t])
  {
    seq(|z|, t requires 0 <= t < |z| => FillOrZero(x2, z[t]))
  }

  /** After both passes no value is missing, and every value that was
      finite in the input is still there. */
  lemma InterpolateMissingFills(x1: seq<real>, x2: seq<real>, y: seq<seq<Option<real>>>, nF: nat, t: nat, f: nat)
    requires Grid(y, nF) && |x1| == |y| && Increasing(x1) && |x2| == nF && Increasing(x2)
    requires t < |y| && f < nF
    ensures FreqPass(x2, TimePass(x1, y, nF), nF)[t][f].Some?
    ensures y[t][f].Some? ==> FreqPass(x2, TimePass(x1, y, nF), nF)[t][f] == y[t][f]
  {
    var z := TimePass(x1, y, nF);
    FillSeriesKeeps(x2, z[t], f);
    if y[t][f].Some? {
      FillSeriesKeeps(x1, Column(y, nF, f), t);
      assert z[t][f] == y[t][f];
    }
  }

  /** Writes one column of the grid. */
  method WriteColumn(yy: array2<Option<real>>, f: nat, vals: seq<Option<real>>)
    requires f < yy.Length1 && |vals| == yy.Length0
    modifies yy
    ensures forall t, f' :: 0 <= t < yy.Length0 && 0 <= f' < yy.Length1 ==>
      yy[t, f'] == if f' == f then vals[t] else old(yy[t, f'])
  {
    for t := 0 to yy.Length0
      invariant forall t', f' :: 0 <= t' < yy.Length0 && 0 <= f' < yy.Length1 ==>
        yy[t', f'] == if f' == f && t' < t then vals[t'] else old(yy[t', f'])
    {
      yy[t, f] := vals[t];
    }
  }

  /** Writes one row of the grid. */
  method WriteRow(yy: array2<Option<real>>, t: nat, vals: seq<Option<real>>)
    requires t < yy.Length0 && |vals| == yy.Length1
    modifies yy
    ensures forall t', f :: 0 <= t' < yy.Length0 && 0 <= f < yy.Length1 ==>
      yy[t', f] == if t' == t then vals[f] else old(yy[t', f])
  {
    for f := 0 to yy.Length1
      invariant forall t', f' :: 0 <= t' < yy.Length0 && 0 <= f' < yy.Length1 ==>
        yy[t', f'] == if t' == t && f' < f then vals[f'] else old(yy[t', f'])
    {
      yy[t, f] := vals[f];
    }
  }

  /** The interpolation of one series, computed with `Linterp`. */
  method FillSeriesBy(xs: seq<real>, col: seq<Option<real>>) returns (r: seq<Option<real>>)
    requires |xs| == |col| && Increasing(xs) && HasFinite(col)
    ensures r == FillSeries(xs, col)
  {
    var fin := Finite(xs, col);
    var filled := Linterp(xs, fin.0, fin.1);
    r := seq(|xs|, i requires 0 <= i < |xs| => Some(filled[i]));
  }

  /** The time pass on a copy: frequency f's series is read from the input
      and written over the copy's column f; a series with nothing finite
      is skipped. */
  method TimePassInto(x1: seq<real>, y: seq<seq<Option<real>>>, yy: array2<Option<real>>)
    requires Grid(y, yy.Length1) && |x1| == |y| == yy.Length0 && Increasing(x1)
    requires forall t, f :: 0 <= t < yy.Length0 && 0 <= f < yy.Length1 ==> yy[t, f] == y[t][f]
    modifies yy
    ensures forall t, f :: 0 <= t < yy.Length0 && 0 <= f < yy.Length1 ==> yy[t, f] == TimePass(x1, y, yy.Length1)[t][f]
  {
    var nT, nF := yy.Length0, yy.Length1;
    for f := 0 to nF
      invariant forall t, f' :: 0 <= t < nT && 0 <= f' < nF ==>
        yy[t, f'] == if f' < f then FillSeries(x1, Column(y, nF, f'))[t] else y[t][f']
    {
      var col := Column(y, nF, f);
      if HasFinite(col) {
        var filled := FillSeriesBy(x1, col);
        WriteColumn(yy, f, filled);
      }
    }
  }

  /** The frequency pass in place: each time's series is read from the
      array (after the time pass) and overwritten, with zeros when nothing
      in it is finite. */
  method FreqPassInto(x2: seq<real>, yy: array2<Option<real>>, ghost z: seq<seq<Option<real>>>)
    requires Grid(z, yy.Length1) && |z| == yy.Length0 && |x2| == yy.Length1 && Increasing(x2)
    requires forall t, f :: 0 <= t < yy.Length0 && 0 <= f < yy.Length1 ==> yy[t, f] == z[t][f]
    modifies yy
    ensures forall t, f :: 0 <= t < yy.Length0 && 0 <= f < yy.Length1 ==> yy[t, f] == FreqPass(x2, z, yy.Length1)[t][f]
  {
    var nT, nF := yy.Length0, yy.Length1;
    for t := 0 to nT
      invariant forall t', f :: 0 <= t' < nT && 0 <= f < nF ==>
        yy[t', f] == if t' < t then FillOrZero(x2, z[t'])[f] else z[t'][f]
    {
      var row := seq(nF, f requires 0 <= f < nF reads yy => yy[t, f]);
      assert row == z[t];
      if !HasFinite(row) {
        WriteRow(yy, t, Repeat(Some(0.0), nF));
      } else {
        var filled := FillSeriesBy(x2, row);
        WriteRow(yy, t, filled);
      }
    }
  }

  /** `_interpolate_missing`: a copy of the grid, filled along time and
      then along frequency. The input is not changed, the result has its
      shape and equals the two passes applied in turn; by
      `InterpolateMissingFills` it has no missing value and keeps every
      finite input value. */
  method InterpolateMissing(x1: seq<real>, x2: seq<real>, y: seq<seq<Option<real>>>) returns (r: seq<seq<Option<real>>>)
    requires Grid(y, |x2|) && |x1| == |y| && Increasing(x1) && Increasing(x2)
    ensures r == FreqPass(x2, TimePass(x1, y, |x2|), |x2|)
  {
    var nT, nF := |x1|, |x2|;
    var yy := new Option<real>[nT, nF]((t, f) requires 0 <= t < nT && 0 <= f < nF => y[t][f]);
    TimePassInto(x1, y, yy);
    ghost var z := TimePass(x1, y, nF);
    FreqPassInto(x2, yy, z);
    r := seq(nT, t requires 0 <= t < nT reads yy => seq(nF, f requires 0 <= f < nF reads yy => yy[t, f]));
    ghost var spec := FreqPass(x2, z, nF);
    forall t | 0 <= t < nT ensures r[t] == spec[t] {
      assert forall f :: 0 <= f < nF ==> r[t][f] == spec[t][f];
    }
  }
}

=== FILE: ms_handler.dfy ===
/** The measurement-set handling rules that decide how the data is cut into
    time chunks, and the validity checks applied to the measurement set's
    sub-tables before any data is read. */
module MsHandler {
  import opened Common

  /** `input_ms_time_chunk`: an integer counts unique times, a float is a
      duration in seconds. */
  datatype TimeChunk = Count(n: nat) | Duration(seconds: real)

  /** Chunking of one data set: unique times per chunk and rows per chunk. */
  datatype Chunking = Chunking(utimeChunks: seq<nat>, rowChunks: seq<int>)

  // ---------------------------------------------------------------------
  // Unique times: `np.unique(time_col, return_counts=True, return_index=True)`

  /** `ucounts`: the row count of each distinct time, in increasing order of
      the times (the run lengths of the sorted column). On a column that is
      already sorted, as the reader delivers it by indexing on TIME, they are
      the run lengths of the column itself. */
  function UniqueTimeCounts(times: seq<real>): (r: seq<nat>)
    ensures (times != [] <==> r != []) && Sum(r) == |times|
    ensures forall k :: 0 <= k < |r| ==> r[k] >= 1
    ensures SortedR(times) ==> r == RunLengths(times)
  {
    SortRealsSorted(times);
    RunLengths(SortReals(times))
  }

  /** The value at the start of each run of a permutation of t is a value
      of t. */
  lemma RunStartsIn(s: seq<real>, t: seq<real>)
    requires multiset(s) == multiset(t)
    ensures forall k :: 0 <= k < |RunLengths(s)| ==>
      Starts(RunLengths(s))[k] < |s| && s[Starts(RunLengths(s))[k]] in t
  {
    forall k | 0 <= k < |RunLengths(s)|
      ensures Starts(RunLengths(s))[k] < |s| && s[Starts(RunLengths(s))[k]] in t
    {
      RunInside(s, k);
      assert s[Starts(RunLengths(s))[k]] in multiset(s);
    }
  }

  /** `utimes`: the distinct times in increasing order, one per count. */
  function UniqueTimes(times: seq<real>): (r: seq<real>)
    ensures |r| == |UniqueTimeCounts(times)|
    ensures forall k :: 0 <= k < |r| ==> r[k] in times
    ensures SortedR(times) ==> forall k :: 0 <= k < |r| ==>
      Starts(RunLengths(times))[k] < |times| && r[k] == times[Starts(RunLengths(times))[k]]
  {
    var sorted := SortReals(times);
    var c := RunLengths(sorted);
    SortRealsSorted(times);
    RunStartsIn(sorted, times);
    seq(|c|, k requires 0 <= k < |c| => sorted[Starts(c)[k]])
  }

  /** `uinds`: the first row holding each distinct time. On a sorted column
      these are the starts of its runs. */
  function UniqueIndices(times: seq<real>): (r: seq<nat>)
    ensures |r| == |UniqueTimeCounts(times)|
    ensures forall k :: 0 <= k < |r| ==>
      r[k] < |times| && times[r[k]] == UniqueTimes(times)[k] &&
      forall j :: 0 <= j < r[k] ==> times[j] != UniqueTimes(times)[k]
    ensures SortedR(times) ==> r == Starts(RunLengths(times))
  {
    var u := UniqueTimes(times);
    var r := seq(|u|, k requires 0 <= k < |u| => FirstIndex(times, u[k]));
    assert SortedR(times) ==> forall k :: 0 <= k < |r| ==> r[k] == Starts(RunLengths(times))[k] by {
      if SortedR(times) {
        forall k | 0 <= k < |r| ensures r[k] == Starts(RunLengths(times))[k] {
          RunStartFirst(times, k);
        }
      }
    }
    r
  }

  // ---------------------------------------------------------------------
  // Integer chunking

  /** The unique-time chunk sizes of integer chunking: `n / tc` full chunks
      followed by the remainder, when there is one. */
  function IntegerUtimeChunks(n: nat, tc: nat): (r: seq<nat>)
    requires tc > 0
    ensures |r| == CeilDiv(n, tc)
    ensures forall k :: 0 <= k < |r| ==> 1 <= r[k] <= tc
    ensures forall k :: 0 <= k < |r| - 1 ==> r[k] == tc
    ensures forall k :: 0 <= k < |r| ==> r[..k] == Repeat(tc, k)
  {
    var full := Repeat(tc, n / tc);
    var r := full + (if n % tc != 0 then [n % tc] else []);
    assert forall k :: 0 <= k < |r| ==> r[..k] == full[..k];
    r
  }

  /** Integer chunks add up to all unique times. */
  lemma IntegerUtimeChunksSum(n: nat, tc: nat)
    requires tc > 0
    ensures Sum(IntegerUtimeChunks(n, tc)) == n
  {
    var r := IntegerUtimeChunks(n, tc);
    var q := n / tc;
    var full := Repeat(tc, q);
    var tail := if n % tc != 0 then [n % tc] else [];
    assert r == full + tail;
    SumAppend(full, tail);
    SumRepeat(tc, q);
    assert Sum(tail) == n % tc by {
      if n % tc != 0 {
        assert Sum(tail) == n % tc + Sum(tail[1..]);
      }
    }
    DivMod(n, tc);
  }

  /** Chunk k starts at unique time `k * tc`, which is what
      `arange(0, n, tc)` enumerates. */
  lemma IntegerUtimeChunksStarts(n: nat, tc: nat)
    requires tc > 0
    ensures Starts(IntegerUtimeChunks(n, tc)) == Arange(n, tc)
  {
    var r := IntegerUtimeChunks(n, tc);
    var st := Starts(r);
    var a := Arange(n, tc);
    forall k | 0 <= k < |r| ensures st[k] == a[k] {
      var prefix: seq<int> := r[..k];
      assert prefix == Repeat<int>(tc, k);
      SumRepeat(tc, k);
      assert st[k] == Sum(prefix) == tc * k;
      assert a[k] == k * tc;
    }
  }

  /** The effective chunk length: a time chunk of 0 means "all unique times". */
  function EffectiveChunk(timeChunk: nat, nUtime: nat): nat
  {
    if timeChunk == 0 then nUtime else timeChunk
  }

  /** `np.add.reduceat` at `arange(0, n, tc)` sums the row counts of each
      integer chunk of unique times, and all of them together. */
  lemma IntegerChunkRows(ucounts: seq<int>, tc: nat)
    requires tc > 0
    ensures ValidStarts(Arange(|ucounts|, tc), |ucounts|)
    ensures ChunkSums(ucounts, IntegerUtimeChunks(|ucounts|, tc), ReduceAt(ucounts, Arange(|ucounts|, tc)))
    ensures Sum(ReduceAt(ucounts, Arange(|ucounts|, tc))) == Sum(ucounts)
  {
    var n := |ucounts|;
    if n > 0 {
      IntegerUtimeChunksSum(n, tc);
      IntegerUtimeChunksStarts(n, tc);
      ReduceAtChunks(ucounts, IntegerUtimeChunks(n, tc));
    } else {
      assert Arange(n, tc) == [];
      assert ucounts == [];
    }
  }

  /** `integer_chunking`: groups the distinct times of a TIME column, in
      increasing order, into chunks of `timeChunk` unique times (all of them
      for 0) and counts the rows of each chunk. A time chunk of
      0 on a column with no unique times leaves 0 as the divisor, which is
      the error case; any other chunk length on an empty column gives no
      chunks at all. */
  function IntegerChunking(times: seq<real>, timeChunk: nat): (r: Result<Chunking>)
    ensures r.Ok? <==> |times| > 0 || timeChunk > 0
    ensures r.Ok? && |times| == 0 ==> r.value == Chunking([], [])
    ensures r.Ok? ==>
      var ucounts := UniqueTimeCounts(times);
      && r.value.utimeChunks == IntegerUtimeChunks(|ucounts|, EffectiveChunk(timeChunk, |ucounts|))
      && (timeChunk == 0 ==> r.value.utimeChunks == [|ucounts|])
      && Sum(r.value.utimeChunks) == |ucounts|
      && ChunkSums(ucounts, r.value.utimeChunks, r.value.rowChunks)
      && Sum(r.value.rowChunks) == |times|
  {
    var ucounts := UniqueTimeCounts(times);
    var n := |ucounts|;
    var tc := EffectiveChunk(timeChunk, n);
    if tc == 0 then Err("integer division by zero: no unique times")
    else
      var utime := IntegerUtimeChunks(n, tc);
      IntegerUtimeChunksSum(n, tc);
      IntegerChunkRows(ucounts, tc);
      var rows := ReduceAt(ucounts, Arange(n, tc));
      assert timeChunk == 0 ==> utime == [n] by {
        if timeChunk == 0 {
          assert |utime| == 1;
        }
      }
      Ok(Chunking(utime, rows))
  }

  /** Sorting the column [1, 2, 1]. */
  lemma UnsortedSorted()
    ensures SortReals([1.0, 2.0, 1.0]) == [1.0, 1.0, 2.0]
  {
    assert SortReals([1.0]) == [1.0];
    assert InsertSortedR(2.0, [1.0]) == [1.0, 2.0] by {
      assert InsertSortedR(2.0, []) == [2.0];
    }
    assert SortReals([2.0, 1.0]) == [1.0, 2.0];
    assert InsertSortedR(1.0, [1.0, 2.0]) == [1.0, 1.0, 2.0];
  }

  /** The column [1, 2, 1] holds the distinct times 1 (twice) and 2. */
  lemma UnsortedCounts()
    ensures UniqueTimeCounts([1.0, 2.0, 1.0]) == [2, 1]
  {
    UnsortedSorted();
    var sorted := [1.0, 1.0, 2.0];
    assert RunEnd(sorted, 0) == 2;
    assert RunEnd(sorted, 2) == 3;
    assert RunsFrom(sorted, 3) == [];
    assert RunsFrom(sorted, 2) == [1];
  }

  /** One chunk over the counts [2, 1] holds 3 rows. */
  lemma OneChunkRows()
    ensures Arange(2, 2) == [0] && ReduceAt([2, 1], [0]) == [3]
  {
    var counts: seq<int> := [2, 1];
    assert SliceEnd([0], 2, 0) == 2;
    assert counts[0..2] == counts;
    assert Slices(counts, [0])[0] == counts;
    assert Sum(counts) == 3;
  }

  /** Unique times are counted by value, not by run: a time that comes back
      later in the column joins its first occurrence. */
  lemma IntegerChunkingUnsorted()
    ensures IntegerChunking([1.0, 2.0, 1.0], 0) == Ok(Chunking([2], [3]))
  {
    UnsortedCounts();
    OneChunkRows();
    assert IntegerUtimeChunks(2, 2) == [2];
  }

  // ---------------------------------------------------------------------
  // Interval (duration) chunking

  /** The INTERVAL of the first row of each unique time (`interval_col[uinds]`). */
  function UniqueIntervals(times: seq<real>, intervals: seq<real>): (r: seq<real>)
    requires |times| == |intervals|
    ensures |r| == |UniqueTimeCounts(times)|
    ensures forall k :: 0 <= k < |r| ==> r[k] in intervals
    ensures SortedR(times) ==> forall k :: 0 <= k < |r| ==>
      Starts(RunLengths(times))[k] < |intervals| && r[k] == intervals[Starts(RunLengths(times))[k]]
  {
    var uinds := UniqueIndices(times);
    seq(|uinds|, k requires 0 <= k < |uinds| => intervals[uinds[k]])
  }

  /** `np.cumsum(u) - np.cumsum(u)[0]`: the elapsed interval since the first
      unique time. */
  function CumulativeInterval(u: seq<real>): (r: seq<real>)
    requires |u| > 0
    ensures |r| == |u|
  {
    seq(|u|, i requires 0 <= i < |u| => SumR(u[..i + 1]) - SumR(u[..1]))
  }

  /** The smallest int32, which the x86 conversion of a double to int32
      also gives for nan, the infinities and every value out of range. */
  const Int32Min: int := -0x8000_0000

  /** `astype(np.int32)` of an integral double, as the x86 conversion does it. */
  function CastInt32(x: int): (r: int)
    ensures Int32Min <= r < 0x8000_0000
    ensures Int32Min <= x < 0x8000_0000 <==> r == x
  {
    if Int32Min <= x < 0x8000_0000 then x else Int32Min
  }

  /** `(cum // time_chunk).astype(np.int32)` for one unique time: the floor
      for a non-zero duration; dividing by a duration of 0 gives nan or an
      infinity, which the cast turns into the smallest int32. */
  function ChunkIndex(cum: real, timeChunk: real): int
  {
    if timeChunk == 0.0 then Int32Min else CastInt32((cum / timeChunk).Floor)
  }

  /** The chunk each unique time falls in. */
  function IntervalChunkMap(times: seq<real>, intervals: seq<real>, timeChunk: real): (r: seq<int>)
    requires |times| == |intervals| && |times| > 0
    ensures |r| == |UniqueTimeCounts(times)| && r != []
    ensures timeChunk == 0.0 ==> forall i :: 0 <= i < |r| ==> r[i] == r[0]
  {
    var cum := CumulativeInterval(UniqueIntervals(times, intervals));
    seq(|cum|, i requires 0 <= i < |cum| => ChunkIndex(cum[i], timeChunk))
  }

  lemma {:induction false} SumRPrefixMono(u: seq<real>, i: nat, j: nat)
    requires i <= j <= |u|
    requires forall k :: 0 <= k < |u| ==> u[k] >= 0.0
    ensures SumR(u[..i]) <= SumR(u[..j])
  {
    assert u[..j] == u[..i] + u[i..j];
    SumRAppend(u[..i], u[i..j]);
    SumRNonNeg(u[i..j]);
  }

  lemma {:induction false} SumRNonNeg(u: seq<real>)
    requires forall k :: 0 <= k < |u| ==> u[k] >= 0.0
    ensures SumR(u) >= 0.0
  {
    if u != [] {
      SumRNonNeg(u[1..]);
    }
  }

  lemma FloorMono(x: real, y: real, c: real)
    requires x <= y && c > 0.0
    ensures (x / c).Floor <= (y / c).Floor
  {
    assert x / c <= y / c by {
      assert y / c - x / c == (y - x) / c;
    }
  }

  /** A non-negative value below `b * c` floors, after division by c, into [0, b). */
  lemma FloorBelow(x: real, b: real, c: real)
    requires 0.0 <= x < b * c && c > 0.0
    ensures 0 <= (x / c).Floor && (x / c).Floor as real < b
  {
    assert x / c < b by {
      assert b - x / c == (b * c - x) / c;
    }
  }

  /** The total of the unique intervals. */
  function TotalInterval(times: seq<real>, intervals: seq<real>): real
    requires |times| == |intervals|
  {
    SumR(UniqueIntervals(times, intervals))
  }

  /** With non-negative intervals, a positive duration and fewer than 2^31
      durations in the total interval, the chunk map never decreases, so
      equal chunk indices are contiguous and `np.unique`'s counts are the run
      lengths of the map. */
  lemma ChunkMapSorted(times: seq<real>, intervals: seq<real>, timeChunk: real)
    requires |times| == |intervals| && |times| > 0 && timeChunk > 0.0
    requires forall k :: 0 <= k < |intervals| ==> intervals[k] >= 0.0
    requires TotalInterval(times, intervals) < 2147483648.0 * timeChunk
    ensures Sorted(IntervalChunkMap(times, intervals, timeChunk))
  {
    var u := UniqueIntervals(times, intervals);
    var cum := CumulativeInterval(u);
    var m := IntervalChunkMap(times, intervals, timeChunk);
    assert forall k :: 0 <= k < |u| ==> u[k] >= 0.0;
    forall i | 0 <= i < |m| ensures m[i] == (cum[i] / timeChunk).Floor {
      SumRPrefixMono(u, 1, i + 1);
      SumRPrefixMono(u, i + 1, |u|);
      SumRNonNeg(u[..1]);
      assert u[..|u|] == u;
      FloorBelow(cum[i], 2147483648.0, timeChunk);
    }
    forall i, j | 0 <= i < j < |m| ensures m[i] <= m[j] {
      SumRPrefixMono(u, i + 1, j + 1);
      FloorMono(cum[i], cum[j], timeChunk);
    }
  }

  /** `interval_chunking`: unique time i goes to chunk `floor(cum_i /
      time_chunk)`; each chunk index that occurs gives one chunk, whose size
      is the number of unique times with that index (in increasing order of
      the index), and the rows of consecutive unique times are counted chunk
      by chunk. When the map never decreases (`ChunkMapSorted`) the chunks
      are its runs; a duration of 0 puts everything in one chunk. An empty
      TIME column makes the source index an empty array, which is the error
      case. */
  function IntervalChunking(times: seq<real>, intervals: seq<real>, timeChunk: real): (r: Result<Chunking>)
    requires |times| == |intervals|
    ensures r.Ok? <==> |times| > 0
    ensures r.Ok? ==>
      var ucounts := UniqueTimeCounts(times);
      && r.value.utimeChunks == UniqueCounts(IntervalChunkMap(times, intervals, timeChunk))
      && (timeChunk == 0.0 ==> r.value.utimeChunks == [|ucounts|])
      && Sum(r.value.utimeChunks) == |ucounts|
      && ChunkSums(ucounts, r.value.utimeChunks, r.value.rowChunks)
      && Sum(r.value.rowChunks) == |times|
  {
    if |times| == 0 then Err("index 0 is out of bounds: empty TIME column")
    else
      var ucounts := UniqueTimeCounts(times);
      var utime := UniqueCounts(IntervalChunkMap(times, intervals, timeChunk));
      ReduceAtChunks(ucounts, utime);
      Ok(Chunking(utime, ReduceAt(ucounts, Starts(utime))))
  }

  /** Interval chunks are contiguous ranges of unique times, one per chunk
      index, and their chunk indices strictly increase. */
  lemma IntervalChunksOrdered(times: seq<real>, intervals: seq<real>, timeChunk: real, k: nat)
    requires |times| == |intervals| && |times| > 0 && timeChunk > 0.0
    requires forall i :: 0 <= i < |intervals| ==> intervals[i] >= 0.0
    requires TotalInterval(times, intervals) < 2147483648.0 * timeChunk
    requires k + 1 < |IntervalChunking(times, intervals, timeChunk).value.utimeChunks|
    ensures
      var m := IntervalChunkMap(times, intervals, timeChunk);
      var st := Starts(IntervalChunking(times, intervals, timeChunk).value.utimeChunks);
      st[k] < st[k + 1] < |m| && m[st[k]] < m[st[k + 1]]
  {
    var m := IntervalChunkMap(times, intervals, timeChunk);
    ChunkMapSorted(times, intervals, timeChunk);
    assert UniqueCounts(m) == RunLengths(m);
    RunsIncrease(m, k);
  }

  /** Every unique time of interval chunk k has the chunk's index. */
  lemma IntervalChunkConstant(times: seq<real>, intervals: seq<real>, timeChunk: real, k: nat, j: nat)
    requires |times| == |intervals| && |times| > 0 && timeChunk > 0.0
    requires forall i :: 0 <= i < |intervals| ==> intervals[i] >= 0.0
    requires TotalInterval(times, intervals) < 2147483648.0 * timeChunk
    requires
      var sizes := IntervalChunking(times, intervals, timeChunk).value.utimeChunks;
      k < |sizes| && Starts(sizes)[k] <= j < Starts(sizes)[k] + sizes[k]
    ensures
      var m := IntervalChunkMap(times, intervals, timeChunk);
      var st := Starts(IntervalChunking(times, intervals, timeChunk).value.utimeChunks);
      j < |m| && st[k] < |m| && m[j] == m[st[k]]
  {
    var m := IntervalChunkMap(times, intervals, timeChunk);
    ChunkMapSorted(times, intervals, timeChunk);
    assert UniqueCounts(m) == RunLengths(m);
    RunConstant(m, k, j);
  }

  /** `compute_chunking` for one data set: the option's type selects the rule. */
  function ComputeChunking(tc: TimeChunk, times: seq<real>, intervals: seq<real>): (r: Result<Chunking>)
    requires |times| == |intervals|
    ensures r.Ok? <==> |times| > 0 || (tc.Count? && tc.n > 0)
    ensures r.Ok? ==> Sum(r.value.rowChunks) == |times| && |r.value.rowChunks| == |r.value.utimeChunks|
    ensures r.Ok? ==> Sum(r.value.utimeChunks) == |UniqueTimeCounts(times)|
  {
    match tc
    case Count(n) => IntegerChunking(times, n)
    case Duration(d) => IntervalChunking(times, intervals, d)
  }

  // ---------------------------------------------------------------------
  // Sub-table checks of `read_xds_list`

  /** Only 1, 2 or 4 correlations are supported. */
  function CheckCorrelationCount(nCorr: nat): (r: Result<nat>)
    ensures r.Ok? <==> nCorr in {1, 2, 4}
    ensures r.Ok? ==> r.value == nCorr
  {
    if nCorr == 1 || nCorr == 2 || nCorr == 4 then Ok(nCorr)
    else Err("Measurement set contains an unsupported number of correlations.")
  }

  datatype FeedType = Linear | Circular

  /** The feed type from the unique POLARIZATION_TYPE values: linear when all
      of them are in "XxYy", otherwise circular when all are in "LlRr",
      otherwise an error. Linear is tried first. */
  function DetermineFeedType(feeds: seq<string>): (r: Result<FeedType>)
    ensures r == Ok(Linear) <==> (forall i :: 0 <= i < |feeds| ==> IsSubstring(feeds[i], "XxYy"))
    ensures r == Ok(Circular) <==>
      (!(forall i :: 0 <= i < |feeds| ==> IsSubstring(feeds[i], "XxYy")) &&
       (forall i :: 0 <= i < |feeds| ==> IsSubstring(feeds[i], "LlRr")))
    ensures r.Err? <==>
      ((exists i :: 0 <= i < |feeds| && !IsSubstring(feeds[i], "XxYy")) &&
       (exists i :: 0 <= i < |feeds| && !IsSubstring(feeds[i], "LlRr")))
  {
    if forall i :: 0 <= i < |feeds| ==> IsSubstring(feeds[i], "XxYy") then Ok(Linear)
    else if forall i :: 0 <= i < |feeds| ==> IsSubstring(feeds[i], "LlRr") then Ok(Circular)
    else Err("Unsupported feed type/configuration.")
  }

  /** A single-letter feed is linear exactly for X, x, Y, y and circular
      exactly for L, l, R, r. */
  lemma SingleLetterFeeds(c: char)
    ensures IsSubstring([c], "XxYy") <==> c in {'X', 'x', 'Y', 'y'}
    ensures IsSubstring([c], "LlRr") <==> c in {'L', 'l', 'R', 'r'}
  {
    SingleLetterIn(c, "XxYy");
    SingleLetterIn(c, "LlRr");
  }

  lemma SingleLetterIn(c: char, b: string)
    ensures IsSubstring([c], b) <==> c in b
  {
    if c in b {
      var i :| 0 <= i < |b| && b[i] == c;
      assert [c] <= b[i..];
    }
    if IsSubstring([c], b) {
      var i :| 0 <= i <= |b| && [c] <= b[i..];
      assert b[i] == c;
    }
  }

  /** `str.lower` on ASCII letters; other characters are unchanged. */
  function LowerChar(c: char): char
  {
    if 'A' <= c <= 'Z' then (c as int + 32) as char else c
  }

  function Lower(s: string): (r: string)
    ensures |r| == |s| && forall i :: 0 <= i < |s| ==> r[i] == LowerChar(s[i])
  {
    seq(|s|, i requires 0 <= i < |s| => LowerChar(s[i]))
  }

  /** Unity weights are used when the weight column is named "unity" in any
      case, or when the named column is not among the data set's columns. */
  function UseUnityWeights(weightColumn: string, columns: seq<string>): (r: bool)
    ensures r <==> Lower(weightColumn) == "unity" || weightColumn !in columns
  {
    Lower(weightColumn) == "unity" || weightColumn !in columns
  }

  datatype CorrMode = Diag | Full | Other(name: string)

  /** The correlations kept by `input_ms_correlation_mode`: "diag" on four
      correlations keeps 0 and 3, "full" needs four correlations, and every
      other case keeps all of them. */
  function SelectCorrelations(mode: CorrMode, nCorr: nat): (r: Result<seq<nat>>)
    ensures mode == Diag && nCorr == 4 ==> r == Ok([0, 3])
    ensures r.Err? <==> mode == Full && nCorr != 4
    ensures r.Ok? && !(mode == Diag && nCorr == 4) ==> r.value == Identity(nCorr)
  {
    if mode == Diag && nCorr == 4 then Ok([0, 3])
    else if mode == Full && nCorr != 4 then
      Err("--input-ms-correlation-mode was set to full, but the measurement set has fewer correlations")
    else Ok(Identity(nCorr))
  }

  /** `range(n)`. */
  function Identity(n: nat): (r: seq<nat>)
    ensures |r| == n && forall i :: 0 <= i < n ==> r[i] == i
  {
    seq(n, i => i)
  }

  /** `preprocess_xds_list`: wherever the (row, chan) cell is flagged its
      weights become 0; everywhere else they are kept. */
  function ZeroFlaggedWeights(flags: seq<seq<bool>>, weights: seq<seq<seq<real>>>): (r: seq<seq<seq<real>>>)
    requires |flags| == |weights| && forall i :: 0 <= i < |flags| ==> |flags[i]| == |weights[i]|
    ensures |r| == |weights|
    ensures forall i :: 0 <= i < |r| ==> |r[i]| == |weights[i]|
    ensures forall i, j :: 0 <= i < |r| && 0 <= j < |r[i]| ==> |r[i][j]| == |weights[i][j]|
    ensures forall i, j, k :: 0 <= i < |r| && 0 <= j < |r[i]| && 0 <= k < |r[i][j]| ==>
      r[i][j][k] == (if flags[i][j] then 0.0 else weights[i][j][k])
  {
    seq(|weights|, i requires 0 <= i < |weights| =>
      seq(|weights[i]|, j requires 0 <= j < |weights[i]| =>
        if flags[i][j] then Repeat(0.0, |weights[i][j]|) else weights[i][j]))
  }
}

=== FILE: parameterized_gain.dfy ===
/** What the parameterised gain terms (rotation measure, delay) share: their
    gains are evaluated in every channel, so their frequency map is the
    channel index itself. */
module ParameterizedGain {
  import opened Common

  /** `_make_freq_map`: channel i maps to gain channel i, whatever the
      channel widths and the frequency interval are. */
  function MakeFreqMap(chanFreqs: seq<real>, chanWidths: seq<real>, freqInterval: real): (r: seq<nat>)
    ensures |r| == |chanFreqs|
    ensures forall i :: 0 <= i < |r| ==> r[i] == i
  {
    seq(|chanFreqs|, i => i)
  }

  /** The map depends on the number of channels only. */
  lemma MakeFreqMapIgnoresWidths(f1: seq<real>, w1: seq<real>, i1: real, f2: seq<real>, w2: seq<real>, i2: real)
    requires |f1| == |f2|
    ensures MakeFreqMap(f1, w1, i1) == MakeFreqMap(f2, w2, i2)
  {
    var a := MakeFreqMap(f1, w1, i1);
    var b := MakeFreqMap(f2, w2, i2);
    assert forall i :: 0 <= i < |a| ==> a[i] == b[i];
  }
}

=== FILE: placement.dfy ===
/** What both scheduler plugins do once their task groups are known: each
    group in turn goes to the currently least-loaded worker, whose load
    grows by the group's size, and every task of the group that the
    scheduler knows is restricted to that worker. `ScatterSolvers` builds
    one group per solver task; its `update_graph` closes this module. */
module Placement {
  import opened Common
  import opened Scheduling

  /** A worker, by its address. */
  type Worker = string

  /** The scheduler's state of one task that the plugins change. */
  class TaskState {
    /** The workers this task may run on; None is "no restriction". */
    var workerRestrictions: Option<set<Worker>>
    /** Whether the restrictions are only a preference. */
    var looseRestrictions: bool

    constructor (restrictions: Option<set<Worker>>, loose: bool)
      ensures workerRestrictions == restrictions && looseRestrictions == loose
    {
      workerRestrictions := restrictions;
      looseRestrictions := loose;
    }

    /** Adds w to the restrictions, starting from the empty set when there
        were none, and makes them strict. */
    method Restrict(w: Worker)
      modifies this
      ensures workerRestrictions == Some(Widen(old(workerRestrictions), w))
      ensures !looseRestrictions
    {
      var r := if workerRestrictions.None? then {} else workerRestrictions.value;
      workerRestrictions := Some(r + {w});
      looseRestrictions := false;
    }
  }

  /** The restriction set r with w added; no restriction counts as empty. */
  function Widen(r: Option<set<Worker>>, w: Worker): set<Worker>
  {
    (if r.None? then {} else r.value) + {w}
  }

  /** The scheduler holds a state object of its own for every key. */
  predicate Separate(tasks: map<Key, TaskState>)
  {
    forall k, k' :: k in tasks && k' in tasks && k != k' ==> tasks[k] != tasks[k']
  }

  /** Restricts every task of the group that has a state to w; keys with
      no state are skipped. */
  method RestrictGroup(tasks: map<Key, TaskState>, group: set<Key>, w: Worker)
    requires Separate(tasks)
    modifies tasks.Values
    ensures forall k :: k in tasks ==>
      && tasks[k].workerRestrictions
         == (if k in group then Some(Widen(old(tasks[k].workerRestrictions), w)) else old(tasks[k].workerRestrictions))
      && tasks[k].looseRestrictions == (k !in group && old(tasks[k].looseRestrictions))
  {
    var todo := group;
    while todo != {}
      invariant todo <= group
      invariant forall k :: k in tasks ==>
        && tasks[k].workerRestrictions
           == (if k in group - todo then Some(Widen(old(tasks[k].workerRestrictions), w)) else old(tasks[k].workerRestrictions))
        && tasks[k].looseRestrictions == (k !in group - todo && old(tasks[k].looseRestrictions))
      decreases todo
    {
      var name :| name in todo;
      if name in tasks {
        tasks[name].Restrict(w);
      }
      todo := todo - {name};
    }
  }

  // ---------------------------------------------------------------------
  // Least-loaded assignment

  /** i is where the least value of s first occurs: `min` over the load
      dictionary keeps the first of equal loads, in worker order. */
  predicate IsFirstMin(s: seq<int>, i: nat)
  {
    && i < |s|
    && (forall j :: 0 <= j < |s| ==> s[i] <= s[j])
    && (forall j :: 0 <= j < i ==> s[i] < s[j])
  }

  /** The first least load. */
  method FirstMin(s: seq<int>) returns (i: nat)
    requires |s| > 0
    ensures IsFirstMin(s, i)
  {
    i := 0;
    var j := 1;
    while j < |s|
      invariant 0 <= i < j <= |s|
      invariant forall k :: 0 <= k < j ==> s[i] <= s[k]
      invariant forall k :: 0 <= k < i ==> s[i] < s[k]
    {
      if s[j] < s[i] {
        i := j;
      }
      j := j + 1;
    }
  }

  /** The sizes of the groups. */
  function Sizes(groups: seq<set<Key>>): (r: seq<nat>)
    ensures |r| == |groups| && forall j :: 0 <= j < |groups| ==> r[j] == |groups[j]|
  {
    seq(|groups|, j requires 0 <= j < |groups| => |groups[j]|)
  }

  /** Every entry of who names one of n workers. */
  predicate Within(n: nat, who: seq<nat>)
  {
    forall j :: 0 <= j < |who| ==> who[j] < n
  }

  /** The loads of n workers, starting at zero, once group j of the given
      sizes has gone to worker who[j] for every j. */
  function LoadsAfter(n: nat, sizes: seq<nat>, who: seq<nat>): (l: seq<int>)
    requires |who| == |sizes| && Within(n, who)
    ensures |l| == n
    decreases |sizes|
  {
    if sizes == [] then Repeat(0, n)
    else
      var l := LoadsAfter(n, sizes[..|sizes| - 1], who[..|who| - 1]);
      var w := who[|who| - 1];
      l[w := l[w] + sizes[|sizes| - 1]]
  }

  /** who is the greedy assignment: every group goes to the worker whose
      load was the first least one when its turn came. */
  ghost predicate Greedy(n: nat, sizes: seq<nat>, who: seq<nat>)
  {
    && |who| == |sizes| && Within(n, who)
    && forall j :: 0 <= j < |who| ==> IsFirstMin(LoadsAfter(n, sizes[..j], who[..j]), who[j])
  }

  /** The loads after one more group: its worker's load grows by its size. */
  lemma LoadsStep(n: nat, sizes: seq<nat>, who: seq<nat>, a: nat, x: nat)
    requires |who| == |sizes| && Within(n, who) && a < n
    ensures Within(n, who + [a])
    ensures LoadsAfter(n, sizes + [x], who + [a]) == LoadsAfter(n, sizes, who)[a := LoadsAfter(n, sizes, who)[a] + x]
  {
    assert (sizes + [x])[..|sizes|] == sizes && (who + [a])[..|who|] == who;
  }

  /** The greedy assignment extended by one group. */
  lemma GreedyStep(n: nat, sizes: seq<nat>, who: seq<nat>, a: nat, x: nat)
    requires Greedy(n, sizes, who) && IsFirstMin(LoadsAfter(n, sizes, who), a)
    ensures Greedy(n, sizes + [x], who + [a])
    ensures LoadsAfter(n, sizes + [x], who + [a]) == LoadsAfter(n, sizes, who)[a := LoadsAfter(n, sizes, who)[a] + x]
  {
    LoadsStep(n, sizes, who, a, x);
    var sizes', who' := sizes + [x], who + [a];
    forall j | 0 <= j < |who'|
      ensures IsFirstMin(LoadsAfter(n, sizes'[..j], who'[..j]), who'[j])
    {
      if j < |who| {
        assert sizes'[..j] == sizes[..j] && who'[..j] == who[..j] && who'[j] == who[j];
      } else {
        assert sizes'[..j] == sizes && who'[..j] == who && who'[j] == a;
      }
    }
  }

  lemma SumUpdate(s: seq<int>, i: nat, x: int)
    requires i < |s|
    ensures Sum(s[i := s[i] + x]) == Sum(s) + x
  {
    var t := s[i := s[i] + x];
    SumSplit(s, i);
    SumSplit(t, i);
    assert t[..i] == s[..i];
    assert t[i..] == [s[i] + x] + s[i + 1..] && s[i..] == [s[i]] + s[i + 1..];
    SumAppend([s[i] + x], s[i + 1..]);
    SumAppend([s[i]], s[i + 1..]);
    assert Sum([s[i] + x]) == s[i] + x by { assert [s[i] + x][1..] == []; }
    assert Sum([s[i]]) == s[i] by { assert [s[i]][1..] == []; }
  }

  /** The loads always add up to the total size of the groups handed out. */
  lemma {:induction false} LoadsTotal(n: nat, sizes: seq<nat>, who: seq<nat>)
    requires |who| == |sizes| && Within(n, who)
    ensures Sum(LoadsAfter(n, sizes, who)) == Sum(sizes)
    decreases |sizes|
  {
    if sizes == [] {
      SumRepeat(0, n);
    } else {
      var k := |sizes| - 1;
      LoadsTotal(n, sizes[..k], who[..k]);
      SumUpdate(LoadsAfter(n, sizes[..k], who[..k]), who[k], sizes[k]);
      SumPrefixStep(sizes, k);
      assert sizes[..k + 1] == sizes;
    }
  }

  /** The largest group size, 0 for none. */
  function MaxSize(sizes: seq<nat>): (m: nat)
    ensures forall j :: 0 <= j < |sizes| ==> sizes[j] <= m
    ensures sizes != [] ==> exists j :: 0 <= j < |sizes| && m == sizes[j]
    decreases |sizes|
  {
    if sizes == [] then 0
    else
      var m := MaxSize(sizes[..|sizes| - 1]);
      if sizes[|sizes| - 1] > m then sizes[|sizes| - 1] else m
  }

  /** No worker's load exceeds another's by more than the largest group
      size, and no load is negative. */
  ghost predicate Balanced(l: seq<int>, bound: nat)
  {
    forall i, j :: 0 <= i < |l| && 0 <= j < |l| ==> 0 <= l[i] && l[i] - l[j] <= bound
  }

  /** The greedy assignment keeps the loads balanced within one group. */
  lemma {:induction false} GreedyBalanced(n: nat, sizes: seq<nat>, who: seq<nat>)
    requires Greedy(n, sizes, who)
    ensures Balanced(LoadsAfter(n, sizes, who), MaxSize(sizes))
    decreases |sizes|
  {
    if sizes != [] {
      var k := |sizes| - 1;
      assert sizes[..k][..k] == sizes[..k] && who[..k][..k] == who[..k];
      assert Greedy(n, sizes[..k], who[..k]) by {
        forall j | 0 <= j < k
          ensures IsFirstMin(LoadsAfter(n, sizes[..k][..j], who[..k][..j]), who[..k][j])
        {
          assert sizes[..k][..j] == sizes[..j] && who[..k][..j] == who[..j];
        }
      }
      GreedyBalanced(n, sizes[..k], who[..k]);
      var l := LoadsAfter(n, sizes[..k], who[..k]);
      assert IsFirstMin(l, who[k]);
      assert MaxSize(sizes[..k]) <= MaxSize(sizes);
    }
  }

  /** A task's restrictions once group j has gone to workers[who[j]] for
      every j, starting from r0. */
  function Restrictions(r0: Option<set<Worker>>, k: Key, groups: seq<set<Key>>, workers: seq<Worker>, who: seq<nat>)
    : (r: Option<set<Worker>>)
    requires |who| == |groups| && Within(|workers|, who)
    decreases |groups|
  {
    if groups == [] then r0
    else
      var j := |groups| - 1;
      var r := Restrictions(r0, k, groups[..j], workers, who[..j]);
      if k in groups[j] then Some(Widen(r, workers[who[j]])) else r
  }

  /** The restrictions as a set, none counting as empty. */
  function Base(r: Option<set<Worker>>): set<Worker>
  {
    if r.None? then {} else r.value
  }

  /** The workers of the groups that hold k. */
  function AssigneesOf(k: Key, groups: seq<set<Key>>, workers: seq<Worker>, who: seq<nat>): set<Worker>
    requires |who| == |groups| && Within(|workers|, who)
  {
    set j | 0 <= j < |groups| && k in groups[j] :: workers[who[j]]
  }

  /** A task outside every group keeps its restrictions; one in some group
      ends up restricted to its old workers and the workers of all the
      groups that hold it. */
  lemma {:induction false} RestrictionsClosed(r0: Option<set<Worker>>, k: Key, groups: seq<set<Key>>, workers: seq<Worker>, who: seq<nat>)
    requires |who| == |groups| && Within(|workers|, who)
    ensures AssigneesOf(k, groups, workers, who) == {} ==> Restrictions(r0, k, groups, workers, who) == r0
    ensures AssigneesOf(k, groups, workers, who) != {} ==>
      Restrictions(r0, k, groups, workers, who) == Some(Base(r0) + AssigneesOf(k, groups, workers, who))
    decreases |groups|
  {
    if groups != [] {
      var j := |groups| - 1;
      RestrictionsClosed(r0, k, groups[..j], workers, who[..j]);
      var before := AssigneesOf(k, groups[..j], workers, who[..j]);
      var now := AssigneesOf(k, groups, workers, who);
      if k in groups[j] {
        assert now == before + {workers[who[j]]};
        var r := Restrictions(r0, k, groups[..j], workers, who[..j]);
        assert Restrictions(r0, k, groups, workers, who) == Some(Widen(r, workers[who[j]]));
        assert Widen(r, workers[who[j]]) == Base(r) + {workers[who[j]]};
        if before == {} {
          assert Base(r) == Base(r0);
          assert now == {workers[who[j]]};
          assert Some(Widen(r, workers[who[j]])) == Some(Base(r0) + now);
        } else {
          assert Base(r) == Base(r0) + before;
          assert Base(r) + {workers[who[j]]} == Base(r0) + now;
        }
      } else {
        assert now == before;
      }
    }
  }

  /** No group holds k. */
  predicate InNone(k: Key, groups: seq<set<Key>>)
  {
    forall j :: 0 <= j < |groups| ==> k !in groups[j]
  }

  lemma RestrictionsStep(r0: Option<set<Worker>>, k: Key, groups: seq<set<Key>>, workers: seq<Worker>, who: seq<nat>, j: nat, a: nat)
    requires j < |groups| && |who| == j && Within(|workers|, who) && a < |workers|
    ensures Within(|workers|, who + [a])
    ensures Restrictions(r0, k, groups[..j + 1], workers, who + [a])
      == (if k in groups[j] then Some(Widen(Restrictions(r0, k, groups[..j], workers, who), workers[a]))
          else Restrictions(r0, k, groups[..j], workers, who))
    ensures InNone(k, groups[..j + 1]) == (InNone(k, groups[..j]) && k !in groups[j])
  {
    assert groups[..j + 1][..j] == groups[..j] && (who + [a])[..j] == who;
  }

  /** Every task's state is what the groups handed out so far make of the
      restrictions rs0 and the looseness ls0 it started with. */
  ghost predicate Placed(tasks: map<Key, TaskState>, rs0: map<Key, Option<set<Worker>>>, ls0: map<Key, bool>,
                         groups: seq<set<Key>>, workers: seq<Worker>, who: seq<nat>)
    requires |who| == |groups| && Within(|workers|, who)
    reads tasks.Values
  {
    forall k :: k in tasks ==>
      && k in rs0 && k in ls0
      && tasks[k].workerRestrictions == Restrictions(rs0[k], k, groups, workers, who)
      && tasks[k].looseRestrictions == (ls0[k] && InNone(k, groups))
  }

  /** Hands group j to the first least-loaded worker. */
  method PlaceNext(workers: seq<Worker>, groups: seq<set<Key>>, tasks: map<Key, TaskState>, j: nat,
                   who: seq<nat>, loads: seq<int>, ghost rs0: map<Key, Option<set<Worker>>>, ghost ls0: map<Key, bool>)
    returns (who': seq<nat>, loads': seq<int>)
    requires Separate(tasks) && j < |groups| && |who| == j && workers != []
    requires Greedy(|workers|, Sizes(groups)[..j], who) && loads == LoadsAfter(|workers|, Sizes(groups)[..j], who)
    requires Placed(tasks, rs0, ls0, groups[..j], workers, who)
    modifies tasks.Values
    ensures |who'| == j + 1
    ensures Greedy(|workers|, Sizes(groups)[..j + 1], who') && loads' == LoadsAfter(|workers|, Sizes(groups)[..j + 1], who')
    ensures Placed(tasks, rs0, ls0, groups[..j + 1], workers, who')
  {
    var a;
    a, who', loads' := Choose(|workers|, Sizes(groups), j, who, loads);
    HandOut(workers, groups, tasks, j, who, a, rs0, ls0);
  }

  lemma PrefixGrows(s: seq<nat>, j: nat)
    requires j < |s|
    ensures s[..j] + [s[j]] == s[..j + 1]
  {
  }

  /** The worker of group j and the loads after it. */
  method Choose(n: nat, sizes: seq<nat>, j: nat, who: seq<nat>, loads: seq<int>)
    returns (a: nat, who': seq<nat>, loads': seq<int>)
    requires n > 0 && j < |sizes| && Greedy(n, sizes[..j], who) && loads == LoadsAfter(n, sizes[..j], who)
    ensures a < n && who' == who + [a]
    ensures Greedy(n, sizes[..j + 1], who') && loads' == LoadsAfter(n, sizes[..j + 1], who')
  {
    a := FirstMin(loads);
    GreedyStep(n, sizes[..j], who, a, sizes[j]);
    PrefixGrows(sizes, j);
    loads' := loads[a := loads[a] + sizes[j]];
    who' := who + [a];
  }

  /** Restricts the tasks of group j to worker a. */
  method HandOut(workers: seq<Worker>, groups: seq<set<Key>>, tasks: map<Key, TaskState>, j: nat,
                 who: seq<nat>, a: nat, ghost rs0: map<Key, Option<set<Worker>>>, ghost ls0: map<Key, bool>)
    requires Separate(tasks) && j < |groups| && |who| == j && Within(|workers|, who) && a < |workers|
    requires Placed(tasks, rs0, ls0, groups[..j], workers, who)
    modifies tasks.Values
    ensures Within(|workers|, who + [a]) && Placed(tasks, rs0, ls0, groups[..j + 1], workers, who + [a])
  {
    forall k | k in tasks {
      RestrictionsStep(rs0[k], k, groups, workers, who, j, a);
    }
    RestrictGroup(tasks, groups[j], workers[a]);
  }

  /** The loop both plugins end with: each group in turn goes to the first
      least-loaded worker, whose load grows by the group's size, and the
      known tasks of the group are restricted to that worker. With no
      worker, `min` over the empty load dictionary raises before anything
      changes. The assignment is returned as indices into workers. */
  method AssignGroups(workers: seq<Worker>, groups: seq<set<Key>>, tasks: map<Key, TaskState>)
    returns (r: Result<seq<nat>>, loads: seq<int>)
    requires Separate(tasks)
    modifies tasks.Values
    ensures r.Err? <==> workers == [] && groups != []
    ensures r.Err? ==> forall k :: k in tasks ==>
      tasks[k].workerRestrictions == old(tasks[k].workerRestrictions)
      && tasks[k].looseRestrictions == old(tasks[k].looseRestrictions)
    ensures r.Ok? ==>
      (Greedy(|workers|, Sizes(groups), r.value) && loads == LoadsAfter(|workers|, Sizes(groups), r.value))
    ensures r.Ok? ==> forall k :: k in tasks ==>
      tasks[k].workerRestrictions == Restrictions(old(tasks[k].workerRestrictions), k, groups, workers, r.value)
      && tasks[k].looseRestrictions == (old(tasks[k].looseRestrictions) && InNone(k, groups))
  {
    if workers == [] && groups != [] {
      return Err("min() arg is an empty sequence"), [];
    }
    ghost var rs0 := map k | k in tasks :: tasks[k].workerRestrictions;
    ghost var ls0 := map k | k in tasks :: tasks[k].looseRestrictions;
    loads := Repeat(0, |workers|);
    var who: seq<nat> := [];
    var j := 0;
    assert Sizes(groups)[..0] == [] && groups[..0] == [];
    while j < |groups|
      invariant 0 <= j <= |groups| && |who| == j
      invariant Greedy(|workers|, Sizes(groups)[..j], who)
      invariant loads == LoadsAfter(|workers|, Sizes(groups)[..j], who)
      invariant Placed(tasks, rs0, ls0, groups[..j], workers, who)
    {
      who, loads := PlaceNext(workers, groups, tasks, j, who, loads, rs0, ls0);
      j := j + 1;
    }
    assert groups[..j] == groups && Sizes(groups)[..j] == Sizes(groups);
    r := Ok(who);
  }

  // ---------------------------------------------------------------------
  // ScatterSolvers

  /** A solver task: its name starts with "solver_wrapper". */
  predicate IsSolver(k: Key)
  {
    "solver_wrapper" <= k.name
  }

  /** The solver tasks among keys, in their order. */
  function SolverTasks(keys: seq<Key>): (r: seq<Key>)
    ensures forall k :: k in r <==> k in keys && IsSolver(k)
    ensures |r| <= |keys|
    ensures Distinct(keys) ==> Distinct(r)
  {
    if keys == [] then []
    else
      var rest := SolverTasks(keys[1..]);
      assert forall k :: k in keys <==> k == keys[0] || k in keys[1..];
      if IsSolver(keys[0]) then [keys[0]] + rest else rest
  }

  /** The family of a key: the key and everything it depends on or that
      depends on it. The group of a solver task is its family. */
  ghost function Family(deps: Graph, dependents: Graph, rank: map<Key, nat>, rankUp: map<Key, nat>, k: Key): set<Key>
    requires Ranked(deps, rank) && Ranked(dependents, rankUp) && k in deps && k in dependents
  {
    {k} + Reach(deps, rank, k) + Reach(dependents, rankUp, k)
  }

  /** Acyclic dependencies and their reverse, over the same keys. */
  ghost predicate Acyclic(deps: Graph, dependents: Graph, rank: map<Key, nat>, rankUp: map<Key, nat>)
  {
    Reverse(deps, dependents) && Ranked(deps, rank) && Ranked(dependents, rankUp)
  }

  /** The group of every solver task, in order. */
  method SolverGroups(deps: Graph, dependents: Graph, sts: seq<Key>, ghost rank: map<Key, nat>, ghost rankUp: map<Key, nat>)
    returns (groups: seq<set<Key>>)
    requires Acyclic(deps, dependents, rank, rankUp)
    requires forall j :: 0 <= j < |sts| ==> sts[j] in deps
    ensures |groups| == |sts|
    ensures forall j :: 0 <= j < |sts| ==> groups[j] == Family(deps, dependents, rank, rankUp, sts[j])
  {
    groups := [];
    var j := 0;
    while j < |sts|
      invariant 0 <= j <= |sts| && |groups| == j
      invariant forall i :: 0 <= i < j ==> groups[i] == Family(deps, dependents, rank, rankUp, sts[i])
    {
      var st := sts[j];
      var below := UnravelDeps(deps, st, {}, rank);
      var above := UnravelDeps(dependents, st, {}, rankUp);
      groups := groups + [{st} + below + above];
      j := j + 1;
    }
  }

  /** `ScatterSolvers.update_graph`: one group per solver task, in key
      order, each handed to the least-loaded worker. keys is the order of
      the dependency dictionary. */
  method ScatterSolvers(workers: seq<Worker>, tasks: map<Key, TaskState>, deps: Graph, dependents: Graph,
                        keys: seq<Key>, ghost rank: map<Key, nat>, ghost rankUp: map<Key, nat>)
    returns (groups: seq<set<Key>>, r: Result<seq<nat>>)
    requires Acyclic(deps, dependents, rank, rankUp) && Separate(tasks)
    requires forall k :: k in keys <==> k in deps
    modifies tasks.Values
    ensures |groups| == |SolverTasks(keys)|
    ensures forall j :: 0 <= j < |groups| ==>
      groups[j] == Family(deps, dependents, rank, rankUp, SolverTasks(keys)[j])
    ensures r.Err? <==> workers == [] && groups != []
    ensures r.Err? ==> forall k :: k in tasks ==>
      tasks[k].workerRestrictions == old(tasks[k].workerRestrictions)
      && tasks[k].looseRestrictions == old(tasks[k].looseRestrictions)
    ensures r.Ok? ==> Greedy(|workers|, Sizes(groups), r.value)
    ensures r.Ok? ==> forall k :: k in tasks ==>
      tasks[k].workerRestrictions == Restrictions(old(tasks[k].workerRestrictions), k, groups, workers, r.value)
      && tasks[k].looseRestrictions == (old(tasks[k].looseRestrictions) && InNone(k, groups))
  {
    var sts := SolverTasks(keys);
    groups := SolverGroups(deps, dependents, sts, rank, rankUp);
    var loads;
    r, loads := AssignGroups(workers, groups, tasks);
  }
}

=== FILE: preprocess.dfy ===
/** `preprocess_opts`: the model recipe string, such as
    "MODEL_DATA~sky.lsm.html@dE:MODEL_DATA", becomes one internal recipe
    per ':'-separated piece. Each piece is split at the operators '+' and
    '~'; operators become add or subtract, sky-model files are recorded
    with their tags and the other names are model columns. */
module Preprocess {
  import opened Common

  /** An entry of an internal recipe: an operation or a source name. */
  datatype Entry = Add | Subtract | Source(name: string)

  // ---------------------------------------------------------------------
  // The string operations the parser relies on

  /** `s.split(sep)`: the pieces between the occurrences of sep. */
  function Split(s: string, sep: char): (r: seq<string>)
    ensures |r| >= 1
    decreases |s|
  {
    if s == [] then [""]
    else
      var rest := Split(s[1..], sep);
      if s[0] == sep then [""] + rest else [[s[0]] + rest[0]] + rest[1..]
  }

  /** `sep.join(ps)`. */
  function Join(ps: seq<string>, sep: char): string
    requires |ps| >= 1
    decreases |ps|
  {
    if |ps| == 1 then ps[0] else ps[0] + [sep] + Join(ps[1..], sep)
  }

  /** Splitting is undone by joining. */
  lemma {:induction false} SplitJoin(s: string, sep: char)
    ensures Join(Split(s, sep), sep) == s
    decreases |s|
  {
    if s != [] {
      SplitJoin(s[1..], sep);
      var rest := Split(s[1..], sep);
      var r := Split(s, sep);
      assert s == [s[0]] + s[1..];
      if s[0] == sep {
        assert r[1..] == rest;
        assert Join(r, sep) == [] + [sep] + Join(rest, sep);
      } else if |rest| == 1 {
        assert Join(r, sep) == [s[0]] + rest[0];
      } else {
        assert r[1..] == rest[1..];
        assert Join(r, sep) == [s[0]] + rest[0] + [sep] + Join(rest[1..], sep);
      }
    }
  }

  /** No piece holds the separator. */
  lemma {:induction false} SplitPiece(s: string, sep: char, j: nat)
    requires j < |Split(s, sep)|
    ensures sep !in Split(s, sep)[j]
    decreases |s|
  {
    if s != [] {
      var rest := Split(s[1..], sep);
      var r := Split(s, sep);
      if s[0] == sep {
        if j > 0 {
          assert r[j] == rest[j - 1];
          SplitPiece(s[1..], sep, j - 1);
        }
      } else if j > 0 {
        assert r[j] == rest[j];
        SplitPiece(s[1..], sep, j);
      } else {
        SplitPiece(s[1..], sep, 0);
        assert r[0] == [s[0]] + rest[0];
      }
    }
  }

  /** An operator of the recipe grammar. */
  predicate IsOp(c: char)
  {
    c == '+' || c == '~'
  }

  /** `re.split(r'([\+~])', s)`: the text between operators, with each
      operator kept as a fragment of its own in between. */
  function SplitOps(s: string): (r: seq<string>)
    ensures |r| >= 1
    decreases |s|
  {
    if s == [] then [""]
    else
      var rest := SplitOps(s[1..]);
      if IsOp(s[0]) then ["", [s[0]]] + rest else [[s[0]] + rest[0]] + rest[1..]
  }

  /** The fragments laid end to end. */
  function Concat(fs: seq<string>): string
    decreases |fs|
  {
    if fs == [] then [] else fs[0] + Concat(fs[1..])
  }

  /** The shape `re.split` with one capturing group guarantees: fragments
      alternate between operator-free text (at even positions) and single
      operators (at odd positions), starting and ending with text. */
  ghost predicate Alternating(fs: seq<string>)
  {
    && |fs| % 2 == 1
    && (forall j :: 0 <= j < |fs| && j % 2 == 0 ==> forall c :: c in fs[j] ==> !IsOp(c))
    && (forall j :: 0 <= j < |fs| && j % 2 == 1 ==> |fs[j]| == 1 && IsOp(fs[j][0]))
  }

  /** The fragments of s put back together give s. */
  lemma {:induction false} SplitOpsConcat(s: string)
    ensures Concat(SplitOps(s)) == s
    decreases |s|
  {
    if s != [] {
      SplitOpsConcat(s[1..]);
      var rest := SplitOps(s[1..]);
      var r := SplitOps(s);
      assert s == [s[0]] + s[1..];
      if IsOp(s[0]) {
        assert r[1..][1..] == rest;
        assert Concat(r) == "" + ([s[0]] + Concat(rest));
      } else {
        assert r[1..] == rest[1..];
        assert Concat(rest) == rest[0] + Concat(rest[1..]);
        assert Concat(r) == [s[0]] + rest[0] + Concat(rest[1..]);
      }
    }
  }

  /** A fragment at an even position is text free of operators, one at an
      odd position is a single operator, and there is one more text than
      operators. */
  lemma {:induction false} SplitOpsFragment(s: string, j: nat)
    requires j < |SplitOps(s)|
    ensures |SplitOps(s)| % 2 == 1
    ensures j % 2 == 0 ==> forall c :: c in SplitOps(s)[j] ==> !IsOp(c)
    ensures j % 2 == 1 ==> |SplitOps(s)[j]| == 1 && IsOp(SplitOps(s)[j][0])
    decreases |s|
  {
    if s != [] {
      var rest := SplitOps(s[1..]);
      var r := SplitOps(s);
      if IsOp(s[0]) {
        if j >= 2 {
          assert r[j] == rest[j - 2];
          SplitOpsFragment(s[1..], j - 2);
        } else {
          SplitOpsFragment(s[1..], 0);
        }
      } else if j >= 1 {
        assert r[j] == rest[j];
        SplitOpsFragment(s[1..], j);
      } else {
        SplitOpsFragment(s[1..], 0);
        assert r[0] == [s[0]] + rest[0];
      }
    }
  }

  /** The fragments are in the alternating shape. */
  lemma SplitOpsShape(s: string)
    ensures Alternating(SplitOps(s))
  {
    SplitOpsFragment(s, 0);
    forall j | 0 <= j < |SplitOps(s)|
      ensures j % 2 == 0 ==> forall c :: c in SplitOps(s)[j] ==> !IsOp(c)
      ensures j % 2 == 1 ==> |SplitOps(s)[j]| == 1 && IsOp(SplitOps(s)[j][0])
    {
      SplitOpsFragment(s, j);
    }
  }

  /** Every character of a substring occurs in the string. */
  lemma SubstringChars(t: string, s: string, c: char)
    requires IsSubstring(t, s) && c in t
    ensures c in s
  {
    var i :| 0 <= i <= |s| && t <= s[i..];
    var k :| 0 <= k < |t| && t[k] == c;
    assert s[i + k] == c;
  }

  /** `s.partition(c)[0]`: the text before the first c, or all of s. */
  function Before(s: string, c: char): string
    decreases |s|
  {
    if s == [] || s[0] == c then [] else [s[0]] + Before(s[1..], c)
  }

  /** `s.partition(c)[2]`: the text after the first c, or nothing. */
  function After(s: string, c: char): string
    decreases |s|
  {
    if s == [] then [] else if s[0] == c then s[1..] else After(s[1..], c)
  }

  /** Partitioning splits at the first c and keeps everything else. */
  lemma {:induction false} PartitionParts(s: string, c: char)
    ensures c !in Before(s, c)
    ensures c in s ==> Before(s, c) + [c] + After(s, c) == s
    ensures c !in s ==> Before(s, c) == s && After(s, c) == []
    decreases |s|
  {
    if s != [] && s[0] != c {
      PartitionParts(s[1..], c);
      assert s == [s[0]] + s[1..];
      assert c in s ==> c in s[1..];
    }
  }

  // ---------------------------------------------------------------------
  // One ingredient

  /** `ingredient in "~+"`: an operator fragment. */
  predicate IsOpFragment(f: string)
  {
    f != "" && IsSubstring(f, "~+")
  }

  /** A sky-model file: a fragment naming ".lsm.html". */
  predicate IsSky(f: string)
  {
    f != "" && !IsOpFragment(f) && IsSubstring(".lsm.html", f)
  }

  /** A model column: any other non-empty fragment. */
  predicate IsColumn(f: string)
  {
    f != "" && !IsOpFragment(f) && !IsSubstring(".lsm.html", f)
  }

  /** The file of a sky model: the text before the first '@'. */
  function SkyFile(f: string): string
  {
    Before(f, '@')
  }

  /** The tags of a sky model: the text after the first '@', split at
      commas. */
  function SkyTags(f: string): seq<string>
  {
    Split(After(f, '@'), ',')
  }

  /** The recipe entry of a non-empty fragment. */
  function Cook(f: string): Entry
    requires f != ""
  {
    if IsOpFragment(f) then (if f == "+" then Add else Subtract)
    else if IsSky(f) then Source(SkyFile(f))
    else Source(f)
  }

  /** On the fragments `re.split` makes, the substring test against "~+"
      picks out exactly the two operators, so '+' is add and '~' is
      subtract, a sky model is recorded by its file and a column by its
      name. */
  lemma CookFragment(s: string, j: nat)
    requires j < |SplitOps(s)| && SplitOps(s)[j] != ""
    ensures var f := SplitOps(s)[j];
      Cook(f) == if f == "+" then Add else if f == "~" then Subtract
                 else if IsSubstring(".lsm.html", f) then Source(SkyFile(f)) else Source(f)
    ensures var f := SplitOps(s)[j]; IsOpFragment(f) <==> f == "+" || f == "~"
  {
    SplitOpsShape(s);
    var f := SplitOps(s)[j];
    if j % 2 == 0 {
      if IsSubstring(f, "~+") {
        SubstringChars(f, "~+", f[0]);
        assert IsOp(f[0]);
        assert false;
      }
      assert f[0] in f && !IsOp(f[0]);
    } else {
      assert f == [f[0]];
      assert IsSubstring(f, "~+") by {
        if f == "+" {
          assert f <= "~+"[1..];
        } else {
          assert f <= "~+"[0..];
        }
      }
    }
  }

  // ---------------------------------------------------------------------
  // What the loops build, as folds over the fragments

  /** The internal recipe of the fragments, empty ones skipped. */
  function Recipe(fs: seq<string>): seq<Entry>
    decreases |fs|
  {
    if fs == [] then []
    else
      var f := fs[|fs| - 1];
      Recipe(fs[..|fs| - 1]) + (if f == "" then [] else [Cook(f)])
  }

  /** The model columns among the fragments, in order. */
  function Columns(fs: seq<string>): seq<string>
    decreases |fs|
  {
    if fs == [] then []
    else
      var f := fs[|fs| - 1];
      Columns(fs[..|fs| - 1]) + (if IsColumn(f) then [f] else [])
  }

  /** The sky models recorded from m on: each file gets its tags, a later
      one overwriting an earlier. */
  function Sky(m: map<string, seq<string>>, fs: seq<string>): map<string, seq<string>>
    decreases |fs|
  {
    if fs == [] then m
    else
      var f := fs[|fs| - 1];
      var m' := Sky(m, fs[..|fs| - 1]);
      if IsSky(f) then m'[SkyFile(f) := SkyTags(f)] else m'
  }

  /** Whether some fragment is a sky model. */
  function HasSky(fs: seq<string>): bool
    decreases |fs|
  {
    fs != [] && (HasSky(fs[..|fs| - 1]) || IsSky(fs[|fs| - 1]))
  }

  /** Over the pieces of the recipe string, piece after piece. */
  function ColumnsOf(pieces: seq<string>): seq<string>
    decreases |pieces|
  {
    if pieces == [] then []
    else ColumnsOf(pieces[..|pieces| - 1]) + Columns(SplitOps(pieces[|pieces| - 1]))
  }

  function SkyOf(pieces: seq<string>): map<string, seq<string>>
    decreases |pieces|
  {
    if pieces == [] then map[]
    else Sky(SkyOf(pieces[..|pieces| - 1]), SplitOps(pieces[|pieces| - 1]))
  }

  function PredictOf(pieces: seq<string>): bool
    decreases |pieces|
  {
    pieces != [] && (PredictOf(pieces[..|pieces| - 1]) || HasSky(SplitOps(pieces[|pieces| - 1])))
  }

  // ---------------------------------------------------------------------
  // Properties of the folds

  /** Entries keep the order of their fragments: the recipe of two runs of
      fragments is the recipe of the first followed by that of the second. */
  lemma {:induction false} RecipeAppend(a: seq<string>, b: seq<string>)
    ensures Recipe(a + b) == Recipe(a) + Recipe(b)
    decreases |b|
  {
    if b != [] {
      var n := |b| - 1;
      assert (a + b)[..|a + b| - 1] == a + b[..n];
      RecipeAppend(a, b[..n]);
    } else {
      assert a + b == a;
    }
  }

  /** Columns keep their order and their repeats. */
  lemma {:induction false} ColumnsAppend(a: seq<string>, b: seq<string>)
    ensures Columns(a + b) == Columns(a) + Columns(b)
    decreases |b|
  {
    if b != [] {
      var n := |b| - 1;
      assert (a + b)[..|a + b| - 1] == a + b[..n];
      ColumnsAppend(a, b[..n]);
    } else {
      assert a + b == a;
    }
  }

  /** Every column fragment is among the columns. */
  lemma {:induction false} ColumnsHas(fs: seq<string>, j: nat)
    requires j < |fs| && IsColumn(fs[j])
    ensures fs[j] in Columns(fs)
    decreases |fs|
  {
    var n := |fs| - 1;
    if j < n {
      assert fs[..n][j] == fs[j];
      ColumnsHas(fs[..n], j);
    }
  }

  /** Every column comes from a column fragment. */
  lemma {:induction false} ColumnsFrom(fs: seq<string>, x: string)
    requires x in Columns(fs)
    ensures exists j :: 0 <= j < |fs| && IsColumn(fs[j]) && fs[j] == x
    decreases |fs|
  {
    var n := |fs| - 1;
    if x in Columns(fs[..n]) {
      ColumnsFrom(fs[..n], x);
      var j :| 0 <= j < n && IsColumn(fs[..n][j]) && fs[..n][j] == x;
      assert fs[j] == x;
    } else {
      assert fs[n] == x;
    }
  }

  /** The prediction step is enabled exactly when some fragment is a sky
      model. */
  lemma {:induction false} HasSkyExists(fs: seq<string>)
    ensures HasSky(fs) <==> exists j :: 0 <= j < |fs| && IsSky(fs[j])
    decreases |fs|
  {
    if fs != [] {
      var n := |fs| - 1;
      HasSkyExists(fs[..n]);
      if exists j :: 0 <= j < |fs| && IsSky(fs[j]) {
        var j :| 0 <= j < |fs| && IsSky(fs[j]);
        if j < n {
          assert fs[..n][j] == fs[j];
        }
      }
      if exists j :: 0 <= j < n && IsSky(fs[..n][j]) {
        var j :| 0 <= j < n && IsSky(fs[..n][j]);
        assert IsSky(fs[j]);
      }
    }
  }

  /** A file no fragment names keeps what it had before. */
  lemma {:induction false} SkyUntouched(m: map<string, seq<string>>, fs: seq<string>, k: string)
    requires forall j :: 0 <= j < |fs| && IsSky(fs[j]) ==> SkyFile(fs[j]) != k
    ensures k in Sky(m, fs) <==> k in m
    ensures k in m ==> Sky(m, fs)[k] == m[k]
    decreases |fs|
  {
    if fs != [] {
      var n := |fs| - 1;
      SkyUntouched(m, fs[..n], k);
    }
  }

  /** A file keeps the tags of the last fragment that names it. */
  lemma {:induction false} SkyLast(m: map<string, seq<string>>, fs: seq<string>, j: nat)
    requires j < |fs| && IsSky(fs[j])
    requires forall i :: j < i < |fs| && IsSky(fs[i]) ==> SkyFile(fs[i]) != SkyFile(fs[j])
    ensures SkyFile(fs[j]) in Sky(m, fs) && Sky(m, fs)[SkyFile(fs[j])] == SkyTags(fs[j])
    decreases |fs|
  {
    var n := |fs| - 1;
    if j < n {
      assert fs[..n][j] == fs[j];
      SkyLast(m, fs[..n], j);
    }
  }

  /** One more fragment extends each fold by what that fragment adds. */
  lemma FoldStep(fs: seq<string>, m: map<string, seq<string>>, j: nat)
    requires j < |fs|
    ensures Recipe(fs[..j + 1]) == Recipe(fs[..j]) + (if fs[j] == "" then [] else [Cook(fs[j])])
    ensures Columns(fs[..j + 1]) == Columns(fs[..j]) + (if IsColumn(fs[j]) then [fs[j]] else [])
    ensures Sky(m, fs[..j + 1]) == if IsSky(fs[j]) then Sky(m, fs[..j])[SkyFile(fs[j]) := SkyTags(fs[j])] else Sky(m, fs[..j])
    ensures HasSky(fs[..j + 1]) == (HasSky(fs[..j]) || IsSky(fs[j]))
  {
    assert fs[..j + 1][..j] == fs[..j];
  }

  /** One more piece extends each fold over the pieces. */
  lemma PieceStep(pieces: seq<string>, i: nat)
    requires i < |pieces|
    ensures ColumnsOf(pieces[..i + 1]) == ColumnsOf(pieces[..i]) + Columns(SplitOps(pieces[i]))
    ensures SkyOf(pieces[..i + 1]) == Sky(SkyOf(pieces[..i]), SplitOps(pieces[i]))
    ensures PredictOf(pieces[..i + 1]) == (PredictOf(pieces[..i]) || HasSky(SplitOps(pieces[i])))
  {
    assert pieces[..i + 1][..i] == pieces[..i];
  }

  /** The internal recipes of the first n pieces, indexed from 0. */
  ghost predicate Recipes(r: map<nat, seq<Entry>>, pieces: seq<string>, n: nat)
    requires n <= |pieces|
  {
    && (forall u: nat :: u in r <==> u < n)
    && (forall u :: 0 <= u < n ==> r[u] == Recipe(SplitOps(pieces[u])))
  }

  lemma RecipesStep(r: map<nat, seq<Entry>>, pieces: seq<string>, n: nat)
    requires n < |pieces| && Recipes(r, pieces, n)
    ensures Recipes(r[n := []][n := Recipe(SplitOps(pieces[n]))], pieces, n + 1)
  {
  }

  // ---------------------------------------------------------------------
  // The options object

  /** The options namespace, with the fields `preprocess_opts` fills in. */
  class Options {
    var inputModelRecipe: string
    var modelColumns: seq<string>
    var skyModels: map<string, seq<string>>
    var predict: bool
    var internalRecipe: map<nat, seq<Entry>>

    constructor (recipe: string)
      ensures inputModelRecipe == recipe
    {
      inputModelRecipe := recipe;
      modelColumns := [];
      skyModels := map[];
      predict := false;
      internalRecipe := map[];
    }

    /** `preprocess_opts`: one internal recipe per piece, indexed from 0,
        and the columns, sky models and prediction flag of all pieces. */
    method Preprocess()
      modifies this
      ensures inputModelRecipe == old(inputModelRecipe)
      ensures var pieces := Split(inputModelRecipe, ':');
        && modelColumns == ColumnsOf(pieces) && skyModels == SkyOf(pieces) && predict == PredictOf(pieces)
        && (forall i: nat :: i in internalRecipe <==> i < |pieces|)
        && (forall i :: 0 <= i < |pieces| ==> internalRecipe[i] == Recipe(SplitOps(pieces[i])))
    {
      modelColumns := [];
      skyModels := map[];
      predict := false;
      internalRecipe := map[];
      var pieces := Split(inputModelRecipe, ':');
      var i := 0;
      while i < |pieces|
        invariant 0 <= i <= |pieces| && inputModelRecipe == old(inputModelRecipe)
        invariant modelColumns == ColumnsOf(pieces[..i]) && skyModels == SkyOf(pieces[..i])
        invariant predict == PredictOf(pieces[..i])
        invariant Recipes(internalRecipe, pieces, i)
      {
        ghost var recipes := internalRecipe;
        internalRecipe := internalRecipe[i := []];
        var ingredients := SplitOps(pieces[i]);
        Mix(i, ingredients);
        RecipesStep(recipes, pieces, i);
        PieceStep(pieces, i);
        i := i + 1;
      }
      assert pieces[..i] == pieces;
    }

    /** The inner loop: the ingredients of recipe i, in order. */
    method Mix(i: nat, ingredients: seq<string>)
      requires i in internalRecipe && internalRecipe[i] == []
      modifies this
      ensures inputModelRecipe == old(inputModelRecipe)
      ensures internalRecipe == old(internalRecipe)[i := Recipe(ingredients)]
      ensures modelColumns == old(modelColumns) + Columns(ingredients)
      ensures skyModels == Sky(old(skyModels), ingredients)
      ensures predict == (old(predict) || HasSky(ingredients))
    {
      var j := 0;
      while j < |ingredients|
        invariant 0 <= j <= |ingredients| && inputModelRecipe == old(inputModelRecipe)
        invariant modelColumns == old(modelColumns) + Columns(ingredients[..j])
        invariant skyModels == Sky(old(skyModels), ingredients[..j])
        invariant predict == (old(predict) || HasSky(ingredients[..j]))
        invariant internalRecipe == old(internalRecipe)[i := Recipe(ingredients[..j])]
      {
        FoldStep(ingredients, old(skyModels), j);
        AddIngredient(i, ingredients[j]);
        j := j + 1;
      }
      assert ingredients[..j] == ingredients;
    }

    /** The body of the inner loop: one ingredient of recipe i. */
    method AddIngredient(i: nat, ingredient: string)
      requires i in internalRecipe
      modifies this
      ensures inputModelRecipe == old(inputModelRecipe)
      ensures internalRecipe == old(internalRecipe)[i := old(internalRecipe)[i] + (if ingredient == "" then [] else [Cook(ingredient)])]
      ensures modelColumns == old(modelColumns) + (if IsColumn(ingredient) then [ingredient] else [])
      ensures skyModels == if IsSky(ingredient) then old(skyModels)[SkyFile(ingredient) := SkyTags(ingredient)] else old(skyModels)
      ensures predict == (old(predict) || IsSky(ingredient))
    {
      if ingredient == "" {
        assert internalRecipe[i] + [] == internalRecipe[i];
        assert internalRecipe[i := internalRecipe[i]] == internalRecipe;
      } else if IsSubstring(ingredient, "~+") {
        var operation := if ingredient == "+" then Add else Subtract;
        internalRecipe := internalRecipe[i := internalRecipe[i] + [operation]];
      } else if IsSubstring(".lsm.html", ingredient) {
        var filename := Before(ingredient, '@');
        var tags := Split(After(ingredient, '@'), ',');
        skyModels := skyModels[filename := tags];
        predict := true;
        internalRecipe := internalRecipe[i := internalRecipe[i] + [Source(filename)]];
      } else {
        modelColumns := modelColumns + [ingredient];
        internalRecipe := internalRecipe[i := internalRecipe[i] + [Source(ingredient)]];
      }
    }
  }
}

=== FILE: restrictor.dfy ===
/** `AutoRestrictor.update_graph`: walks back from the terminal keys until
    there are enough partition keys for the workers, groups the partition
    keys by the roots they depend on, and hands the groups out with the
    least-loaded assignment of `Placement`.

    Sets and dictionaries keyed by sets are iterated in whatever order
    the loops pick; the results stated here hold for every order. */
module Restrictor {
  import opened Common
  import opened Scheduling
  import opened Placement

  /** The keys without dependencies. */
  function RootNodes(deps: Graph): (r: set<Key>)
    ensures forall k :: k in r <==> k in deps && deps[k] == {}
  {
    set k | k in deps && deps[k] == {}
  }

  /** The keys without dependents. */
  function TerminalNodes(dependents: Graph): (r: set<Key>)
    ensures forall k :: k in r <==> k in dependents && dependents[k] == {}
  {
    set k | k in dependents && dependents[k] == {}
  }

  /** metrics is the outcome of `graph_metrics` on an acyclic graph. */
  ghost predicate Measured(deps: Graph, dependents: Graph, totalDeps: map<Key, int>,
                           metrics: map<Key, Metric>, rank: map<Key, nat>)
  {
    && Reverse(deps, dependents) && Ranked(deps, rank) && deps.Keys <= totalDeps.Keys
    && metrics.Keys == deps.Keys
    && forall k :: k in metrics ==> MetricFits(dependents, totalDeps, metrics, k)
  }

  /** Every key a key depends on sits strictly higher above the terminal
      keys. */
  lemma {:induction false} HeightGrows(deps: Graph, dependents: Graph, totalDeps: map<Key, int>,
                                       metrics: map<Key, Metric>, rank: map<Key, nat>, k: Key, r: Key)
    requires Measured(deps, dependents, totalDeps, metrics, rank) && k in deps && r in Reach(deps, rank, k)
    ensures r in metrics && metrics[r].maxHeight >= metrics[k].maxHeight + 1
    decreases rank[k]
  {
    ReachBelow(deps, rank, k);
    if r in deps[k] {
      EdgeHeight(deps, dependents, totalDeps, metrics, rank, k, r);
    } else {
      var e :| e in deps[k] && r in Reach(deps, rank, e);
      EdgeHeight(deps, dependents, totalDeps, metrics, rank, k, e);
      HeightGrows(deps, dependents, totalDeps, metrics, rank, e, r);
    }
  }

  /** A direct dependency sits at least one level higher. */
  lemma EdgeHeight(deps: Graph, dependents: Graph, totalDeps: map<Key, int>,
                   metrics: map<Key, Metric>, rank: map<Key, nat>, k: Key, e: Key)
    requires Measured(deps, dependents, totalDeps, metrics, rank) && k in deps && e in deps[k]
    ensures e in metrics && metrics[e].maxHeight >= metrics[k].maxHeight + 1
  {
    assert e in deps && k in dependents[e];
    assert MetricFits(dependents, totalDeps, metrics, e);
  }

  /** A key with dependencies depends on some root. */
  lemma {:induction false} RootReached(deps: Graph, rank: map<Key, nat>, k: Key)
    requires Ranked(deps, rank) && k in deps && deps[k] != {}
    ensures exists r :: r in Reach(deps, rank, k) && r in RootNodes(deps)
    decreases rank[k]
  {
    var e :| e in deps[k];
    assert e in deps;
    if deps[e] == {} {
      assert e in Reach(deps, rank, k) && e in RootNodes(deps);
    } else {
      RootReached(deps, rank, e);
      var r :| r in Reach(deps, rank, e) && r in RootNodes(deps);
      assert r in Reach(deps, rank, k);
    }
  }

  /** The depths `get_node_depths` computes from the roots. */
  ghost predicate Depths(deps: Graph, metrics: map<Key, Metric>, rank: map<Key, nat>, depths: map<Key, int>)
    requires Ranked(deps, rank) && deps.Keys <= metrics.Keys
  {
    && depths.Keys == deps.Keys
    && forall k :: k in depths ==> DepthOf(deps, rank, RootNodes(deps), metrics, k, depths[k])
  }

  /** A key's depth is 0 exactly when it has no dependencies, and positive
      otherwise. */
  lemma DepthZero(deps: Graph, dependents: Graph, totalDeps: map<Key, int>, metrics: map<Key, Metric>,
                  rank: map<Key, nat>, depths: map<Key, int>, k: Key)
    requires Measured(deps, dependents, totalDeps, metrics, rank) && Depths(deps, metrics, rank, depths)
    requires k in deps
    ensures depths[k] >= 0
    ensures depths[k] == 0 <==> deps[k] == {}
  {
    if deps[k] != {} {
      RootReached(deps, rank, k);
      var r :| r in Reach(deps, rank, k) && r in RootNodes(deps);
      HeightGrows(deps, dependents, totalDeps, metrics, rank, k, r);
      assert DepthOf(deps, rank, RootNodes(deps), metrics, k, depths[k]);
      assert r in RootNodes(deps) * Reach(deps, rank, k);
    } else {
      assert Reach(deps, rank, k) == {};
      assert DepthOf(deps, rank, RootNodes(deps), metrics, k, depths[k]);
    }
  }

  /** Depth drops along every dependency edge. */
  lemma DepthDrops(deps: Graph, dependents: Graph, totalDeps: map<Key, int>, metrics: map<Key, Metric>,
                   rank: map<Key, nat>, depths: map<Key, int>, k: Key, q: Key)
    requires Measured(deps, dependents, totalDeps, metrics, rank) && Depths(deps, metrics, rank, depths)
    requires k in deps && q in deps[k]
    ensures q in depths && depths[q] < depths[k]
  {
    var roots := RootNodes(deps);
    assert k in dependents[q];
    assert Reach(deps, rank, q) <= Reach(deps, rank, k);
    DepthZero(deps, dependents, totalDeps, metrics, rank, depths, k);
    if deps[q] == {} {
      DepthZero(deps, dependents, totalDeps, metrics, rank, depths, q);
      assert q in roots * Reach(deps, rank, k);
      assert metrics[q].maxHeight - metrics[k].maxHeight <= depths[k];
    } else {
      RootReached(deps, rank, q);
      var r :| r in roots * Reach(deps, rank, q) && depths[q] == metrics[r].maxHeight - metrics[q].maxHeight;
      assert r in roots * Reach(deps, rank, k);
      assert metrics[r].maxHeight - metrics[k].maxHeight <= depths[k];
    }
  }

  // ---------------------------------------------------------------------
  // Walking back from the terminal keys

  /** Depth drops along every edge, and is 0 exactly at the roots. */
  ghost predicate Descending(deps: Graph, depths: map<Key, int>)
  {
    && Closed(deps) && depths.Keys == deps.Keys
    && (forall k :: k in deps ==> depths[k] >= 0 && (depths[k] == 0 <==> deps[k] == {}))
    && (forall k, q :: k in deps && q in deps[k] ==> depths[q] < depths[k])
  }

  /** The depths `get_node_depths` computes descend. */
  lemma DepthsDescend(deps: Graph, dependents: Graph, totalDeps: map<Key, int>, metrics: map<Key, Metric>,
                      rank: map<Key, nat>, depths: map<Key, int>)
    requires Measured(deps, dependents, totalDeps, metrics, rank) && Depths(deps, metrics, rank, depths)
    ensures Descending(deps, depths)
  {
    forall k | k in deps
      ensures depths[k] >= 0 && (depths[k] == 0 <==> deps[k] == {})
    {
      DepthZero(deps, dependents, totalDeps, metrics, rank, depths, k);
    }
    forall k, q | k in deps && q in deps[k]
      ensures depths[q] < depths[k]
    {
      DepthDrops(deps, dependents, totalDeps, metrics, rank, depths, k, q);
    }
  }

  /** One pass at depth d: every partition key at depth d gives way to
      the keys it depends on directly. */
  ghost function Descend(deps: Graph, depths: map<Key, int>, parts: set<Key>, d: int): (r: set<Key>)
    requires Closed(deps) && depths.Keys == deps.Keys && parts <= deps.Keys
    ensures r <= deps.Keys
  {
    (set p | p in parts && depths[p] != d) + (set p, q | p in parts && depths[p] == d && q in deps[p] :: q)
  }

  /** The partition keys part-way through a pass: those still to visit
      have been left alone. */
  ghost function Passed(deps: Graph, depths: map<Key, int>, parts: set<Key>, todo: set<Key>, d: int): set<Key>
    requires Closed(deps) && depths.Keys == deps.Keys && parts <= deps.Keys
  {
    (set p | p in parts && (p in todo || depths[p] != d))
      + (set p, q | p in parts && p !in todo && depths[p] == d && q in deps[p] :: q)
  }

  /** Visiting pn: at depth d it is still there, so the toggle removes it,
      and none of the keys added below depth d is touched again. */
  lemma PassStep(deps: Graph, depths: map<Key, int>, parts: set<Key>, todo: set<Key>, d: int, pn: Key)
    requires Descending(deps, depths) && parts <= deps.Keys && todo <= parts && pn in todo
    ensures depths[pn] == d ==> pn in Passed(deps, depths, parts, todo, d)
    ensures Passed(deps, depths, parts, todo - {pn}, d)
      == if depths[pn] == d then Passed(deps, depths, parts, todo, d) - {pn} + deps[pn]
         else Passed(deps, depths, parts, todo, d)
  {
    var before := Passed(deps, depths, parts, todo, d);
    var after := Passed(deps, depths, parts, todo - {pn}, d);
    if depths[pn] == d {
      forall x | x in after ensures x in before - {pn} + deps[pn] {
        if x !in deps[pn] {
          if x in parts && (x in todo - {pn} || depths[x] != d) {
            assert x in before && x != pn;
          } else {
            var p :| p in parts && p !in todo - {pn} && depths[p] == d && x in deps[p];
            assert p != pn;
            assert depths[x] < d;
            assert x in before && x != pn;
          }
        }
      }
      forall x | x in before - {pn} + deps[pn] ensures x in after {
        if x in deps[pn] {
          assert pn in parts && pn !in todo - {pn} && depths[pn] == d;
        } else if x in parts && (x in todo || depths[x] != d) {
          assert x in todo - {pn} || depths[x] != d;
        }
      }
    } else {
      assert after == before;
    }
  }

  /** The pass over a copy of the partition keys: each key at depth d is
      toggled out of the set and its dependencies are added. */
  method DescendPass(deps: Graph, depths: map<Key, int>, parts: set<Key>, d: int) returns (parts': set<Key>)
    requires Descending(deps, depths) && parts <= deps.Keys
    ensures parts' == Descend(deps, depths, parts, d)
  {
    parts' := parts;
    var todo := parts;
    assert Passed(deps, depths, parts, todo, d) == parts;
    while todo != {}
      invariant todo <= parts
      invariant parts' == Passed(deps, depths, parts, todo, d)
      decreases todo
    {
      var pn :| pn in todo;
      PassStep(deps, depths, parts, todo, d, pn);
      if depths[pn] == d {
        parts' := if pn in parts' then parts' - {pn} else parts' + {pn};
        parts' := parts' + deps[pn];
      }
      todo := todo - {pn};
    }
    assert Passed(deps, depths, parts, {}, d) == Descend(deps, depths, parts, d);
  }

  /** The outcome of the walk from parts at depth d with n workers: None
      when it runs out of depth and the plugin falls back. */
  ghost function Walk(deps: Graph, depths: map<Key, int>, parts: set<Key>, n: nat, d: int): Option<set<Key>>
    requires Closed(deps) && depths.Keys == deps.Keys && parts <= deps.Keys
    decreases if d > 0 then d else 0
  {
    if |parts| < n && d > 0 then
      var next := Descend(deps, depths, parts, d);
      if d - 1 <= 0 then None else Walk(deps, depths, next, n, d - 1)
    else Some(parts)
  }

  /** The walk: while there are fewer partition keys than workers and
      depth is left, pass at the current depth and go one level up; once
      the depth reaches 0 inside the loop, give up. */
  method Partition(deps: Graph, depths: map<Key, int>, parts0: set<Key>, n: nat, maxDepth: int)
    returns (parts: set<Key>, fellBack: bool)
    requires Descending(deps, depths) && parts0 <= deps.Keys
    ensures fellBack <==> Walk(deps, depths, parts0, n, maxDepth).None?
    ensures !fellBack ==> Walk(deps, depths, parts0, n, maxDepth) == Some(parts)
  {
    parts := parts0;
    var d := maxDepth;
    while |parts| < n && d > 0
      invariant parts <= deps.Keys
      invariant Walk(deps, depths, parts0, n, maxDepth) == Walk(deps, depths, parts, n, d)
      decreases d
    {
      parts := DescendPass(deps, depths, parts, d);
      d := d - 1;
      if d <= 0 {
        return parts, true;
      }
    }
    return parts, false;
  }

  // ---------------------------------------------------------------------
  // Every key stays in the family of some partition key

  /** k is in the family of some partition key. */
  ghost predicate Covered(deps: Graph, dependents: Graph, rank: map<Key, nat>, rankUp: map<Key, nat>, parts: set<Key>, k: Key)
    requires Acyclic(deps, dependents, rank, rankUp) && parts <= deps.Keys
  {
    exists p :: p in parts && k in Family(deps, dependents, rank, rankUp, p)
  }

  /** Every key is in the family of some partition key. */
  ghost predicate Covers(deps: Graph, dependents: Graph, rank: map<Key, nat>, rankUp: map<Key, nat>, parts: set<Key>)
    requires Acyclic(deps, dependents, rank, rankUp)
  {
    && parts <= deps.Keys
    && forall k {:trigger Covered(deps, dependents, rank, rankUp, parts, k)} ::
         k in deps ==> Covered(deps, dependents, rank, rankUp, parts, k)
  }

  /** Every key is a terminal key or something a terminal key depends on. */
  lemma {:induction false} UpToTerminal(deps: Graph, dependents: Graph, rank: map<Key, nat>, rankUp: map<Key, nat>, k: Key)
    requires Acyclic(deps, dependents, rank, rankUp) && k in deps
    ensures exists t :: t in TerminalNodes(dependents) && (k == t || k in Reach(deps, rank, t))
    decreases rankUp[k]
  {
    if dependents[k] != {} {
      var e :| e in dependents[k];
      assert e in deps && k in deps[e];
      UpToTerminal(deps, dependents, rank, rankUp, e);
      var t :| t in TerminalNodes(dependents) && (e == t || e in Reach(deps, rank, t));
      if e != t {
        ReachClosed(deps, rank, t, e);
      }
      assert k in Reach(deps, rank, t);
    } else {
      assert k in TerminalNodes(dependents);
    }
  }

  lemma TerminalCovers(deps: Graph, dependents: Graph, rank: map<Key, nat>, rankUp: map<Key, nat>, k: Key)
    requires Acyclic(deps, dependents, rank, rankUp) && k in deps
    ensures Covered(deps, dependents, rank, rankUp, TerminalNodes(dependents), k)
  {
    UpToTerminal(deps, dependents, rank, rankUp, k);
    var t :| t in TerminalNodes(dependents) && (k == t || k in Reach(deps, rank, t));
    assert k in Family(deps, dependents, rank, rankUp, t);
  }

  /** The terminal keys cover the graph. */
  lemma TerminalsCover(deps: Graph, dependents: Graph, rank: map<Key, nat>, rankUp: map<Key, nat>)
    requires Acyclic(deps, dependents, rank, rankUp)
    ensures Covers(deps, dependents, rank, rankUp, TerminalNodes(dependents))
  {
    forall k | k in deps
      ensures Covered(deps, dependents, rank, rankUp, TerminalNodes(dependents), k)
    {
      TerminalCovers(deps, dependents, rank, rankUp, k);
    }
  }

  /** A key in the family of p, at depth d > 0, is in the family of one
      of p's direct dependencies. */
  lemma FamilyDown(deps: Graph, dependents: Graph, rank: map<Key, nat>, rankUp: map<Key, nat>,
                   depths: map<Key, int>, p: Key, k: Key)
    requires Acyclic(deps, dependents, rank, rankUp) && Descending(deps, depths)
    requires p in deps && depths[p] > 0 && k in Family(deps, dependents, rank, rankUp, p)
    ensures exists q :: q in deps[p] && k in Family(deps, dependents, rank, rankUp, q)
  {
    var q :| q in deps[p];
    assert q in deps && p in dependents[q];
    if k in Reach(deps, rank, p) {
      if k !in deps[p] {
        var q' :| q' in deps[p] && k in Reach(deps, rank, q');
        assert k in Family(deps, dependents, rank, rankUp, q');
      } else {
        assert k in Family(deps, dependents, rank, rankUp, k);
      }
    } else {
      assert Reach(dependents, rankUp, p) <= Reach(dependents, rankUp, q);
      assert k in Family(deps, dependents, rank, rankUp, q);
    }
  }

  lemma DescendCoversKey(deps: Graph, dependents: Graph, rank: map<Key, nat>, rankUp: map<Key, nat>,
                         depths: map<Key, int>, parts: set<Key>, d: int, k: Key)
    requires Acyclic(deps, dependents, rank, rankUp) && Descending(deps, depths) && d > 0
    requires parts <= deps.Keys && Covered(deps, dependents, rank, rankUp, parts, k)
    ensures Covered(deps, dependents, rank, rankUp, Descend(deps, depths, parts, d), k)
  {
    var next := Descend(deps, depths, parts, d);
    var p :| p in parts && k in Family(deps, dependents, rank, rankUp, p);
    if depths[p] == d {
      FamilyDown(deps, dependents, rank, rankUp, depths, p, k);
      var q :| q in deps[p] && k in Family(deps, dependents, rank, rankUp, q);
      assert q in next;
    } else {
      assert p in next;
    }
  }

  /** A pass keeps the graph covered. */
  lemma DescendCovers(deps: Graph, dependents: Graph, rank: map<Key, nat>, rankUp: map<Key, nat>,
                      depths: map<Key, int>, parts: set<Key>, d: int)
    requires Acyclic(deps, dependents, rank, rankUp) && Descending(deps, depths) && d > 0
    requires Covers(deps, dependents, rank, rankUp, parts)
    ensures Covers(deps, dependents, rank, rankUp, Descend(deps, depths, parts, d))
  {
    var next := Descend(deps, depths, parts, d);
    forall k | k in deps
      ensures Covered(deps, dependents, rank, rankUp, next, k)
    {
      DescendCoversKey(deps, dependents, rank, rankUp, depths, parts, d, k);
    }
  }

  /** A walk that ends without falling back covers the graph whenever it
      started from a cover. */
  lemma {:induction false} WalkCovers(deps: Graph, dependents: Graph, rank: map<Key, nat>, rankUp: map<Key, nat>,
                                      depths: map<Key, int>, parts: set<Key>, n: nat, d: int, last: set<Key>)
    requires Acyclic(deps, dependents, rank, rankUp) && Descending(deps, depths)
    requires Covers(deps, dependents, rank, rankUp, parts)
    requires Walk(deps, depths, parts, n, d) == Some(last)
    ensures Covers(deps, dependents, rank, rankUp, last)
    decreases if d > 0 then d else 0
  {
    if |parts| < n && d > 0 {
      DescendCovers(deps, dependents, rank, rankUp, depths, parts, d);
      WalkCovers(deps, dependents, rank, rankUp, depths, Descend(deps, depths, parts, d), n, d - 1, last);
    }
  }

  /** A walk that falls back started with fewer partition keys than
      workers; one that does not ends with a cover. */
  lemma WalkEnds(deps: Graph, dependents: Graph, rank: map<Key, nat>, rankUp: map<Key, nat>,
                 depths: map<Key, int>, parts0: set<Key>, n: nat, d: int, parts: set<Key>, fellBack: bool)
    requires Acyclic(deps, dependents, rank, rankUp) && Descending(deps, depths)
    requires Covers(deps, dependents, rank, rankUp, parts0)
    requires fellBack <==> Walk(deps, depths, parts0, n, d).None?
    requires !fellBack ==> Walk(deps, depths, parts0, n, d) == Some(parts)
    ensures fellBack ==> |parts0| < n && d > 0
    ensures !fellBack ==> Covers(deps, dependents, rank, rankUp, parts)
  {
    if !fellBack {
      WalkCovers(deps, dependents, rank, rankUp, depths, parts0, n, d, parts);
    }
  }

  // ---------------------------------------------------------------------
  // Partition keys and their roots

  /** What `update_graph` records per partition key in its three
      dictionaries: what the key depends on, what depends on it, and the
      roots among its dependencies. */
  datatype PartData = PartData(below: set<Key>, above: set<Key>, roots: set<Key>)

  /** The record of pn is its own. */
  ghost predicate InfoAt(deps: Graph, dependents: Graph, rank: map<Key, nat>, rankUp: map<Key, nat>,
                         info: map<Key, PartData>, pn: Key)
    requires Acyclic(deps, dependents, rank, rankUp) && pn in deps
  {
    && pn in info
    && info[pn].below == Reach(deps, rank, pn) && info[pn].above == Reach(dependents, rankUp, pn)
    && info[pn].roots == RootNodes(deps) * info[pn].below
  }

  /** The dependencies, dependents and roots of one partition key. */
  method PartOf(deps: Graph, dependents: Graph, pn: Key, ghost rank: map<Key, nat>, ghost rankUp: map<Key, nat>)
    returns (d: PartData)
    requires Acyclic(deps, dependents, rank, rankUp) && pn in deps
    ensures d.below == Reach(deps, rank, pn) && d.above == Reach(dependents, rankUp, pn)
    ensures d.roots == RootNodes(deps) * d.below
  {
    var below := UnravelDeps(deps, pn, {}, rank);
    var above := UnravelDeps(dependents, pn, {}, rankUp);
    d := PartData(below, above, RootNodes(deps) * below);
  }

  /** The records of all partition keys. */
  method PartInfo(deps: Graph, dependents: Graph, parts: set<Key>, ghost rank: map<Key, nat>, ghost rankUp: map<Key, nat>)
    returns (info: map<Key, PartData>)
    requires Acyclic(deps, dependents, rank, rankUp) && parts <= deps.Keys
    ensures info.Keys == parts
    ensures forall pn :: pn in parts ==> InfoAt(deps, dependents, rank, rankUp, info, pn)
  {
    info := map[];
    var todo := parts;
    while todo != {}
      invariant todo <= parts && info.Keys == parts - todo
      invariant forall pn :: pn in info ==> InfoAt(deps, dependents, rank, rankUp, info, pn)
      decreases todo
    {
      var pn :| pn in todo;
      var d := PartOf(deps, dependents, pn, rank, rankUp);
      info := info[pn := d];
      todo := todo - {pn};
    }
  }

  // ---------------------------------------------------------------------
  // Groups of root sets

  /** A `defaultdict(set)` read: a missing entry is empty. */
  function Get(m: map<nat, set<nat>>, k: nat): set<nat>
  {
    if k in m then m[k] else {}
  }

  /** `root_tokens`: the distinct root sets of the partition keys, in
      dictionary order. A token is a position in this sequence. */
  ghost predicate Tokens(info: map<Key, PartData>, sets: seq<set<Key>>)
  {
    && Distinct(sets)
    && (forall i :: 0 <= i < |sets| ==> exists pn :: pn in info && sets[i] == info[pn].roots)
    && (forall pn :: pn in info ==> info[pn].roots in sets)
  }

  /** Collects the distinct root sets, each where it first occurs. */
  method RootTokens(info: map<Key, PartData>) returns (sets: seq<set<Key>>)
    ensures Tokens(info, sets)
  {
    sets := [];
    var todo := info.Keys;
    while todo != {}
      invariant todo <= info.Keys && Distinct(sets)
      invariant forall i :: 0 <= i < |sets| ==> exists pn :: pn in info && sets[i] == info[pn].roots
      invariant forall pn :: pn in info && pn !in todo ==> info[pn].roots in sets
      decreases |todo|
    {
      var pn :| pn in todo;
      if info[pn].roots !in sets {
        sets := sets + [info[pn].roots];
      }
      todo := todo - {pn};
    }
  }

  /** No root set strictly contains the one at i. */
  predicate IsMaximal(sets: seq<set<Key>>, i: nat)
    requires i < |sets|
  {
    forall j :: 0 <= j < |sets| ==> !(sets[i] < sets[j])
  }

  /** hm has an entry exactly for the maximal root sets. */
  ghost predicate MaxKeys(sets: seq<set<Key>>, hm: map<nat, set<nat>>)
  {
    forall i :: i in hm <==> 0 <= i < |sets| && IsMaximal(sets, i)
  }

  /** Every maximal root set gets a group number of its own, numbered
      from 0 in token order. */
  method FirstGroups(sets: seq<set<Key>>) returns (hm: map<nat, set<nat>>, offset: nat)
    ensures MaxKeys(sets, hm)
    ensures forall i :: i in hm ==> exists g :: g < offset && hm[i] == {g}
    ensures forall i, j :: i in hm && j in hm && i != j ==> hm[i] !! hm[j]
  {
    hm, offset := map[], 0;
    for i := 0 to |sets|
      invariant forall u :: u in hm <==> 0 <= u < i && IsMaximal(sets, u)
      invariant forall u :: u in hm ==> exists g :: g < offset && hm[u] == {g}
      invariant forall u, w :: u in hm && w in hm && u != w ==> hm[u] !! hm[w]
    {
      if !(exists j :: 0 <= j < |sets| && sets[i] < sets[j]) {
        hm := hm[i := Get(hm, i) + {offset}];
        offset := offset + 1;
      }
    }
  }

  /** The groups of the maximal root sets strictly above the one at i. */
  ghost function Up(sets: seq<set<Key>>, hm: map<nat, set<nat>>, i: nat): set<nat>
    requires MaxKeys(sets, hm) && i < |sets|
  {
    set j, g | j in hm && sets[i] < sets[j] && g in hm[j] :: g
  }

  /** The groups of the root set at i once shared: a maximal set keeps
      its own, the empty set is left alone, and any other set takes the
      groups of all the maximal sets above it. */
  ghost function Shared(sets: seq<set<Key>>, hm: map<nat, set<nat>>, i: nat): set<nat>
    requires MaxKeys(sets, hm) && i < |sets|
  {
    if i in hm then hm[i] else if sets[i] == {} then {} else Up(sets, hm, i)
  }

  /** Every root set before position i holds its shared groups; the
      others still hold what the first loop gave them. */
  ghost predicate SharedSoFar(sets: seq<set<Key>>, hm1: map<nat, set<nat>>, hm: map<nat, set<nat>>, i: nat)
    requires MaxKeys(sets, hm1)
  {
    forall u :: 0 <= u < |sets| ==> Get(hm, u) == (if u in hm1 || u < i then Shared(sets, hm1, u) else {})
  }

  /** A group read from a root set above i belongs to a maximal set above
      i: a set already shared holds groups of maximal sets above it, hence
      above i, and one not yet shared holds none. */
  lemma ShareStepSub(sets: seq<set<Key>>, hm1: map<nat, set<nat>>, hm: map<nat, set<nat>>, i: nat, j: nat, g: nat)
    requires MaxKeys(sets, hm1) && SharedSoFar(sets, hm1, hm, i)
    requires i < |sets| && j < |sets| && sets[i] < sets[j] && g in Get(hm, j)
    ensures g in Up(sets, hm1, i)
  {
    if j !in hm1 {
      var w, g' :| w in hm1 && sets[j] < sets[w] && g' in hm1[w] && g == g';
      assert sets[i] < sets[w];
    }
  }

  /** The groups read from the root sets above i, whatever the order, are
      those of the maximal sets above i. */
  lemma ShareStep(sets: seq<set<Key>>, hm1: map<nat, set<nat>>, hm: map<nat, set<nat>>, i: nat)
    requires MaxKeys(sets, hm1) && SharedSoFar(sets, hm1, hm, i) && i < |sets|
    ensures (set j, g | 0 <= j < |sets| && sets[i] < sets[j] && g in Get(hm, j) :: g) == Up(sets, hm1, i)
  {
    var shared := set j, g | 0 <= j < |sets| && sets[i] < sets[j] && g in Get(hm, j) :: g;
    forall g | g in shared ensures g in Up(sets, hm1, i) {
      var j :| 0 <= j < |sets| && sets[i] < sets[j] && g in Get(hm, j);
      ShareStepSub(sets, hm1, hm, i, j, g);
    }
    forall g | g in Up(sets, hm1, i) ensures g in shared {
      var j :| j in hm1 && sets[i] < sets[j] && g in hm1[j];
      assert g in Get(hm, j);
    }
  }

  /** Sharing the root set at i, or leaving it alone, keeps every entry. */
  lemma ShareNext(sets: seq<set<Key>>, hm1: map<nat, set<nat>>, hm: map<nat, set<nat>>, hm': map<nat, set<nat>>, i: nat)
    requires MaxKeys(sets, hm1) && SharedSoFar(sets, hm1, hm, i) && i < |sets|
    requires forall u :: u != i ==> Get(hm', u) == Get(hm, u)
    requires Get(hm', i) == (if i in hm1 || sets[i] == {} then Get(hm, i) else Up(sets, hm1, i))
    ensures SharedSoFar(sets, hm1, hm', i + 1)
  {
    forall u | 0 <= u < |sets|
      ensures Get(hm', u) == (if u in hm1 || u < i + 1 then Shared(sets, hm1, u) else {})
    {
      assert Get(hm, u) == (if u in hm1 || u < i then Shared(sets, hm1, u) else {});
    }
  }

  /** The sharing loop: every non-empty root set that another strictly
      contains takes the union of the groups of all those above it. */
  method ShareGroups(sets: seq<set<Key>>, hm1: map<nat, set<nat>>) returns (hm: map<nat, set<nat>>)
    requires MaxKeys(sets, hm1)
    ensures forall i :: 0 <= i < |sets| ==> Get(hm, i) == Shared(sets, hm1, i)
  {
    hm := hm1;
    for i := 0 to |sets|
      invariant SharedSoFar(sets, hm1, hm, i)
    {
      var hm' := hm;
      if sets[i] != {} {
        var above := set j | 0 <= j < |sets| && sets[i] < sets[j];
        if above != {} {
          var j :| j in above;
          assert i !in hm1;
          ShareStep(sets, hm1, hm, i);
          hm' := hm[i := set j, g | 0 <= j < |sets| && sets[i] < sets[j] && g in Get(hm, j) :: g];
        } else {
          assert IsMaximal(sets, i) by {
            forall j | 0 <= j < |sets| ensures !(sets[i] < sets[j]) {
              assert sets[i] < sets[j] ==> j in above;
            }
          }
        }
      }
      ShareNext(sets, hm1, hm, hm', i);
      hm := hm';
    }
  }

  /** A root set inside another shares all the other's groups. */
  lemma SharedSubset(sets: seq<set<Key>>, hm: map<nat, set<nat>>, i: nat, j: nat)
    requires MaxKeys(sets, hm) && i < |sets| && j < |sets| && sets[i] < sets[j] && sets[i] != {}
    ensures Shared(sets, hm, j) <= Shared(sets, hm, i)
  {
    assert i !in hm;
    forall g | g in Shared(sets, hm, j) ensures g in Up(sets, hm, i) {
      if j !in hm {
        var u :| u in hm && sets[j] < sets[u] && g in hm[u];
        assert sets[i] < sets[u];
      }
    }
  }

  /** Every root set below the top lies strictly inside a maximal one. */
  lemma {:induction false} MaxAbove(sets: seq<set<Key>>, i: nat)
    requires i < |sets| && !IsMaximal(sets, i)
    ensures exists j :: 0 <= j < |sets| && IsMaximal(sets, j) && sets[i] < sets[j]
    decreases |set u | 0 <= u < |sets| && sets[i] < sets[u]|
  {
    var j :| 0 <= j < |sets| && sets[i] < sets[j];
    if !IsMaximal(sets, j) {
      var above := set u | 0 <= u < |sets| && sets[j] < sets[u];
      var aboveI := set u | 0 <= u < |sets| && sets[i] < sets[u];
      assert j in aboveI && j !in above;
      ProperSubsetCard(above, aboveI);
      MaxAbove(sets, j);
      var w :| 0 <= w < |sets| && IsMaximal(sets, w) && sets[j] < sets[w];
      assert sets[i] < sets[w];
    }
  }

  /** A non-empty root set ends up with at least one group. */
  lemma SharedNonEmpty(sets: seq<set<Key>>, hm: map<nat, set<nat>>, i: nat)
    requires MaxKeys(sets, hm) && (forall u :: u in hm ==> hm[u] != {})
    requires i < |sets| && sets[i] != {}
    ensures Shared(sets, hm, i) != {}
  {
    if i !in hm {
      MaxAbove(sets, i);
      var j :| 0 <= j < |sets| && IsMaximal(sets, j) && sets[i] < sets[j];
      var g :| g in hm[j];
      assert g in Up(sets, hm, i);
    }
  }

  // ---------------------------------------------------------------------
  // Task groups

  /** The keys a partition key brings to each of its groups: itself, what
      it depends on and what depends on it. */
  function Fam(info: map<Key, PartData>, pn: Key): set<Key>
    requires pn in info
  {
    info[pn].below + info[pn].above + {pn}
  }

  /** A `defaultdict(set)` read of the `task_groups`. */
  function Members(tg: map<nat, set<Key>>, g: nat): set<Key>
  {
    if g in tg then tg[g] else {}
  }

  /** order lists the groups of tg once each, as a dictionary does. */
  ghost predicate Listed(tg: map<nat, set<Key>>, order: seq<nat>)
  {
    Distinct(order) && forall g :: g in order <==> g in tg
  }

  /** The `task_groups` hold, for the partition keys done so far, exactly
      the families of the keys given each group. */
  ghost predicate GroupsHold(info: map<Key, PartData>, gid: map<Key, set<nat>>, done: set<Key>,
                             tg: map<nat, set<Key>>)
  {
    && done <= info.Keys && gid.Keys == done
    && (forall g :: g in tg <==> exists pn :: pn in done && g in gid[pn])
    && (forall g, x :: g in tg ==> (x in tg[g] <==> exists pn :: pn in done && g in gid[pn] && x in Fam(info, pn)))
  }

  /** Writes group g, a new group going last in the listing. */
  method Put(tg: map<nat, set<Key>>, order: seq<nat>, g: nat, v: set<Key>)
    returns (tg': map<nat, set<Key>>, order': seq<nat>)
    requires Listed(tg, order)
    ensures tg' == tg[g := v] && Listed(tg', order')
    ensures order' == if g in tg then order else order + [g]
  {
    if g !in tg {
      order' := order + [g];
    } else {
      order' := order;
    }
    tg' := tg[g := v];
  }

  /** The `task_groups` with fam added to every group of groups. */
  function Joined(tg: map<nat, set<Key>>, groups: set<nat>, fam: set<Key>): map<nat, set<Key>>
  {
    map g | g in tg.Keys + groups :: if g in groups then Members(tg, g) + fam else tg[g]
  }

  /** Joining one more group to fam. */
  lemma JoinedStep(tg: map<nat, set<Key>>, done: set<nat>, fam: set<Key>, g: nat)
    requires g !in done
    ensures var j := Joined(tg, done, fam); j[g := Members(j, g) + fam] == Joined(tg, done + {g}, fam)
  {
    var j := Joined(tg, done, fam);
    var l := j[g := Members(j, g) + fam];
    var r := Joined(tg, done + {g}, fam);
    assert l.Keys == r.Keys;
    forall h | h in l ensures l[h] == r[h] {
      if h == g {
        assert Members(j, g) == Members(tg, g);
      }
    }
  }

  /** One step of AddFamily: group g gets fam. */
  method JoinOne(tg: map<nat, set<Key>>, ghost done: set<nat>, fam: set<Key>,
                 cur: map<nat, set<Key>>, order: seq<nat>, g: nat)
    returns (tg': map<nat, set<Key>>, order': seq<nat>)
    requires g !in done && Listed(cur, order) && cur == Joined(tg, done, fam)
    ensures Listed(tg', order') && tg' == Joined(tg, done + {g}, fam)
    ensures order' == if g in cur then order else order + [g]
  {
    JoinedStep(tg, done, fam, g);
    tg', order' := Put(cur, order, g, Members(cur, g) + fam);
  }

  /** `task_groups[g] |= fam` for every g in groups; a new group joins the
      end of the dictionary. */
  method AddFamily(tg: map<nat, set<Key>>, order: seq<nat>, groups: set<nat>, fam: set<Key>)
    returns (tg': map<nat, set<Key>>, order': seq<nat>)
    requires Listed(tg, order)
    ensures Listed(tg', order') && tg' == Joined(tg, groups, fam)
    ensures order <= order' && forall i :: |order| <= i < |order'| ==> order'[i] in groups && order'[i] !in tg
  {
    tg', order' := tg, order;
    var todo := groups;
    ghost var done: set<nat> := {};
    assert tg == Joined(tg, {}, fam);
    while todo != {}
      invariant done + todo == groups && done !! todo && Listed(tg', order')
      invariant tg' == Joined(tg, done, fam)
      invariant order <= order' && forall i :: |order| <= i < |order'| ==> order'[i] in done && order'[i] !in tg
      decreases todo
    {
      var g :| g in todo;
      tg', order' := JoinOne(tg, done, fam, tg', order', g);
      done := done + {g};
      todo := todo - {g};
    }
  }

  /** Adding the family of pn to its groups keeps the `task_groups` whole. */
  lemma GroupStep(info: map<Key, PartData>, gid: map<Key, set<nat>>, done: set<Key>,
                  tg: map<nat, set<Key>>, pn: Key, groups: set<nat>, tg': map<nat, set<Key>>)
    requires GroupsHold(info, gid, done, tg) && pn in info && pn !in done
    requires tg' == Joined(tg, groups, Fam(info, pn))
    ensures GroupsHold(info, gid[pn := groups], done + {pn}, tg')
  {
    GroupKeysStep(info, gid, done, tg, pn, groups, tg');
    forall g, x | g in tg' {
      GroupMemberStep(info, gid, done, tg, pn, groups, tg', g, x);
    }
  }

  lemma GroupKeysStep(info: map<Key, PartData>, gid: map<Key, set<nat>>, done: set<Key>,
                      tg: map<nat, set<Key>>, pn: Key, groups: set<nat>, tg': map<nat, set<Key>>)
    requires GroupsHold(info, gid, done, tg) && pn in info && pn !in done
    requires tg' == Joined(tg, groups, Fam(info, pn))
    ensures forall g :: g in tg' <==> exists p :: p in done + {pn} && g in gid[pn := groups][p]
  {
    var gid' := gid[pn := groups];
    forall g | g in tg' ensures exists p :: p in done + {pn} && g in gid'[p] {
      if g in groups {
        assert g in gid'[pn];
      } else {
        assert g in tg;
        var p :| p in done && g in gid[p];
        assert p != pn && g in gid'[p];
      }
    }
  }

  lemma GroupMemberStep(info: map<Key, PartData>, gid: map<Key, set<nat>>, done: set<Key>,
                        tg: map<nat, set<Key>>, pn: Key, groups: set<nat>, tg': map<nat, set<Key>>,
                        g: nat, x: Key)
    requires GroupsHold(info, gid, done, tg) && pn in info && pn !in done
    requires tg' == Joined(tg, groups, Fam(info, pn)) && g in tg'
    ensures x in tg'[g] <==> exists p :: p in done + {pn} && g in gid[pn := groups][p] && x in Fam(info, p)
  {
    var gid' := gid[pn := groups];
    if x in tg'[g] {
      if g in tg && x in tg[g] {
        var p :| p in done && g in gid[p] && x in Fam(info, p);
        assert p != pn && g in gid'[p];
      } else {
        assert g in groups && x in Fam(info, pn) && g in gid'[pn];
      }
    }
    if exists p :: p in done + {pn} && g in gid'[p] && x in Fam(info, p) {
      var p :| p in done + {pn} && g in gid'[p] && x in Fam(info, p);
      if p != pn {
        assert g in tg && x in tg[g];
      }
    }
  }

  /** The groups given to the partition keys done so far: a key with
      dependencies takes the shared groups of its root set, any other key
      a fresh group number of its own, from offset0 up to offset. */
  ghost predicate Numbered(info: map<Key, PartData>, sets: seq<set<Key>>, hm: map<nat, set<nat>>,
                           gid: map<Key, set<nat>>, done: set<Key>, offset0: nat, offset: nat)
    requires done <= info.Keys && gid.Keys == done
  {
    && offset0 <= offset
    && (forall pn, i :: pn in done && info[pn].below != {} && 0 <= i < |sets| && sets[i] == info[pn].roots
          ==> gid[pn] == Get(hm, i))
    && (forall pn :: pn in done && info[pn].below == {} ==> exists g :: offset0 <= g < offset && gid[pn] == {g})
    && (forall p, q :: p in done && q in done && p != q && info[p].below == {} && info[q].below == {}
          ==> gid[p] !! gid[q])
  }

  /** The groups of one partition key: those of its root set, or the next
      fresh number when it has no dependencies. */
  method GroupsOf(info: map<Key, PartData>, sets: seq<set<Key>>, hm: map<nat, set<nat>>,
                  ghost gid: map<Key, set<nat>>, ghost done: set<Key>, offset0: nat, offset: nat, pn: Key)
    returns (groups: set<nat>, offset': nat)
    requires Tokens(info, sets) && done <= info.Keys && gid.Keys == done && pn in info && pn !in done
    requires Numbered(info, sets, hm, gid, done, offset0, offset)
    ensures Numbered(info, sets, hm, gid[pn := groups], done + {pn}, offset0, offset')
  {
    if info[pn].below != {} {
      var i :| 0 <= i < |sets| && sets[i] == info[pn].roots;
      groups, offset' := Get(hm, i), offset;
      NumberShared(info, sets, hm, gid, done, offset0, offset, pn, i);
    } else {
      groups, offset' := {offset}, offset + 1;
      NumberFresh(info, sets, hm, gid, done, offset0, offset, pn);
    }
  }

  lemma NumberShared(info: map<Key, PartData>, sets: seq<set<Key>>, hm: map<nat, set<nat>>,
                     gid: map<Key, set<nat>>, done: set<Key>, offset0: nat, offset: nat, pn: Key, i: nat)
    requires Distinct(sets) && done <= info.Keys && gid.Keys == done && pn in info && pn !in done
    requires Numbered(info, sets, hm, gid, done, offset0, offset)
    requires info[pn].below != {} && i < |sets| && sets[i] == info[pn].roots
    ensures Numbered(info, sets, hm, gid[pn := Get(hm, i)], done + {pn}, offset0, offset)
  {
    forall j | 0 <= j < |sets| && sets[j] == info[pn].roots ensures Get(hm, j) == Get(hm, i) {
      assert j == i;
    }
  }

  lemma NumberFresh(info: map<Key, PartData>, sets: seq<set<Key>>, hm: map<nat, set<nat>>,
                    gid: map<Key, set<nat>>, done: set<Key>, offset0: nat, offset: nat, pn: Key)
    requires done <= info.Keys && gid.Keys == done && pn in info && pn !in done
    requires Numbered(info, sets, hm, gid, done, offset0, offset)
    requires info[pn].below == {}
    ensures Numbered(info, sets, hm, gid[pn := {offset}], done + {pn}, offset0, offset + 1)
  {
    forall q | q in done && info[q].below == {} ensures gid[q] !! {offset} {
      var g :| offset0 <= g < offset && gid[q] == {g};
    }
  }

  /** `task_groups`: every partition key adds its family to each of its
      groups; groups are listed in the order they first appear. */
  method GroupTasks(info: map<Key, PartData>, sets: seq<set<Key>>, hm: map<nat, set<nat>>, offset0: nat)
    returns (tg: map<nat, set<Key>>, order: seq<nat>, ghost gid: map<Key, set<nat>>, offset: nat)
    requires Tokens(info, sets)
    ensures Listed(tg, order) && GroupsHold(info, gid, info.Keys, tg)
    ensures Numbered(info, sets, hm, gid, info.Keys, offset0, offset)
  {
    tg, order, gid, offset := map[], [], map[], offset0;
    var todo := info.Keys;
    ghost var done: set<Key> := {};
    while todo != {}
      invariant done + todo == info.Keys && done !! todo && gid.Keys == done
      invariant Listed(tg, order) && GroupsHold(info, gid, done, tg)
      invariant Numbered(info, sets, hm, gid, done, offset0, offset)
      decreases todo
    {
      var pn :| pn in todo;
      var groups;
      groups, offset := GroupsOf(info, sets, hm, gid, done, offset0, offset, pn);
      var tg', order' := AddFamily(tg, order, groups, Fam(info, pn));
      GroupStep(info, gid, done, tg, pn, groups, tg');
      tg, order, gid := tg', order', gid[pn := groups];
      done := done + {pn};
      todo := todo - {pn};
    }
  }

  // ---------------------------------------------------------------------
  // Every task of the graph gets a worker

  /** The groups of the root sets: every maximal set has a group of its
      own, and every set holds its shared groups. */
  ghost predicate Hashed(sets: seq<set<Key>>, hm1: map<nat, set<nat>>, hm: map<nat, set<nat>>)
  {
    && MaxKeys(sets, hm1) && (forall u :: u in hm1 ==> hm1[u] != {})
    && forall i :: 0 <= i < |sets| ==> Get(hm, i) == Shared(sets, hm1, i)
  }

  /** groups lists the `task_groups` in the order of order. */
  predicate InOrder(tg: map<nat, set<Key>>, order: seq<nat>, groups: seq<set<Key>>)
  {
    |groups| == |order| && forall j :: 0 <= j < |order| ==> order[j] in tg && groups[j] == tg[order[j]]
  }

  /** `task_groups.values()`, in dictionary order. */
  method Values(tg: map<nat, set<Key>>, order: seq<nat>) returns (groups: seq<set<Key>>)
    requires Listed(tg, order)
    ensures InOrder(tg, order, groups)
  {
    groups := seq(|order|, j requires 0 <= j < |order| => tg[order[j]]);
  }

  /** Every partition key has at least one group: a fresh one, or the
      shared groups of its (non-empty) root set. */
  lemma PartGrouped(deps: Graph, rank: map<Key, nat>, info: map<Key, PartData>, sets: seq<set<Key>>,
                    hm1: map<nat, set<nat>>, hm: map<nat, set<nat>>, gid: map<Key, set<nat>>,
                    offset0: nat, offset: nat, pn: Key)
    requires Ranked(deps, rank) && pn in deps && pn in info
    requires info[pn].below == Reach(deps, rank, pn) && info[pn].roots == RootNodes(deps) * info[pn].below
    requires Tokens(info, sets) && Hashed(sets, hm1, hm)
    requires gid.Keys == info.Keys && Numbered(info, sets, hm, gid, info.Keys, offset0, offset)
    ensures gid[pn] != {}
  {
    if info[pn].below != {} {
      RootReached(deps, rank, pn);
      var r :| r in Reach(deps, rank, pn) && r in RootNodes(deps);
      assert r in info[pn].roots;
      var i :| 0 <= i < |sets| && sets[i] == info[pn].roots;
      SharedNonEmpty(sets, hm1, i);
      assert gid[pn] == Get(hm, i);
    } else {
      var g :| offset0 <= g < offset && gid[pn] == {g};
      assert g in gid[pn];
    }
  }

  /** A key in the family of a grouped partition key is in one of the
      listed groups. */
  lemma KeyGrouped(info: map<Key, PartData>, gid: map<Key, set<nat>>, tg: map<nat, set<Key>>,
                   order: seq<nat>, groups: seq<set<Key>>, p: Key, k: Key)
    requires GroupsHold(info, gid, info.Keys, tg) && Listed(tg, order) && InOrder(tg, order, groups)
    requires p in info && gid[p] != {} && k in Fam(info, p)
    ensures !InNone(k, groups)
  {
    var g :| g in gid[p];
    assert g in tg;
    assert k in tg[g];
    var j :| 0 <= j < |order| && order[j] == g;
    assert k in groups[j];
  }

  /** A key covered by the partition keys is in some listed group. */
  lemma Grouped(deps: Graph, dependents: Graph, rank: map<Key, nat>, rankUp: map<Key, nat>, parts: set<Key>,
                info: map<Key, PartData>, sets: seq<set<Key>>, hm1: map<nat, set<nat>>, hm: map<nat, set<nat>>,
                gid: map<Key, set<nat>>, offset0: nat, offset: nat, tg: map<nat, set<Key>>,
                order: seq<nat>, groups: seq<set<Key>>, k: Key)
    requires Acyclic(deps, dependents, rank, rankUp) && parts <= deps.Keys
    requires Covered(deps, dependents, rank, rankUp, parts, k)
    requires info.Keys == parts && forall pn :: pn in parts ==> InfoAt(deps, dependents, rank, rankUp, info, pn)
    requires Tokens(info, sets) && Hashed(sets, hm1, hm)
    requires GroupsHold(info, gid, info.Keys, tg) && Numbered(info, sets, hm, gid, info.Keys, offset0, offset)
    requires Listed(tg, order) && InOrder(tg, order, groups)
    ensures !InNone(k, groups)
  {
    var p :| p in parts && k in Family(deps, dependents, rank, rankUp, p);
    assert InfoAt(deps, dependents, rank, rankUp, info, p);
    assert k in Fam(info, p);
    PartGrouped(deps, rank, info, sets, hm1, hm, gid, offset0, offset, p);
    KeyGrouped(info, gid, tg, order, groups, p, k);
  }

  /** A non-empty acyclic graph has a terminal key. */
  lemma TerminalExists(deps: Graph, dependents: Graph, rank: map<Key, nat>, rankUp: map<Key, nat>, k: Key)
    requires Acyclic(deps, dependents, rank, rankUp) && k in deps
    ensures TerminalNodes(dependents) != {}
  {
    UpToTerminal(deps, dependents, rank, rankUp, k);
  }

  /** The largest depth, `max(node_depths.values())`. */
  method MaxDepth(depths: map<Key, int>) returns (m: int)
    requires depths != map[]
    ensures (exists k :: k in depths && m == depths[k]) && forall k :: k in depths ==> depths[k] <= m
  {
    var k0 :| k0 in depths;
    m := depths[k0];
    var todo := depths.Keys - {k0};
    while todo != {}
      invariant todo <= depths.Keys && k0 !in todo
      invariant exists k :: k in depths && m == depths[k]
      invariant forall k :: k in depths && k !in todo ==> depths[k] <= m
      decreases todo
    {
      var k :| k in todo;
      if depths[k] > m {
        m := depths[k];
      }
      todo := todo - {k};
    }
  }

  /** How the walk back from the terminal keys ends: with no depths to
      take the maximum of, by giving up, or with the partition keys. */
  datatype Walked = NoDepths | GaveUp | Reached(parts: set<Key>)

  /** The first half of `update_graph`: metrics, depths, and the walk
      back from the terminal keys until there are n partition keys. */
  method FindParts(n: nat, deps: Graph, dependents: Graph, totalDeps: map<Key, int>,
                   ghost rank: map<Key, nat>, ghost rankUp: map<Key, nat>)
    returns (w: Walked)
    requires Acyclic(deps, dependents, rank, rankUp) && deps.Keys <= totalDeps.Keys
    ensures w.NoDepths? <==> deps == map[]
    ensures w.GaveUp? ==> |TerminalNodes(dependents)| < n
    ensures w.Reached? ==> Covers(deps, dependents, rank, rankUp, w.parts)
  {
    var metrics := GraphMetrics(deps, dependents, totalDeps, rank);
    var depths := GetNodeDepths(deps, RootNodes(deps), metrics, rank);
    DepthsDescend(deps, dependents, totalDeps, metrics, rank, depths);
    w := WalkBack(n, deps, dependents, depths, rank, rankUp);
  }

  /** From the maximum depth down: the walk from the terminal keys, or
      the exception of `max` when there is no depth at all. */
  method WalkBack(n: nat, deps: Graph, dependents: Graph, depths: map<Key, int>,
                  ghost rank: map<Key, nat>, ghost rankUp: map<Key, nat>)
    returns (w: Walked)
    requires Acyclic(deps, dependents, rank, rankUp) && Descending(deps, depths)
    ensures w.NoDepths? <==> deps == map[]
    ensures w.GaveUp? ==> |TerminalNodes(dependents)| < n
    ensures w.Reached? ==> Covers(deps, dependents, rank, rankUp, w.parts)
  {
    if depths == map[] {
      return NoDepths;
    }
    var maxDepth := MaxDepth(depths);
    var parts0 := TerminalNodes(dependents);
    TerminalsCover(deps, dependents, rank, rankUp);
    var parts, fellBack := Partition(deps, depths, parts0, n, maxDepth);
    WalkEnds(deps, dependents, rank, rankUp, depths, parts0, n, maxDepth, parts, fellBack);
    if fellBack {
      return GaveUp;
    }
    return Reached(parts);
  }

  /** The second half of `update_graph` up to the assignment: the
      `task_groups` of the partition keys, in the order they were created. Every
      key of the graph lands in some group. */
  method GroupParts(deps: Graph, dependents: Graph, parts: set<Key>, ghost rank: map<Key, nat>, ghost rankUp: map<Key, nat>)
    returns (groups: seq<set<Key>>)
    requires Acyclic(deps, dependents, rank, rankUp) && Covers(deps, dependents, rank, rankUp, parts)
    ensures forall k :: k in deps ==> !InNone(k, groups)
  {
    var info := PartInfo(deps, dependents, parts, rank, rankUp);
    var sets := RootTokens(info);
    var hm1, offset := FirstGroups(sets);
    var hm := ShareGroups(sets, hm1);
    var tg, order, gid, offset' := GroupTasks(info, sets, hm, offset);
    groups := Values(tg, order);
    forall k | k in deps ensures !InNone(k, groups) {
      Grouped(deps, dependents, rank, rankUp, parts, info, sets, hm1, hm, gid, offset, offset', tg, order, groups, k);
    }
  }

  /** How `update_graph` ends: an exception, the early return that leaves
      the tasks alone, or the groups handed out with their workers. */
  datatype Outcome = Raised(msg: string) | FellBack | Assigned(groups: seq<set<Key>>, who: seq<nat>)

  /** `AutoRestrictor.update_graph` on the dependency graph deps, its
      reverse dependents and the dependency counts totalDeps. It raises
      exactly when the graph or the worker list is empty; it falls back
      only when there are fewer terminal keys than workers; otherwise every
      key of the graph lands in some group, so every known task of the
      graph ends up strict and restricted to at least one worker. */
  method AutoRestrictor(workers: seq<Worker>, tasks: map<Key, TaskState>, deps: Graph, dependents: Graph,
                        totalDeps: map<Key, int>, ghost rank: map<Key, nat>, ghost rankUp: map<Key, nat>)
    returns (out: Outcome)
    requires Acyclic(deps, dependents, rank, rankUp) && deps.Keys <= totalDeps.Keys && Separate(tasks)
    modifies tasks.Values
    ensures out.Raised? <==> deps == map[] || workers == []
    ensures out.FellBack? ==> |TerminalNodes(dependents)| < |workers|
    ensures !out.Assigned? ==> forall k :: k in tasks ==>
      tasks[k].workerRestrictions == old(tasks[k].workerRestrictions)
      && tasks[k].looseRestrictions == old(tasks[k].looseRestrictions)
    ensures out.Assigned? ==> |out.who| == |out.groups| && Within(|workers|, out.who)
    ensures out.Assigned? ==> Greedy(|workers|, Sizes(out.groups), out.who)
    ensures out.Assigned? ==> forall k :: k in deps ==> !InNone(k, out.groups)
    ensures out.Assigned? ==> forall k :: k in tasks ==>
      tasks[k].workerRestrictions == Restrictions(old(tasks[k].workerRestrictions), k, out.groups, workers, out.who)
      && tasks[k].looseRestrictions == (old(tasks[k].looseRestrictions) && InNone(k, out.groups))
  {
    var w := FindParts(|workers|, deps, dependents, totalDeps, rank, rankUp);
    match w
    case NoDepths =>
      return Raised("max() arg is an empty sequence");
    case GaveUp =>
      return FellBack;
    case Reached(parts) =>
      var groups := GroupParts(deps, dependents, parts, rank, rankUp);
      var k0 :| k0 in deps;
      assert groups != [] by {
        assert !InNone(k0, groups);
      }
      var r, loads := AssignGroups(workers, groups, tasks);
      if r.Err? {
        return Raised(r.msg);
      }
      return Assigned(groups, r.value);
  }
}

=== FILE: rotation_measure.dfy ===
/** The rotation-measure gain term: its parameter names and its (gain,
    parameter) frequency maps. */
module RotationMeasure {
  import opened Common

  /** The frequency interval option: an integer counts channels, a float is
      a bandwidth. */
  datatype FreqInterval = Channels(n: nat) | Bandwidth(width: real)

  /** `make_param_names`: a single parameter whatever the correlations. */
  function MakeParamNames(correlations: seq<string>): (r: seq<string>)
    ensures r == ["rotation_measure"]
  {
    ["rotation_measure"]
  }

  /** The bandwidth-driven parameter bins, given the running accumulator
      `net` and the current bin: a channel takes the current bin, then its
      width is added, and once the running width reaches the interval the
      accumulator resets and the bin advances. */
  function BandwidthBins(widths: seq<real>, fInt: real, net: real, bin: nat): (r: seq<nat>)
    ensures |r| == |widths|
    ensures |r| > 0 ==> r[0] == bin
    decreases |widths|
  {
    if widths == [] then []
    else if net + widths[0] >= fInt then [bin] + BandwidthBins(widths[1..], fInt, 0.0, bin + 1)
    else [bin] + BandwidthBins(widths[1..], fInt, net + widths[0], bin)
  }

  /** The parameter row of the frequency maps, as a specification. */
  function ParamFreqMap(widths: seq<real>, fInt: FreqInterval): (r: seq<nat>)
    ensures |r| == |widths|
  {
    match fInt
    case Bandwidth(f) => BandwidthBins(widths, f, 0.0, 0)
    case Channels(k) => seq(|widths|, i requires 0 <= i < |widths| => NpFloorDiv(i, k))
  }

  /** `make_f_maps`: row 0 is the identity over channels (the gain map),
      row 1 the parameter map, filled channel by channel in the bandwidth
      case. */
  method MakeFMaps(chanFreqs: seq<real>, chanWidths: seq<real>, fInt: FreqInterval) returns (fMap: seq<seq<int>>)
    requires |chanWidths| == |chanFreqs|
    ensures |fMap| == 2 && |fMap[0]| == |fMap[1]| == |chanFreqs|
    ensures forall i :: 0 <= i < |chanFreqs| ==> fMap[0][i] == i
    ensures fMap[1] == ParamFreqMap(chanWidths, fInt)
  {
    var n := |chanFreqs|;
    var row := new int[n];
    match fInt {
      case Bandwidth(f) =>
        var net := 0.0;
        var bin: nat := 0;
        var i := 0;
        while i < n
          invariant 0 <= i <= n
          invariant row[..i] + BandwidthBins(chanWidths[i..], f, net, bin) == BandwidthBins(chanWidths, f, 0.0, 0)
        {
          ghost var rest := BandwidthBins(chanWidths[i..], f, net, bin);
          assert chanWidths[i..][1..] == chanWidths[i + 1..];
          row[i] := bin;
          net := net + chanWidths[i];
          if net >= f {
            net := 0.0;
            bin := bin + 1;
          }
          assert rest == [row[i]] + BandwidthBins(chanWidths[i + 1..], f, net, bin);
          assert row[..i + 1] == row[..i] + [row[i]];
          i := i + 1;
        }
        assert chanWidths[n..] == [];
      case Channels(k) =>
        var i := 0;
        while i < n
          invariant 0 <= i <= n
          invariant forall j :: 0 <= j < i ==> row[j] == NpFloorDiv(j, k)
        {
          row[i] := NpFloorDiv(i, k);
          i := i + 1;
        }
    }
    var gainRow := seq(n, i => i);
    fMap := [gainRow, row[..]];
  }

  /** The bandwidth bins never decrease and rise by at most one per
      channel, starting from the initial bin. */
  lemma {:induction false} BandwidthBinsSteps(widths: seq<real>, fInt: real, net: real, bin: nat, i: nat)
    requires i + 1 < |widths|
    ensures var r := BandwidthBins(widths, fInt, net, bin);
      r[i] <= r[i + 1] <= r[i] + 1
    decreases |widths|
  {
    var r := BandwidthBins(widths, fInt, net, bin);
    var net' := if net + widths[0] >= fInt then 0.0 else net + widths[0];
    var bin' := if net + widths[0] >= fInt then bin + 1 else bin;
    assert r == [bin] + BandwidthBins(widths[1..], fInt, net', bin');
    if i > 0 {
      BandwidthBinsSteps(widths[1..], fInt, net', bin', i - 1);
    }
  }

  /** Consequently no earlier bin exceeds a later one. */
  lemma {:induction false} BandwidthBinsMonotone(widths: seq<real>, fInt: real, i: nat, j: nat)
    requires i <= j < |widths|
    ensures BandwidthBins(widths, fInt, 0.0, 0)[i] <= BandwidthBins(widths, fInt, 0.0, 0)[j]
    decreases j - i
  {
    if i < j {
      BandwidthBinsSteps(widths, fInt, 0.0, 0, j - 1);
      BandwidthBinsMonotone(widths, fInt, i, j - 1);
    }
  }

  /** The interval count by the accumulation rule that the calibration tests
      use: count each reset of the running width, plus one for a partial
      interval left over at the end. */
  function ExpectedIntervals(widths: seq<real>, fInt: real, solWidth: real, numInt: nat): (r: nat)
    ensures r >= numInt
    decreases |widths|
  {
    if widths == [] then numInt + (if solWidth != 0.0 then 1 else 0)
    else if solWidth + widths[0] >= fInt then ExpectedIntervals(widths[1..], fInt, 0.0, numInt + 1)
    else ExpectedIntervals(widths[1..], fInt, solWidth + widths[0], numInt)
  }

  /** With positive channel widths the last (and largest) parameter bin is
      one less than the expected interval count. */
  lemma {:induction false} LastBinCountsIntervals(widths: seq<real>, fInt: real, net: real, bin: nat)
    requires |widths| > 0 && net >= 0.0
    requires forall i :: 0 <= i < |widths| ==> widths[i] > 0.0
    ensures BandwidthBins(widths, fInt, net, bin)[|widths| - 1] + 1 == ExpectedIntervals(widths, fInt, net, bin)
    decreases |widths|
  {
    var reset := net + widths[0] >= fInt;
    var net' := if reset then 0.0 else net + widths[0];
    var bin' := if reset then bin + 1 else bin;
    assert BandwidthBins(widths, fInt, net, bin) == [bin] + BandwidthBins(widths[1..], fInt, net', bin');
    assert ExpectedIntervals(widths, fInt, net, bin) == ExpectedIntervals(widths[1..], fInt, net', bin');
    if |widths| > 1 {
      LastBinCountsIntervals(widths[1..], fInt, net', bin');
    } else {
      assert widths[1..] == [];
    }
  }

  /** The number of parameter intervals of the bandwidth map (its maximum
      plus one) is the tests' expected count. */
  lemma BandwidthIntervalCount(widths: seq<real>, fInt: real)
    requires |widths| > 0
    requires forall i :: 0 <= i < |widths| ==> widths[i] > 0.0
    ensures var r := BandwidthBins(widths, fInt, 0.0, 0);
      r[0] == 0 &&
      (forall i :: 0 <= i < |r| ==> r[i] <= r[|r| - 1]) &&
      r[|r| - 1] + 1 == ExpectedIntervals(widths, fInt, 0.0, 0)
  {
    forall i | 0 <= i < |widths| ensures BandwidthBins(widths, fInt, 0.0, 0)[i] <= BandwidthBins(widths, fInt, 0.0, 0)[|widths| - 1] {
      BandwidthBinsMonotone(widths, fInt, i, |widths| - 1);
    }
    LastBinCountsIntervals(widths, fInt, 0.0, 0);
  }
}

=== FILE: scheduling.dfy ===
/** The scheduler plugins' graph logic: transitive dependencies
    (`unravel_deps`), the `graph_metrics` worklist, node depths, and the
    grouping of tasks and their least-loaded assignment to workers in
    `ScatterSolvers.update_graph` and `AutoRestrictor.update_graph`.

    A task graph is a map from every key to the set of keys it points at:
    `dependencies` maps a task to the tasks it needs, `dependents` (its
    reverse) to the tasks that need it. The graphs are acyclic; a ghost
    rank map that every edge decreases witnesses that. */
module Scheduling {
  import opened Common

  /** A task key: its name and its chunk indices. */
  datatype Key = Key(name: string, index: seq<int>)

  type Graph = map<Key, set<Key>>

  /** Every edge ends at a key of the graph. */
  predicate Closed(g: Graph)
  {
    forall k, d :: k in g && d in g[k] ==> d in g
  }

  /** rank witnesses that g is acyclic: every edge goes to a lower rank. */
  ghost predicate Ranked(g: Graph, rank: map<Key, nat>)
  {
    && Closed(g)
    && (forall k :: k in g ==> k in rank)
    && (forall k, d :: k in g && d in g[k] ==> rank[d] < rank[k])
  }

  /** The keys reachable from k along one or more edges. */
  ghost function Reach(g: Graph, rank: map<Key, nat>, k: Key): set<Key>
    requires Ranked(g, rank) && k in g
    decreases rank[k]
  {
    g[k] + (set e, d | e in g[k] && d in Reach(g, rank, e) :: d)
  }

  /** The keys es and everything reachable from them. */
  ghost function ReachFrom(g: Graph, rank: map<Key, nat>, es: set<Key>): set<Key>
    requires Ranked(g, rank) && es <= g.Keys
  {
    es + (set e, d | e in es && d in Reach(g, rank, e) :: d)
  }

  lemma ReachFromAdd(g: Graph, rank: map<Key, nat>, es: set<Key>, e: Key)
    requires Ranked(g, rank) && es <= g.Keys && e in g
    ensures ReachFrom(g, rank, es + {e}) == ReachFrom(g, rank, es) + {e} + Reach(g, rank, e)
  {
  }

  /** Everything reachable from k is a key of lower rank, so k never
      reaches itself. */
  lemma {:induction false} ReachBelow(g: Graph, rank: map<Key, nat>, k: Key)
    requires Ranked(g, rank) && k in g
    ensures forall d :: d in Reach(g, rank, k) ==> d in g && rank[d] < rank[k]
    ensures k !in Reach(g, rank, k)
    decreases rank[k]
  {
    forall e | e in g[k] {
      ReachBelow(g, rank, e);
    }
  }

  /** Reach is closed under the edges. */
  lemma {:induction false} ReachClosed(g: Graph, rank: map<Key, nat>, k: Key, e: Key)
    requires Ranked(g, rank) && k in g && e in Reach(g, rank, k)
    ensures e in g && g[e] <= Reach(g, rank, k)
    decreases rank[k]
  {
    ReachBelow(g, rank, k);
    if e in g[k] {
      forall d | d in g[e] ensures d in Reach(g, rank, k) {
        assert d in Reach(g, rank, e);
      }
    } else {
      var e' :| e' in g[k] && e in Reach(g, rank, e');
      ReachClosed(g, rank, e', e);
      forall d | d in g[e] ensures d in Reach(g, rank, k) {
        assert d in Reach(g, rank, e');
      }
    }
  }

  /** Reach is contained in every edge-closed set that holds k's direct
      successors: with `ReachClosed`, it is exactly the set of keys
      reachable from k. */
  lemma {:induction false} ReachLeast(g: Graph, rank: map<Key, nat>, k: Key, s: set<Key>)
    requires Ranked(g, rank) && k in g && g[k] <= s
    requires forall e :: e in s && e in g ==> g[e] <= s
    ensures Reach(g, rank, k) <= s
    decreases rank[k]
  {
    forall e | e in g[k] ensures Reach(g, rank, e) <= s {
      ReachLeast(g, rank, e, s);
    }
  }

  /** `unravel_deps`: adds to the accumulated set every key reachable from
      name, recursing through each successor in turn. */
  method UnravelDeps(g: Graph, name: Key, acc: set<Key>, ghost rank: map<Key, nat>) returns (r: set<Key>)
    requires Ranked(g, rank) && name in g
    ensures r == acc + Reach(g, rank, name)
    decreases rank[name]
  {
    r := acc;
    var todo := g[name];
    while todo != {}
      invariant todo <= g[name]
      invariant r == acc + ReachFrom(g, rank, g[name] - todo)
      decreases todo
    {
      var dep :| dep in todo;
      ReachFromAdd(g, rank, g[name] - todo, dep);
      assert g[name] - (todo - {dep}) == (g[name] - todo) + {dep};
      r := r + {dep};
      r := UnravelDeps(g, dep, r, rank);
      todo := todo - {dep};
    }
  }

  /** One entry of `graph_metrics`: total dependents, the least and the
      greatest total dependencies, and the least and the greatest height
      above a terminal key. */
  datatype Metric = Metric(totalDependents: int, minDependencies: int, maxDependencies: int, minHeight: int, maxHeight: int)

  /** dependents is the reverse of dependencies, over the same keys. */
  predicate Reverse(deps: Graph, dependents: Graph)
  {
    && deps.Keys == dependents.Keys && Closed(deps) && Closed(dependents)
    && forall a, b :: a in deps && b in deps ==> (b in deps[a] <==> a in dependents[b])
  }

  /** The sum of the parents' total dependents. */
  ghost function SumTotal(res: map<Key, Metric>, ps: set<Key>): int
    requires ps <= res.Keys
  {
    if ps == {} then 0
    else
      var p :| p in ps;
      res[p].totalDependents + SumTotal(res, ps - {p})
  }

  /** The sum does not depend on which parent is taken first. */
  lemma {:induction false} SumTotalRemove(res: map<Key, Metric>, ps: set<Key>, q: Key)
    requires ps <= res.Keys && q in ps
    ensures SumTotal(res, ps) == res[q].totalDependents + SumTotal(res, ps - {q})
    decreases |ps|
  {
    var p :| p in ps && SumTotal(res, ps) == res[p].totalDependents + SumTotal(res, ps - {p});
    if p != q {
      SumTotalRemove(res, ps - {p}, q);
      SumTotalRemove(res, ps - {q}, p);
      assert ps - {p} - {q} == ps - {q} - {p};
    }
  }

  /** The sum reads only the parents' entries. */
  lemma {:induction false} SumTotalFrame(res: map<Key, Metric>, res': map<Key, Metric>, ps: set<Key>)
    requires ps <= res.Keys && ps <= res'.Keys
    requires forall p :: p in ps ==> res'[p] == res[p]
    ensures SumTotal(res', ps) == SumTotal(res, ps)
    decreases |ps|
  {
    if ps != {} {
      var p :| p in ps && SumTotal(res, ps) == res[p].totalDependents + SumTotal(res, ps - {p});
      SumTotalRemove(res', ps, p);
      SumTotalFrame(res, res', ps - {p});
    }
  }

  /** m combines the metrics of the non-empty parent set ps: one more than
      the sum of their total dependents, the least and greatest of their
      dependency bounds, and one more than the least and greatest of their
      heights. */
  ghost predicate CombineFits(res: map<Key, Metric>, ps: set<Key>, m: Metric)
    requires ps <= res.Keys
  {
    && m.totalDependents == 1 + SumTotal(res, ps)
    && (forall p :: p in ps ==> m.minDependencies <= res[p].minDependencies)
    && (exists p :: p in ps && m.minDependencies == res[p].minDependencies)
    && (forall p :: p in ps ==> res[p].maxDependencies <= m.maxDependencies)
    && (exists p :: p in ps && m.maxDependencies == res[p].maxDependencies)
    && (forall p :: p in ps ==> m.minHeight <= 1 + res[p].minHeight)
    && (exists p :: p in ps && m.minHeight == 1 + res[p].minHeight)
    && (forall p :: p in ps ==> 1 + res[p].maxHeight <= m.maxHeight)
    && (exists p :: p in ps && m.maxHeight == 1 + res[p].maxHeight)
  }

  /** The metric of key k agrees with `graph_metrics`: a terminal key
      (no dependents) gets (1, its total dependencies twice, 0, 0), any
      other key the combination of its dependents' metrics. */
  ghost predicate MetricFits(dependents: Graph, totalDeps: map<Key, int>, res: map<Key, Metric>, k: Key)
    requires k in dependents && k in totalDeps && k in res
  {
    if dependents[k] == {} then res[k] == Metric(1, totalDeps[k], totalDeps[k], 0, 0)
    else dependents[k] <= res.Keys && CombineFits(res, dependents[k], res[k])
  }

  lemma CombineFitsFrame(res: map<Key, Metric>, res': map<Key, Metric>, ps: set<Key>, m: Metric)
    requires ps <= res.Keys && ps <= res'.Keys && CombineFits(res, ps, m)
    requires forall p :: p in ps ==> res'[p] == res[p]
    ensures CombineFits(res', ps, m)
  {
    SumTotalFrame(res, res', ps);
  }

  lemma MetricFitsFrame(dependents: Graph, totalDeps: map<Key, int>, res: map<Key, Metric>, res': map<Key, Metric>, k: Key)
    requires k in dependents && k in totalDeps && k in res && MetricFits(dependents, totalDeps, res, k)
    requires res.Keys <= res'.Keys && forall j :: j in res ==> res'[j] == res[j]
    ensures MetricFits(dependents, totalDeps, res', k)
  {
    if dependents[k] != {} {
      CombineFitsFrame(res, res', dependents[k], res[k]);
    }
  }

  /** The metric of a key from its non-empty set of dependents: read off
      directly when there is one, otherwise summed, minimised and
      maximised over all of them. */
  method Combine(res: map<Key, Metric>, ps: set<Key>) returns (m: Metric)
    requires ps != {} && ps <= res.Keys
    ensures CombineFits(res, ps, m)
  {
    if |ps| == 1 {
      var parent :| parent in ps;
      assert ps == {parent} by {
        assert |ps - {parent}| == 0;
      }
      m := CombineOne(res, parent);
    } else {
      m := CombineMany(res, ps);
    }
  }

  /** A single dependent: its metric with one more dependent and one more
      height. */
  method CombineOne(res: map<Key, Metric>, parent: Key) returns (m: Metric)
    requires parent in res
    ensures CombineFits(res, {parent}, m)
  {
    var r := res[parent];
    SumTotalRemove(res, {parent}, parent);
    m := Metric(1 + r.totalDependents, r.minDependencies, r.maxDependencies, 1 + r.minHeight, 1 + r.maxHeight);
  }

  /** Several dependents: `zip(*...)` of their metrics, summed, minimised
      and maximised. */
  method CombineMany(res: map<Key, Metric>, ps: set<Key>) returns (m: Metric)
    requires ps != {} && ps <= res.Keys
    ensures CombineFits(res, ps, m)
  {
    var p0 :| p0 in ps;
    var r0 := res[p0];
    var sum, minD, maxD, minH, maxH := r0.totalDependents, r0.minDependencies, r0.maxDependencies, r0.minHeight, r0.maxHeight;
    ghost var wMinD, wMaxD, wMinH, wMaxH := p0, p0, p0, p0;
    var todo := ps - {p0};
    ghost var done := {p0};
    SumTotalRemove(res, {p0}, p0);
    while todo != {}
      invariant done <= ps && todo == ps - done
      invariant sum == SumTotal(res, done)
      invariant forall p :: p in done ==> minD <= res[p].minDependencies && res[p].maxDependencies <= maxD
      invariant forall p :: p in done ==> minH <= res[p].minHeight && res[p].maxHeight <= maxH
      invariant wMinD in done && minD == res[wMinD].minDependencies
      invariant wMaxD in done && maxD == res[wMaxD].maxDependencies
      invariant wMinH in done && minH == res[wMinH].minHeight
      invariant wMaxH in done && maxH == res[wMaxH].maxHeight
      decreases todo
    {
      var p :| p in todo;
      var r := res[p];
      SumTotalRemove(res, done + {p}, p);
      assert done + {p} - {p} == done;
      sum := sum + r.totalDependents;
      if r.minDependencies < minD { minD := r.minDependencies; wMinD := p; }
      if r.maxDependencies > maxD { maxD := r.maxDependencies; wMaxD := p; }
      if r.minHeight < minH { minH := r.minHeight; wMinH := p; }
      if r.maxHeight > maxH { maxH := r.maxHeight; wMaxH := p; }
      todo := todo - {p};
      done := done + {p};
    }
    assert done == ps;
    m := Metric(1 + sum, minD, maxD, 1 + minH, 1 + maxH);
  }

  /** `num_needed[c]` counts the dependents of c not yet processed. */
  ghost predicate Counted(dependents: Graph, done: set<Key>, numNeeded: map<Key, int>)
  {
    forall c :: c in dependents && dependents[c] != {} ==> c in numNeeded && numNeeded[c] == |dependents[c] - done|
  }

  /** The stack holds distinct unprocessed keys whose dependents are all
      processed. */
  ghost predicate Ready(dependents: Graph, done: set<Key>, current: seq<Key>)
  {
    && (forall i :: 0 <= i < |current| ==>
          current[i] in dependents && current[i] !in done && dependents[current[i]] != {} && dependents[current[i]] <= done)
    && (forall i, j :: 0 <= i < j < |current| ==> current[i] != current[j])
  }

  lemma ReadyPush(dependents: Graph, done: set<Key>, current: seq<Key>, c: Key)
    requires Ready(dependents, done, current) && c !in current
    requires c in dependents && c !in done && dependents[c] != {} && dependents[c] <= done
    ensures Ready(dependents, done, current + [c])
  {
  }

  lemma ReadyPop(dependents: Graph, done: set<Key>, current: seq<Key>)
    requires Ready(dependents, done, current) && |current| > 0
    ensures Ready(dependents, done, current[..|current| - 1]) && current[|current| - 1] !in current[..|current| - 1]
  {
  }

  lemma ReadyGrow(dependents: Graph, done: set<Key>, current: seq<Key>, key: Key)
    requires Ready(dependents, done, current) && key !in current
    ensures Ready(dependents, done + {key}, current)
  {
  }

  /** Every other unprocessed key that has dependents still waits for one
      of them. */
  ghost predicate Waiting(dependents: Graph, done: set<Key>, current: seq<Key>)
  {
    forall c :: c in dependents && dependents[c] != {} && c !in done && c !in current ==> !(dependents[c] <= done)
  }

  lemma WaitingPush(dependents: Graph, done: set<Key>, current: seq<Key>, key: Key)
    requires Waiting(dependents, done, current)
    ensures Waiting(dependents, done, current + [key])
  {
    assert forall c :: c in current ==> c in current + [key];
  }

  lemma CardStep(all: set<Key>, done: set<Key>, key: Key)
    requires key in all && key !in done
    ensures |all - (done + {key})| == |all - done| - 1
  {
    assert all - (done + {key}) == (all - done) - {key};
  }

  /** A key is processed only after all of its dependents. */
  ghost predicate DependentsFirst(dependents: Graph, done: set<Key>)
  {
    forall c :: c in done && c in dependents ==> dependents[c] <= done
  }

  /** The children of key are exactly the keys that key is a dependent of. */
  predicate Children(deps: Graph, dependents: Graph, key: Key)
    requires key in deps
  {
    && deps[key] <= dependents.Keys
    && forall c :: c in dependents ==> (c in deps[key] <==> key in dependents[c])
  }

  /** Every key's children are the keys it is a dependent of. */
  predicate AllChildren(deps: Graph, dependents: Graph)
  {
    && deps.Keys == dependents.Keys
    && forall k :: k in deps ==> Children(deps, dependents, k)
  }

  lemma ReverseChildren(deps: Graph, dependents: Graph)
    requires Reverse(deps, dependents)
    ensures AllChildren(deps, dependents)
  {
  }

  lemma CardRemoved(s: set<Key>, done: set<Key>, key: Key)
    requires key in done
    ensures key in s ==> |s - (done - {key})| == |s - done| + 1
    ensures key !in s ==> s - (done - {key}) == s - done
  {
    if key in s {
      assert s - (done - {key}) == (s - done) + {key};
    }
  }

  /** What holds once key is processed and before its children are
      released: done includes key, and the bookkeeping is as it was
      before key was processed, with key off the stack. */
  ghost predicate ReleasePre(deps: Graph, dependents: Graph, key: Key, done: set<Key>,
                             numNeeded: map<Key, int>, current: seq<Key>)
  {
    && key in deps && key in dependents && Children(deps, dependents, key) && key in done
    && dependents[key] <= done - {key}
    && DependentsFirst(dependents, done - {key})
    && Counted(dependents, done - {key}, numNeeded)
    && Ready(dependents, done - {key}, current) && key !in current
    && Waiting(dependents, done - {key}, current + [key])
  }

  /** The bookkeeping of `graph_metrics` for the set done of processed
      keys. */
  ghost predicate Book(dependents: Graph, done: set<Key>, numNeeded: map<Key, int>, current: seq<Key>)
  {
    && DependentsFirst(dependents, done)
    && Counted(dependents, done, numNeeded)
    && Ready(dependents, done, current)
    && Waiting(dependents, done, current)
  }

  /** The state of the loop over `dependencies[key]` once key is
      processed: children still in todo keep their old count (one too
      many); the others are counted, pushed when ready, and waiting
      otherwise. */
  ghost predicate ReleaseInv(deps: Graph, dependents: Graph, key: Key, done: set<Key>,
                             numNeeded: map<Key, int>, current: seq<Key>, todo: set<Key>)
    requires key in deps
  {
    && todo <= deps[key]
    && (forall c :: c in dependents && dependents[c] != {} ==>
          c in numNeeded && numNeeded[c] == |dependents[c] - done| + (if c in todo then 1 else 0))
    && Ready(dependents, done, current)
    && (forall c :: c in todo ==> c !in current && c !in done)
    && (forall c :: c in dependents && dependents[c] != {} && c !in done && c !in current && c !in todo ==>
          !(dependents[c] <= done))
  }

  /** Entering the loop over the children of a key just processed. */
  lemma ReleaseStart(deps: Graph, dependents: Graph, key: Key, done: set<Key>, numNeeded: map<Key, int>, current: seq<Key>)
    requires ReleasePre(deps, dependents, key, done, numNeeded, current)
    ensures ReleaseInv(deps, dependents, key, done, numNeeded, current, deps[key])
  {
    ReadyGrow(dependents, done - {key}, current, key);
    assert done - {key} + {key} == done;
    forall c | c in dependents && dependents[c] != {}
      ensures c in numNeeded && numNeeded[c] == |dependents[c] - done| + (if c in deps[key] then 1 else 0)
    {
      CardRemoved(dependents[c], done, key);
      assert c in deps[key] <==> key in dependents[c];
    }
    forall c | c in deps[key] ensures c !in current && c !in done {
      assert key in dependents[c];
    }
    forall c | c in dependents && dependents[c] != {} && c !in done && c !in current && c !in deps[key]
      ensures !(dependents[c] <= done)
    {
      assert c !in current + [key];
      assert key !in dependents[c];
    }
  }

  /** One child of the processed key: one dependent fewer to wait for. */
  method ReleaseChild(deps: Graph, dependents: Graph, key: Key, done: set<Key>,
                      numNeeded: map<Key, int>, current: seq<Key>, todo: set<Key>, child: Key)
    returns (numNeeded': map<Key, int>, current': seq<Key>)
    requires key in deps && key in dependents && Children(deps, dependents, key) && child in todo
    requires ReleaseInv(deps, dependents, key, done, numNeeded, current, todo)
    ensures ReleaseInv(deps, dependents, key, done, numNeeded', current', todo - {child})
  {
    assert key in dependents[child];
    numNeeded' := numNeeded[child := numNeeded[child] - 1];
    current' := current;
    if numNeeded'[child] == 0 {
      assert dependents[child] - done == {};
      ReadyPush(dependents, done, current, child);
      current' := current + [child];
    }
    forall c | c in dependents && dependents[c] != {}
      ensures c in numNeeded' && numNeeded'[c] == |dependents[c] - done| + (if c in todo - {child} then 1 else 0)
    {
      if c != child {
        assert numNeeded'[c] == numNeeded[c];
      }
    }
  }

  lemma DependentsFirstAdd(dependents: Graph, done: set<Key>, key: Key)
    requires key in done && key in dependents && dependents[key] <= done - {key}
    requires DependentsFirst(dependents, done - {key})
    ensures DependentsFirst(dependents, done)
  {
  }

  /** The loop over `dependencies[key]` once key is processed: each child
      has one dependent fewer to wait for, and is pushed when none is
      left. */
  method Release(deps: Graph, dependents: Graph, key: Key, done: set<Key>, numNeeded: map<Key, int>, current: seq<Key>)
    returns (numNeeded': map<Key, int>, current': seq<Key>)
    requires ReleasePre(deps, dependents, key, done, numNeeded, current)
    ensures Book(dependents, done, numNeeded', current')
  {
    numNeeded', current' := numNeeded, current;
    var todo := deps[key];
    ReleaseStart(deps, dependents, key, done, numNeeded, current);
    while todo != {}
      invariant ReleaseInv(deps, dependents, key, done, numNeeded', current', todo)
      decreases todo
    {
      var child :| child in todo;
      numNeeded', current' := ReleaseChild(deps, dependents, key, done, numNeeded', current', todo, child);
      todo := todo - {child};
    }
    DependentsFirstAdd(dependents, done, key);
  }

  lemma {:induction false} HighestRank(s: set<Key>, rank: map<Key, nat>) returns (u: Key)
    requires s != {} && s <= rank.Keys
    ensures u in s && forall v :: v in s ==> rank[v] <= rank[u]
    decreases |s|
  {
    var x :| x in s;
    if s == {x} {
      u := x;
    } else {
      var y := HighestRank(s - {x}, rank);
      u := if rank[x] <= rank[y] then y else x;
    }
  }

  /** On an acyclic graph, once every terminal key is processed and every
      unprocessed key waits for an unprocessed dependent, all keys are
      processed: an unprocessed key of greatest rank would have none. */
  lemma {:induction false} AllProcessed(deps: Graph, dependents: Graph, rank: map<Key, nat>, done: set<Key>)
    requires Reverse(deps, dependents) && Ranked(deps, rank) && done <= deps.Keys
    requires forall c :: c in dependents && dependents[c] == {} ==> c in done
    requires forall c :: c in dependents && c !in done ==> !(dependents[c] <= done)
    ensures done == deps.Keys
  {
    var left := deps.Keys - done;
    if left != {} {
      var u := HighestRank(left, rank);
      assert false;
    }
    forall x | x in deps.Keys ensures x in done {
      assert x !in left;
    }
  }

  /** Every processed key has its metric. */
  ghost predicate AllFit(dependents: Graph, totalDeps: map<Key, int>, res: map<Key, Metric>)
  {
    forall k :: k in res ==> k in dependents && k in totalDeps && MetricFits(dependents, totalDeps, res, k)
  }

  /** Recording the metric of a new key keeps every earlier one. */
  lemma AllFitAdd(dependents: Graph, totalDeps: map<Key, int>, res: map<Key, Metric>, key: Key, m: Metric)
    requires AllFit(dependents, totalDeps, res) && key !in res && key in dependents && key in totalDeps
    requires dependents[key] == {} ==> m == Metric(1, totalDeps[key], totalDeps[key], 0, 0)
    requires dependents[key] != {} ==> dependents[key] <= res.Keys && CombineFits(res, dependents[key], m)
    ensures AllFit(dependents, totalDeps, res[key := m])
  {
    var res' := res[key := m];
    forall k | k in res {
      MetricFitsFrame(dependents, totalDeps, res, res', k);
    }
    if dependents[key] != {} {
      CombineFitsFrame(res, res', dependents[key], m);
    }
  }

  /** What holds between the steps of `graph_metrics`. */
  ghost predicate MetricsInv(deps: Graph, dependents: Graph, totalDeps: map<Key, int>,
                             res: map<Key, Metric>, numNeeded: map<Key, int>, current: seq<Key>)
  {
    && res.Keys <= deps.Keys
    && AllFit(dependents, totalDeps, res)
    && Book(dependents, res.Keys, numNeeded, current)
  }

  /** A terminal key can be processed at once. */
  lemma TerminalPre(deps: Graph, dependents: Graph, done: set<Key>, numNeeded: map<Key, int>, current: seq<Key>, key: Key)
    requires AllChildren(deps, dependents) && Book(dependents, done, numNeeded, current)
    requires key in deps && key !in done && dependents[key] == {}
    ensures ReleasePre(deps, dependents, key, done + {key}, numNeeded, current)
  {
    assert done + {key} - {key} == done;
    assert key !in current;
    WaitingPush(dependents, done, current, key);
  }

  /** The key on top of the stack can be processed. */
  lemma NextPre(deps: Graph, dependents: Graph, done: set<Key>, numNeeded: map<Key, int>, current: seq<Key>)
    requires AllChildren(deps, dependents) && Book(dependents, done, numNeeded, current) && |current| > 0
    ensures var key := current[|current| - 1];
      && key in deps && key !in done && dependents[key] != {} && dependents[key] <= done
      && ReleasePre(deps, dependents, key, done + {key}, numNeeded, current[..|current| - 1])
  {
    var key := current[|current| - 1];
    var rest := current[..|current| - 1];
    ReadyPop(dependents, done, current);
    assert done + {key} - {key} == done;
    assert current == rest + [key];
  }

  /** A terminal key: (1, total dependencies, total dependencies, 0, 0),
      then its children are released. */
  method ProcessTerminal(deps: Graph, dependents: Graph, totalDeps: map<Key, int>,
                         res: map<Key, Metric>, numNeeded: map<Key, int>, current: seq<Key>, key: Key)
    returns (res': map<Key, Metric>, numNeeded': map<Key, int>, current': seq<Key>)
    requires AllChildren(deps, dependents) && deps.Keys <= totalDeps.Keys
    requires MetricsInv(deps, dependents, totalDeps, res, numNeeded, current)
    requires key in deps && key !in res && dependents[key] == {}
    ensures MetricsInv(deps, dependents, totalDeps, res', numNeeded', current')
    ensures res'.Keys == res.Keys + {key}
  {
    var val := totalDeps[key];
    var m := Metric(1, val, val, 0, 0);
    AllFitAdd(dependents, totalDeps, res, key, m);
    TerminalPre(deps, dependents, res.Keys, numNeeded, current, key);
    numNeeded', current' := Release(deps, dependents, key, res.Keys + {key}, numNeeded, current);
    res' := res[key := m];
    assert res'.Keys == res.Keys + {key};
  }

  /** Records the metric of a key whose dependents all have theirs. */
  method Record(dependents: Graph, totalDeps: map<Key, int>, res: map<Key, Metric>, key: Key)
    returns (res': map<Key, Metric>)
    requires AllFit(dependents, totalDeps, res) && key in dependents && key in totalDeps && key !in res
    requires dependents[key] != {} && dependents[key] <= res.Keys
    ensures AllFit(dependents, totalDeps, res') && res'.Keys == res.Keys + {key}
  {
    var m := Combine(res, dependents[key]);
    AllFitAdd(dependents, totalDeps, res, key, m);
    res' := res[key := m];
  }

  /** The key on top of the stack: its metric from its dependents', then
      its children are released. */
  method ProcessNext(deps: Graph, dependents: Graph, totalDeps: map<Key, int>,
                     res: map<Key, Metric>, numNeeded: map<Key, int>, current: seq<Key>)
    returns (res': map<Key, Metric>, numNeeded': map<Key, int>, current': seq<Key>)
    requires AllChildren(deps, dependents) && deps.Keys <= totalDeps.Keys
    requires MetricsInv(deps, dependents, totalDeps, res, numNeeded, current) && |current| > 0
    ensures MetricsInv(deps, dependents, totalDeps, res', numNeeded', current')
    ensures res.Keys <= res'.Keys && |deps.Keys - res'.Keys| < |deps.Keys - res.Keys|
  {
    NextPre(deps, dependents, res.Keys, numNeeded, current);
    var key := current[|current| - 1];
    res' := Record(dependents, totalDeps, res, key);
    CardStep(deps.Keys, res.Keys, key);
    numNeeded', current' := Release(deps, dependents, key, res.Keys + {key}, numNeeded, current[..|current| - 1]);
  }

  /** `graph_metrics`: terminal keys first, then a stack of keys whose
      dependents are all done. Every key gets the metric `MetricFits`
      describes, and on an acyclic graph every key gets one. */
  method GraphMetrics(deps: Graph, dependents: Graph, totalDeps: map<Key, int>, ghost rank: map<Key, nat>)
    returns (res: map<Key, Metric>)
    requires Reverse(deps, dependents) && deps.Keys <= totalDeps.Keys && Ranked(deps, rank)
    ensures res.Keys == deps.Keys
    ensures forall k :: k in res ==> MetricFits(dependents, totalDeps, res, k)
  {
    ReverseChildren(deps, dependents);
    res := map[];
    var numNeeded := map c | c in dependents && dependents[c] != {} :: |dependents[c]|;
    var current: seq<Key> := [];
    var todo := dependents.Keys;
    while todo != {}
      invariant todo <= dependents.Keys
      invariant MetricsInv(deps, dependents, totalDeps, res, numNeeded, current)
      invariant forall c :: c in dependents && dependents[c] == {} && c !in todo ==> c in res
      invariant forall k :: k in res ==> k !in todo
      decreases todo
    {
      var key :| key in todo;
      todo := todo - {key};
      if dependents[key] == {} {
        res, numNeeded, current := ProcessTerminal(deps, dependents, totalDeps, res, numNeeded, current, key);
      }
    }
    while |current| > 0
      invariant MetricsInv(deps, dependents, totalDeps, res, numNeeded, current)
      invariant forall c :: c in dependents && dependents[c] == {} ==> c in res
      decreases |deps.Keys - res.Keys|
    {
      res, numNeeded, current := ProcessNext(deps, dependents, totalDeps, res, numNeeded, current);
    }
    AllProcessed(deps, dependents, rank, res.Keys);
  }
  /** d is the depth of k given its roots: the largest difference between a
      root's greatest height and k's, or 0 when k reaches no root. */
  ghost predicate IsDepth(metrics: map<Key, Metric>, k: Key, roots: set<Key>, d: int)
    requires k in metrics && roots <= metrics.Keys
  {
    if roots == {} then d == 0
    else
      && (exists r :: r in roots && d == metrics[r].maxHeight - metrics[k].maxHeight)
      && (forall r :: r in roots ==> metrics[r].maxHeight - metrics[k].maxHeight <= d)
  }

  /** At most one value is the depth of a key. */
  lemma IsDepthUnique(metrics: map<Key, Metric>, k: Key, roots: set<Key>, d: int, d': int)
    requires k in metrics && roots <= metrics.Keys
    requires IsDepth(metrics, k, roots, d) && IsDepth(metrics, k, roots, d')
    ensures d == d'
  {
    if roots != {} {
      var r :| r in roots && d == metrics[r].maxHeight - metrics[k].maxHeight;
      var r' :| r' in roots && d' == metrics[r'].maxHeight - metrics[k].maxHeight;
      assert d <= d' && d' <= d;
    }
  }

  /** The maximum of the roots' greatest heights less offset. */
  method MaxOffset(metrics: map<Key, Metric>, roots: set<Key>, offset: int) returns (m: int)
    requires roots != {} && roots <= metrics.Keys
    ensures exists r :: r in roots && m == metrics[r].maxHeight - offset
    ensures forall r :: r in roots ==> metrics[r].maxHeight - offset <= m
  {
    var first :| first in roots;
    m := metrics[first].maxHeight - offset;
    var todo := roots - {first};
    while todo != {}
      invariant todo <= roots && first !in todo
      invariant exists r :: r in roots && m == metrics[r].maxHeight - offset
      invariant forall r :: r in roots && r !in todo ==> metrics[r].maxHeight - offset <= m
      decreases todo
    {
      var r :| r in todo;
      if metrics[r].maxHeight - offset > m {
        m := metrics[r].maxHeight - offset;
      }
      todo := todo - {r};
    }
  }

  /** d is the depth `get_node_depths` gives k: measured against the
      roots among the keys k depends on. */
  ghost predicate DepthOf(deps: Graph, rank: map<Key, nat>, rootNodes: set<Key>, metrics: map<Key, Metric>, k: Key, d: int)
    requires Ranked(deps, rank) && k in deps && k in metrics
  {
    rootNodes * Reach(deps, rank, k) <= metrics.Keys
    && IsDepth(metrics, k, rootNodes * Reach(deps, rank, k), d)
  }

  /** `get_node_depths`: every key's depth below the deepest root it
      depends on, measured in greatest heights. */
  method GetNodeDepths(deps: Graph, rootNodes: set<Key>, metrics: map<Key, Metric>, ghost rank: map<Key, nat>)
    returns (depths: map<Key, int>)
    requires Ranked(deps, rank) && deps.Keys <= metrics.Keys
    ensures depths.Keys == deps.Keys
    ensures forall k :: k in depths ==> DepthOf(deps, rank, rootNodes, metrics, k, depths[k])
  {
    depths := map[];
    var todo := deps.Keys;
    while todo != {}
      invariant todo <= deps.Keys && depths.Keys == deps.Keys - todo
      invariant forall k :: k in depths ==> DepthOf(deps, rank, rootNodes, metrics, k, depths[k])
      decreases todo
    {
      var k :| k in todo;
      var d := NodeDepth(deps, rootNodes, metrics, k, rank);
      depths := depths[k := d];
      todo := todo - {k};
    }
  }

  /** The depth of one key. */
  method NodeDepth(deps: Graph, rootNodes: set<Key>, metrics: map<Key, Metric>, k: Key, ghost rank: map<Key, nat>)
    returns (d: int)
    requires Ranked(deps, rank) && deps.Keys <= metrics.Keys && k in deps
    ensures DepthOf(deps, rank, rootNodes, metrics, k, d)
  {
    var reached := UnravelDeps(deps, k, {}, rank);
    var roots := rootNodes * reached;
    ReachBelow(deps, rank, k);
    var offset := metrics[k].maxHeight;
    d := 0;
    if roots != {} {
      d := MaxOffset(metrics, roots, offset);
    }
  }
}

=== FILE: statistics.dfy ===
/** Equation counting and the per-interval noise bookkeeping of the
    statistics code: how many equations each antenna and each
    (time, channel) slot takes part in, the division that gives zero when
    the divisor is zero, and the expansion of per-channel noise to solution
    intervals. */
module Statistics {
  import opened Common

  /** The sum of the values whose key is k: what `np.add.at(acc, keys,
      vals)` adds to `acc[k]`. */
  function SumWhere(vals: seq<int>, keys: seq<nat>, k: nat): int
    requires |vals| == |keys|
    decreases |vals|
  {
    if vals == [] then 0
    else
      var n := |vals| - 1;
      SumWhere(vals[..n], keys[..n], k) + (if keys[n] == k then vals[n] else 0)
  }

  /** Every key indexes an array of length n (`np.add.at` raises
      otherwise). */
  predicate KeysBelow(keys: seq<nat>, n: nat)
  {
    forall i :: 0 <= i < |keys| ==> keys[i] < n
  }

  /** `np.add.at(acc, keys, vals)`: every value is added to the entry its
      key names, repeated keys accumulating. */
  method AddAt(acc: array<int>, keys: seq<nat>, vals: seq<int>)
    requires |keys| == |vals| && KeysBelow(keys, acc.Length)
    modifies acc
    ensures forall k :: 0 <= k < acc.Length ==> acc[k] == old(acc[k]) + SumWhere(vals, keys, k)
  {
    for i := 0 to |vals|
      invariant forall k :: 0 <= k < acc.Length ==> acc[k] == old(acc[k]) + SumWhere(vals[..i], keys[..i], k)
    {
      assert vals[..i + 1][..i] == vals[..i] && keys[..i + 1][..i] == keys[..i];
      acc[keys[i]] := acc[keys[i]] + vals[i];
    }
    assert vals[..|vals|] == vals && keys[..|keys|] == keys;
  }

  /** Equations per antenna: twice (for the conjugate points) the
      unflagged counts of the rows the antenna takes part in, as first or
      as second antenna. */
  function EqsPerAnt(rowsUnflagged: seq<int>, ant1: seq<nat>, ant2: seq<nat>, nAnt: nat): (r: seq<int>)
    requires |ant1| == |rowsUnflagged| && |ant2| == |rowsUnflagged|
    ensures |r| == nAnt
  {
    seq(nAnt, a requires 0 <= a < nAnt => 2 * (SumWhere(rowsUnflagged, ant1, a) + SumWhere(rowsUnflagged, ant2, a)))
  }

  /** `sum_eqs_per_ant`: the two `np.add.at` passes into a zeroed array,
      doubled. (The leading axis of length 1 is dropped.) */
  method SumEqsPerAnt(rowsUnflagged: seq<int>, ant1: seq<nat>, ant2: seq<nat>, nAnt: nat) returns (r: seq<int>)
    requires |ant1| == |rowsUnflagged| && |ant2| == |rowsUnflagged|
    requires KeysBelow(ant1, nAnt) && KeysBelow(ant2, nAnt)
    ensures r == EqsPerAnt(rowsUnflagged, ant1, ant2, nAnt)
  {
    var eqs := new int[nAnt](_ => 0);
    AddAt(eqs, ant1, rowsUnflagged);
    AddAt(eqs, ant2, rowsUnflagged);
    var e := eqs[..];
    r := seq(nAnt, a requires 0 <= a < nAnt => 2 * e[a]);
  }

  /** Adding v to one entry adds v to the sum. */
  lemma {:induction false} SumUpdate(s: seq<int>, k: nat, v: int)
    requires k < |s|
    ensures Sum(s[k := s[k] + v]) == Sum(s) + v
  {
    if k > 0 {
      assert s[k := s[k] + v][1..] == s[1..][k - 1 := s[1..][k - 1] + v];
      SumUpdate(s[1..], k - 1, v);
    }
  }

  /** Adding the last value changes only the entry of its key. */
  lemma SumWhereLast(vals: seq<int>, keys: seq<nat>, n: nat)
    requires |vals| == |keys| && |vals| > 0 && KeysBelow(keys, n)
    ensures var m := |vals| - 1;
      var prev := seq(n, k requires 0 <= k < n => SumWhere(vals[..m], keys[..m], k));
      keys[m] < n &&
      seq(n, k requires 0 <= k < n => SumWhere(vals, keys, k)) == prev[keys[m] := prev[keys[m]] + vals[m]]
  {
  }

  /** With every key below n, the per-key sums over all n keys add up to
      the sum of all values: nothing is lost and nothing counted twice. */
  lemma {:induction false} SumWhereTotal(vals: seq<int>, keys: seq<nat>, n: nat)
    requires |vals| == |keys| && KeysBelow(keys, n)
    ensures Sum(seq(n, k requires 0 <= k < n => SumWhere(vals, keys, k))) == Sum(vals)
    decreases |vals|
  {
    var per := seq(n, k requires 0 <= k < n => SumWhere(vals, keys, k));
    if vals == [] {
      assert per == Repeat(0, n);
      SumRepeat(0, n);
    } else {
      var m := |vals| - 1;
      var prev := seq(n, k requires 0 <= k < n => SumWhere(vals[..m], keys[..m], k));
      SumWhereTotal(vals[..m], keys[..m], n);
      SumWhereLast(vals, keys, n);
      SumUpdate(prev, keys[m], vals[m]);
      assert vals == vals[..m] + [vals[m]];
      SumAppend(vals[..m], [vals[m]]);
      assert Sum([vals[m]]) == vals[m] by { assert [vals[m]][1..] == []; }
    }
  }

  lemma {:induction false} SumTwiceBoth(x: seq<int>, y: seq<int>)
    requires |x| == |y|
    ensures Sum(seq(|x|, i requires 0 <= i < |x| => 2 * (x[i] + y[i]))) == 2 * Sum(x) + 2 * Sum(y)
  {
    var s := seq(|x|, i requires 0 <= i < |x| => 2 * (x[i] + y[i]));
    if x != [] {
      SumTwiceBoth(x[1..], y[1..]);
      assert s[1..] == seq(|x[1..]|, i requires 0 <= i < |x[1..]| => 2 * (x[1..][i] + y[1..][i]));
    }
  }

  /** Summed over antennas, the equation counts are four times the total
      unflagged count: each row counts for both of its antennas, twice. */
  lemma EqsPerAntTotal(rowsUnflagged: seq<int>, ant1: seq<nat>, ant2: seq<nat>, nAnt: nat)
    requires |ant1| == |rowsUnflagged| && |ant2| == |rowsUnflagged|
    requires KeysBelow(ant1, nAnt) && KeysBelow(ant2, nAnt)
    ensures Sum(EqsPerAnt(rowsUnflagged, ant1, ant2, nAnt)) == 4 * Sum(rowsUnflagged)
  {
    var x := seq(nAnt, a requires 0 <= a < nAnt => SumWhere(rowsUnflagged, ant1, a));
    var y := seq(nAnt, a requires 0 <= a < nAnt => SumWhere(rowsUnflagged, ant2, a));
    SumWhereTotal(rowsUnflagged, ant1, nAnt);
    SumWhereTotal(rowsUnflagged, ant2, nAnt);
    SumTwiceBoth(x, y);
    assert EqsPerAnt(rowsUnflagged, ant1, ant2, nAnt) == seq(|x|, i requires 0 <= i < |x| => 2 * (x[i] + y[i]));
  }

  /** The number of set entries: numpy's sum over a boolean axis. */
  function CountTrue(s: seq<bool>): (r: nat)
    ensures r <= |s|
  {
    if s == [] then 0 else (if s[0] then 1 else 0) + CountTrue(s[1..])
  }

  /** Every row holds nChan channels. */
  predicate RowsOf(unflagged: seq<seq<seq<bool>>>, nChan: nat)
  {
    forall i :: 0 <= i < |unflagged| ==> |unflagged[i]| == nChan
  }

  /** Unflagged correlations of each row at channel c. */
  function ChanCounts(unflagged: seq<seq<seq<bool>>>, nChan: nat, c: nat): (r: seq<int>)
    requires RowsOf(unflagged, nChan) && c < nChan
    ensures |r| == |unflagged|
  {
    seq(|unflagged|, i requires 0 <= i < |unflagged| => CountTrue(unflagged[i][c]))
  }

  /** Equations per (time, channel) slot: four times (conjugate points, two
      antennas per row) the unflagged correlations of the rows of that
      time at that channel. */
  function EqsPerTf(unflagged: seq<seq<seq<bool>>>, timeInd: seq<nat>, nTimeInd: nat, nChan: nat): (r: seq<seq<int>>)
    requires RowsOf(unflagged, nChan) && |timeInd| == |unflagged|
    ensures |r| == nTimeInd && forall t :: 0 <= t < nTimeInd ==> |r[t]| == nChan
  {
    seq(nTimeInd, t requires 0 <= t < nTimeInd =>
      seq(nChan, c requires 0 <= c < nChan => 4 * SumWhere(ChanCounts(unflagged, nChan, c), timeInd, t)))
  }

  /** `sum_eqs_per_tf`: one `np.add.at` of the rows' per-channel counts
      into a zeroed (time, channel) array, multiplied by four. */
  method SumEqsPerTf(unflagged: seq<seq<seq<bool>>>, timeInd: seq<nat>, nTimeInd: nat, nChan: nat) returns (r: seq<seq<int>>)
    requires RowsOf(unflagged, nChan) && |timeInd| == |unflagged| && KeysBelow(timeInd, nTimeInd)
    ensures r == EqsPerTf(unflagged, timeInd, nTimeInd, nChan)
  {
    var eqs := new int[nTimeInd, nChan]((_, _) => 0);
    for i := 0 to |unflagged|
      invariant forall t, c :: 0 <= t < nTimeInd && 0 <= c < nChan ==>
        eqs[t, c] == SumWhere(ChanCounts(unflagged, nChan, c)[..i], timeInd[..i], t)
    {
      for c := 0 to nChan
        invariant forall t, c' :: 0 <= t < nTimeInd && 0 <= c' < nChan ==>
          eqs[t, c'] == SumWhere(ChanCounts(unflagged, nChan, c')[..if c' < c then i + 1 else i], timeInd[..if c' < c then i + 1 else i], t)
      {
        ghost var counts := ChanCounts(unflagged, nChan, c);
        assert counts[..i + 1][..i] == counts[..i] && timeInd[..i + 1][..i] == timeInd[..i];
        eqs[timeInd[i], c] := eqs[timeInd[i], c] + CountTrue(unflagged[i][c]);
      }
    }
    forall c | 0 <= c < nChan
      ensures ChanCounts(unflagged, nChan, c)[..|unflagged|] == ChanCounts(unflagged, nChan, c)
    {
    }
    assert timeInd[..|unflagged|] == timeInd;
    r := seq(nTimeInd, t requires 0 <= t < nTimeInd reads eqs => seq(nChan, c requires 0 <= c < nChan reads eqs => 4 * eqs[t, c]));
    ghost var spec := EqsPerTf(unflagged, timeInd, nTimeInd, nChan);
    forall t | 0 <= t < nTimeInd ensures r[t] == spec[t] {
      assert forall c :: 0 <= c < nChan ==> r[t][c] == spec[t][c];
    }
  }

  lemma {:induction false} SumScale(x: seq<int>, m: int)
    ensures Sum(seq(|x|, i requires 0 <= i < |x| => m * x[i])) == m * Sum(x)
  {
    var s := seq(|x|, i requires 0 <= i < |x| => m * x[i]);
    if x != [] {
      SumScale(x[1..], m);
      assert s[1..] == seq(|x[1..]|, i requires 0 <= i < |x[1..]| => m * x[1..][i]);
      calc {
        Sum(s);
        s[0] + Sum(s[1..]);
        m * x[0] + m * Sum(x[1..]);
        { assert m * x[0] + m * Sum(x[1..]) == m * (x[0] + Sum(x[1..])); }
        m * Sum(x);
      }
    }
  }

  /** Summed over times, the count of channel c is four times the unflagged
      correlations of all rows at that channel. */
  lemma EqsPerTfChannelTotal(unflagged: seq<seq<seq<bool>>>, timeInd: seq<nat>, nTimeInd: nat, nChan: nat, c: nat)
    requires RowsOf(unflagged, nChan) && |timeInd| == |unflagged| && KeysBelow(timeInd, nTimeInd) && c < nChan
    ensures var r := EqsPerTf(unflagged, timeInd, nTimeInd, nChan);
      Sum(seq(nTimeInd, t requires 0 <= t < nTimeInd => r[t][c])) == 4 * Sum(ChanCounts(unflagged, nChan, c))
  {
    var counts := ChanCounts(unflagged, nChan, c);
    var per := seq(nTimeInd, t requires 0 <= t < nTimeInd => SumWhere(counts, timeInd, t));
    SumWhereTotal(counts, timeInd, nTimeInd);
    SumScale(per, 4);
    var r := EqsPerTf(unflagged, timeInd, nTimeInd, nChan);
    assert seq(nTimeInd, t requires 0 <= t < nTimeInd => r[t][c]) == seq(|per|, i requires 0 <= i < |per| => 4 * per[i]);
  }

  /** `silent_divide`: the quotient where the divisor is non-zero, zero
      where it is zero. */
  function SilentDivide(num: seq<real>, den: seq<real>): (r: seq<real>)
    requires |num| == |den|
    ensures |r| == |num|
    ensures forall i :: 0 <= i < |r| ==> (den[i] == 0.0 ==> r[i] == 0.0) && (den[i] != 0.0 ==> r[i] * den[i] == num[i])
  {
    seq(|num|, i requires 0 <= i < |num| => if den[i] != 0.0 then num[i] / den[i] else 0.0)
  }

  /** `np.add.reduceat` on reals. */
  function ReduceAtR(s: seq<real>, starts: seq<nat>): (r: seq<real>)
    requires ValidStarts(starts, |s|)
    ensures |r| == |starts|
  {
    var pieces := Slices(s, starts);
    seq(|starts|, i requires 0 <= i < |starts| => SumR(pieces[i]))
  }

  lemma ArangeValid(n: nat, k: nat)
    requires k > 0
    ensures ValidStarts(Arange(n, k), n)
  {
    var a := Arange(n, k);
    forall i, j | 0 <= i < j < |a| ensures a[i] < a[j] {
      MulMono(i + 1, j, k);
    }
  }

  /** At the offsets `np.arange(0, n, k)` the reduction blocks are the runs
      of k consecutive elements, the last one possibly shorter. */
  lemma ArangeSlice<T>(s: seq<T>, k: nat, i: nat)
    requires k > 0 && i < CeilDiv(|s|, k)
    ensures ValidStarts(Arange(|s|, k), |s|)
    ensures i * k < |s|
    ensures Slices(s, Arange(|s|, k))[i] == s[i * k .. if (i + 1) * k < |s| then (i + 1) * k else |s|]
  {
    ArangeValid(|s|, k);
    var a := Arange(|s|, k);
    assert a[i] == i * k;
    if i + 1 < |a| {
      assert a[i + 1] == (i + 1) * k;
    } else {
      assert (|a| - 1) * k < |s| <= |a| * k;
    }
  }

  /** Per-interval times: `np.add.reduceat(np.ones(n_time),
      np.arange(0, n_time, t_int))`. An interval of 0 makes `np.arange`
      divide by its step of 0, which is the error case. */
  function TimePerInt(nTime: nat, tInt: nat): (r: Result<seq<int>>)
    ensures r.Ok? <==> tInt > 0
    ensures r.Ok? ==> |r.value| == CeilDiv(nTime, tInt)
  {
    if tInt == 0 then Err("division by zero: arange step of 0")
    else
      ArangeValid(nTime, tInt);
      Ok(ReduceAt(Repeat(1, nTime), Arange(nTime, tInt)))
  }

  /** Time interval i holds the times from i * t_int up to the next multiple
      of t_int or n_time. */
  lemma TimePerIntEntry(nTime: nat, tInt: nat, i: nat)
    requires tInt > 0 && i < CeilDiv(nTime, tInt)
    ensures TimePerInt(nTime, tInt).value[i] ==
      (if (i + 1) * tInt < nTime then (i + 1) * tInt else nTime) - i * tInt
  {
    var ones := Repeat(1, nTime);
    ArangeSlice(ones, tInt, i);
    var e := if (i + 1) * tInt < nTime then (i + 1) * tInt else nTime;
    assert ones[i * tInt .. e] == Repeat(1, e - i * tInt);
    SumRepeat(1, e - i * tInt);
  }

  /** Every time interval holds t_int times except possibly the last, which
      holds what is left, and together they hold all n_time times. */
  lemma TimePerIntCounts(nTime: nat, tInt: nat)
    requires tInt > 0
    ensures var r := TimePerInt(nTime, tInt).value;
      (forall i :: 0 <= i < |r| - 1 ==> r[i] == tInt) &&
      (|r| > 0 ==> r[|r| - 1] == nTime - (|r| - 1) * tInt && 0 < r[|r| - 1] <= tInt) &&
      Sum(r) == nTime
  {
    var r := TimePerInt(nTime, tInt).value;
    forall i | 0 <= i < |r| - 1 ensures r[i] == tInt {
      TimePerIntEntry(nTime, tInt, i);
      assert (i + 1) * tInt <= (|r| - 1) * tInt by { MulMono(i + 1, |r| - 1, tInt); }
    }
    if |r| > 0 {
      TimePerIntEntry(nTime, tInt, |r| - 1);
      ArangeValid(nTime, tInt);
      ReduceAtTotal(Repeat(1, nTime), Arange(nTime, tInt));
      SumRepeat(1, nTime);
    } else {
      assert nTime == 0;
    }
  }

  /** Per-interval channel sums of the (single-row) per-channel noise. An
      interval of 0 is the same `np.arange` error as for times. */
  function ChanPerInt(sigmaPerChan: seq<real>, fInt: nat): (r: Result<seq<real>>)
    ensures r.Ok? <==> fInt > 0
    ensures r.Ok? ==> |r.value| == CeilDiv(|sigmaPerChan|, fInt)
  {
    if fInt == 0 then Err("division by zero: arange step of 0")
    else
      ArangeValid(|sigmaPerChan|, fInt);
      Ok(ReduceAtR(sigmaPerChan, Arange(|sigmaPerChan|, fInt)))
  }

  /** Frequency interval i sums channels i * f_int up to the next multiple
      of f_int or the last channel. */
  lemma ChanPerIntBlock(sigmaPerChan: seq<real>, fInt: nat, i: nat)
    requires fInt > 0 && i < CeilDiv(|sigmaPerChan|, fInt)
    ensures i * fInt < |sigmaPerChan|
    ensures ChanPerInt(sigmaPerChan, fInt).value[i] ==
      SumR(sigmaPerChan[i * fInt .. if (i + 1) * fInt < |sigmaPerChan| then (i + 1) * fInt else |sigmaPerChan|])
  {
    ArangeSlice(sigmaPerChan, fInt, i);
  }

  /** A count times a real, as numpy multiplies the float counts of
      `time_per_int` into `chan_per_int`. */
  function Times(n: int, x: real): real
  {
    (n as real) * x
  }

  /** A value repeated over the trailing antenna, direction and
      correlation axes. */
  function Broadcast(v: real, nAnt: nat, nDir: nat, nCorr: nat): (r: seq<seq<seq<real>>>)
    ensures |r| == nAnt
    ensures forall a :: 0 <= a < nAnt ==> |r[a]| == nDir
    ensures forall a, d :: 0 <= a < nAnt && 0 <= d < nDir ==> |r[a][d]| == nCorr
    ensures forall a, d, c :: 0 <= a < nAnt && 0 <= d < nDir && 0 <= c < nCorr ==> r[a][d][c] == v
  {
    Repeat(Repeat(Repeat(v, nCorr), nDir), nAnt)
  }

  /** `per_chan_to_per_int`: cell (ti, fi) is the time count of interval
      ti times the channel sum of interval fi, repeated over the trailing
      axes. A time or frequency interval of 0 is the `np.arange` error. */
  function PerChanToPerInt(sigmaPerChan: seq<real>, nTime: nat, tInt: nat, fInt: nat, nAnt: nat, nDir: nat, nCorr: nat)
    : (r: Result<seq<seq<seq<seq<seq<real>>>>>>)
    ensures r.Ok? <==> tInt > 0 && fInt > 0
    ensures r.Ok? ==> |r.value| == CeilDiv(nTime, tInt)
    ensures r.Ok? ==> forall ti :: 0 <= ti < |r.value| ==> |r.value[ti]| == CeilDiv(|sigmaPerChan|, fInt)
    ensures r.Ok? ==> forall ti, fi :: 0 <= ti < |r.value| && 0 <= fi < |r.value[ti]| ==>
      r.value[ti][fi] == Broadcast(Times(TimePerInt(nTime, tInt).value[ti], ChanPerInt(sigmaPerChan, fInt).value[fi]), nAnt, nDir, nCorr)
  {
    var cpi := ChanPerInt(sigmaPerChan, fInt);
    var tpi := TimePerInt(nTime, tInt);
    if cpi.Err? then Err(cpi.msg)
    else if tpi.Err? then Err(tpi.msg)
    else
      Ok(seq(|tpi.value|, ti requires 0 <= ti < |tpi.value| =>
        seq(|cpi.value|, fi requires 0 <= fi < |cpi.value| =>
          Broadcast(Times(tpi.value[ti], cpi.value[fi]), nAnt, nDir, nCorr))))
  }
}
